=== FILE: README.md ===
# Fish paths and SuperSplines, modelled in Dafny

This project models the path machinery of a Unity fish-shooting game. It covers two spline engines, the binary file that connects them and the small rules around them. Unity floats become Dafny reals. Square roots, magnitudes and trigonometry are passed in as function parameters that carry only the facts the code relies on.

- **Runtime `Curve`** (`curve.dfy`, `curve_basis.dfy`, `curve_table.dfy`). This is the curve a fish swims along once a path file is loaded:
  - the control points, and the window of four nodes around a segment;
  - the window cache, made explicit together with its keying by index only;
  - the hard-coded B-spline and Hermite weights;
  - the Simpson arc-length table, its normalisation and the node positions;
  - the binary search from a normalised parameter to a segment and a local parameter;
  - the position, tangent and orientation getters.
- **Editor `Spline`** (`spline_topology.dfy`, `interpolator.dfy`, `quaternion_utils.dfy`, `spline.dfy`, `spline_node.dfy`, `spline_length.dfy`, `spline_segment.dfy`, `spline_queries.dfy`, `spline_editing.dfy`). It comprises:
  - the node counts of the interpolation modes;
  - the 4×4 coefficient interpolators of orders 0 to 2, and the Hermite tangent substitution;
  - the quaternion helpers and the rotation blend;
  - the internal node list that `UpdateSpline` builds;
  - the polyline length table and the per-node parameters;
  - the linear reparameterisation, the segments and their parameter conversions;
  - the getters, the distance conversions, and node insertion and removal.
- **Closest-parameter search** (`distance_functions.dfy`). This is the multi-resolution sampling of `SplineDistanceFunctions`, taken over an abstract distance.
- **Mesh along a spline** (`spline_mesh.dfy`). This covers:
  - the `MeshData` buffer sizing and `Suits`;
  - the count of middle segments;
  - the partition of the parameter range;
  - the vertex and triangle cursors of `BendMesh` and the bounds of its per-vertex arrays.
- **Branching paths** (`branching.dfy`). This covers:
  - parameter normalisation, neighbours, the direction test and middle nodes;
  - the candidate list offered at a junction;
  - the recursion guard of `Advance`.
- **Path file** (`path_codec.dfy`). These are the bytes `SaveAllPrefabs2Bin` writes and `ParseBin2Curve` reads: a little-endian signature, a mode, a count and IEEE 754 binary32 triples.
- **Bullets** (`bullet.dfy`). This is the bounce of a bullet against the screen rectangle.
- **Editor helpers** (`editor_helpers.dfy`). These are:
  - the Bézier warning and the segment limit of the mesh inspector;
  - the key pruning, popup names and navigation of the node inspector;
  - zero-padded node names and plurals.
- **Shared vocabulary** (`common.dfy`). This holds vectors, quaternions, C# integer division and remainder, clamping and the list operations of `List<T>`.

Where the code does something other than what its comments, its documentation or its own structure evidently intend, the model follows the code. Each such case is listed under "## Findings", with the code as written and the corrected behaviour both modelled. The operations below run the code as written:
- `CalculateLength` measures with Simpson's third sample at `begin + end`;
- `TangentIn` uses the shifted powers;
- `UpdateSplineAsWritten` removes only the first null, and reports a broken node list whenever that leaves a list other than the intended one; the editing operations are modelled with both updates;
- the rotation blend divides by the squared norm;
- `InsertAtParam` appends after the first occurrence of the last entry;
- `UpdateMesh` sizes its buffer as written and reports the misfit, and reports an index out of range for a short uv, normal or tangent array.

## Model

| member | source | states |
|---|---|---|
| Bullets.Reflect | Assets/Scripts/Bullet/BulletManager.cs:45-60 | One axis of the bounce. A step upwards past the top bound ends on the top bound with the velocity negated; a step that is not upwards past the bottom bound ends on the bottom bound with the velocity negated. A step that stays inside is kept, velocity and all. The position is always the step, the top or the bottom, and the velocity keeps its size. |
| Bullets.ReflectIdempotent | Assets/Scripts/Bullet/BulletManager.cs:45-60 | Reflecting a reflected step again changes nothing: the position sits on the bound, not past it, and the velocity is not turned twice. |
| Bullets.CalculateBulletPos | Assets/Scripts/Bullet/BulletManager.cs:43-78 | y is held against the bottom and top of the screen and x against its left and right, each from the side the bullet moves towards: a step past a bound in the direction of travel ends on that bound and negates that velocity component. z and its velocity are left alone, and each velocity component can only change sign. |
| Bullets.ReflectStaysInside | Assets/Scripts/Bullet/BulletManager.cs:45-60 | A bullet that starts between the two bounds of an axis ends between them after the bounce. |
| Bullets.BounceStaysOnScreen | Assets/Scripts/Bullet/BulletManager.cs:43-78 | A bullet that starts inside the screen rectangle is inside it after the bounce, whatever its step and velocity. |
| Bullets.BounceKeepsInsideSteps | Assets/Scripts/Bullet/BulletManager.cs:43-78 | A step inside the screen rectangle is returned unchanged, and the bullet's speed (squared magnitude of the velocity) is never changed by a bounce. |
| SplineNodes.NewNode | Assets/SplinesPathSystem/Scripts/SplineNode/SplineNode.cs:27-29 | A new node has custom value 0, tension 1 and normal up, with the transform's position and rotation. |
| SplineNodes.Reset | Assets/SplinesPathSystem/Scripts/SplineNode/SplineNode.cs:144-148 | `NodeParameters.Reset` zeroes position and length and keeps the owning spline. |
| SplineNodes.Lookup | Assets/SplinesPathSystem/Scripts/SplineNode/SplineNode.cs:72-81 | The register's indexer. It fails exactly for a null spline. Otherwise the spline is a key afterwards and the entry returned is its entry. The keys grow by that spline only, and no existing entry changes. A spline seen for the first time gets position 0 and length 0. |
| SplineNodes.LookupIdempotent | Assets/SplinesPathSystem/Scripts/SplineNode/SplineNode.cs:72-81 | A second lookup of the same spline returns the same parameters and leaves the register as the first left it. |
| SplineNodes.LookupReadsOrRegisters | Assets/SplinesPathSystem/Scripts/SplineNode/SplineNode.cs:72-81 | Both branches of the indexer. A registered spline reads its own entry and the register is unchanged. A new one reads zeros and the register gains exactly that entry. |
| SplineTopology.IsAutoClose | Assets/SplinesPathSystem/Scripts/Spline/Spline.cs:40 | A spline is closed iff the field is set and the mode is not Bézier. |
| SplineTopology.NodesPerSegment | Assets/SplinesPathSystem/Scripts/Spline/Spline.cs:41 | Three nodes per segment for Bézier, one otherwise. |
| SplineTopology.ControlNodeCount | Assets/SplinesPathSystem/Scripts/Spline/Spline.cs:47 | The internal nodes, plus one more (the first node again) exactly when the spline is closed. |
| SplineTopology.GetRelevantNodeCount | Assets/SplinesPathSystem/Scripts/Spline/Spline.cs:615-628 | Non-Bézier modes keep every node. Bézier never keeps more than it has, and keeps 0 or a count of the form 3k+1. Fewer than four nodes keep none; four or more keep at least four and drop at most two. |
| SplineTopology.RelevantIsLargestBezierCount | Assets/SplinesPathSystem/Scripts/Spline/Spline.cs:615-628 | Every Bézier-usable count (3k+1, at least 4) up to the nodes at hand is at most the count kept, so the kept count is the largest such. |
| SplineTopology.SegmentsCoverControlNodes | Assets/SplinesPathSystem/Scripts/Spline/Spline.cs:41-47 | With enough nodes, a usable spline has at least one segment. Its segments span the control nodes exactly, and `MaxNodeIndex` is the first node of the last segment. |
| SplineTopology.SegmentCountOfNodes | Assets/SplinesPathSystem/Scripts/Spline/Spline.cs:42 | A non-Bézier spline has one segment per node when closed and one fewer when open. |
| CurveBasis.BSplinePositionWeights | Assets/SplinesPathSystem/Scripts/Spline/Curve.cs:252-259 | The rounded constants of the B-spline position branch: the weights sum to 1.00001, not 1. |
| CurveBasis.BSplinePositionNearExact | Assets/SplinesPathSystem/Scripts/Spline/Curve.cs:252-259 | On [0, 1] every rounded weight is within 0.00001 of the exact uniform cubic B-spline weight of the editor's B-spline matrix. |
| CurveBasis.BSplineWeightsAtStart | Assets/SplinesPathSystem/Scripts/Spline/Curve.cs:252-259 | At t = 0 the rounded weights are (0.16667, 0.66667, 0.16667, 0). |
| CurveBasis.HermitePositionWeights | Assets/SplinesPathSystem/Scripts/Spline/Curve.cs:289-292 | The Hermite branch's weights are exactly the editor's Hermite basis (the coefficient matrix at derivative order 0). |
| CurveBasis.SpeedWeights | Assets/SplinesPathSystem/Scripts/Spline/Curve.cs:116-117 | The speed's weights are exactly the first derivative of the uniform cubic B-spline basis. |
| CurveBasis.TangentWeightsAsWritten | Assets/SplinesPathSystem/Scripts/Spline/Curve.cs:341-344 | The tangent weights as written sum to 0, so four coincident nodes give a zero tangent. |
| CurveBasis.TangentWeightsAsWrittenAtStart | Assets/SplinesPathSystem/Scripts/Spline/Curve.cs:341-344 | At t = 0 the as-written tangent weights equal the derivative weights. |
| CurveBasis.TangentWeightsAsWrittenAtEnd | Assets/SplinesPathSystem/Scripts/Spline/Curve.cs:341-344 | At t = 1 they do not: (-0.16667, -0.5, 0.5, 0.16667) against the derivative's (0, -0.5, 0, 0.5). |
| CurveBasis.TangentWeightsAsWrittenAtZero | Assets/SplinesPathSystem/Scripts/Spline/Curve.cs:341-344 | At t = 0 the as-written weights are (-0.5, 0, 0.5, 0). |
| CurveBasis.TangentWeights | Assets/SplinesPathSystem/Scripts/Spline/Curve.cs:341-344 | Corrected tangent weights: the B-spline first derivative (the weights the speed already uses), summing to 0. |
| CurveBasis.TangentWeightsAtStart | Assets/SplinesPathSystem/Scripts/Spline/Curve.cs:341-344 | At t = 0 the corrected weights are (-0.5, 0, 0.5, 0), the same as the as-written ones. |
| CurveBasis.TangentAsWrittenBreaksAtJoint | Assets/SplinesPathSystem/Scripts/Spline/Curve.cs:324-347 | Around a closed unit square, segment 1 ends with tangent (0, 0.66667, 0). Segment 2 starts at the same node with (-0.5, 0.5, 0). |
| CurveBasis.TangentContinuousAtJoints | Assets/SplinesPathSystem/Scripts/Spline/Curve.cs:324-347 | With the corrected weights, the end tangent of every segment equals the start tangent of the next, open or closed. |
| CurveBasis.LoadWindow | Assets/SplinesPathSystem/Scripts/Spline/Curve.cs:233-277 | The B-spline window is the nodes at offsets -1, 0, 1, 2, indexed like the editor's interpolator (wrapped when closed, clamped when open). The Hermite window is the nodes at 0 and 1 plus the two tangents `RecalcVectors` makes, each half the neighbours' difference. |
| CurveBasis.RuntimeMatchesEditor | Assets/SplinesPathSystem/Scripts/Spline/Curve.cs:264-295 | The runtime Hermite position equals the editor's Hermite interpolation of the same nodes. The runtime speed vector equals the editor's B-spline first derivative. |
| CurveBasis.SimpsonRule | Assets/SplinesPathSystem/Scripts/Spline/Curve.cs:126-129 | Simpson's weighted sum is never negative when its samples are not and the interval is not reversed. |
| CurveBasis.Simpson | Assets/SplinesPathSystem/Scripts/Spline/Curve.cs:121-131 | Simpson's rule with its third sample at the end of the interval (the corrected rule) is never negative on non-negative samples. |
| CurveBasis.SimpsonExactOnCubics | Assets/SplinesPathSystem/Scripts/Spline/Curve.cs:121-131 | The corrected rule measures any speed that is a cubic over the sub-segment as exactly its integral. |
| CurveBasis.SimpsonAsWrittenMisplacesLastSample | Assets/SplinesPathSystem/Scripts/Spline/Curve.cs:128 | The as-written rule samples `begin + end` last. It agrees with the corrected rule on sub-segments starting at 0. On the speed s(t) = t over [0.2, 0.4] it gives 1/15 instead of 0.06. |
| RuntimeCurve.ModeOf | Assets/SplinesPathSystem/Scripts/Spline/Curve.cs:12-19 | Every integer code is a mode whose code is that integer. The five named codes are the named modes. |
| RuntimeCurve.ModeRoundTrip | Assets/SplinesPathSystem/Scripts/Spline/Curve.cs:12-19 | Casting a mode to its code and back gives the mode again. |
| RuntimeCurve.NewCurve | Assets/SplinesPathSystem/Scripts/Spline/Curve.cs:21-25 | A new curve has no points, B-spline mode, is open and satisfies the curve invariant. Under the corrected cache policy its cache is coherent. |
| RuntimeCurve.Load | Assets/SplinesPathSystem/Scripts/Spline/Curve.cs:108-115 | Only the cache changes. Afterwards it holds the index asked for and the window returned. With a coherent cache keyed by index and kind, the window is the one the nodes give and the cache stays coherent. |
| RuntimeCurve.LoadTwice | Assets/SplinesPathSystem/Scripts/Spline/Curve.cs:108-115 | A second load of the same index and kind is a hit: same window, nothing changes. |
| RuntimeCurve.SpeedOf | Assets/SplinesPathSystem/Scripts/Spline/Curve.cs:116-118 | A speed (a magnitude) is never negative. |
| RuntimeCurve.Speed | Assets/SplinesPathSystem/Scripts/Spline/Curve.cs:105-119 | `GetSplineSpeed` loads the B-spline window of the segment and returns the speed on it, which is never negative. |
| RuntimeCurve.SubSegmentLength | Assets/SplinesPathSystem/Scripts/Spline/Curve.cs:121-131 | A sub-segment's length is the corrected Simpson rule on the window's speed, and never negative on a forward interval. |
| RuntimeCurve.SubSegmentLengthAsWritten | Assets/SplinesPathSystem/Scripts/Spline/Curve.cs:121-131 | The same with the third sample at `begin + end`, as written. It is never negative on a forward interval. |
| RuntimeCurve.AsWrittenExactFromZero | Assets/SplinesPathSystem/Scripts/Spline/Curve.cs:126-128 | On a sub-segment starting at 0, the as-written length equals the corrected one. |
| RuntimeCurve.SegmentLength | Assets/SplinesPathSystem/Scripts/Spline/Curve.cs:121-131 | `getSegmentLengthIn` (corrected): three samples on one segment's window, only the first of which can miss the cache. |
| RuntimeCurve.SegmentLengthAsWritten | Assets/SplinesPathSystem/Scripts/Spline/Curve.cs:121-131 | `getSegmentLengthIn` as written: the window the first load gives, measured by the as-written rule. |
| RuntimeCurve.SubSegmentBounds | Assets/SplinesPathSystem/Scripts/Spline/Curve.cs:436-440 | Sub-segment j of a segment covers [j/accuracy, (j+1)/accuracy], a forward interval inside [0, 1]. |
| RuntimeCurve.RefLength | Assets/SplinesPathSystem/Scripts/Spline/Curve.cs:438-440 | The length measured for sub-segment k from the nodes themselves is never negative. |
| RuntimeCurve.RefLengths | Assets/SplinesPathSystem/Scripts/Spline/Curve.cs:434-443 | One non-negative length per sub-segment: segment count times accuracy. |
| RuntimeCurve.Measure | Assets/SplinesPathSystem/Scripts/Spline/Curve.cs:434-443 | The nested loops give one non-negative length per remaining sub-segment and change nothing but the cache. |
| RuntimeCurve.MeasureStep | Assets/SplinesPathSystem/Scripts/Spline/Curve.cs:436-442 | One inner-loop step measures a non-negative length and changes nothing but the cache. |
| RuntimeCurve.MeasureStepKeyed | Assets/SplinesPathSystem/Scripts/Spline/Curve.cs:438-440 | With a coherent cache, one step gives the nodes' own length for that sub-segment and leaves the cache coherent. |
| RuntimeCurve.MeasureKeyed | Assets/SplinesPathSystem/Scripts/Spline/Curve.cs:434-443 | With a coherent cache, the loops give exactly the nodes' own lengths from sub-segment k on and leave the cache coherent. |
| RuntimeCurve.SoundCaches | Assets/SplinesPathSystem/Scripts/Spline/Curve.cs:108-115 | A cache keyed by kind, and a cache nothing has read yet, are both sound for B-spline reads. |
| RuntimeCurve.SoundLoad | Assets/SplinesPathSystem/Scripts/Spline/Curve.cs:108-115 | From a cache sound for a window kind, a load of that kind returns the window of the nodes' own segment and leaves the cache sound for that kind, under either policy. |
| RuntimeCurve.MeasureStepSound | Assets/SplinesPathSystem/Scripts/Spline/Curve.cs:438-440 | From a sound cache, one measuring step gives the nodes' own length for that sub-segment and leaves the cache sound. |
| RuntimeCurve.MeasureSound | Assets/SplinesPathSystem/Scripts/Spline/Curve.cs:434-443 | From a sound cache, the measuring loops give exactly the nodes' own lengths from sub-segment k on and leave the cache sound, under the source's index-only policy as well. |
| RuntimeCurve.CalculateLength | Assets/SplinesPathSystem/Scripts/Spline/Curve.cs:418-454 | Only the cache and the table change. The table is well formed, and under either policy it is the normalisation of what the measuring loops return from the cache the curve holds. When that cache is sound for B-spline reads (keyed by kind, untouched, or holding this curve's own B-spline window) the table is the normalisation of the nodes' own lengths and the cache stays sound. |
| RuntimeCurve.SetPoints | Assets/SplinesPathSystem/Scripts/Spline/Curve.cs:85-102 | Fewer than two points change nothing. Otherwise the points are replaced, shape and policy are kept, and a given table is used as is. Under the source's policy the cached window survives. Without a given table and with a cache that nothing has read yet, under either policy, the table is the normalisation of the new nodes' own lengths. Under the corrected policy the cache is coherent, and without a given table the table is the fresh measurement. |
| RuntimeCurve.SetAutoClose | Assets/SplinesPathSystem/Scripts/Spline/Curve.cs:58-62 | The setter changes the flag only: points and table stay (no re-measurement). The corrected policy keeps the cache coherent. |
| RuntimeCurve.CurveFrom | Assets/SplinesPathSystem/Scripts/Spline/Curve.cs:27-34 | The constructor keeps shape, mode and accuracy. It takes the points when there are at least two and otherwise has none. |
| RuntimeCurve.Locate | Assets/SplinesPathSystem/Scripts/Spline/Curve.cs:355-409 | `RecalculateParam` always gives a segment index in [0, control nodes - 2]. A parameter at or below 0 gives segment 0 at 0; at or above 1 it gives the last segment at 1. |
| RuntimeCurve.LocateIn | Assets/SplinesPathSystem/Scripts/Spline/Curve.cs:389-403 | The found branch clamps to the last segment. Otherwise it gives the segment `i / accuracy` and the local parameter `(1/accuracy) * (i % accuracy + fraction into sub-segment i)`. |
| RuntimeCurve.LocateRoundTrip | Assets/SplinesPathSystem/Scripts/Spline/Curve.cs:355-409 | On a table measuring a positive length, every parameter in (0, 1) is located with a local parameter in [0, 1) that maps back to the same parameter. |
| RuntimeCurve.LocateInRoundTrip | Assets/SplinesPathSystem/Scripts/Spline/Curve.cs:389-403 | Once bracket i is found and no clamping happens, the local parameter lies in [0, 1) and maps back to the parameter. |
| RuntimeCurve.LocateFindsBracket | Assets/SplinesPathSystem/Scripts/Spline/Curve.cs:378-405 | The binary search finds the sub-segment whose bracket holds the parameter. That sub-segment has positive length and its segment needs no clamping. |
| RuntimeCurve.PositionIn | Assets/SplinesPathSystem/Scripts/Spline/Curve.cs:217-300 | Only the cache changes. With a coherent cache, and under the source's policy with a cache sound for the kind of window the mode loads (Hermite in Hermite mode, B-spline otherwise), the position is the one the nodes give (B-spline or Hermite blend, zero for other modes, NaN for a NaN parameter), and the cache stays coherent or sound. |
| RuntimeCurve.TangentIn | Assets/SplinesPathSystem/Scripts/Spline/Curve.cs:324-347 | Only the cache changes. With a coherent cache, and under the source's policy with a cache sound for B-spline reads, the tangent is the as-written weights on the nodes' B-spline window, whatever the mode, and the cache stays coherent or sound. |
| RuntimeCurve.RotationFor | Assets/SplinesPathSystem/Scripts/Spline/Curve.cs:146-150 | No rotation exactly for a NaN tangent, and the identity exactly for a zero tangent. Otherwise it looks along the tangent with up, or down when the normal is negated. |
| RuntimeCurve.GetPositionOnCurve | Assets/SplinesPathSystem/Scripts/Spline/Curve.cs:165-177 | An empty curve gives the zero vector and changes nothing. Otherwise only the cache changes, and with a coherent cache, or under the source's policy a cache sound for the kind the mode loads (such as the untouched cache of a curve nothing has read), the result is the nodes' position at the located segment and the cache stays so. |
| RuntimeCurve.GetTangent | Assets/SplinesPathSystem/Scripts/Spline/Curve.cs:153-163 | An empty curve gives the zero vector. Otherwise only the cache changes, and with a coherent cache, or under the source's policy a cache sound for B-spline reads (such as the one measuring leaves), the result is the nodes' tangent at the located segment and the cache stays so. |
| RuntimeCurve.GetOrientation | Assets/SplinesPathSystem/Scripts/Spline/Curve.cs:133-151 | An empty curve gives the identity. Otherwise, with a coherent cache or under the source's policy a cache sound for B-spline reads, the result is the rotation for the nodes' tangent at the located segment. |
| RuntimeCurve.PosAndRot | Assets/SplinesPathSystem/Scripts/Spline/Curve.cs:179-199 | Corrected `PosAndRotOnCurve`. An empty curve gives zero and the identity and changes nothing. With a coherent cache, or outside Hermite mode with a cache sound for B-spline reads, it gives the nodes' position and the rotation for their tangent at the located segment. In Hermite mode under the source's policy, from a cache sound for Hermite reads, the position is the nodes' but the rotation is taken from the as-written tangent weights on the Hermite window the position just loaded. |
| RuntimeCurve.PosAndRotMatchesGetters | Assets/SplinesPathSystem/Scripts/Spline/Curve.cs:179-199 | With a coherent cache the combined getter gives the position of `GetPositionOnCurve` and the rotation of `getOrientatoinOnCurve`. |
| RuntimeCurve.PosAndRotMissingReturn | Assets/SplinesPathSystem/Scripts/Spline/Curve.cs:181-188 | The method as written fails exactly on an empty curve. On every other curve it equals the corrected one. |
| RuntimeCurve.StaleWindowAfterSetPoints | Assets/SplinesPathSystem/Scripts/Spline/Curve.cs:85-102 | Under the source's policy `SetPoints` keeps the old window. A curve read at its start and then given new points reads x = 0.16667 from the old nodes instead of the new nodes' 5.16672. |
| RuntimeCurve.StartLoadsWindow | Assets/SplinesPathSystem/Scripts/Spline/Curve.cs:233-277 | A fresh curve read at its start caches the window of segment 0 of its nodes, of the kind its mode loads. |
| RuntimeCurve.StartReadsCache | Assets/SplinesPathSystem/Scripts/Spline/Curve.cs:233-240 | Under the source's policy, a B-spline curve whose cache holds segment 0 reads its start from the cached window, whatever nodes it holds now. |
| RuntimeCurve.TangentReadsCache | Assets/SplinesPathSystem/Scripts/Spline/Curve.cs:328-335 | Under the source's policy, the tangent at the start is read from the cached window of segment 0, whatever kind of window it is. |
| RuntimeCurve.HermiteWindowServedToTangent | Assets/SplinesPathSystem/Scripts/Spline/Curve.cs:266-277 | Under the source's policy, the Hermite window cached by a position is reused by the tangent. It gives x = 0.25 where the B-spline window gives 0.5. |
| RuntimeCurve.FreshWindowAfterChanges | Assets/SplinesPathSystem/Scripts/Spline/Curve.cs:85-102 | Under the corrected policy, after `SetPoints` and the `autoClose` setter, position and tangent are read from the nodes the curve now holds. |
| RuntimeCurve.LastSubSegment | Assets/SplinesPathSystem/Scripts/Spline/Curve.cs:434-443 | The last sub-segment of the measuring loops lies in the last segment. |
| RuntimeCurve.MeasureEndsOnLastSegment | Assets/SplinesPathSystem/Scripts/Spline/Curve.cs:434-443 | Measuring ends with a window loaded for the last segment. |
| RuntimeCurve.MeasureLeavesLastWindow | Assets/SplinesPathSystem/Scripts/Spline/Curve.cs:434-443 | Under the source's policy, measuring from a sound cache leaves the nodes' B-spline window of the last segment cached. |
| RuntimeCurve.CalculateLengthLeavesLastWindow | Assets/SplinesPathSystem/Scripts/Spline/Curve.cs:434-443 | Under the source's policy, `CalculateLength` from a sound cache leaves the nodes' B-spline window of the last segment cached. |
| RuntimeCurve.SetPointsMeasures | Assets/SplinesPathSystem/Scripts/Spline/Curve.cs:85-102 | Under the source's policy, `SetPoints` without a table gives exactly the curve measured with the new nodes, cache included. |
| RuntimeCurve.SetPointsLeavesLastWindow | Assets/SplinesPathSystem/Scripts/Spline/Curve.cs:85-102 | Under the source's policy, `SetPoints` without a table on a curve nothing has read leaves the new nodes' B-spline window of their last segment in the cache. |
| RuntimeCurve.HermiteAtEnd | Assets/SplinesPathSystem/Scripts/Spline/Curve.cs:279-294 | The Hermite weights at parameter 1 select the window's second node. |
| RuntimeCurve.HermiteEndOfNodes | Assets/SplinesPathSystem/Scripts/Spline/Curve.cs:266-294 | The Hermite position the nodes of an open curve give at its end is its last node. |
| RuntimeCurve.HermiteReadsCache | Assets/SplinesPathSystem/Scripts/Spline/Curve.cs:266-277 | Under the source's policy a Hermite curve read in the segment its cache was loaded for gets the Hermite weights applied to the cached window, whatever kind of window it is. |
| RuntimeCurve.HermiteReadsLastWindow | Assets/SplinesPathSystem/Scripts/Spline/Curve.cs:266-277 | Under the source's policy, a Hermite curve whose cache holds the B-spline window of its last segment, read anywhere in that segment, gets the Hermite weights applied to that B-spline window. |
| RuntimeCurve.OpenEndLocated | Assets/SplinesPathSystem/Scripts/Spline/Curve.cs:355-409 | Parameter 1 of an open curve falls at the end of its last segment. |
| RuntimeCurve.BSplineWindowSecond | Assets/SplinesPathSystem/Scripts/Spline/Curve.cs:233-240 | The second node of the B-spline window of an open curve's segment is the segment's start node. |
| RuntimeCurve.HermiteEndOnLastWindow | Assets/SplinesPathSystem/Scripts/Spline/Curve.cs:266-277 | Under the source's policy, an open Hermite curve whose cache holds the B-spline window of its last segment ends at its last node but one. |
| RuntimeCurve.HermiteEndAfterSetPoints | Assets/SplinesPathSystem/Scripts/Spline/Curve.cs:266-277 | Under the source's policy, an open Hermite curve read at parameter 1 right after `SetPoints` measured it gives its last node but one, where the nodes give the last node. |
| RuntimeCurve.FreshHermiteEnd | Assets/Scripts/PathMgr.cs:30-48 | The curve the path loader builds for a Hermite file, a fresh open Hermite curve of accuracy 5 given the nodes by `SetPoints` without a table, ends at its last node but one. |
| RuntimeCurve.HermitePointsAEndAsWritten | Assets/SplinesPathSystem/Scripts/Spline/Curve.cs:266-277 | A fresh Hermite curve through (0, 0, 0) and (1, 0, 0) under the source's policy ends at (0, 0, 0), where its nodes end at (1, 0, 0). |
| RuntimeCurve.KeyedHermiteEnd | Assets/SplinesPathSystem/Scripts/Spline/Curve.cs:266-277 | Under the corrected policy an open Hermite curve read at parameter 1 gives its last node, whatever was read before, and so right after `SetPoints`. |
| CurveTable.SegmentCount | Assets/SplinesPathSystem/Scripts/Spline/Curve.cs:64-72 | A curve with nodes has one segment per node when closed and one fewer when open. |
| CurveTable.Prefix | Assets/SplinesPathSystem/Scripts/Spline/Curve.cs:446-450 | `subSegPos` starts at 0, has one entry more than the lengths, and each entry is the previous one plus that sub-segment's length. |
| CurveTable.PrefixNonDecreasing | Assets/SplinesPathSystem/Scripts/Spline/Curve.cs:446-450 | Positions accumulated from non-negative lengths never decrease. |
| CurveTable.Normalise | Assets/SplinesPathSystem/Scripts/Spline/Curve.cs:445-454 | The table is NaN throughout exactly when there is a sub-segment and the total is 0, since `1 / 0` times 0 is NaN. Otherwise each length is the raw length divided by the total, the positions are the running sums and the node positions are `buildNodePosInCurve`'s. |
| CurveTable.NormaliseRecoversRaw | Assets/SplinesPathSystem/Scripts/Spline/Curve.cs:445-449 | Normalisation loses nothing: each normalised length times the total is the raw length. |
| CurveTable.NormaliseWellFormed | Assets/SplinesPathSystem/Scripts/Spline/Curve.cs:420-450 | A table built from one raw length per sub-segment of the curve can be searched safely. |
| CurveTable.ScaledByInverseTotal | Assets/SplinesPathSystem/Scripts/Spline/Curve.cs:445-449 | Non-negative lengths divided by their positive total stay non-negative and sum to 1. |
| CurveTable.NormalisedTable | Assets/SplinesPathSystem/Scripts/Spline/Curve.cs:445-450 | A curve of positive length gives a measured table: non-negative lengths summing to 1, positions from 0 to 1 that never decrease. |
| CurveTable.NodePositions | Assets/SplinesPathSystem/Scripts/Spline/Curve.cs:456-482 | One position per node. |
| CurveTable.NodePositionsArePositions | Assets/SplinesPathSystem/Scripts/Spline/Curve.cs:467-476 | Node k sits where its first sub-segment starts, except the last node of an open curve. |
| CurveTable.PinnedLastNodeIsEnd | Assets/SplinesPathSystem/Scripts/Spline/Curve.cs:478-481 | On an open curve of positive length, pinning the last node at 1 puts it where the positions end anyway. |
| CurveTable.AccumulateNodeLengths | Assets/SplinesPathSystem/Scripts/Spline/Curve.cs:467-471 | The loop leaves in `node_length[k]` the sum of the lengths of node k's block of sub-segments. |
| CurveTable.BuildNodePositions | Assets/SplinesPathSystem/Scripts/Spline/Curve.cs:456-482 | The three loops and the pin compute exactly the node positions: each node starts where the previous one starts plus its block, and the last node of an open curve is at 1. |
| CurveTable.NodeOfSubSegment | Assets/SplinesPathSystem/Scripts/Spline/Curve.cs:469-470 | The node `(i - i % accuracy) / accuracy` credited with sub-segment i exists. |
| CurveTable.BinarySearch | Assets/SplinesPathSystem/Scripts/Spline/Curve.cs:379-405 | The search returns -1 (the range emptied) or a sub-segment in the range whose bracket holds the parameter. |
| CurveTable.BinarySearchFinds | Assets/SplinesPathSystem/Scripts/Spline/Curve.cs:381-405 | Whenever the parameter lies between the range's first and last position, the search finds a bracket, with no ordering needed. |
| CurveTable.BinarySearchFindsBracket | Assets/SplinesPathSystem/Scripts/Spline/Curve.cs:381-405 | On non-decreasing positions, the search returns the one sub-segment whose bracket holds the parameter. |
| CurveTable.FindBracket | Assets/SplinesPathSystem/Scripts/Spline/Curve.cs:378-405 | On a normalised table, every parameter in (0, 1) has a bracket the search finds, and that sub-segment has positive length. |
| CurveTable.SearchSubSegment | Assets/SplinesPathSystem/Scripts/Spline/Curve.cs:378-388 | The `while (low <= high)` loop computes the recursive search over the whole table. |
| Interpolator.GetNodeIndex | Assets/SplinesPathSystem/Scripts/Spline/SplineInterpolator.cs:426-434 | The picked index always lies inside the node list; on a closed spline it is the offset index modulo the count, never negative; on an open spline it is the offset index itself when in range and is clamped to the first or last node otherwise. |
| Interpolator.DerivativeOrders | Assets/SplinesPathSystem/Scripts/Spline/SplineInterpolator.cs:436-480 | The order-1 and order-2 weight rows are the exact derivatives of the order-0 and order-1 rows: each difference quotient equals the next order's row up to the stated higher-order terms. |
| Interpolator.AffineWeightSums | Assets/SplinesPathSystem/Scripts/Spline/SplineInterpolator.cs:448-457 | For a matrix whose columns sum to (0, 0, 0, 1) the position weights sum to 1 at every t and the first and second derivative weights sum to 0. |
| Interpolator.BuiltInBases | Assets/SplinesPathSystem/Scripts/Spline/SplineInterpolator.cs:501-830 | The Bezier, B-spline and linear matrices are affine; the Hermite matrix is not, but its two node weights alone sum to 1. |
| Interpolator.BasisEndpoints | Assets/SplinesPathSystem/Scripts/Spline/SplineInterpolator.cs:501-830 | At t = 0 and t = 1 the Hermite, Bezier and linear weights pick out single nodes (Hermite's derivative picks the two tangents), and the B-spline weights are (1/6, 4/6, 1/6, 0) and (0, 1/6, 4/6, 1/6). |
| Interpolator.BezierWeightsConvex | Assets/SplinesPathSystem/Scripts/Spline/SplineInterpolator.cs:776-789 | On [0, 1] no Bezier weight is negative. |
| Interpolator.BSplineWeightsConvex | Assets/SplinesPathSystem/Scripts/Spline/SplineInterpolator.cs:797-810 | On [0, 1] no uniform cubic B-spline weight is negative. |
| Interpolator.NewInterpolator | Assets/SplinesPathSystem/Scripts/Spline/SplineInterpolator.cs:44-51 | Construction succeeds exactly when there are 16 coefficients and 4 indices; a bad matrix is reported before bad indices; a success stores both unchanged as a valid custom interpolator. |
| Interpolator.SetCoefficientMatrix | Assets/SplinesPathSystem/Scripts/Spline/SplineInterpolator.cs:53-56 | The setter succeeds exactly for 16 coefficients, replaces only the matrix and keeps the interpolator valid. |
| Interpolator.SetNodeIndices | Assets/SplinesPathSystem/Scripts/Spline/SplineInterpolator.cs:58-61 | The setter succeeds exactly for 4 indices, replaces only the indices and keeps the interpolator valid. |
| Interpolator.AffineInvariance | Assets/SplinesPathSystem/Scripts/Spline/SplineInterpolator.cs:292-300 | For an affine basis, translating all four control vectors translates the interpolated position by the same offset and leaves the derivative unchanged. |
| Interpolator.TranslateByWeights | Assets/SplinesPathSystem/Scripts/Spline/SplineInterpolator.cs:292-300 | A blend whose weights sum to 1 moves with a translation of its inputs; one whose weights sum to 0 ignores it. |
| Interpolator.HermiteSegmentEnds | Assets/SplinesPathSystem/Scripts/Spline/SplineInterpolator.cs:518-531 | A Hermite segment on spline nodes starts at its first node, ends at its second, and its derivative at the two ends is the pair of tangents RecalcVectors computes. |
| Interpolator.HermiteSegmentsJoin | Assets/SplinesPathSystem/Scripts/Spline/SplineInterpolator.cs:607-658 | The end of Hermite segment i equals the start of segment i + 1 in position (the shared node) and in first derivative, for every tension and tangent mode, open or closed. |
| Interpolator.BSplineSegmentsJoin | Assets/SplinesPathSystem/Scripts/Spline/SplineInterpolator.cs:797-810 | Consecutive B-spline segments meet with equal position, first and second derivative, open or closed. |
| Interpolator.BSplineWeightsShift | Assets/SplinesPathSystem/Scripts/Spline/SplineInterpolator.cs:797-810 | The B-spline weights at t = 1 are the weights at t = 0 shifted one node along, at every derivative order. |
| Interpolator.BezierSegmentEnds | Assets/SplinesPathSystem/Scripts/Spline/SplineInterpolator.cs:103-111 | On a list of vectors a Bezier segment runs from its first node to its fourth. |
| Interpolator.LinearSegmentEnds | Assets/SplinesPathSystem/Scripts/Spline/SplineInterpolator.cs:103-111 | On a list of vectors a linear segment runs from its first node to its second. |
| Interpolator.LinearNodeEnds | Assets/SplinesPathSystem/Scripts/Spline/SplineInterpolator.cs:134-143 | On spline nodes a linear segment runs from its first node's position to its second's. |
| Interpolator.BezierNodeEnds | Assets/SplinesPathSystem/Scripts/Spline/SplineInterpolator.cs:134-143 | On spline nodes a Bezier segment runs from its first node's position to its fourth's. |
| Interpolator.AlignSigns | Assets/SplinesPathSystem/Scripts/Spline/SplineInterpolator.cs:365-372 | Each aligned quaternion is its input or the input's negative, and consecutive aligned quaternions have a non-negative dot product. |
| Interpolator.AlignSecondSign | Assets/SplinesPathSystem/Scripts/Spline/SplineInterpolator.cs:365-372 | Negating the second input gives the same aligned triple, unless it is orthogonal to the first. |
| Interpolator.AlignLastSign | Assets/SplinesPathSystem/Scripts/Spline/SplineInterpolator.cs:365-372 | Negating the last input gives the same aligned triple, unless it is orthogonal to the aligned third. |
| Interpolator.RotationSignIndependent | Assets/SplinesPathSystem/Scripts/Spline/SplineInterpolator.cs:360-387 | The interpolated rotation is the same for q1 and -q1 (and for q3 and -q3) away from the orthogonal cases: the result does not depend on which sign represents a rotation. |
| Interpolator.SameAlignmentSameRotation | Assets/SplinesPathSystem/Scripts/Spline/SplineInterpolator.cs:360-387 | Inputs with the same alignment give the same interpolated rotation. |
| Interpolator.UnitUpToSign | Assets/SplinesPathSystem/Scripts/Spline/SplineInterpolator.cs:386 | A unit quaternion or its negative comes back unchanged from the normalisation step. |
| Interpolator.RotationAtPickedInput | Assets/SplinesPathSystem/Scripts/Spline/SplineInterpolator.cs:360-387 | Where the weights pick out one input, the interpolated rotation is that aligned input, provided it has unit length. |
| Interpolator.NodeRotationEnds | Assets/SplinesPathSystem/Scripts/Spline/SplineInterpolator.cs:258-266 | With unit node rotations, Hermite and linear segments start at their first node's rotation and end at their second's (up to sign); Bezier segments end at their fourth's. |
| Interpolator.HalfwayRotationNotUnit | Assets/SplinesPathSystem/Scripts/Spline/SplineInterpolator.cs:360-387 | Halfway between the identity and a half turn about x, linear interpolation returns (1, 0, 0, 1), of squared length 2, so the result is not a rotation. |
| QuaternionUtils.SqNorm | Assets/SplinesPathSystem/Scripts/Utilities/QuaternionUtils.cs:29 | The squared length is never negative. |
| QuaternionUtils.NormalizedAsWritten | Assets/SplinesPathSystem/Scripts/Utilities/QuaternionUtils.cs:27-37 | The quaternion is scaled by the inverse of its squared length: the result times the input's squared length has squared length 1, so only unit inputs come back with unit length; the zero quaternion has no result. |
| QuaternionUtils.Normalize | Assets/SplinesPathSystem/Scripts/Utilities/QuaternionUtils.cs:27-37 | Dividing by the true length gives a unit quaternion pointing the same way as the input (non-negative dot product); a zero length has no result. |
| QuaternionUtils.NormalizedAsWrittenMissesUnitLength | Assets/SplinesPathSystem/Scripts/Utilities/QuaternionUtils.cs:27-37 | The as-written normalisation turns (0, 0, 0, 2) into (0, 0, 0, 0.5), of squared length 1/4. |
| QuaternionUtils.NormalizeAgreesOnUnitQuaternions | Assets/SplinesPathSystem/Scripts/Utilities/QuaternionUtils.cs:27-37 | On a unit quaternion the corrected and the as-written normalisation both return the input. |
| QuaternionUtils.GetQuatLog | Assets/SplinesPathSystem/Scripts/Utilities/QuaternionUtils.cs:51-72 | The logarithm has scalar part 0 and a vector part parallel to the input's; inputs whose scalar part has magnitude at least 1 keep their vector part unchanged. |
| QuaternionUtils.GetQuatExp | Assets/SplinesPathSystem/Scripts/Utilities/QuaternionUtils.cs:74-92 | The exponential's vector part is parallel to the input's; a pure zero vector maps to the identity rotation. |
| QuaternionUtils.NegativeFlipsDot | Assets/SplinesPathSystem/Scripts/Utilities/QuaternionUtils.cs:99-102 | Negation flips the sign of every dot product, is its own inverse and keeps the length. |
| QuaternionUtils.ConjugateIsInverse | Assets/SplinesPathSystem/Scripts/Utilities/QuaternionUtils.cs:94-97 | The conjugate times the quaternion, either way round, is the squared length as a scalar: the conjugate inverts a unit quaternion; conjugating twice is the identity. |
| QuaternionUtils.SquadOfRepeatedUnitQuaternion | Assets/SplinesPathSystem/Scripts/Utilities/QuaternionUtils.cs:39-49 | With three equal unit neighbours the SQUAD intermediate is that quaternion itself. |
| EditorSpline.NonNull | Assets/SplinesPathSystem/Scripts/Spline/Spline.cs:188-193 | The set entries of the node array: never more than the array holds, all of them when there is no null, and exactly the nodes the array sets. |
| EditorSpline.Wrap | Assets/SplinesPathSystem/Scripts/Spline/Spline.cs:207 | Wrapping nodes as array entries keeps length and order and introduces no null. |
| EditorSpline.WrapNonNull | Assets/SplinesPathSystem/Scripts/Spline/Spline.cs:188-193 | On an array without nulls, keeping the set entries and wrapping them again gives back the array. |
| EditorSpline.InternalAsWritten | Assets/SplinesPathSystem/Scripts/Spline/Spline.cs:188-208 | The node list as written never holds more than the relevant count of set nodes, and is only filled when that count is enough for the mode. |
| EditorSpline.AsWrittenAgreesWithoutNulls | Assets/SplinesPathSystem/Scripts/Spline/Spline.cs:188-208 | On an array without nulls the as-written node list is the intended one: the first relevant-count nodes, or nothing when they are not enough. |
| EditorSpline.Internal | Assets/SplinesPathSystem/Scripts/Spline/Spline.cs:188-208 | The intended node list is a prefix of the set nodes, of exactly the relevant count when that is enough for the mode and empty otherwise, and a non-empty list is a usable node count. |
| EditorSpline.LeadingNullLosesANode | Assets/SplinesPathSystem/Scripts/Spline/Spline.cs:207-208 | Array [null, A, B] in Hermite mode: the as-written list is [A] (one node, too few for a segment), where the intended list is [A, B]. |
| EditorSpline.TwoNullsLeaveANull | Assets/SplinesPathSystem/Scripts/Spline/Spline.cs:207-208 | Array [null, null, A, B]: the as-written list is a single null, since the range copy takes the two nulls and Remove drops only the first. |
| EditorSpline.NewSpline | Assets/SplinesPathSystem/Scripts/Spline/Spline.cs:60-68 | A freshly added spline has no nodes, Hermite mode with a Hermite interpolator, accuracy 5, is open, has no length table, and satisfies the state invariant. |
| EditorSpline.BuiltIn | Assets/SplinesPathSystem/Scripts/Spline/Spline.cs:164-186 | Each built-in mode installs a valid interpolator of its own class. |
| EditorSpline.ChooseInterpolator | Assets/SplinesPathSystem/Scripts/Spline/Spline.cs:164-186 | A custom-matrix mode keeps the current interpolator; a built-in mode keeps it when it is already of that mode's class and otherwise installs a fresh one of that class; validity is preserved. |
| EditorSpline.MeasuredLengths | Assets/SplinesPathSystem/Scripts/Spline/SplineLengthData.cs:47-73 | The measured sub-segment lengths are one per sub-segment, segments times accuracy of them, and none is negative. |
| EditorSpline.UpdateSpline | Assets/SplinesPathSystem/Scripts/Spline/Spline.cs:162-213 | After the update the spline satisfies its invariant; only interpolator, node list and length table change; the interpolator is the one the mode selects; the node list is a prefix of the set nodes of exactly the relevant count when that is enough, else empty with the old table kept. |
| EditorSpline.UpdateSplineAsWritten | Assets/SplinesPathSystem/Scripts/Spline/Spline.cs:162-213 | The as-written update succeeds exactly when its node list is the intended one, and then gives the intended node list and the invariant; otherwise it reports the broken list it built. |
| EditorSpline.UpdateAsWrittenWithoutNulls | Assets/SplinesPathSystem/Scripts/Spline/Spline.cs:162-213 | On a node array without nulls the as-written update is the intended update. |
| EditorSpline.UpdateAsWrittenBreaksOnLeadingNull | Assets/SplinesPathSystem/Scripts/Spline/Spline.cs:207-208 | A null ahead of two Hermite nodes makes the as-written update build [A], where the intended update keeps [A, B]. |
| EditorSpline.Measure | Assets/SplinesPathSystem/Scripts/Spline/Spline.cs:602-608 | Reparameterising a spline with a usable node list changes only its length table and establishes the invariant. |
| EditorSpline.WithTable | Assets/SplinesPathSystem/Scripts/Spline/Spline.cs:602-608 | A usable node list with a table that fits its sub-segment count is a valid spline state. |
| EditorSpline.FitsAfterCalculate | Assets/SplinesPathSystem/Scripts/Spline/SplineLengthData.cs:47-89 | Calculating from non-negative raw lengths gives a table that fits that many sub-segments. |
| EditorSpline.UpdateIdempotent | Assets/SplinesPathSystem/Scripts/Spline/Spline.cs:162-213 | Updating twice is the same as updating once. |
| EditorSpline.LastBelow | Assets/SplinesPathSystem/Scripts/Spline/Spline.cs:573-575 | The downward scan stops at index -1 or at an entry strictly below the parameter. |
| EditorSpline.LastBelowIsLast | Assets/SplinesPathSystem/Scripts/Spline/Spline.cs:573-575 | No entry after the one the scan stops at lies below the parameter: the scan finds the last such entry. |
| EditorSpline.ScanDown | Assets/SplinesPathSystem/Scripts/Spline/Spline.cs:573-587 | The loop from the last position down to the first returns the last index whose position is below the parameter, or -1. |
| EditorSpline.FractionBounds | Assets/SplinesPathSystem/Scripts/Spline/Spline.cs:580 | A parameter inside a sub-segment of positive length lies a fraction in (0, 1] into it, and that fraction rebuilds the parameter. |
| EditorSpline.TableBrackets | Assets/SplinesPathSystem/Scripts/Spline/Spline.cs:573-587 | On a normalised table every parameter in (0, 1] is bracketed: the scan stops inside the table at a sub-segment of positive length that contains the parameter. |
| EditorSpline.LocalInRange | Assets/SplinesPathSystem/Scripts/Spline/Spline.cs:580 | The sub-segment's offset in its segment plus a fraction in (0, 1], times 1/accuracy, lies in (0, 1]. |
| EditorSpline.SubSegmentNode | Assets/SplinesPathSystem/Scripts/Spline/Spline.cs:577-579 | Rounding the sub-segment index down to its segment and scaling gives the segment's first node, which is within the node list. |
| EditorSpline.MeasuredTable | Assets/SplinesPathSystem/Scripts/Spline/SplineLengthData.cs:47-89 | A measured table on a valid spline has one entry per sub-segment, non-negative lengths summing to 1 and positions accumulated from 0. |
| EditorSpline.RecalculateParameter | Assets/SplinesPathSystem/Scripts/Spline/Spline.cs:558-590 | The result is a segment's first node within range and a local parameter in [0, 1]; it is NaN exactly when the parameter is in (0, 1] and the table is unmeasurable; on a measured table it is the segment of the bracketing sub-segment and a local parameter that maps back to the input. |
| EditorSpline.FoundAt | Assets/SplinesPathSystem/Scripts/Spline/Spline.cs:575-585 | Once the scan stops at a sub-segment containing the parameter, the segment index is that sub-segment's segment times the nodes per segment (never the clamped last-index branch) and the local parameter in (0, 1] maps back to the input. |
| EditorSpline.InvertsAt | Assets/SplinesPathSystem/Scripts/Spline/Spline.cs:580 | The local parameter the scan computes maps back through the table to the input parameter. |
| SplineLength.StepsLeftDecrease | Assets/SplinesPathSystem/Scripts/Spline/SplineLengthData.cs:22 | Each pass of the sampling loop brings the number of remaining samples down, so the loop ends. |
| SplineLength.Walk | Assets/SplinesPathSystem/Scripts/Spline/SplineLengthData.cs:22-35 | The length accumulated from a sample on is never negative and is 0 once the loop condition fails. |
| SplineLength.SegmentLength | Assets/SplinesPathSystem/Scripts/Spline/SplineLengthData.cs:7-38 | The polyline length of a segment piece is never negative. |
| SplineLength.SixSamples | Assets/SplinesPathSystem/Scripts/Spline/SplineLengthData.cs:22-35 | The polyline through six samples has non-negative length. |
| SplineLength.FiveSteps | Assets/SplinesPathSystem/Scripts/Spline/SplineLengthData.cs:22 | With the step Calculate passes, a fifth of the piece's width, the loop takes exactly five steps: the length is the polyline through six evenly spaced samples. |
| SplineLength.Width | Assets/SplinesPathSystem/Scripts/Spline/SplineLengthData.cs:50 | One over a positive accuracy is positive. |
| SplineLength.SubSegmentLength | Assets/SplinesPathSystem/Scripts/Spline/SplineLengthData.cs:67-69 | A sub-segment's raw length is never negative. |
| SplineLength.Piece | Assets/SplinesPathSystem/Scripts/Spline/SplineLengthData.cs:69 | A piece of a segment has non-negative length. |
| SplineLength.RawLengths | Assets/SplinesPathSystem/Scripts/Spline/SplineLengthData.cs:63-73 | Calculate measures one raw length per sub-segment, segments times accuracy of them, none negative. |
| SplineLength.RawLengthSamples | Assets/SplinesPathSystem/Scripts/Spline/SplineLengthData.cs:67-69 | Every raw length is the polyline through six evenly spaced samples of its sub-segment of its segment. |
| SplineLength.PieceIsSixSamples | Assets/SplinesPathSystem/Scripts/Spline/SplineLengthData.cs:69 | Piece j of width w is walked in exactly five steps from j * w. |
| SplineLength.Calculate | Assets/SplinesPathSystem/Scripts/Spline/SplineLengthData.cs:47-89 | The table is calculated; it is unmeasurable exactly when there are sub-segments and the total is 0 (a division 0/0); otherwise it holds one length and one position per raw length, the total, positions starting at 0 and each the previous plus the previous length. |
| SplineLength.CalculateRecoversRaw | Assets/SplinesPathSystem/Scripts/Spline/SplineLengthData.cs:81 | Normalising loses nothing: each normalised length times the total is the raw length. |
| SplineLength.CalculatedTable | Assets/SplinesPathSystem/Scripts/Spline/SplineLengthData.cs:75-86 | With non-negative raw lengths of positive total the normalised lengths are non-negative and sum to 1, the positions never decrease, and the last position plus the last length is 1. |
| SplineLength.CalculatedParts | Assets/SplinesPathSystem/Scripts/Spline/SplineLengthData.cs:75-86 | The table's lengths are the raw lengths scaled by the inverse total and its positions are their running sums. |
| SplineLength.PositionsOfLengths | Assets/SplinesPathSystem/Scripts/Spline/SplineLengthData.cs:83-84 | Positions accumulated from non-negative lengths summing to 1 never decrease and end exactly 1 short of the last length. |
| SplineLength.StartsCoverNodes | Assets/SplinesPathSystem/Scripts/Spline/SplineLengthData.cs:98-109 | Every internal node falls in a segment that starts within the node list, and on an open spline the last node is the last segment start. |
| SplineLength.SetupSplinePositions | Assets/SplinesPathSystem/Scripts/Spline/SplineLengthData.cs:91-127 | Each node's parameters belong to the same spline; a segment's first node gets the sum of its sub-segment lengths and every other node 0; every node's position is that of its segment's first node in the chain of segment starts (with an open spline's last node pinned at 1). |
| SplineLength.StartsChain | Assets/SplinesPathSystem/Scripts/Spline/SplineLengthData.cs:105-110 | Each segment start lies where the previous start lies plus the previous segment's length; pinning an open spline's last node at 1 keeps this exactly when the lengths are normalised. |
| SplineLength.StartsNonDecreasing | Assets/SplinesPathSystem/Scripts/Spline/SplineLengthData.cs:105-126 | With normalised non-negative lengths no segment start lies before an earlier one, and all lie in [0, 1]. |
| SplineQueries.VectorOnSpline | Assets/SplinesPathSystem/Scripts/Spline/Spline.cs:348-356 | A spline without nodes gives the zero vector; otherwise the vector is undefined (NaN) exactly at the parameters where the spline is unmeasured. |
| SplineQueries.GetPosition | Assets/SplinesPathSystem/Scripts/Spline/Spline.cs:224-230 | No nodes: the zero vector; otherwise NaN exactly at the unmeasured parameters (those in (0, 1] on a spline whose table is unmeasurable). |
| SplineQueries.GetTangent | Assets/SplinesPathSystem/Scripts/Spline/Spline.cs:241-247 | No nodes: the zero vector; otherwise NaN exactly at the unmeasured parameters. |
| SplineQueries.GetCurvature | Assets/SplinesPathSystem/Scripts/Spline/Spline.cs:281-287 | No nodes: the zero vector; otherwise NaN exactly at the unmeasured parameters. |
| SplineQueries.GetNormal | Assets/SplinesPathSystem/Scripts/Spline/Spline.cs:261-270 | No nodes: the zero vector; in global-normal mode the spline's normal, normalised; otherwise NaN exactly at the unmeasured parameters. |
| SplineQueries.GetCustomValue | Assets/SplinesPathSystem/Scripts/Spline/Spline.cs:340-346 | No nodes: 0; otherwise NaN exactly at the unmeasured parameters. |
| SplineQueries.GetOrientation | Assets/SplinesPathSystem/Scripts/Spline/Spline.cs:298-323 | No nodes or no rotation mode: the identity; unmeasured parameters give NaN in the rotating modes; in tangent mode a NaN only comes from an unmeasured parameter, and a zero tangent gives the identity. |
| SplineQueries.StartsAtFirstNode | Assets/SplinesPathSystem/Scripts/Spline/Spline.cs:224-230 | On a Hermite, Bezier or linear spline with its built-in interpolator, parameters at or below 0 give the first node's position. |
| SplineQueries.FirstSegmentStart | Assets/SplinesPathSystem/Scripts/Spline/Spline.cs:348-351 | The first segment evaluated at 0 is the first node's position. |
| SplineQueries.EndsAtLastNode | Assets/SplinesPathSystem/Scripts/Spline/Spline.cs:224-230 | On such a spline, parameters above 1 give the last node's position, or the first node's when the spline is closed. |
| SplineQueries.LastSegmentEndPosition | Assets/SplinesPathSystem/Scripts/Spline/Spline.cs:558-563 | The last segment evaluated at 1 lies on the last node, or on the first when closed. |
| SplineQueries.LastBezierEnd | Assets/SplinesPathSystem/Scripts/Spline/Spline.cs:610-613 | For Bezier splines the last segment ends on the last node. |
| SplineQueries.LastHermiteEnd | Assets/SplinesPathSystem/Scripts/Spline/Spline.cs:610-613 | For Hermite splines the last segment ends on the last node, or on the first when closed. |
| SplineQueries.LastLinearEnd | Assets/SplinesPathSystem/Scripts/Spline/Spline.cs:610-613 | For linear splines the last segment ends on the last node, or on the first when closed. |
| SplineQueries.LastSegmentEnd | Assets/SplinesPathSystem/Scripts/Spline/Spline.cs:610-613 | With one node per segment, the second node of the last segment is the last node, or the first node again when closed. |
| SplineQueries.FromDistance | Assets/SplinesPathSystem/Scripts/Spline/Spline.cs:452-455 | A spline without positive length maps every distance to 0; otherwise the result times the length is the distance. |
| SplineQueries.DistanceRoundTrip | Assets/SplinesPathSystem/Scripts/Spline/Spline.cs:438-455 | On a spline of positive length the conversions between parameter and distance are inverse to each other in both directions. |
| SplineEditing.InsertIndex | Assets/SplinesPathSystem/Scripts/Spline/Spline.cs:513-521 | Insertion is always possible and lands at the front for a null or unknown preceding node (IndexOf's -1 plus 1 is 0, so the exception is never thrown) and right after the node's first occurrence otherwise. |
| SplineEditing.InsertAfter | Assets/SplinesPathSystem/Scripts/Spline/Spline.cs:507-523 | The array grows by one: the entries before the insertion index are unchanged, the new node sits at it, the rest follows shifted; as a multiset the array gains exactly the new node. |
| SplineEditing.AddSplineNode | Assets/SplinesPathSystem/Scripts/Spline/Spline.cs:507-528 | With the intended update: after adding, the array is the insertion result and the spline satisfies its invariant. |
| SplineEditing.RemoveSplineNode | Assets/SplinesPathSystem/Scripts/Spline/Spline.cs:550-555 | With the intended update: removing a node not in the array leaves it unchanged; otherwise the array loses exactly one occurrence of it; the spline satisfies its invariant. |
| SplineEditing.RemoveUndoesAdd | Assets/SplinesPathSystem/Scripts/Spline/Spline.cs:507-555 | With the intended update, removing a node that was just added gives back the original array, node list and interpolator, and the whole spline when its node list is usable. |
| SplineEditing.AddSplineNodeAsWritten | Assets/SplinesPathSystem/Scripts/Spline/Spline.cs:507-528 | With the update as written, a successful add leaves the inserted array and a spline satisfying its invariant; on an array without nulls it is exactly the intended add. |
| SplineEditing.RemoveSplineNodeAsWritten | Assets/SplinesPathSystem/Scripts/Spline/Spline.cs:550-555 | With the update as written, a successful remove leaves the array without the node's first occurrence and a spline satisfying its invariant; on an array without nulls it is exactly the intended remove. |
| SplineEditing.RemoveUndoesAddAsWritten | Assets/SplinesPathSystem/Scripts/Spline/Spline.cs:507-555 | With the update as written and an array without nulls, adding a new node and removing it both succeed and give back the original array and the node list one update builds. |
| SplineEditing.AppendAsWritten | Assets/SplinesPathSystem/Scripts/Spline/Spline.cs:463-469 | The parameterless add inserts exactly the new node, and puts it at the end when the last entry is a node occurring nowhere earlier. |
| SplineEditing.AppendAfterTrailingNull | Assets/SplinesPathSystem/Scripts/Spline/Spline.cs:463-469 | For array [A, null] the parameterless add puts the new node at the front, where the documented behaviour appends it. |
| SplineEditing.AppendAfterRepeatedNode | Assets/SplinesPathSystem/Scripts/Spline/Spline.cs:463-469 | For array [A, B, A] the new node goes after the first A, not at the end. |
| SplineEditing.Append | Assets/SplinesPathSystem/Scripts/Spline/Spline.cs:463-469 | Appending keeps the array as a prefix and puts the new node last. |
| SplineEditing.RemoveUndoesAppend | Assets/SplinesPathSystem/Scripts/Spline/Spline.cs:463-469 | Appending a node that was not there and then removing it gives the array back. |
| SplineEditing.FirstAtOrPast | Assets/SplinesPathSystem/Scripts/Spline/Spline.cs:487-493 | The loop stops at the first node whose position is at or past the parameter; every node before it lies below. |
| SplineEditing.InsertAtParam | Assets/SplinesPathSystem/Scripts/Spline/Spline.cs:480-496 | The array gains exactly the new node; with no listed nodes, or all below the parameter, it goes where the parameterless add puts it (the end when the last entry is a unique node); when the first listed node is already at or past the parameter it goes to the front; otherwise right after the last listed node below the parameter. |
| SplineSegments.NewSegment | Assets/SplinesPathSystem/Scripts/Spline/SplineSegment.cs:61-74 | Construction fails exactly for a null parent spline and otherwise stores the parent and both nodes as given. |
| SplineSegments.ToSegment | Assets/SplinesPathSystem/Scripts/Spline/SplineSegment.cs:99-108 | Parameters before the segment give 0 and after it 1; the result is NaN exactly at the start of a zero-length segment (0/0); on a segment of positive length it is in [0, 1]. |
| SplineSegments.Fraction | Assets/SplinesPathSystem/Scripts/Spline/SplineSegment.cs:107 | The offset into a length that holds it is a fraction in [0, 1] that rebuilds the offset. |
| SplineSegments.ConversionRoundTrip | Assets/SplinesPathSystem/Scripts/Spline/SplineSegment.cs:85-108 | On a segment of positive length, segment parameter to spline parameter and back is the identity on [0, 1], and spline to segment and back is the identity on the segment's range. |
| SplineSegments.SegmentRoundTrip | Assets/SplinesPathSystem/Scripts/Spline/SplineSegment.cs:85-108 | A segment parameter in [0, 1] converted to the spline and back comes back unchanged. |
| SplineSegments.SplineRoundTrip | Assets/SplinesPathSystem/Scripts/Spline/SplineSegment.cs:85-108 | A spline parameter in the segment's range converted to the segment and back comes back unchanged. |
| SplineSegments.FractionUnique | Assets/SplinesPathSystem/Scripts/Spline/SplineSegment.cs:107 | The fraction of a length that s of it makes is s. |
| SplineSegments.Clamp | Assets/SplinesPathSystem/Scripts/Spline/SplineSegment.cs:119-128 | The clamped parameter lies in the segment's range (for a non-negative length), and a parameter already in range is unchanged. |
| SplineSegments.ClampIdempotent | Assets/SplinesPathSystem/Scripts/Spline/SplineSegment.cs:119-128 | Clamping twice is clamping once. |
| SplineSegments.ClampInRange | Assets/SplinesPathSystem/Scripts/Spline/SplineSegment.cs:119-154 | Whatever the clamp returns is in range by the range test, and for a non-negative length the range test holds exactly between start and end. |
| SplineSegments.Length | Assets/SplinesPathSystem/Scripts/Spline/SplineSegment.cs:34-37 | The segment's length is non-negative for non-negative inputs, and divided by the spline's positive length gives back the normalised length. |
| SplineSegments.GetSplineSegment | Assets/SplinesPathSystem/Scripts/Spline/Spline.cs:418-427 | The lookup clamps the parameter to [0, 1] and returns the first segment whose range holds it, or nothing when no segment does. |
| SplineSegments.FirstInRange | Assets/SplinesPathSystem/Scripts/Spline/Spline.cs:422-426 | The scan from segment k on returns the first segment in range, or nothing when none is. |
| SplineSegments.TilesAlwaysFound | Assets/SplinesPathSystem/Scripts/Spline/Spline.cs:418-427 | When the segments tile [0, 1] (first at 0, each starting where the previous ends, last ending at 1) the lookup always finds a segment. |
| SplineSegments.Covering | Assets/SplinesPathSystem/Scripts/Spline/Spline.cs:418-427 | A point of [0, 1] up to the end of segment k lies in one of the first k + 1 segments. |
| SplineMeshing.FromMesh | Assets/SplinesPathSystem/Scripts/SplineMesh/SplineMesh.cs:404-437 | Mesh data from a mesh starts with both cursors at 0 and copies the mesh's array lengths and triangle indices; from null it has empty arrays; it has normals (tangents) exactly when the normal (tangent) array is non-empty. |
| SplineMeshing.Allocate | Assets/SplinesPathSystem/Scripts/SplineMesh/SplineMesh.cs:439-468 | Allocation fails exactly when a required length is negative; otherwise the five arrays have the required lengths (copies of the base plus the non-null caps), both cursors are 0, the flags follow the array lengths and every triangle index is 0. |
| SplineMeshing.AllocatedSuits | Assets/SplinesPathSystem/Scripts/SplineMesh/SplineMesh.cs:470-503 | A buffer suits a request exactly when its five lengths are the required ones, and a freshly allocated buffer suits what it was allocated for. |
| SplineMeshing.Reset | Assets/SplinesPathSystem/Scripts/SplineMesh/SplineMesh.cs:510-514 | Resetting puts both cursors back to 0 and keeps the arrays and flags. |
| SplineMeshing.ResetKeepsSuits | Assets/SplinesPathSystem/Scripts/SplineMesh/SplineMesh.cs:510-514 | A reset buffer suits exactly what it suited before, and resetting twice is resetting once. |
| SplineMeshing.Setup | Assets/SplinesPathSystem/Scripts/SplineMesh/SplineMesh.cs:371-374 | Reusing a suiting buffer or allocating a new one fails only when a required length is negative, and otherwise gives a buffer of the required lengths with both cursors at 0. |
| SplineMeshing.SetupMeshBuffersAsWritten | Assets/SplinesPathSystem/Scripts/SplineMesh/SplineMesh.cs:330-375 | The as-written setup takes one base copy off the segment count per cap mesh present and always counts both caps; it fails exactly when that makes a length negative, and otherwise gives a buffer of those lengths with cursors at 0. |
| SplineMeshing.SetupMeshBuffers | Assets/SplinesPathSystem/Scripts/SplineMesh/SplineMesh.cs:330-375 | The corrected setup, which counts the end cap only when some segment bends it, always succeeds and gives a buffer holding exactly the meshes the segments copy, with cursors at 0. |
| SplineMeshing.Segments | Assets/SplinesPathSystem/Scripts/SplineMesh/SplineMesh.cs:158-167 | There is one mesh per segment: the start cap first when present, the end cap last when present, the base mesh otherwise. |
| SplineMeshing.Total | Assets/SplinesPathSystem/Scripts/SplineMesh/SplineMesh.cs:441-458 | The summed sizes of any list of meshes are never negative. |
| SplineMeshing.TotalAppend | Assets/SplinesPathSystem/Scripts/SplineMesh/SplineMesh.cs:441-458 | The sizes of two lists of meshes together are the sum of their sizes. |
| SplineMeshing.TotalRepeat | Assets/SplinesPathSystem/Scripts/SplineMesh/SplineMesh.cs:441-445 | n copies of a mesh take n times its sizes. |
| SplineMeshing.BuffersFitSegments | Assets/SplinesPathSystem/Scripts/SplineMesh/SplineMesh.cs:346-372 | The corrected setup sizes the buffer for exactly the meshes the segments copy, for every positive segment count; the as-written setup agrees whenever there are at least two segments or at most one cap. |
| SplineMeshing.OneSegmentTwoCapsMisfit | Assets/SplinesPathSystem/Scripts/SplineMesh/SplineMesh.cs:346-372 | One segment with a 4-vertex start cap and a 2-vertex end cap: the as-written setup allocates 2 vertices, where the single segment copies 4. |
| SplineMeshing.Offset | Assets/SplinesPathSystem/Scripts/SplineMesh/SplineMesh.cs:276-277 | Offsetting triangle indices keeps their number and adds the offset to each. |
| SplineMeshing.BendMesh | Assets/SplinesPathSystem/Scripts/SplineMesh/SplineMesh.cs:178-204 | Bending keeps the buffer's sizes and flags, advances the vertex cursor by the base's vertex count and the triangle cursor by its triangle count, writes each base triangle index plus the entry vertex cursor at the triangle cursor, and leaves every other triangle index unchanged. |
| SplineMeshing.BendAll | Assets/SplinesPathSystem/Scripts/SplineMesh/SplineMesh.cs:158-173 | Bending meshes one after another keeps the buffer's sizes and advances the cursors by their total vertex and triangle counts. |
| SplineMeshing.SegmentParamsPartition | Assets/SplinesPathSystem/Scripts/SplineMesh/SplineMesh.cs:169-170 | The segments' parameter spans partition the range: the first starts at the start, each starts where the previous ends, the last ends at the end, and on an ascending range none runs backwards. |
| SplineMeshing.SegmentStep | Assets/SplinesPathSystem/Scripts/SplineMesh/SplineMesh.cs:169-170 | Each segment spans one segment-count-th of the range. |
| SplineMeshing.SplitRange | Assets/SplinesPathSystem/Scripts/SplineMesh/SplineMesh.cs:123-149 | Without splitting the range is [0, 1]; split by parameter it is the given range; split by spline segment it fails exactly when the spline has no segments, and otherwise uses the clamped index (unchanged when already valid) and that segment's start and start plus length. |
| SplineMeshing.UpdateMesh | Assets/SplinesPathSystem/Scripts/SplineMesh/SplineMesh.cs:107-176 | The mesh is only cleared exactly when there is no base mesh, no spline or no segment. Otherwise, with at least two segments or at most one cap, the buffer is sized for exactly the segments' meshes, and the update builds exactly when bending them indexes no uv, normal or tangent array out of range, and reports that exception otherwise. A build has one span per segment chaining from start to end and both cursors at the end of their arrays. A misfit is reported only when the sized buffer differs from what the segments copy. |
| SplineMeshing.AsWrittenFits | Assets/SplinesPathSystem/Scripts/SplineMesh/SplineMesh.cs:330-375 | With at least two segments or at most one cap the as-written setup succeeds with exactly the segments' sizes; when it fails, what it asked for differs from what the segments need. |
| SplineMeshing.BuildSegments | Assets/SplinesPathSystem/Scripts/SplineMesh/SplineMesh.cs:158-175 | Bending the segments' meshes into a buffer sized for them fills it exactly, both cursors ending at the array ends, with spans chaining from start to end. |
| SplineMeshing.UpdateMeshMisfitsOneSegmentTwoCaps | Assets/SplinesPathSystem/Scripts/SplineMesh/SplineMesh.cs:346-372 | With the meshes of the one-segment two-cap counterexample the update as written reaches a misfit for every buffer. |
| SplineMeshing.RegularTotal | Assets/SplinesPathSystem/Scripts/SplineMesh/SplineMesh.cs:441-458 | Meshes with full uv arrays that agree on having normals and tangents add up to sizes with as many uv coordinates as vertices, and as many normals and tangents when they have them. |
| SplineMeshing.RegularMeshesFit | Assets/SplinesPathSystem/Scripts/SplineMesh/SplineMesh.cs:204-273 | Such meshes, bent one after another into a buffer with room for all their vertices, index no per-vertex array out of range. |
| SplineMeshing.UpdateMeshBuildsRegular | Assets/SplinesPathSystem/Scripts/SplineMesh/SplineMesh.cs:107-273 | With a base and caps that have full uv arrays and agree on normals and tangents, the update builds whenever the setup sizes the buffer for the segments. |
| SplineMeshing.MixedNormalsOutOfRange | Assets/SplinesPathSystem/Scripts/SplineMesh/SplineMesh.cs:248-257 | A base mesh without normals followed by an end cap with normals makes the update throw: the cap's normals are written past the buffer's normal array. |
| SplineMeshing.SpansChain | Assets/SplinesPathSystem/Scripts/SplineMesh/SplineMesh.cs:158-170 | The span of the first segment starts at the start, that of the last ends at the end, and consecutive spans meet. |
| Branching.CheckParameter | Assets/SplinesPathSystem/Scripts/Spline/BranchingSpline.cs:308-318 | With no splines nothing changes; otherwise the direction is kept, the spline becomes a listed one (the first listed for a null or foreign spline, unchanged for a listed one) and the parameter is clamped into [0, 1], unchanged when already there. |
| Branching.CheckParameterIdempotent | Assets/SplinesPathSystem/Scripts/Spline/BranchingSpline.cs:308-318 | Checking a checked parameter changes nothing. |
| Branching.Adjacent | Assets/SplinesPathSystem/Scripts/Spline/BranchingSpline.cs:245-256 | For a node not among the segment nodes the neighbours are (null, first node); otherwise they are the entries just before and after its first occurrence, null at either end. |
| Branching.AdjacentInverse | Assets/SplinesPathSystem/Scripts/Spline/BranchingSpline.cs:245-256 | In a list without repeats, stepping to either neighbour and then back in the other direction returns to the node. |
| Branching.FirstOccurrence | Assets/SplinesPathSystem/Scripts/Spline/BranchingSpline.cs:250 | In a list without repeats every entry's first occurrence is itself. |
| Branching.ForwardOnSplineSymmetric | Assets/SplinesPathSystem/Scripts/Spline/BranchingSpline.cs:258-264 | A zero offset is never forward in either direction, and backwards with v is forwards with -v. |
| Branching.IsMiddleNode | Assets/SplinesPathSystem/Scripts/Spline/BranchingSpline.cs:266-279 | A listed node is a middle node exactly when its first occurrence is neither first nor last; an absent node (index -1) counts as a middle node whenever the list is non-empty. |
| Branching.Occurrences | Assets/SplinesPathSystem/Scripts/Spline/BranchingSpline.cs:298-301 | One entry per occurrence of the node, each naming the spline. |
| Branching.GetSplinesForNode | Assets/SplinesPathSystem/Scripts/Spline/BranchingSpline.cs:292-306 | A spline is listed exactly when it holds the node, and the list is as long as the node's occurrences over all splines. |
| Branching.SplinesForNodeCounts | Assets/SplinesPathSystem/Scripts/Spline/BranchingSpline.cs:292-306 | Each spline is listed as many times as it appears in the spline list times the number of occurrences of the node in its node list. |
| Branching.OccurrencesCount | Assets/SplinesPathSystem/Scripts/Spline/BranchingSpline.cs:298-302 | The entries one spline contributes all name that spline, as many as the node occurs in its node list. |
| Branching.CountStep | Assets/SplinesPathSystem/Scripts/Spline/BranchingSpline.cs:296-303 | The first spline's entries in front of a correctly counted rest give the correct count for the whole list. |
| Branching.CountAt | Assets/SplinesPathSystem/Scripts/Spline/BranchingSpline.cs:296-303 | The same step for one spline. |
| Branching.OffersAt | Assets/SplinesPathSystem/Scripts/Spline/BranchingSpline.cs:214-230 | Another spline offers both directions through a middle node, and at its first or last node the direction that follows the sign of the offset and no other; every offer names that spline. |
| Branching.OffersOf | Assets/SplinesPathSystem/Scripts/Spline/BranchingSpline.cs:209-231 | The offers of the other splines name only possible splines other than the current one, each is an offer its own spline makes, and every offer each of them makes is included. |
| Branching.ChoseSpline | Assets/SplinesPathSystem/Scripts/Spline/BranchingSpline.cs:196-234 | The controller is skipped exactly when the node belongs to the current spline alone, and then the current path is kept; otherwise the candidates hold the current path exactly when the node is a middle node of it, every other candidate is an offer its spline makes at the node (so at an end node only the direction the offset's sign selects) from another spline through the node, and every offer of every other spline holding the node is there. |
| Branching.Enter | Assets/SplinesPathSystem/Scripts/Spline/BranchingSpline.cs:40-44 | Entering proceeds exactly while the raised counter stays within 12, and then leaves it raised; past that it gives up and resets the counter to 0. |
| Branching.RecursionBounded | Assets/SplinesPathSystem/Scripts/Spline/BranchingSpline.cs:40-44 | From a reset counter exactly 12 nested entries proceed and the 13th gives up: the recursion is at most 12 deep. |
| ClosestPoint.SampleTaken | Assets/SplinesPathSystem/Scripts/Spline/SplineDistanceFunctions.cs:111 | Sample k is taken exactly when it lies at or below the end. |
| ClosestPoint.NextSample | Assets/SplinesPathSystem/Scripts/Spline/SplineDistanceFunctions.cs:111 | Each sample is one step after the previous. |
| ClosestPoint.SearchSegment | Assets/SplinesPathSystem/Scripts/Spline/SplineDistanceFunctions.cs:106-123 | An empty range gives 0; otherwise the result is a taken sample whose distance is at most that of every taken sample and strictly below that of every earlier one (ties go to the first). |
| ClosestPoint.SampleNeverPassesEnd | Assets/SplinesPathSystem/Scripts/Spline/SplineDistanceFunctions.cs:111-120 | Without a positive step every sample stays at or below the end of a non-empty range, so the loop condition never fails. |
| ClosestPoint.SearchSegmentGuarded | Assets/SplinesPathSystem/Scripts/Spline/SplineDistanceFunctions.cs:106-123 | With a guard on the step, a non-positive step or an empty range gives 0 and no sample; a positive step gives a taken sample of least distance. |
| ClosestPoint.Window | Assets/SplinesPathSystem/Scripts/Spline/SplineDistanceFunctions.cs:94-98 | Each refinement window lies inside [0, 1], has a positive step and holds the previous result when that is in [0, 1]. |
| ClosestPoint.ClosestParam | Assets/SplinesPathSystem/Scripts/Spline/SplineDistanceFunctions.cs:86-104 | The number of passes is the iteration count clamped to [0, 5]. After any pass the result lies in [0, 1], and the last search is a window inside [0, 1] sampled with a tenth of the last pass's offset. With no pass the last search is the first one, over the given range, and an empty range gives 0. Whenever a search ran the result is its first sample of least distance. |
| ClosestPoint.Refine | Assets/SplinesPathSystem/Scripts/Spline/SplineDistanceFunctions.cs:94-100 | One refinement pass searches the window of that pass around the previous result, a window with a tenth of the offset as step, and keeps its first sample of least distance, which lies in [0, 1]. |
| ClosestPoint.RefineNoWorse | Assets/SplinesPathSystem/Scripts/Spline/SplineDistanceFunctions.cs:94-100 | When a refinement window is not clamped, the previous result is its eleventh sample, so the pass ends at least as close as it started. |
| ClosestPoint.BestOfUnique | Assets/SplinesPathSystem/Scripts/Spline/SplineDistanceFunctions.cs:106-123 | Two searches over the same range and step keep the same sample. |
| ClosestPoint.Offset | Assets/SplinesPathSystem/Scripts/Spline/SplineDistanceFunctions.cs:94 | The offset of a pass is positive and is 10 to the power -(pass + 2). |
| ClosestPoint.DistancesVanishOnTarget | Assets/SplinesPathSystem/Scripts/Spline/SplineDistanceFunctions.cs:29-84 | None of the three distances is negative; the point distance is 0 at the point, the ray distance is 0 on the ray's line, and the plane distance is 0 exactly on the plane. |
| ClosestPoint.GetClosestPointParam | Assets/SplinesPathSystem/Scripts/Spline/SplineDistanceFunctions.cs:29-32 | The closest parameter to a point is the first sample of least distance of the last search, which with no pass is the given range; with at least one refinement pass it lies in [0, 1]. |
| ClosestPoint.GetClosestPointParamToRay | Assets/SplinesPathSystem/Scripts/Spline/SplineDistanceFunctions.cs:55-58 | The closest parameter to a ray is the first sample of least distance of the last search, which with no pass is the given range; with at least one refinement pass it lies in [0, 1]. |
| ClosestPoint.GetClosestPointParamToPlane | Assets/SplinesPathSystem/Scripts/Spline/SplineDistanceFunctions.cs:81-84 | The closest parameter to a plane is the first sample of least distance of the last search, which with no pass is the given range; with at least one refinement pass it lies in [0, 1]. |
| PathCodec.LittleEndian | Assets/SplinesPathSystem/Editor/SplinePrefab2Bin.cs:44-55 | A value is written as exactly as many bytes as its width. |
| PathCodec.FromLittleEndian | Assets/Scripts/PathMgr.cs:34-43 | Reading n bytes gives a value below 256^n. |
| PathCodec.ReadWritten | Assets/Scripts/PathMgr.cs:34-43 | Reading back the bytes written for a value that fits gives that value. |
| PathCodec.Unsigned | Assets/SplinesPathSystem/Editor/SplinePrefab2Bin.cs:46 | The two's-complement pattern of a signed value fits in its width. |
| PathCodec.Signed | Assets/Scripts/PathMgr.cs:37 | The signed reading of a pattern lies in the signed range of its width. |
| PathCodec.SignedUnsigned | Assets/Scripts/PathMgr.cs:34-40 | Two's complement is a bijection between the signed range and the patterns of its width, in both directions. |
| PathCodec.ToInt16 | Assets/SplinesPathSystem/Editor/SplinePrefab2Bin.cs:46 | The cast to short lies in [-32768, 32768) and leaves values already in that range unchanged. |
| PathCodec.SignBitNegates | Assets/Scripts/PathMgr.cs:43 | Setting the sign bit of a finite single negates its value, and the all-zero pattern is 0. |
| PathCodec.SignBitFields | Assets/Scripts/PathMgr.cs:43 | The sign bit leaves the exponent and the fraction unchanged. |
| PathCodec.PointBytes | Assets/SplinesPathSystem/Editor/SplinePrefab2Bin.cs:52-55 | A position is written as 12 bytes. |
| PathCodec.PointAtBytes | Assets/Scripts/PathMgr.cs:43 | The 12 bytes written for a position read back as that position, whatever follows. |
| PathCodec.PointsBytes | Assets/SplinesPathSystem/Editor/SplinePrefab2Bin.cs:50-56 | n positions take 12n bytes. |
| PathCodec.ReadPoints | Assets/Scripts/PathMgr.cs:41-45 | Reading n triples gives n points. |
| PathCodec.ReadWrittenPoints | Assets/Scripts/PathMgr.cs:41-45 | Reading back the triples written for a list of positions gives the list, in order, whatever follows. |
| PathCodec.Header | Assets/SplinesPathSystem/Editor/SplinePrefab2Bin.cs:44-48 | The signature, the mode and the count take 10 bytes. |
| PathCodec.Encode | Assets/SplinesPathSystem/Editor/SplinePrefab2Bin.cs:42-56 | Writing fails exactly when an entry of the node array is null; otherwise the output is 10 + 12n bytes starting with the signature bytes 18 08 35 02. |
| PathCodec.Positions | Assets/SplinesPathSystem/Editor/SplinePrefab2Bin.cs:50-52 | The positions of a null-free node array are its entries, in order. |
| PathCodec.Overwrite | Assets/SplinesPathSystem/Editor/SplinePrefab2Bin.cs:40 | Opening without truncation leaves the payload at the front and the tail of a longer older file after it. |
| PathCodec.Decode | Assets/Scripts/PathMgr.cs:30-45 | Reading succeeds exactly when the header and as many triples as the (non-negative part of the) count are present, and returns the signature, the mode and that many points. |
| PathCodec.DecodeWhole | Assets/Scripts/PathMgr.cs:30-45 | A file ending right after its last triple reads as its header fields and its triples. |
| PathCodec.TrailingBytesIgnored | Assets/Scripts/PathMgr.cs:30-45 | Bytes after a readable file change nothing read. |
| PathCodec.HeaderReadsBack | Assets/Scripts/PathMgr.cs:34-40 | The written header reads back as the signature, the mode cast to short and the count. |
| PathCodec.DecodePayload | Assets/Scripts/PathMgr.cs:30-45 | Reading what was written gives the signature, the mode cast to short and every position in order. |
| PathCodec.DecodeWritten | Assets/Scripts/PathMgr.cs:30-45 | Reading a header followed by written positions gives those positions. |
| PathCodec.ReadBody | Assets/Scripts/PathMgr.cs:41-45 | The triples after a 10-byte header read back as the written positions. |
| PathCodec.DecodeEncode | Assets/Scripts/PathMgr.cs:30-45 | Reading the file after a save gives the saved mode and positions, whatever an older, longer file leaves behind. |
| PathCodec.SignatureNotChecked | Assets/Scripts/PathMgr.cs:34-36 | Whether a file reads does not depend on its signature. |
| PathCodec.ParseBin2Curve | Assets/Scripts/PathMgr.cs:30-48 | Loading fails exactly when reading fails. Otherwise the curve is open, has accuracy 5 and the mode read, and holds the positions read when there are at least two, none otherwise. With at least two positions its table is the normalisation of the positions' own lengths. |
| PathCodec.LoadedPathTable | Assets/Scripts/PathMgr.cs:30-48 | A loaded path with two positions or more and a positive length has a normalised table: five lengths per segment, non-negative and summing to 1, and positions running from 0 to 1 without going back. |
| PathCodec.LoadedHermitePathEnd | Assets/Scripts/PathMgr.cs:30-48 | A loaded Hermite path with two positions or more, read at parameter 1, gives its last position but one, where its positions end at the last one. |
| PathCodec.LoadedTableNormalised | Assets/Scripts/PathMgr.cs:46 | The same for the positions alone. |
| PathCodec.Vectors | Assets/Scripts/PathMgr.cs:43-46 | Each point becomes the vector of its coordinates, in order. |
| PathCodec.SaveThenLoad | Assets/Scripts/PathMgr.cs:30-48 | Saving a spline with at least two non-null nodes and a named mode, then loading, gives an open curve with the same mode and positions. |
| EditorHelpers.Digits | Assets/SplinesPathSystem/Editor/SplineEditor.cs:79 | The decimal text of a number is a non-empty run of digits. |
| EditorHelpers.ParseDigitsOf | Assets/SplinesPathSystem/Editor/SplineEditor.cs:79 | The decimal text of a number reads back as that number. |
| EditorHelpers.LeadingZerosIgnored | Assets/SplinesPathSystem/Editor/SplineEditor.cs:75-79 | Zeros put in front of a digit string do not change the number it reads as. |
| EditorHelpers.GetNodeName | Assets/SplinesPathSystem/Editor/SplineEditor.cs:71-80 | A node name is the number's text behind at most three zeros: four characters for 0 to 9999, no padding from 1000 on, "000-" before the digits of a negative number, and reading back a non-negative number's name gives the number. |
| EditorHelpers.NodeNameParts | Assets/SplinesPathSystem/Editor/SplineEditor.cs:71-80 | The padding followed by the number's text has four characters for 0 to 9999, is the bare text from 1000 on and "000-" and the digits for a negative number. |
| EditorHelpers.PadSize | Assets/SplinesPathSystem/Editor/SplineEditor.cs:75-77 | The padding is three zeros below 10, two below 100, one below 1000 and none from 1000 on. |
| EditorHelpers.SetupChildrenNames | Assets/SplinesPathSystem/Editor/SplineEditor.cs:57-69 | The four nodes of a new spline are named "0000" to "0003". |
| EditorHelpers.SmallName | Assets/SplinesPathSystem/Editor/SplineEditor.cs:71-80 | A one-digit index is named by three zeros and its digit. |
| EditorHelpers.BezierWarningCount | Assets/SplinesPathSystem/Editor/SplineEditorInspector.cs:157-165 | The warning is shown exactly when there are more than three nodes and the count is not one more than a multiple of three; it names a count of the form 3k+1 that is below the node count by at most two. |
| EditorHelpers.WarningAgreesWithSpline | Assets/SplinesPathSystem/Editor/SplineEditorInspector.cs:157-165 | The count the warning names is the number of nodes the Bézier spline uses. |
| EditorHelpers.BezierWarning | Assets/SplinesPathSystem/Editor/SplineEditorInspector.cs:35-36 | The warning text is the template with its placeholder replaced by digits that read as the warned count, shown exactly when that count is. |
| EditorHelpers.MaxSegmentCount | Assets/SplinesPathSystem/Editor/SplineMeshInspector.cs:274-292 | Without a spline or base mesh the whole budget of 65000 is returned; a base mesh without vertices divides by zero; otherwise the result is the number of whole base meshes that fit in what the caps leave. |
| EditorHelpers.FloorFits | Assets/SplinesPathSystem/Editor/SplineMeshInspector.cs:291 | Subtracting the remainder and dividing gives the floor of the quotient for a non-negative budget. |
| EditorHelpers.PruneKeys | Assets/SplinesPathSystem/Editor/SplineNodeInspector.cs:36-47 | A key survives exactly when its spline is alive and still holds the node; no key is added. |
| EditorHelpers.PruneKeysIdempotent | Assets/SplinesPathSystem/Editor/SplineNodeInspector.cs:36-47 | Pruning a pruned key list removes nothing more. |
| EditorHelpers.DisambiguateNames | Assets/SplinesPathSystem/Editor/SplineNodeInspector.cs:82-98 | One popup entry per key: each is its spline's name followed only by stars, no two are equal, each has the fewest stars not taken by an earlier entry, and distinct names are kept as they are. |
| EditorHelpers.AddNames | Assets/SplinesPathSystem/Editor/SplineNodeInspector.cs:85-98 | After the loop over all keys every key has its entry and the loop's invariant holds. |
| EditorHelpers.AddName | Assets/SplinesPathSystem/Editor/SplineNodeInspector.cs:87-97 | One turn of the loop adds the key's entry and keeps the invariant. |
| EditorHelpers.Finished | Assets/SplinesPathSystem/Editor/SplineNodeInspector.cs:82-98 | The loop's invariant after the last key gives the whole contract of the entry list. |
| EditorHelpers.Unused | Assets/SplinesPathSystem/Editor/SplineNodeInspector.cs:91-96 | The name with the fewest added stars that no entry has yet. |
| EditorHelpers.Extend | Assets/SplinesPathSystem/Editor/SplineNodeInspector.cs:87-97 | Appending the entry found for the next key keeps the invariant. |
| EditorHelpers.StarredShortest | Assets/SplinesPathSystem/Editor/SplineNodeInspector.cs:87-88 | A free name is taken unstarred. |
| EditorHelpers.PopupIndex | Assets/SplinesPathSystem/Editor/SplineNodeInspector.cs:100-103 | The selected index points at the remembered spline when it is still a key, and is 0 otherwise. |
| EditorHelpers.NextNode | Assets/SplinesPathSystem/Editor/SplineNodeInspector.cs:169-170 | The next-node target fails (division by zero) exactly for an empty node list. |
| EditorHelpers.NavigationInverse | Assets/SplinesPathSystem/Editor/SplineNodeInspector.cs:166-170 | For a node of the list both targets are in range and previous and next undo each other; a node missing from the list gets the first node as next and -2 as previous. |
| EditorHelpers.Plural | Assets/SplinesPathSystem/Editor/CustomArrayDrawer.cs:42-55 | The plural is longer than the name and ends in 's'; it keeps the name, less a final 'y', in front. |
| EditorHelpers.PluralSuffix | Assets/SplinesPathSystem/Editor/CustomArrayDrawer.cs:42-55 | The plural adds "s" or "es", or replaces a final 'y' by "ies"; the plural of a plural adds "es". |
| Common.CsRem | Assets/SplinesPathSystem/Scripts/Spline/Spline.cs:597 | C#'s remainder: the dividend is quotient times divisor plus remainder, and the remainder has the dividend's sign and is smaller than the divisor in size. |
| Common.Clamp01 | Assets/SplinesPathSystem/Scripts/Spline/Spline.cs:420 | The result lies in [0, 1] and a value already there is kept. |
| Common.IndexOf | Assets/SplinesPathSystem/Scripts/Spline/Spline.cs:518 | -1 exactly when the item is absent; otherwise the position of its first occurrence. |
| Common.Remove | Assets/SplinesPathSystem/Scripts/Spline/Spline.cs:552 | An absent item leaves the list alone; otherwise exactly one occurrence is removed. |
| Common.Insert | Assets/SplinesPathSystem/Scripts/Spline/Spline.cs:523 | The item lands at the given position, with the entries before it unchanged and those after it shifted by one. |
| Common.RemoveInserted | Assets/SplinesPathSystem/Scripts/Spline/Spline.cs:507-555 | Removing an item just inserted into a list that did not hold it gives the list back. |


## Left out

- Float32ToReal (PathCodec): a binary32 pattern with exponent 255 reads as 0. `BinaryReader.ReadSingle` gives ±Infinity or NaN for these patterns, and `ParseBin2Curve` uses them as coordinates. The model's coordinates are reals, which have neither.
- SetupSplinePositions (SplineLength): each position in the internal node list gets its own `NodeParameters`. In the code, `node.Parameters[spline]` is one shared object per node and spline (SplineNode.cs:72-81). So a node listed twice has its length and position accumulated or overwritten, not kept per occurrence, and the model does not show that aliasing.
- SearchSegment (ClosestPoint): requires `step > 0 || start > end`. With a step that is not positive and a non-empty range the code's loop never ends (see "## Findings"). The guarded `SearchSegmentGuarded` covers that input.
- ClosestParam (ClosestPoint): same requirement as `SearchSegment`, for the same reason. The same holds for the three public entry points `GetClosestPointParam`, `GetClosestPointParamToRay` and `GetClosestPointParamToPlane`, which pass the step through.
- AddSplineNode (SplineEditing): updates with the intended `UpdateSpline`, while Spline.cs:507-528 calls the update as written. On arrays with nulls among the first entries the code can lose a node or keep a null (see `TwoNullsLeaveANull`). `AddSplineNodeAsWritten` models the code's behaviour and agrees with it on arrays without nulls.
- RemoveSplineNode (SplineEditing): updates with the intended `UpdateSpline`, for the same reason as `AddSplineNode`. `RemoveSplineNodeAsWritten` models the code's behaviour.
- RemoveUndoesAdd (SplineEditing): stated for the intended update. `RemoveUndoesAddAsWritten` states it for the update as written on arrays without nulls.
- BendMesh (SplineMeshing): requires room for the vertices and triangles and does not check the uv, normal and tangent arrays. `UpdateMesh` checks those with `VertexArraysFitAll` before it bends, and reports `OutOfRange` where the code throws.
- DistancesVanishOnTarget (ClosestPoint): for the point and ray distances only "on target implies 0" is proved, not the converse. The converse needs the fact that a sum of squares vanishes only when each term does, which the solver does not find here. For the plane distance both directions are proved.
- SegmentLength (SplineLength): requires a positive step. `GetSegmentLengthInternal` is private, and its only caller passes a fifth of a positive sub-segment width. With any other step the loop would never end.
- Configured (EditorSpline): the editor spline is modelled with a positive `interpolationAccuracy` only. With 0 the code divides by zero in `RecalculateParameter` (Spline.cs:579) and builds an empty table.
- GetPositionOnCurve (RuntimeCurve): under the source's policy the value is stated only for a cache sound for the kind of window the mode loads. A Hermite curve whose cache holds a B-spline window is stated only for the case measuring leaves, in its last segment (`HermiteReadsLastWindow` with `SetPointsLeavesLastWindow`).
- PositionIn (RuntimeCurve): the same limit as `GetPositionOnCurve`.
- GetTangent (RuntimeCurve): under the source's policy the value is stated only for a cache sound for B-spline reads. A cache holding a Hermite window is stated only at the start of `PointsA` (`HermiteWindowServedToTangent`) and inside `PosAndRot`.
- TangentIn (RuntimeCurve): the same limit as `GetTangent`.
- GetOrientation (RuntimeCurve): the same limit as `GetTangent`.
- PosAndRot (RuntimeCurve): under the source's policy, in Hermite mode, the values are stated only for a cache sound for Hermite reads. A cache still holding the B-spline window measuring left is not stated here.
- Tangent modes of the Hermite interpolator: only `UseTangents` is modelled. `UseNormalizedTangents` and `UseNodeForwardVector` need vector normalisation and node transforms.
- `BranchingSpline.Advance` stepping: only its recursion guard is modelled. Its float stepping and 0.001 nudges depend on `Mathf.Approximately`.
- Square root, vector magnitude and trigonometry are function parameters: `NormFn` is any non-negative function, and `Trig` holds acos, sin, cos and sqrt. Only the exact cases of `GetQuatLog` and `GetQuatExp` are stated.
- `GetSquadIntermediate` and the squad blend are left out beyond the repeated-unit-quaternion case, because they need the transcendental functions.
- Float rounding and `Mathf.Approximately`: the model uses exact reals. Range tests are exact comparisons, and float sums are exact sums.
- `Quaternion.LookRotation` is kept symbolic: an orientation records its forward and up vectors.
- Node transforms are not modelled: normals, `FastRotation`, the vertex transforms of `BendMesh`, and the sine, animation-curve and Euler mesh modifiers. Only the cursors and the triangle offsets of `BendMesh` are modelled.
- Unity lifecycle and update scheduling are not modelled: `OnEnable`, `LateUpdate`, `UpdateMode` and frame counts.
- GUI and drawing are not modelled: gizmos, scene handles, inspector layout and drag-and-drop.
- File and asset I/O: streams, `File.Exists`, prefabs and the asset database. Only the byte sequences are modelled, and the file's earlier contents are a parameter.
- Physics (`SplineGravitySimulator`, `SplineAutoAlign`) is not modelled.
- The game glue is not modelled: fish, guns, bullet creation, `Main` and the resource managers. The movement controllers' `WrapValue` relies on `Mathf.Repeat` and `Mathf.PingPong`, which are not part of this model.
- `SplinePathData` is not modelled: it holds data and has no behaviour.
- `Debug.Assert` on the path signature is not modelled: it does not stop parsing, and the model proves that the signature is ignored.

## Findings

| source | as written | input that shows it | evidently intended | confidence | as-written member | corrected member |
|---|---|---|---|---|---|---|
| Assets/SplinesPathSystem/Scripts/Spline/Curve.cs:128 | Simpson's rule takes its third sample at `beginValue + endValue` | accuracy 2, sub-segment [0.5, 1.0]: the speed is sampled at t = 1.5, outside the segment | the third sample at `endValue`, so that the rule is exact for cubic speeds | not executed | CurveBasis.SimpsonAsWrittenMisplacesLastSample | CurveBasis.SimpsonExactOnCubics |
| Assets/SplinesPathSystem/Scripts/Spline/Curve.cs:341-344 | the tangent weights are the position powers shifted down by one, without the exponent factors | a closed unit square: segment 1 ends with tangent (0, 0.66667, 0), and segment 2 starts with a different one | the B-spline first derivative, which `GetSplineSpeed` already uses; it is continuous at joints | not executed | CurveBasis.TangentAsWrittenBreaksAtJoint | CurveBasis.TangentContinuousAtJoints |
| Assets/SplinesPathSystem/Scripts/Spline/Curve.cs:85-102 | the four-node window cache is keyed by segment index only, and `SetPoints` never resets it | an open B-spline curve read at its start and then reused for other points, with the caller supplying the length table, still reads its start from the old window: x = 0.16667 instead of 5.16672 (the path loader builds a fresh curve for each file, so it does not meet this case; it meets the Hermite one below) | the cache is dropped when the points change, and keyed by the kind of window | not executed | RuntimeCurve.StaleWindowAfterSetPoints | RuntimeCurve.FreshWindowAfterChanges |
| Assets/SplinesPathSystem/Scripts/Spline/Curve.cs:266-277 | the Hermite branch of `getPositionIn` reuses whatever window its segment index finds cached, and measuring (lines 434-443) leaves the B-spline window of the last segment there | a fresh Hermite curve through (0, 0, 0) and (1, 0, 0), as the path loader builds for a Hermite path, read at parameter 1 right after `SetPoints`, gives (0, 0, 0) instead of (1, 0, 0); in general a loaded open Hermite path ends at its last node but one | the cache keyed by the kind of window as well, so the Hermite branch loads its own window | not executed | RuntimeCurve.HermitePointsAEndAsWritten | RuntimeCurve.KeyedHermiteEnd |
| Assets/SplinesPathSystem/Scripts/Spline/Curve.cs:181-188 | the empty-curve branch of `PosAndRotOnCurve` sets its outputs but does not return | a curve without points: `RecalculateParam` and `getPositionIn` then index an empty array | return right after setting zero and the identity | not executed | RuntimeCurve.PosAndRotMissingReturn | RuntimeCurve.PosAndRot |
| Assets/SplinesPathSystem/Scripts/Spline/Spline.cs:207-208 | `Remove(null)` removes only the first null of the relevant range | Hermite, array [null, A, B]: the list is [A]. The array [null, null, A, B] keeps a null in the list | every null is dropped from the relevant nodes | not executed | EditorSpline.LeadingNullLosesANode | EditorSpline.UpdateSpline |
| Assets/SplinesPathSystem/Scripts/Utilities/QuaternionUtils.cs:27-37 | `Normalized` divides each component by the squared norm | the linear blend halfway between the identity (0, 0, 0, 1) and the half turn about x, (1, 0, 0, 0), is (0.5, 0, 0, 0.5), which becomes (1, 0, 0, 1), of squared length 2, not a unit quaternion | divide by the norm, giving a unit quaternion | not executed | Interpolator.HalfwayRotationNotUnit | QuaternionUtils.NormalizeAgreesOnUnitQuaternions |
| Assets/SplinesPathSystem/Scripts/Spline/Spline.cs:463-469 | `AddSplineNode()` inserts after the first occurrence of the last entry, or at the front when that entry is null | array [A, null]: the new node goes to the front, giving [X, A, null] | append at the end of the array | not executed | SplineEditing.AppendAfterTrailingNull | SplineEditing.RemoveUndoesAppend |
| Assets/SplinesPathSystem/Scripts/SplineMesh/SplineMesh.cs:346-372 | `SetupMeshBuffers` passes both cap meshes and subtracts one middle segment per cap, whatever the segment count | one segment, a 4-vertex base mesh and start cap, a 2-vertex end cap: the buffer gets 4 + 2 − 4 = 2 vertices, while the only segment copies the start cap's 4 | a single segment carries at most one cap, so the buffer fits the segments that are bent | not executed | SplineMeshing.OneSegmentTwoCapsMisfit | SplineMeshing.BuffersFitSegments |
| Assets/SplinesPathSystem/Scripts/Spline/SplineDistanceFunctions.cs:111-123 | `for (param = start; param <= end; param += step)` with a public `step` parameter | step 0 (or negative) and start ≤ end: every sample stays at or below end, so the loop never ends | reject a step that is not positive | not executed | ClosestPoint.SampleNeverPassesEnd | ClosestPoint.SearchSegmentGuarded |

=== FILE: branching.dfy ===
/** `BranchingSpline`: several splines that share nodes, joined at those
    nodes into a network of paths. Only the discrete rules are modelled:
    how a parameter is normalised, which paths are offered at a junction,
    the neighbours of a node, the direction test and the guard that bounds
    the recursion of `Advance`. Splines are known by identity; what a
    spline's `SplineNodes` and `SegmentNodes` hold is given as functions of
    that identity. */
module Branching {
  import opened Common
  import opened SplineNodes

  datatype Direction = Forwards | Backwards

  /** `BranchingSplinePath`. */
  datatype Path = Path(spline: SplineRef, direction: Direction)

  /** `BranchingSplineParameter`: a path whose spline may be null, and a
      normalised parameter on it. */
  datatype Param = Param(spline: Option<SplineRef>, direction: Direction, parameter: real)

  // ------------------------------------------------------------ parameters

  /** `CheckParameter`: with splines available, a null or foreign spline
      becomes the first one and the parameter is clamped to [0, 1]; with
      none, nothing changes. */
  function CheckParameter(splines: seq<SplineRef>, p: Param): (r: Param)
    ensures splines == [] ==> r == p
    ensures r.direction == p.direction
    ensures splines != [] ==> r.spline.Some? && r.spline.value in splines && 0.0 <= r.parameter <= 1.0
    ensures splines != [] && p.spline.Some? && p.spline.value in splines ==> r.spline == p.spline
    ensures splines != [] && (p.spline.None? || p.spline.value !in splines) ==> r.spline == Some(splines[0])
    ensures splines != [] && 0.0 <= p.parameter <= 1.0 ==> r.parameter == p.parameter
  {
    if splines == [] then p
    else
      var s := if p.spline.None? || p.spline.value !in splines then Some(splines[0]) else p.spline;
      Param(s, p.direction, Clamp01(p.parameter))
  }

  /** Checking a checked parameter changes nothing. */
  lemma CheckParameterIdempotent(splines: seq<SplineRef>, p: Param)
    ensures CheckParameter(splines, CheckParameter(splines, p)) == CheckParameter(splines, p)
  {
  }

  // ------------------------------------------------------------ neighbours

  /** `GetAdjacentSegmentNodes`: the segment nodes before and after the
      node's first occurrence, null past either end. A node that is not a
      segment node has index -1: no predecessor, and the first segment
      node as "successor". */
  function Adjacent(segmentNodes: seq<SplineNode>, node: SplineNode): (r: (Option<SplineNode>, Option<SplineNode>))
    ensures node !in segmentNodes ==> r == (None, if |segmentNodes| > 0 then Some(segmentNodes[0]) else None)
    ensures node in segmentNodes ==>
              var i := IndexOf(segmentNodes, node);
              && (r.0.Some? <==> i > 0) && (r.0.Some? ==> r.0.value == segmentNodes[i - 1])
              && (r.1.Some? <==> i < |segmentNodes| - 1) && (r.1.Some? ==> r.1.value == segmentNodes[i + 1])
  {
    var index := IndexOf(segmentNodes, node);
    (if index <= 0 then None else Some(segmentNodes[index - 1]),
     if index >= |segmentNodes| - 1 then None else Some(segmentNodes[index + 1]))
  }

  /** Walking to either neighbour and back from it returns to the node,
      when every segment node occurs once. */
  lemma AdjacentInverse(segmentNodes: seq<SplineNode>, i: nat)
    requires i < |segmentNodes|
    requires forall a, b :: 0 <= a < b < |segmentNodes| ==> segmentNodes[a] != segmentNodes[b]
    ensures var (before, after) := Adjacent(segmentNodes, segmentNodes[i]);
            && (after.Some? ==> Adjacent(segmentNodes, after.value).0 == Some(segmentNodes[i]))
            && (before.Some? ==> Adjacent(segmentNodes, before.value).1 == Some(segmentNodes[i]))
  {
    FirstOccurrence(segmentNodes, i);
    if i + 1 < |segmentNodes| {
      FirstOccurrence(segmentNodes, i + 1);
    }
    if i > 0 {
      FirstOccurrence(segmentNodes, i - 1);
    }
  }

  /** In a list without repeats every entry's first occurrence is itself. */
  lemma FirstOccurrence(s: seq<SplineNode>, i: nat)
    requires i < |s|
    requires forall a, b :: 0 <= a < b < |s| ==> s[a] != s[b]
    ensures IndexOf(s, s[i]) == i
  {
  }

  /** `ForwardOnSpline`: whether an offset moves towards the spline's end,
      read against the path's direction. */
  function ForwardOnSpline(direction: Direction, v: real): bool {
    if direction == Forwards then v > 0.0 else v < 0.0
  }

  /** A zero offset never counts as forward, and reversing the direction
      is the same as negating the offset. */
  lemma ForwardOnSplineSymmetric(v: real)
    ensures !ForwardOnSpline(Forwards, 0.0) && !ForwardOnSpline(Backwards, 0.0)
    ensures ForwardOnSpline(Backwards, v) == ForwardOnSpline(Forwards, -v)
  {
  }

  /** `IsMiddleNode`: the node's first occurrence is neither the first nor
      the last index. An absent node (index -1) counts as a middle node
      unless the list is empty. */
  function IsMiddleNode(nodes: seq<SplineNode>, node: SplineNode): (r: bool)
    ensures node in nodes ==> (r <==> 0 < IndexOf(nodes, node) < |nodes| - 1)
    ensures node !in nodes ==> (r <==> |nodes| > 0)
  {
    var index := IndexOf(nodes, node);
    !(index == 0) && !(index == |nodes| - 1)
  }

  // ------------------------------------------------------------ junctions

  /** One entry for each occurrence of `node` in `nodes`. */
  function Occurrences(id: SplineRef, nodes: seq<SplineNode>, node: SplineNode): (r: seq<SplineRef>)
    ensures |r| == multiset(nodes)[node]
    ensures forall k :: 0 <= k < |r| ==> r[k] == id
  {
    if nodes == [] then []
    else
      assert nodes == [nodes[0]] + nodes[1..];
      (if nodes[0] == node then [id] else []) + Occurrences(id, nodes[1..], node)
  }

  /** `GetSplinesForNode`: each spline listed once per occurrence of the
      node among its `SplineNodes` (and again for each time the spline
      itself is listed). */
  function GetSplinesForNode(splines: seq<SplineRef>, nodesOf: SplineRef -> seq<SplineNode>, node: SplineNode)
    : (r: seq<SplineRef>)
    ensures forall s :: s in r <==> s in splines && node in nodesOf(s)
    ensures |r| == TotalOccurrences(splines, nodesOf, node)
  {
    if splines == [] then []
    else
      var head := Occurrences(splines[0], nodesOf(splines[0]), node);
      var rest := GetSplinesForNode(splines[1..], nodesOf, node);
      assert node in nodesOf(splines[0]) <==> |head| > 0;
      assert forall s :: s in head ==> s == splines[0];
      assert |head| > 0 ==> head[0] in head;
      head + rest
  }

  /** `GetSplinesForNode` lists each spline as often as the spline is
      listed times the number of times the node occurs among its nodes. */
  lemma {:induction false} SplinesForNodeCounts(splines: seq<SplineRef>, nodesOf: SplineRef -> seq<SplineNode>, node: SplineNode)
    ensures forall s :: multiset(GetSplinesForNode(splines, nodesOf, node))[s] == multiset(splines)[s] * multiset(nodesOf(s))[node]
    decreases |splines|
  {
    if splines != [] {
      SplinesForNodeCounts(splines[1..], nodesOf, node);
      CountStep(splines, nodesOf, node, GetSplinesForNode(splines[1..], nodesOf, node));
    }
  }

  /** One step of `GetSplinesForNode`'s count: the first spline's
      occurrences in front of a correct count for the rest. */
  lemma CountStep(splines: seq<SplineRef>, nodesOf: SplineRef -> seq<SplineNode>, node: SplineNode, rest: seq<SplineRef>)
    requires splines != []
    requires forall s :: multiset(rest)[s] == multiset(splines[1..])[s] * multiset(nodesOf(s))[node]
    ensures forall s :: multiset(Occurrences(splines[0], nodesOf(splines[0]), node) + rest)[s]
                          == multiset(splines)[s] * multiset(nodesOf(s))[node]
  {
    forall s
      ensures multiset(Occurrences(splines[0], nodesOf(splines[0]), node) + rest)[s]
                == multiset(splines)[s] * multiset(nodesOf(s))[node]
    {
      OccurrencesCount(splines[0], nodesOf(splines[0]), node, s);
      CountAt(splines, nodesOf(s), node, rest, s, Occurrences(splines[0], nodesOf(splines[0]), node));
    }
  }

  /** `CountStep` for one spline `s`, whose node list is `nodes`. */
  lemma CountAt(splines: seq<SplineRef>, nodes: seq<SplineNode>, node: SplineNode, rest: seq<SplineRef>, s: SplineRef, head: seq<SplineRef>)
    requires splines != []
    requires multiset(rest)[s] == multiset(splines[1..])[s] * multiset(nodes)[node]
    requires multiset(head)[s] == if s == splines[0] then multiset(nodes)[node] else 0
    ensures multiset(head + rest)[s] == multiset(splines)[s] * multiset(nodes)[node]
  {
    var m := multiset(nodes)[node];
    var below := multiset(splines[1..])[s];
    assert multiset(splines)[s] == below + (if s == splines[0] then 1 else 0) by {
      assert splines == [splines[0]] + splines[1..];
      assert multiset(splines) == multiset{splines[0]} + multiset(splines[1..]);
    }
    assert multiset(head + rest)[s] == multiset(head)[s] + multiset(rest)[s] by {
      assert multiset(head + rest) == multiset(head) + multiset(rest);
    }
    OneMoreTimes(below, m, s == splines[0], multiset(head)[s], multiset(rest)[s]);
  }

  /** The arithmetic of `CountAt`: one more listing adds one more `m`. */
  lemma OneMoreTimes(below: nat, m: nat, first: bool, here: nat, later: nat)
    requires later == below * m
    requires here == if first then m else 0
    ensures here + later == (below + if first then 1 else 0) * m
  {
    if first {
      assert (below + 1) * m == below * m + m;
    }
  }

  /** The occurrences of a node name one spline, as often as the node occurs. */
  lemma {:induction false} OccurrencesCount(id: SplineRef, nodes: seq<SplineNode>, node: SplineNode, s: SplineRef)
    ensures multiset(Occurrences(id, nodes, node))[s] == if s == id then multiset(nodes)[node] else 0
    decreases |nodes|
  {
    if nodes != [] {
      OccurrencesCount(id, nodes[1..], node, s);
      assert nodes == [nodes[0]] + nodes[1..];
      assert multiset(nodes) == multiset{nodes[0]} + multiset(nodes[1..]);
      var first: seq<SplineRef> := if nodes[0] == node then [id] else [];
      assert multiset(first + Occurrences(id, nodes[1..], node)) == multiset(first) + multiset(Occurrences(id, nodes[1..], node));
    }
  }

  /** How often the node occurs over all the splines. */
  function TotalOccurrences(splines: seq<SplineRef>, nodesOf: SplineRef -> seq<SplineNode>, node: SplineNode): nat {
    if splines == [] then 0 else multiset(nodesOf(splines[0]))[node] + TotalOccurrences(splines[1..], nodesOf, node)
  }

  /** What `ChoseSpline` does: keep the current path without asking when
      the node belongs to the current spline alone, or ask the controller
      to pick from these candidates. */
  datatype Choice = Keep(path: Path) | Ask(candidates: seq<Path>)

  /** The paths offered at a spline other than the current one: both
      directions through a middle node, and one direction at an end node,
      which depends on the sign of the offset. */
  function OffersAt(s: SplineRef, nodes: seq<SplineNode>, node: SplineNode, positive: bool): (r: seq<Path>)
    ensures IsMiddleNode(nodes, node) ==> r == [Path(s, Forwards), Path(s, Backwards)]
    ensures forall k :: 0 <= k < |r| ==> r[k].spline == s
    ensures !IsMiddleNode(nodes, node) && IndexOf(nodes, node) == 0 ==>
              Path(s, if positive then Forwards else Backwards) in r
    ensures !IsMiddleNode(nodes, node) && IndexOf(nodes, node) == |nodes| - 1 ==>
              Path(s, if positive then Backwards else Forwards) in r
    ensures !IsMiddleNode(nodes, node) ==> forall p :: p in r ==>
              || (IndexOf(nodes, node) == 0 && p == Path(s, if positive then Forwards else Backwards))
              || (IndexOf(nodes, node) == |nodes| - 1 && p == Path(s, if positive then Backwards else Forwards))
  {
    if IsMiddleNode(nodes, node) then [Path(s, Forwards), Path(s, Backwards)]
    else
      var index := IndexOf(nodes, node);
      (if index == 0 then [Path(s, if positive then Forwards else Backwards)] else [])
      + (if index == |nodes| - 1 then [Path(s, if !positive then Forwards else Backwards)] else [])
  }

  /** The offers of every other spline in `possible`, in order. */
  function OffersOf(possible: seq<SplineRef>, current: SplineRef, nodesOf: SplineRef -> seq<SplineNode>,
                    node: SplineNode, positive: bool): (r: seq<Path>)
    ensures forall k :: 0 <= k < |r| ==> r[k].spline != current && r[k].spline in possible
    ensures forall k :: 0 <= k < |r| ==> r[k] in OffersAt(r[k].spline, nodesOf(r[k].spline), node, positive)
    ensures forall s :: s in possible && s != current ==>
              forall p :: p in OffersAt(s, nodesOf(s), node, positive) ==> p in r
  {
    if possible == [] then []
    else
      var here := if possible[0] == current then [] else OffersAt(possible[0], nodesOf(possible[0]), node, positive);
      here + OffersOf(possible[1..], current, nodesOf, node, positive)
  }

  /** `ChoseSpline`'s decision at a junction node. */
  function ChoseSpline(splines: seq<SplineRef>, nodesOf: SplineRef -> seq<SplineNode>, node: SplineNode,
                       current: Path, positive: bool): (r: Choice)
    ensures var possible := GetSplinesForNode(splines, nodesOf, node);
            r.Keep? <==> |possible| == 1 && possible[0] == current.spline
    ensures r.Keep? ==> r.path == current
    ensures r.Ask? ==> (current in r.candidates <==> IsMiddleNode(nodesOf(current.spline), node))
    ensures r.Ask? ==> forall p :: p in r.candidates ==>
              p == current || (p.spline != current.spline && p.spline in splines && node in nodesOf(p.spline))
    ensures r.Ask? ==> forall s :: s in splines && s != current.spline && node in nodesOf(s) ==>
              forall p :: p in OffersAt(s, nodesOf(s), node, positive) ==> p in r.candidates
    ensures r.Ask? ==> forall p :: p in r.candidates && p != current ==>
              p in OffersAt(p.spline, nodesOf(p.spline), node, positive)
  {
    var possible := GetSplinesForNode(splines, nodesOf, node);
    if |possible| == 1 && possible[0] == current.spline then Keep(current)
    else
      var own := if IsMiddleNode(nodesOf(current.spline), node) then [current] else [];
      var others := OffersOf(possible, current.spline, nodesOf, node, positive);
      assert current !in others;
      Ask(own + others)
  }

  // ------------------------------------------------------------ recursion

  /** The recursion counter shared by every `Advance` call. */
  const MaxDepth: nat := 12

  /** Entering `Advance` with splines available: the counter goes up, and
      past the limit the call gives up and resets it. Returns whether the
      call proceeds and the counter it leaves. */
  function Enter(counter: int): (r: (bool, int))
    ensures r.0 <==> counter + 1 <= MaxDepth
    ensures r.0 ==> r.1 == counter + 1
    ensures !r.0 ==> r.1 == 0
  {
    if counter + 1 > MaxDepth then (false, 0) else (true, counter + 1)
  }

  /** The counter after `k` nested entries from `counter`, or None once
      one of them gave up. */
  function Nested(counter: int, k: nat): (r: Option<int>)
  {
    if k == 0 then Some(counter)
    else match Nested(counter, k - 1)
      case None => None
      case Some(c) => if Enter(c).0 then Some(Enter(c).1) else None
  }

  /** From a reset counter exactly `MaxDepth` nested calls proceed: the
      next one gives up, so the recursion is at most that deep. */
  lemma {:induction false} RecursionBounded(k: nat)
    ensures k <= MaxDepth ==> Nested(0, k) == Some(k)
    ensures k > MaxDepth ==> Nested(0, k) == None
  {
    if k > 0 {
      RecursionBounded(k - 1);
    }
  }
}

=== FILE: bullet.dfy ===
/** `BulletManager.CalculateBulletPos`: a bullet's next position is held
    inside the screen rectangle, and the velocity component of each axis
    whose bound it crossed changes sign. The two corners of the screen
    (world-space, computed from the camera at start-up) are parameters. */
module Bullets {
  import opened Common

  /** One axis: moving towards `high` past it, the position stops at
      `high` and the velocity turns; otherwise (not moving up, including
      standing still) past `low` it stops at `low` and turns. */
  function Reflect(current: real, next: real, velocity: real, low: real, high: real): (r: (real, real))
    ensures r.1 == velocity || r.1 == -velocity
    ensures next > current ==> r.0 <= high && (next <= high ==> r == (next, velocity))
    ensures next <= current ==> r.0 >= low && (next >= low ==> r == (next, velocity))
    ensures r.0 == next || r.0 == high || r.0 == low
    ensures next > current && next > high ==> r == (high, -velocity)
    ensures next <= current && next < low ==> r == (low, -velocity)
  {
    if next > current then
      if next > high then (high, -velocity) else (next, velocity)
    else
      if next < low then (low, -velocity) else (next, velocity)
  }

  /** On a proper interval, reflecting a reflected step changes nothing
      more: the position is on the bound, not past it, and the velocity is
      not turned twice. */
  lemma ReflectIdempotent(current: real, next: real, velocity: real, low: real, high: real)
    requires low <= high
    ensures var (p, v) := Reflect(current, next, velocity, low, high);
            Reflect(current, p, v, low, high) == (p, v)
  {
  }

  /** `CalculateBulletPos`: y against bottom and top, then x against left
      and right; z is left alone. Returns the new position and velocity. */
  function CalculateBulletPos(current: Vec3, next: Vec3, velocity: Vec3, leftBottom: Vec3, rightTop: Vec3)
    : (r: (Vec3, Vec3))
    ensures r.0.z == next.z && r.1.z == velocity.z
    ensures r.1.x == velocity.x || r.1.x == -velocity.x
    ensures r.1.y == velocity.y || r.1.y == -velocity.y
    ensures next.y > current.y ==> r.0.y <= rightTop.y
    ensures next.y <= current.y ==> r.0.y >= leftBottom.y
    ensures next.x > current.x ==> r.0.x <= rightTop.x
    ensures next.x <= current.x ==> r.0.x >= leftBottom.x
    ensures next.y > current.y && next.y > rightTop.y ==> r.0.y == rightTop.y && r.1.y == -velocity.y
    ensures next.y <= current.y && next.y < leftBottom.y ==> r.0.y == leftBottom.y && r.1.y == -velocity.y
    ensures next.x > current.x && next.x > rightTop.x ==> r.0.x == rightTop.x && r.1.x == -velocity.x
    ensures next.x <= current.x && next.x < leftBottom.x ==> r.0.x == leftBottom.x && r.1.x == -velocity.x
  {
    var (y, vy) := Reflect(current.y, next.y, velocity.y, leftBottom.y, rightTop.y);
    var (x, vx) := Reflect(current.x, next.x, velocity.x, leftBottom.x, rightTop.x);
    (Vec3(x, y, next.z), Vec3(vx, vy, velocity.z))
  }

  /** A step that stays inside the rectangle is left as it is, and the
      speed never changes: every velocity component keeps its size. */
  lemma BounceKeepsInsideSteps(current: Vec3, next: Vec3, velocity: Vec3, leftBottom: Vec3, rightTop: Vec3)
    ensures leftBottom.x <= next.x <= rightTop.x && leftBottom.y <= next.y <= rightTop.y ==>
              CalculateBulletPos(current, next, velocity, leftBottom, rightTop) == (next, velocity)
    ensures SqrMagnitude(CalculateBulletPos(current, next, velocity, leftBottom, rightTop).1) == SqrMagnitude(velocity)
  {
    var r := CalculateBulletPos(current, next, velocity, leftBottom, rightTop);
    assert r.1.x * r.1.x == velocity.x * velocity.x;
    assert r.1.y * r.1.y == velocity.y * velocity.y;
  }

  /** The screen rectangle is invariant: a bullet that starts inside it
      ends inside it, whatever step it was about to take. */
  lemma BounceStaysOnScreen(current: Vec3, next: Vec3, velocity: Vec3, leftBottom: Vec3, rightTop: Vec3)
    requires leftBottom.x <= current.x <= rightTop.x && leftBottom.y <= current.y <= rightTop.y
    ensures var p := CalculateBulletPos(current, next, velocity, leftBottom, rightTop).0;
            leftBottom.x <= p.x <= rightTop.x && leftBottom.y <= p.y <= rightTop.y
  {
    ReflectStaysInside(current.y, next.y, velocity.y, leftBottom.y, rightTop.y);
    ReflectStaysInside(current.x, next.x, velocity.x, leftBottom.x, rightTop.x);
  }

  /** One axis of the invariant. */
  lemma ReflectStaysInside(current: real, next: real, velocity: real, low: real, high: real)
    requires low <= current <= high
    ensures low <= Reflect(current, next, velocity, low, high).0 <= high
  {
  }
}

=== FILE: common.dfy ===
/** Shared vocabulary of the model: wrappers for error paths, the engine's
    vector and quaternion values over the reals, the C# integer operators
    and the Unity clamping helpers that the spline code relies on. */
module Common {

  /** A reference that may be null. */
  datatype Option<+T> = None | Some(value: T)

  /** The outcome of an operation that can throw. */
  datatype Result<+R, +E> = Success(value: R) | Failure(error: E)

  /** A floating-point result that is either a real number or NaN
      (what `0 / 0` and `0 * infinity` produce in the engine). */
  datatype Number = Num(value: real) | NaN

  /** Unity's Vector3. */
  datatype Vec3 = Vec3(x: real, y: real, z: real)

  const Zero: Vec3 := Vec3(0.0, 0.0, 0.0)

  function Add(a: Vec3, b: Vec3): Vec3 {
    Vec3(a.x + b.x, a.y + b.y, a.z + b.z)
  }

  function Sub(a: Vec3, b: Vec3): Vec3 {
    Vec3(a.x - b.x, a.y - b.y, a.z - b.z)
  }

  function Scale(k: real, v: Vec3): Vec3 {
    Vec3(k * v.x, k * v.y, k * v.z)
  }

  function Dot(a: Vec3, b: Vec3): real {
    a.x * b.x + a.y * b.y + a.z * b.z
  }

  function Cross(a: Vec3, b: Vec3): Vec3 {
    Vec3(a.y * b.z - a.z * b.y, a.z * b.x - a.x * b.z, a.x * b.y - a.y * b.x)
  }

  function SqrMagnitude(v: Vec3): real {
    Dot(v, v)
  }

  /** `b0 * v0 + b1 * v1 + b2 * v2 + b3 * v3`, the blend every interpolation ends with. */
  function Blend4(b0: real, b1: real, b2: real, b3: real, v0: Vec3, v1: Vec3, v2: Vec3, v3: Vec3): Vec3 {
    Vec3(b0 * v0.x + b1 * v1.x + b2 * v2.x + b3 * v3.x,
         b0 * v0.y + b1 * v1.y + b2 * v2.y + b3 * v3.y,
         b0 * v0.z + b1 * v1.z + b2 * v2.z + b3 * v3.z)
  }

  /** `Vector3.magnitude` needs a square root, which the reals of the model do
      not have; code that measures vectors receives the magnitude as a
      parameter of this type, which only promises it is never negative. */
  type NormFn = f: Vec3 -> real | forall v: Vec3 :: f(v) >= 0.0 witness (v: Vec3) => 0.0

  /** Unity's Quaternion, components in the engine's (x, y, z, w) order. */
  datatype Quat = Quat(x: real, y: real, z: real, w: real)

  const Identity: Quat := Quat(0.0, 0.0, 0.0, 1.0)

  /** `Quaternion.Dot`. */
  function QDot(a: Quat, b: Quat): real {
    a.x * b.x + a.y * b.y + a.z * b.z + a.w * b.w
  }

  /** Sum of a sequence of reals, peeled from the back so that prefix sums
      extend one element at a time. */
  function Sum(s: seq<real>): real {
    if |s| == 0 then 0.0 else Sum(s[..|s| - 1]) + s[|s| - 1]
  }

  predicate NonNegative(s: seq<real>) {
    forall i :: 0 <= i < |s| ==> s[i] >= 0.0
  }

  /** C#'s `/` on `int`, which truncates toward zero. */
  function CsDiv(a: int, b: int): int
    requires b != 0
  {
    if a >= 0 && b > 0 then a / b
    else if a >= 0 then -(a / -b)
    else if b > 0 then -((-a) / b)
    else (-a) / (-b)
  }

  /** C#'s `%` on `int`: the remainder takes the sign of the dividend. */
  function CsRem(a: int, b: int): (r: int)
    requires b != 0
    ensures a == CsDiv(a, b) * b + r
    ensures a >= 0 ==> 0 <= r < (if b > 0 then b else -b)
    ensures a < 0 ==> -(if b > 0 then b else -b) < r <= 0
  {
    a - CsDiv(a, b) * b
  }

  /** `Mathf.Clamp` on integers. */
  function Clamp(v: int, lo: int, hi: int): int {
    if v < lo then lo else if v > hi then hi else v
  }

  /** `Mathf.Clamp` on floats. */
  function ClampReal(v: real, lo: real, hi: real): real {
    if v < lo then lo else if v > hi then hi else v
  }

  /** `Mathf.Clamp01`. */
  function Clamp01(v: real): (r: real)
    ensures 0.0 <= r <= 1.0
    ensures 0.0 <= v <= 1.0 ==> r == v
  {
    if v < 0.0 then 0.0 else if v > 1.0 then 1.0 else v
  }

  /** `10^n`. */
  function Pow10(n: nat): (p: nat)
    ensures p >= 1
  {
    if n == 0 then 1 else 10 * Pow10(n - 1)
  }

  /** Quotient and remainder are determined by any split of `x` into them. */
  lemma DivModUnique(x: nat, d: nat, q: nat, r: nat)
    requires 0 <= r < d && x == q * d + r
    ensures x / d == q && x % d == r
  {
    var q', r' := x / d, x % d;
    assert (q - q') * d == r' - r;
    MulSign(q - q', d);
  }

  /** On a non-negative dividend and a positive divisor C#'s `/` and `%`
      agree with Dafny's. */
  lemma CsNonNegative(a: int, b: int)
    requires a >= 0 && b > 0
    ensures CsDiv(a, b) == a / b && CsRem(a, b) == a % b
    ensures a / b >= 0
  {
    MulSign(a / b, b);
  }

  lemma MulSign(k: int, d: nat)
    requires d > 0
    ensures k >= 1 ==> k * d >= d
    ensures k <= -1 ==> k * d + d <= 0
  {
  }

  /** `List<T>.IndexOf`: the first position holding `x`, or -1. */
  function IndexOf<T(==)>(s: seq<T>, x: T): (r: int)
    ensures -1 <= r < |s|
    ensures r == -1 <==> x !in s
    ensures r >= 0 ==> s[r] == x && forall j :: 0 <= j < r ==> s[j] != x
  {
    if |s| == 0 then -1
    else if s[0] == x then 0
    else
      var k := IndexOf(s[1..], x);
      if k == -1 then -1 else k + 1
  }

  /** `List<T>.Remove`: drops the first occurrence of `x`, if there is one. */
  function Remove<T(==)>(s: seq<T>, x: T): (r: seq<T>)
    ensures x !in s ==> r == s
    ensures x in s ==> |r| + 1 == |s| && multiset(r) + multiset{x} == multiset(s)
  {
    var k := IndexOf(s, x);
    if k < 0 then s
    else
      assert s == s[..k] + [s[k]] + s[k + 1..];
      s[..k] + s[k + 1..]
  }

  /** `List<T>.Insert`: `x` at position `k`, later entries shifted up. */
  function Insert<T>(s: seq<T>, k: nat, x: T): (r: seq<T>)
    requires k <= |s|
    ensures |r| == |s| + 1 && r[k] == x
    ensures r[..k] == s[..k] && r[k + 1..] == s[k..]
  {
    s[..k] + [x] + s[k..]
  }

  /** Removing what was just inserted, when it was not there before, gives
      the list back. */
  lemma RemoveInserted<T>(s: seq<T>, k: nat, x: T)
    requires k <= |s| && x !in s
    ensures Remove(Insert(s, k, x), x) == s
  {
    var t := Insert(s, k, x);
    assert t[..k] == s[..k];
    assert forall j :: 0 <= j < k ==> t[j] != x by {
      forall j | 0 <= j < k ensures t[j] != x {
        assert t[j] == s[j];
      }
    }
    assert IndexOf(t, x) == k;
    assert t[k + 1..] == s[k..];
    assert s == s[..k] + s[k..];
  }

  /** A suffix is its first element followed by the rest. */
  lemma SuffixCons<T>(s: seq<T>, k: nat)
    requires k < |s|
    ensures s[k..] == [s[k]] + s[k + 1..]
  {
  }

  /** A square is never negative, and zero only for zero. */
  lemma SquareZero(v: real)
    ensures v * v >= 0.0
    ensures v != 0.0 ==> v * v > 0.0
  {
  }

  /** Scaling by a positive length keeps the sign of `f` and of `f - 1`. */
  lemma ScaledSign(f: real, l: real)
    requires l > 0.0
    ensures f <= 0.0 ==> f * l <= 0.0
    ensures f > 1.0 ==> f * l > l
  {
  }

  /** Scaling by a positive factor keeps the order. */
  lemma ScaleMonotone(a: real, b: real, l: real)
    requires l > 0.0
    ensures a <= b <==> a * l <= b * l
  {
    if a <= b {
      assert b * l - a * l == (b - a) * l;
    } else {
      assert a * l - b * l == (a - b) * l;
    }
  }

  /** A common non-zero factor cancels. */
  lemma CancelFactor(a: real, b: real, l: real)
    requires l != 0.0 && a * l == b * l
    ensures a == b
  {
    assert (a - b) * l == 0.0;
  }

  lemma ProductNonNegative(a: real, b: real)
    ensures a >= 0.0 && b >= 0.0 ==> a * b >= 0.0
  {
  }

  /** Summing a sequence of non-negative reals gives a non-negative total. */
  lemma {:induction false} SumNonNegative(s: seq<real>)
    requires NonNegative(s)
    ensures Sum(s) >= 0.0
  {
    if |s| > 0 {
      SumNonNegative(s[..|s| - 1]);
    }
  }

  /** Dividing every element divides the sum. */
  lemma {:induction false} SumScaled(s: seq<real>, t: seq<real>, k: real)
    requires |s| == |t|
    requires forall i :: 0 <= i < |s| ==> t[i] == s[i] * k
    ensures Sum(t) == Sum(s) * k
  {
    if |s| > 0 {
      SumScaled(s[..|s| - 1], t[..|t| - 1], k);
    }
  }

  /** A prefix sum is bounded by the whole sum when nothing is negative. */
  lemma {:induction false} SumPrefixBound(s: seq<real>, k: nat)
    requires k <= |s| && NonNegative(s)
    ensures Sum(s[..k]) <= Sum(s)
    decreases |s| - k
  {
    if k < |s| {
      SumPrefixBound(s, k + 1);
      assert s[..k + 1][..k] == s[..k];
    } else {
      assert s[..k] == s;
    }
  }
}

=== FILE: curve.dfy ===
/** The runtime `Curve` the fish paths run on: control points, a four-node
    window cache, the arc-length table, the parameter search and the
    position, tangent and orientation getters.

    Every getter reads and may refill the window cache, so each one returns
    the curve it leaves behind. The cache is modelled under two policies:
    `ByIndex` is the source's, which keys the window by segment index alone
    and keeps it across `SetPoints`; `ByIndexAndKind` keys it by index and
    window kind and drops it whenever the nodes change. */
module RuntimeCurve {
  import opened Common
  import I = Interpolator
  import opened CurveBasis
  import opened CurveTable

  /** `Curve.InterpolationMode`; a mode read back from a file may carry any
      other code, which every getter treats like the modes it ignores. */
  datatype Mode = Hermite | Bezier | BSpline | Linear | CustomMatrix | Unnamed(code: int)

  function CodeOf(m: Mode): int {
    match m
    case Hermite => 0
    case Bezier => 1
    case BSpline => 2
    case Linear => 3
    case CustomMatrix => 4
    case Unnamed(code) => code
  }

  /** Only codes outside the named range are kept as `Unnamed`. */
  predicate CanonicalMode(m: Mode) {
    m.Unnamed? ==> !(0 <= m.code <= 4)
  }

  function ModeOf(code: int): (m: Mode)
    ensures CodeOf(m) == code && CanonicalMode(m)
  {
    if code == 0 then Hermite
    else if code == 1 then Bezier
    else if code == 2 then BSpline
    else if code == 3 then Linear
    else if code == 4 then CustomMatrix
    else Unnamed(code)
  }

  /** Casting a mode to its code and back gives the mode again. */
  lemma ModeRoundTrip(m: Mode)
    requires CanonicalMode(m)
    ensures ModeOf(CodeOf(m)) == m
  {
  }

  datatype CachePolicy = ByIndex | ByIndexAndKind

  /** The cached window `p0..p3` and the index `m_last_index` it was loaded
      for. The kind is what the corrected policy also compares. */
  datatype Cache = NoWindow | Loaded(index: int, kind: WindowKind, window: Window)

  const IntMin: int := -0x8000_0000

  function InitialCache(policy: CachePolicy): Cache {
    match policy
    case ByIndex => Loaded(IntMin, BSplineWindow, ZeroWindow)
    case ByIndexAndKind => NoWindow
  }

  /** The runtime curve. No points stands for the null array a fresh curve
      starts with. */
  datatype Curve = Curve(points: seq<Vec3>, autoClose: bool, mode: Mode, accuracy: nat,
                         cache: Cache, table: Table, policy: CachePolicy)

  /** `SetPoints` refuses fewer than two points, so a curve has none or at
      least two, and any table it holds can be searched. */
  predicate Inv(c: Curve) {
    && |c.points| != 1
    && (|c.points| >= 2 ==> WellFormed(c.table, c.accuracy))
  }

  /** The cached window is the one its index and kind would load now. */
  predicate Coherent(c: Curve) {
    c.cache.Loaded? ==> |c.points| > 0 && c.cache.window == LoadWindow(c.cache.kind, c.points, c.autoClose, c.cache.index)
  }

  /** A curve under the corrected policy whose cache tells no lies. */
  predicate Keyed(c: Curve) {
    c.policy == ByIndexAndKind && Coherent(c)
  }

  function ControlNodeCount(c: Curve): int {
    if c.autoClose then |c.points| + 1 else |c.points|
  }

  function SubSegmentCount(c: Curve): nat {
    SegmentCount(|c.points|, c.autoClose) * c.accuracy
  }

  /** `Curve(accuracy)`: no points, B-spline mode, open. */
  function NewCurve(accuracy: nat, policy: CachePolicy): (c: Curve)
    ensures Inv(c) && |c.points| == 0 && c.mode == BSpline && !c.autoClose
    ensures policy == ByIndexAndKind ==> Keyed(c)
  {
    Curve([], false, BSpline, accuracy, InitialCache(policy), NoTable, policy)
  }

  /** Whether a load for `index` and `kind` is served from the cache. */
  predicate Hit(c: Curve, index: int, kind: WindowKind) {
    && c.cache.Loaded?
    && c.cache.index == index
    && (c.policy == ByIndex || c.cache.kind == kind)
  }

  /** The `if (index != m_last_index)` block every getter starts with. */
  function Load(c: Curve, index: int, kind: WindowKind): (r: (Window, Curve))
    requires |c.points| > 0
    ensures r.1 == c.(cache := r.1.cache)
    ensures r.1.cache.Loaded? && r.1.cache.index == index && r.1.cache.window == r.0
    ensures Keyed(c) ==> r.0 == LoadWindow(kind, c.points, c.autoClose, index) && Keyed(r.1) && r.1.cache.kind == kind
  {
    if Hit(c, index, kind) then (c.cache.window, c)
    else
      var w := LoadWindow(kind, c.points, c.autoClose, index);
      (w, c.(cache := Loaded(index, kind, w)))
  }

  /** A second load of the same window is always a hit and changes nothing. */
  lemma LoadTwice(c: Curve, index: int, kind: WindowKind)
    requires |c.points| > 0
    ensures var (w, c1) := Load(c, index, kind);
            Load(c1, index, kind) == (w, c1)
  {
  }

  // ---------------------------------------------------------------- length

  /** `GetSplineSpeed` once the window is at hand. */
  function SpeedOf(w: Window, t: real, norm: NormFn): (r: real)
    ensures r >= 0.0
  {
    norm(Apply(SpeedWeights(t), w))
  }

  /** `GetSplineSpeed`: the length of the B-spline derivative of segment
      `index` at `t`. */
  function Speed(c: Curve, t: real, index: int, norm: NormFn): (r: (real, Curve))
    requires |c.points| > 0
    ensures r.0 >= 0.0
    ensures var (w, c1) := Load(c, index, BSplineWindow); r == (SpeedOf(w, t, norm), c1)
  {
    var (w, c1) := Load(c, index, BSplineWindow);
    (norm(Apply(SpeedWeights(t), w)), c1)
  }

  /** Simpson's rule on a window's speed, with the third sample at `end`. */
  function SubSegmentLength(w: Window, begin: real, end: real, norm: NormFn): (r: real)
    ensures begin <= end ==> r >= 0.0
    ensures r == Simpson(t => SpeedOf(w, t, norm), begin, end)
  {
    SimpsonRule(SpeedOf(w, begin, norm), SpeedOf(w, (begin + end) * 0.5, norm), SpeedOf(w, end, norm), begin, end)
  }

  /** The same with the third sample at `begin + end`. */
  function SubSegmentLengthAsWritten(w: Window, begin: real, end: real, norm: NormFn): (r: real)
    ensures begin <= end ==> r >= 0.0
    ensures r == SimpsonAsWritten(t => SpeedOf(w, t, norm), begin, end)
  {
    SimpsonRule(SpeedOf(w, begin, norm), SpeedOf(w, (begin + end) * 0.5, norm), SpeedOf(w, begin + end, norm), begin, end)
  }

  /** The first sub-segment of every segment starts at 0, where
      `begin + end` is `end`: there the as-written rule is the corrected one. */
  lemma AsWrittenExactFromZero(w: Window, end: real, norm: NormFn)
    ensures SubSegmentLengthAsWritten(w, 0.0, end, norm) == SubSegmentLength(w, 0.0, end, norm)
  {
    assert 0.0 + end == end;
  }

  /** `getSegmentLengthIn`, its third sample corrected to `end`: three speed
      samples of one segment, of which only the first can miss the cache. */
  function SegmentLength(c: Curve, index: int, begin: real, end: real, norm: NormFn): (r: (real, Curve))
    requires |c.points| > 0
    ensures var (w, c1) := Load(c, index, BSplineWindow);
            r == (SubSegmentLength(w, begin, end, norm), c1)
  {
    var (s0, c1) := Speed(c, begin, index, norm);
    LoadTwice(c, index, BSplineWindow);
    var (s1, c2) := Speed(c1, (begin + end) * 0.5, index, norm);
    var (s2, c3) := Speed(c2, end, index, norm);
    (SimpsonRule(s0, s1, s2, begin, end), c3)
  }

  /** `getSegmentLengthIn` as written, sampling `begin + end` last. */
  function SegmentLengthAsWritten(c: Curve, index: int, begin: real, end: real, norm: NormFn): (r: (real, Curve))
    requires |c.points| > 0
    ensures var (w, c1) := Load(c, index, BSplineWindow);
            r == (SubSegmentLengthAsWritten(w, begin, end, norm), c1)
  {
    var (s0, c1) := Speed(c, begin, index, norm);
    LoadTwice(c, index, BSplineWindow);
    var (s1, c2) := Speed(c1, (begin + end) * 0.5, index, norm);
    var (s2, c3) := Speed(c2, begin + end, index, norm);
    (SimpsonRule(s0, s1, s2, begin, end), c3)
  }

  /** Sub-segment `k` is sub-segment `k % accuracy` of segment
      `k / accuracy`, over `[j / accuracy, (j + 1) / accuracy]`. */
  function SubSegmentBounds(k: nat, accuracy: nat): (r: (int, real, real))
    requires accuracy > 0
    ensures 0.0 <= r.1 < r.2 <= 1.0
  {
    var j := k % accuracy;
    var inv := 1.0 / accuracy as real;
    assert (j + 1) as real * inv <= 1.0 by {
      assert j + 1 <= accuracy;
      assert (j + 1) as real * inv <= accuracy as real * inv;
    }
    (k / accuracy, j as real * inv, (j + 1) as real * inv)
  }

  /** The length `CalculateLength` finds for sub-segment `k` of the nodes,
      whatever the cache holds. */
  function RefLength(points: seq<Vec3>, autoClose: bool, accuracy: nat, norm: NormFn, k: nat): (r: real)
    requires |points| > 0 && accuracy > 0
    ensures r >= 0.0
  {
    var (index, begin, end) := SubSegmentBounds(k, accuracy);
    SubSegmentLengthAsWritten(LoadWindow(BSplineWindow, points, autoClose, index), begin, end, norm)
  }

  function RefLengths(points: seq<Vec3>, autoClose: bool, accuracy: nat, norm: NormFn): (r: seq<real>)
    requires |points| > 0
    ensures |r| == SegmentCount(|points|, autoClose) * accuracy && NonNegative(r)
  {
    var n := SegmentCount(|points|, autoClose) * accuracy;
    if n == 0 then [] else seq(n, k requires 0 <= k < n => RefLength(points, autoClose, accuracy, norm, k))
  }

  /** The two nested loops of `CalculateLength`, from sub-segment `k` on,
      threading the cache through every sample. */
  function Measure(c: Curve, k: nat, norm: NormFn): (r: (seq<real>, Curve))
    requires |c.points| > 0 && k <= SubSegmentCount(c)
    ensures |r.0| == SubSegmentCount(c) - k && NonNegative(r.0)
    ensures r.1 == c.(cache := r.1.cache)
    decreases SubSegmentCount(c) - k
  {
    if k == SubSegmentCount(c) then ([], c)
    else
      var step := MeasureStep(c, k, norm);
      var rest := Measure(step.1, k + 1, norm);
      ([step.0] + rest.0, rest.1)
  }

  /** The inner loop body: sub-segment `k` measured on the cached window. */
  function MeasureStep(c: Curve, k: nat, norm: NormFn): (r: (real, Curve))
    requires |c.points| > 0 && c.accuracy > 0
    ensures r.0 >= 0.0 && r.1 == c.(cache := r.1.cache)
  {
    var (index, begin, end) := SubSegmentBounds(k, c.accuracy);
    SegmentLengthAsWritten(c, index, begin, end, norm)
  }

  /** With a cache that tells no lies, one step measures the nodes'
      own sub-segment. */
  lemma MeasureStepKeyed(c: Curve, k: nat, norm: NormFn)
    requires |c.points| > 0 && k < SubSegmentCount(c) && Keyed(c)
    ensures MeasureStep(c, k, norm).0 == RefLengths(c.points, c.autoClose, c.accuracy, norm)[k]
    ensures Keyed(MeasureStep(c, k, norm).1)
  {
    assert c.accuracy > 0;
    var (index, begin, end) := SubSegmentBounds(k, c.accuracy);
    var (w, c1) := Load(c, index, BSplineWindow);
    assert w == LoadWindow(BSplineWindow, c.points, c.autoClose, index) && Keyed(c1);
    assert MeasureStep(c, k, norm) == (SubSegmentLengthAsWritten(w, begin, end, norm), c1);
    assert RefLengths(c.points, c.autoClose, c.accuracy, norm)[k] == RefLength(c.points, c.autoClose, c.accuracy, norm, k);
  }

  /** With a cache that tells no lies, measuring gives the lengths of the
      nodes themselves, and the cache still tells no lies afterwards. */
  lemma {:induction false} MeasureKeyed(c: Curve, k: nat, norm: NormFn)
    requires |c.points| > 0 && k <= SubSegmentCount(c) && Keyed(c)
    ensures Measure(c, k, norm).0 == RefLengths(c.points, c.autoClose, c.accuracy, norm)[k..]
    ensures Keyed(Measure(c, k, norm).1)
    decreases SubSegmentCount(c) - k
  {
    if k < SubSegmentCount(c) {
      var ref := RefLengths(c.points, c.autoClose, c.accuracy, norm);
      var step := MeasureStep(c, k, norm);
      MeasureStepKeyed(c, k, norm);
      assert SubSegmentCount(step.1) == SubSegmentCount(c);
      assert RefLengths(step.1.points, step.1.autoClose, step.1.accuracy, norm) == ref;
      MeasureKeyed(step.1, k + 1, norm);
      SuffixCons(ref, k);
    }
  }

  /** No B-spline load can be served a window other than the one the
      nodes give: a hit needs the cached index (of any kind under the
      source's policy, of the B-spline kind under the corrected one), and
      such a window is the nodes' own. Segment indices are never negative,
      so the index a fresh curve starts with never hits. */
  predicate SoundFor(c: Curve, kind: WindowKind) {
    (|c.points| > 0 && c.cache.Loaded? && c.cache.index >= 0 && (c.policy == ByIndex || c.cache.kind == kind)) ==>
      c.cache.window == LoadWindow(kind, c.points, c.autoClose, c.cache.index)
  }

  /** Soundness for the loads of `getSplineSpeed` and `getTangentIn`. */
  predicate SoundForBSpline(c: Curve) {
    SoundFor(c, BSplineWindow)
  }

  /** The window `getPositionIn` loads in a mode: the Hermite one in
      Hermite mode, the B-spline one otherwise (the other modes load
      nothing). */
  function PositionKind(mode: Mode): WindowKind {
    if mode == Hermite then HermiteWindow else BSplineWindow
  }

  /** A cache nothing has been loaded into yet. */
  predicate Untouched(cache: Cache) {
    cache.NoWindow? || cache.index < 0
  }

  /** A cache that tells no lies, and a cache still untouched, serve every
      B-spline load soundly, under either policy. */
  lemma SoundCaches(c: Curve)
    ensures Keyed(c) ==> SoundForBSpline(c)
    ensures Untouched(c.cache) ==> SoundForBSpline(c)
  {
  }

  /** A load from a cache sound for its kind gives the nodes' window and
      leaves the cache sound for that kind. */
  lemma SoundLoad(c: Curve, index: int, kind: WindowKind)
    requires |c.points| > 0 && index >= 0 && SoundFor(c, kind)
    ensures Load(c, index, kind).0 == LoadWindow(kind, c.points, c.autoClose, index)
    ensures SoundFor(Load(c, index, kind).1, kind)
  {
  }

  /** From a sound cache one step measures the nodes' own sub-segment. */
  lemma MeasureStepSound(c: Curve, k: nat, norm: NormFn)
    requires |c.points| > 0 && k < SubSegmentCount(c) && SoundForBSpline(c)
    ensures MeasureStep(c, k, norm).0 == RefLengths(c.points, c.autoClose, c.accuracy, norm)[k]
    ensures SoundForBSpline(MeasureStep(c, k, norm).1)
  {
    assert c.accuracy > 0;
    var (index, begin, end) := SubSegmentBounds(k, c.accuracy);
    SoundLoad(c, index, BSplineWindow);
    var (w, c1) := Load(c, index, BSplineWindow);
    assert MeasureStep(c, k, norm) == (SubSegmentLengthAsWritten(w, begin, end, norm), c1);
    assert RefLengths(c.points, c.autoClose, c.accuracy, norm)[k] == RefLength(c.points, c.autoClose, c.accuracy, norm, k);
  }

  /** From a sound cache, under the source's policy as well as the
      corrected one, measuring gives the lengths of the nodes themselves
      and the cache stays sound. */
  lemma {:induction false} MeasureSound(c: Curve, k: nat, norm: NormFn)
    requires |c.points| > 0 && k <= SubSegmentCount(c) && SoundForBSpline(c)
    ensures Measure(c, k, norm).0 == RefLengths(c.points, c.autoClose, c.accuracy, norm)[k..]
    ensures SoundForBSpline(Measure(c, k, norm).1)
    decreases SubSegmentCount(c) - k
  {
    if k < SubSegmentCount(c) {
      var ref := RefLengths(c.points, c.autoClose, c.accuracy, norm);
      var step := MeasureStep(c, k, norm);
      MeasureStepSound(c, k, norm);
      assert SubSegmentCount(step.1) == SubSegmentCount(c);
      assert RefLengths(step.1.points, step.1.autoClose, step.1.accuracy, norm) == ref;
      MeasureSound(step.1, k + 1, norm);
      SuffixCons(ref, k);
    }
  }

  /** `CalculateLength`: measure, normalise, place the nodes. */
  function CalculateLength(c: Curve, norm: NormFn): (r: Curve)
    requires |c.points| > 0
    ensures r == c.(cache := r.cache, table := r.table)
    ensures WellFormed(r.table, c.accuracy)
    ensures r.table == Normalise(Measure(c, 0, norm).0, c.accuracy, |c.points|, c.autoClose)
    ensures Keyed(c) ==> Keyed(r) && r.table == Normalise(RefLengths(c.points, c.autoClose, c.accuracy, norm), c.accuracy, |c.points|, c.autoClose)
    ensures SoundForBSpline(c) ==>
              SoundForBSpline(r) && r.table == Normalise(RefLengths(c.points, c.autoClose, c.accuracy, norm), c.accuracy, |c.points|, c.autoClose)
  {
    var (raw, c1) := Measure(c, 0, norm);
    assert Keyed(c) ==> raw == RefLengths(c.points, c.autoClose, c.accuracy, norm) && Keyed(c1) by {
      if Keyed(c) {
        MeasureKeyed(c, 0, norm);
        assert RefLengths(c.points, c.autoClose, c.accuracy, norm)[0..] == RefLengths(c.points, c.autoClose, c.accuracy, norm);
      }
    }
    assert SoundForBSpline(c) ==> raw == RefLengths(c.points, c.autoClose, c.accuracy, norm) && SoundForBSpline(c1) by {
      if SoundForBSpline(c) {
        MeasureSound(c, 0, norm);
        assert RefLengths(c.points, c.autoClose, c.accuracy, norm)[0..] == RefLengths(c.points, c.autoClose, c.accuracy, norm);
      }
    }
    NormaliseWellFormed(raw, c.accuracy, |c.points|, c.autoClose);
    c1.(table := Normalise(raw, c.accuracy, |c.points|, c.autoClose))
  }

  /** `SetPoints(points, cvlen)`: fewer than two points change nothing;
      otherwise the points are taken and the table is the one given or a
      fresh measurement. The corrected policy drops the cached window. */
  function SetPoints(c: Curve, points: seq<Vec3>, cvlen: Option<Table>, norm: NormFn): (r: Curve)
    requires Inv(c)
    requires cvlen.Some? ==> WellFormed(cvlen.value, c.accuracy)
    ensures Inv(r)
    ensures |points| < 2 ==> r == c
    ensures |points| >= 2 ==> r.points == points && r.autoClose == c.autoClose && r.mode == c.mode
                              && r.accuracy == c.accuracy && r.policy == c.policy
    ensures |points| >= 2 && cvlen.Some? ==> r.table == cvlen.value
    ensures |points| >= 2 && c.policy == ByIndexAndKind ==> Keyed(r)
    ensures |points| >= 2 && cvlen.Some? && c.policy == ByIndex ==> r.cache == c.cache
    ensures |points| >= 2 && cvlen.None? && c.policy == ByIndexAndKind ==>
              r.table == Normalise(RefLengths(points, c.autoClose, c.accuracy, norm), c.accuracy, |points|, c.autoClose)
    ensures |points| >= 2 && cvlen.None? && Untouched(c.cache) ==>
              r.table == Normalise(RefLengths(points, c.autoClose, c.accuracy, norm), c.accuracy, |points|, c.autoClose)
  {
    if |points| < 2 then c
    else
      var c1 := c.(points := points, cache := if c.policy == ByIndexAndKind then NoWindow else c.cache);
      SoundCaches(c1);
      match cvlen
      case Some(t) => c1.(table := t)
      case None => CalculateLength(c1, norm)
  }

  /** The `autoClose` setter. It does not re-measure: the table stays the
      one of the old shape. The corrected policy drops the cached window. */
  function SetAutoClose(c: Curve, autoClose: bool): (r: Curve)
    requires Inv(c)
    ensures Inv(r) && r.autoClose == autoClose && r.points == c.points && r.table == c.table
    ensures c.policy == ByIndexAndKind ==> Keyed(r)
  {
    c.(autoClose := autoClose, cache := if c.policy == ByIndexAndKind then NoWindow else c.cache)
  }

  /** `Curve(autoClose, mode, points, accuracy)`. */
  function CurveFrom(autoClose: bool, mode: Mode, points: seq<Vec3>, accuracy: nat, policy: CachePolicy, norm: NormFn): (c: Curve)
    ensures Inv(c) && c.autoClose == autoClose && c.mode == mode && c.accuracy == accuracy
    ensures |points| >= 2 ==> c.points == points
    ensures |points| < 2 ==> |c.points| == 0
    ensures policy == ByIndexAndKind ==> Keyed(c)
  {
    SetPoints(NewCurve(accuracy, policy).(autoClose := autoClose, mode := mode), points, None, norm)
  }

  // ------------------------------------------------------------ parameter

  /** The segment `RecalculateParam` picks and the parameter inside it,
      which is NaN when the table is `Unmeasurable`. */
  datatype Located = Located(index: int, t: Number)

  /** `RecalculateParam`: clamp the ends, otherwise search the sub-segment
      whose bracket holds `param` and rescale within its segment. */
  function Locate(c: Curve, param: real): (r: Located)
    requires Inv(c) && |c.points| >= 2
    ensures 0 <= r.index <= ControlNodeCount(c) - 2
    ensures param <= 0.0 ==> r == Located(0, Num(0.0))
    ensures param >= 1.0 ==> r == Located(ControlNodeCount(c) - 2, Num(1.0))
  {
    var count := ControlNodeCount(c);
    if param <= 0.0 then Located(0, Num(0.0))
    else if param >= 1.0 then Located(count - 2, Num(1.0))
    else match c.table
      case Measured(lengths, pos, _, _) =>
        var i := BinarySearch(pos, param, 0, |pos| - 2);
        if i == -1 then Located(count - 2, Num(1.0)) else LocateIn(c, param, i)
      case Unmeasurable(n) =>
        // Every position after the first is NaN: the first probe compares
        // false both ways and is taken as the bracket.
        var mid := (n - 1) / 2;
        var index := (mid - mid % c.accuracy) / c.accuracy;
        DivBounds(mid, c.accuracy);
        if index >= count - 1 then Located(count - 2, Num(1.0)) else Located(index, NaN)
  }

  /** The branch of `RecalculateParam` that found sub-segment `i`: its
      segment, clamped to the last, and the parameter within it. */
  function LocateIn(c: Curve, param: real, i: int): (r: Located)
    requires c.table.Measured? && |c.table.pos| == |c.table.lengths| + 1 && c.accuracy > 0
    requires 0 <= i < |c.table.lengths| && c.table.pos[i + 1] == c.table.pos[i] + c.table.lengths[i]
    requires c.table.pos[i] <= param < c.table.pos[i + 1]
    requires |c.points| >= 2
    ensures 0 <= r.index <= ControlNodeCount(c) - 2
    ensures i / c.accuracy < ControlNodeCount(c) - 1 ==>
              var frac := (param - c.table.pos[i]) / c.table.lengths[i];
              r == Located(i / c.accuracy, Num(LocalParam(c.accuracy, i % c.accuracy, frac)))
  {
    var count := ControlNodeCount(c);
    var j := i % c.accuracy;
    var index := (i - j) / c.accuracy;
    DivBounds(i, c.accuracy);
    if index >= count - 1 then Located(count - 2, Num(1.0))
    else Located(index, Num(LocalParam(c.accuracy, j, (param - c.table.pos[i]) / c.table.lengths[i])))
  }

  /** `(1 / accuracy) * (j + frac)`: the parameter within a segment of the
      point `frac` of the way through its sub-segment `j`. */
  function LocalParam(accuracy: nat, j: int, frac: real): real
    requires accuracy > 0
  {
    (1.0 / accuracy as real) * (j as real + frac)
  }

  /** The curve parameter a located position stands for: sub-segment
      `index * accuracy + floor(t * accuracy)`, that far into it. */
  function ParamOf(c: Curve, l: Located): (r: Option<real>)
    ensures r.Some? ==> c.table.Measured? && l.t.Num?
  {
    match c.table
    case Measured(lengths, pos, _, _) =>
      if l.t.NaN? then None
      else
        var k := l.index * c.accuracy + ScaledWhole(l.t.value, c.accuracy);
        if 0 <= k < |lengths| && |pos| == |lengths| + 1 then Some(Along(pos[k], ScaledRest(l.t.value, c.accuracy), lengths[k]))
        else None
    case _ => None
  }

  /** The whole sub-segments that local parameter `t` covers: the floor of
      `t * accuracy`. */
  function ScaledWhole(t: real, accuracy: nat): int {
    (t * accuracy as real).Floor
  }

  /** The fraction of the next sub-segment that `t` covers beyond them. */
  function ScaledRest(t: real, accuracy: nat): real {
    t * accuracy as real - ScaledWhole(t, accuracy) as real
  }

  /** The point `frac` of the way along a sub-segment that starts at `start`
      and is `length` long. */
  function Along(start: real, frac: real, length: real): real {
    start + frac * length
  }

  /** Going the fraction of a sub-segment that `param` is into it lands on
      `param`. */
  lemma AlongFraction(start: real, param: real, length: real)
    requires length > 0.0
    ensures Along(start, (param - start) / length, length) == param
  {
    DivMul(param - start, length);
  }

  /** On a curve whose table measures a positive length, every parameter
      strictly inside (0, 1) is located exactly: the search finds its
      bracket, no clamping happens, the local parameter lies in [0, 1), and
      mapping back gives the parameter again. */
  lemma LocateRoundTrip(c: Curve, raw: seq<real>, param: real)
    requires Inv(c) && |c.points| >= 2
    requires NonNegative(raw) && Sum(raw) > 0.0 && |raw| == SubSegmentCount(c)
    requires c.table == Normalise(raw, c.accuracy, |c.points|, c.autoClose)
    requires 0.0 < param < 1.0
    ensures var l := Locate(c, param);
            && l.t.Num? && 0.0 <= l.t.value < 1.0
            && ParamOf(c, l) == Some(param)
  {
    NormalisedTable(raw, c.accuracy, |c.points|, c.autoClose);
    var i := LocateFindsBracket(c, param);
    LocateInRoundTrip(c, param, i);
  }

  /** Once the bracket `i` is found and needs no clamping, the local
      parameter lies in [0, 1) and maps back to `param`. */
  lemma LocateInRoundTrip(c: Curve, param: real, i: int)
    requires c.table.Measured? && c.accuracy > 0 && |c.table.pos| == |c.table.lengths| + 1 && |c.points| >= 2
    requires 0 <= i < |c.table.lengths| && c.table.pos[i] <= param < c.table.pos[i + 1]
    requires c.table.lengths[i] > 0.0 && c.table.pos[i + 1] == c.table.pos[i] + c.table.lengths[i]
    requires i / c.accuracy < ControlNodeCount(c) - 1
    ensures var l := LocateIn(c, param, i);
            && l.t.Num? && 0.0 <= l.t.value < 1.0
            && ParamOf(c, l) == Some(param)
  {
    var acc := c.accuracy;
    var frac := (param - c.table.pos[i]) / c.table.lengths[i];
    FractionBounds(param - c.table.pos[i], c.table.lengths[i]);
    AlongFraction(c.table.pos[i], param, c.table.lengths[i]);
    DivBounds(i, acc);
    ScaledFloor(acc, i % acc, frac);
    ParamOfLocal(c, i / acc, i % acc, frac, i);
  }

  /** The search inside `Locate` finds the bracket `i` of `param`, and the
      segment it lies in needs no clamping. */
  lemma LocateFindsBracket(c: Curve, param: real) returns (i: int)
    requires Inv(c) && |c.points| >= 2
    requires c.table.Measured? && |c.table.lengths| == SubSegmentCount(c) > 0
    requires NonDecreasing(c.table.pos) && c.table.pos[0] == 0.0 && c.table.pos[|c.table.lengths|] == 1.0
    requires 0.0 < param < 1.0
    ensures c.table.Measured? && c.accuracy > 0 && |c.table.pos| == |c.table.lengths| + 1
    ensures 0 <= i < |c.table.lengths| && c.table.pos[i] <= param < c.table.pos[i + 1]
    ensures c.table.lengths[i] > 0.0 && c.table.pos[i + 1] == c.table.pos[i] + c.table.lengths[i]
    ensures i / c.accuracy < ControlNodeCount(c) - 1
    ensures Locate(c, param) == LocateIn(c, param, i)
  {
    i := FindBracket(c.table, param);
    SubSegmentInSegment(i, c.accuracy, SegmentCount(|c.points|, c.autoClose));
  }

  /** Mapping a local parameter back: the floor picks sub-segment
      `index * accuracy + j` and the remainder is `frac` of its length. */
  lemma ParamOfLocal(c: Curve, index: int, j: int, frac: real, k: int)
    requires c.table.Measured? && |c.table.pos| == |c.table.lengths| + 1 && c.accuracy > 0
    requires 0 <= j < c.accuracy && 0.0 <= frac < 1.0
    requires k == index * c.accuracy + j && 0 <= k < |c.table.lengths|
    ensures ParamOf(c, Located(index, Num(LocalParam(c.accuracy, j, frac))))
              == Some(Along(c.table.pos[k], frac, c.table.lengths[k]))
  {
    ScaledFloor(c.accuracy, j, frac);
  }

  lemma FractionBounds(a: real, b: real)
    requires b > 0.0 && 0.0 <= a < b
    ensures 0.0 <= a / b < 1.0
  {
    DivMul(a, b);
    QuotientBounds(a, b, a / b);
  }

  lemma DivMul(a: real, b: real)
    requires b != 0.0
    ensures (a / b) * b == a
  {
  }

  lemma QuotientBounds(a: real, b: real, q: real)
    requires b > 0.0 && 0.0 <= a < b && q * b == a
    ensures 0.0 <= q < 1.0
  {
  }

  /** Undoing the `1 / accuracy` scaling recovers the sub-segment and the
      fraction into it. */
  lemma ScaledFloor(acc: nat, j: int, frac: real)
    requires acc > 0 && 0 <= j < acc && 0.0 <= frac < 1.0
    ensures var t := LocalParam(acc, j, frac);
            && 0.0 <= t < 1.0
            && ScaledWhole(t, acc) == j
            && ScaledRest(t, acc) == frac
  {
    var a := acc as real;
    var t := LocalParam(acc, j, frac);
    assert t * a == j as real + frac;
    assert j as real + frac < a;
    assert t < 1.0 by {
      assert t == (j as real + frac) / a;
    }
  }

  // -------------------------------------------------------------- getters

  /** `getPositionIn`: the B-spline and Hermite branches load their window
      and blend it; every other mode gives the zero vector without touching
      the cache. A NaN parameter gives a NaN position. Under either policy
      a cache sound for the kind the mode loads gives the nodes' own
      position and stays sound. */
  function PositionIn(c: Curve, t: Number, index: int): (r: (Option<Vec3>, Curve))
    requires |c.points| > 0
    ensures r.1 == c.(cache := r.1.cache)
    ensures Keyed(c) ==> r.0 == RefPosition(c.points, c.autoClose, c.mode, t, index) && Keyed(r.1)
    ensures index >= 0 && SoundFor(c, PositionKind(c.mode)) ==>
              r.0 == RefPosition(c.points, c.autoClose, c.mode, t, index) && SoundFor(r.1, PositionKind(c.mode))
  {
    match c.mode
    case BSpline =>
      var (w, c1) := Load(c, index, BSplineWindow);
      (if t.Num? then Some(Apply(BSplinePositionWeights(t.value), w)) else None, c1)
    case Hermite =>
      var (w, c1) := Load(c, index, HermiteWindow);
      (if t.Num? then Some(Apply(HermitePositionWeights(t.value), w)) else None, c1)
    case _ => (Some(Zero), c)
  }

  /** The position the nodes themselves give, whatever the cache holds. */
  function RefPosition(points: seq<Vec3>, autoClose: bool, mode: Mode, t: Number, index: int): Option<Vec3>
    requires |points| > 0
  {
    match mode
    case BSpline =>
      if t.Num? then Some(Apply(BSplinePositionWeights(t.value), LoadWindow(BSplineWindow, points, autoClose, index))) else None
    case Hermite =>
      if t.Num? then Some(I.InterpolateVectors(I.HermiteInterpolator(), t.value, index, autoClose, points, 0)) else None
    case _ => Some(Zero)
  }

  /** `getTangentIn`: the as-written tangent weights on the B-spline
      window, which it loads whatever the mode. */
  function TangentIn(c: Curve, t: Number, index: int): (r: (Option<Vec3>, Curve))
    requires |c.points| > 0
    ensures r.1 == c.(cache := r.1.cache)
    ensures Keyed(c) ==> r.0 == RefTangent(c.points, c.autoClose, t, index) && Keyed(r.1)
    ensures index >= 0 && SoundForBSpline(c) ==> r.0 == RefTangent(c.points, c.autoClose, t, index) && SoundForBSpline(r.1)
  {
    var (w, c1) := Load(c, index, BSplineWindow);
    (if t.Num? then Some(Apply(TangentWeightsAsWritten(t.value), w)) else None, c1)
  }

  /** The tangent `getTangentIn` computes from the nodes themselves,
      whatever the cache holds. */
  function RefTangent(points: seq<Vec3>, autoClose: bool, t: Number, index: int): Option<Vec3>
    requires |points| > 0
  {
    if t.Num? then Some(Apply(TangentWeightsAsWritten(t.value), LoadWindow(BSplineWindow, points, autoClose, index))) else None
  }

  /** `getNormalIn`: always up. */
  const Normal: Vec3 := Vec3(0.0, 1.0, 0.0)

  /** A rotation `Quaternion.LookRotation(forward, up)` would build; the
      rotation itself is not computed. */
  datatype Orientation = IdentityRotation | LookAlong(forward: Vec3, up: Vec3)

  /** The rotation for a tangent: none for a NaN tangent, the identity for
      a zero tangent (or normal), otherwise a look rotation. The engine
      tests `sqrMagnitude == 0`; over the reals a sum of three squares
      vanishes exactly for the zero vector, so the model compares vectors. */
  function RotationFor(tangent: Option<Vec3>, negativeNormal: bool, checkNormal: bool): (r: Option<Orientation>)
    ensures r.None? <==> tangent.None?
    ensures r == Some(IdentityRotation) <==> tangent == Some(Zero)
    ensures r.Some? && r.value.LookAlong? ==>
              r.value.forward == tangent.value && r.value.up == (if negativeNormal then Vec3(0.0, -1.0, 0.0) else Vec3(0.0, 1.0, 0.0))
  {
    match tangent
    case None => None
    case Some(v) =>
      if v == Zero || (checkNormal && Normal == Zero) then Some(IdentityRotation)
      else Some(LookAlong(v, if negativeNormal then Scale(-1.0, Normal) else Normal))
  }

  /** `GetPositionOnCurve`. */
  function GetPositionOnCurve(c: Curve, param: real): (r: (Option<Vec3>, Curve))
    requires Inv(c)
    ensures |c.points| == 0 ==> r == (Some(Zero), c)
    ensures r.1 == c.(cache := r.1.cache)
    ensures Inv(r.1)
    ensures Keyed(c) && |c.points| > 0 ==> r.0 == RefPosition(c.points, c.autoClose, c.mode, Locate(c, param).t, Locate(c, param).index) && Keyed(r.1)
    ensures SoundFor(c, PositionKind(c.mode)) && |c.points| > 0 ==>
              r.0 == RefPosition(c.points, c.autoClose, c.mode, Locate(c, param).t, Locate(c, param).index)
              && SoundFor(r.1, PositionKind(c.mode))
  {
    if |c.points| == 0 then (Some(Zero), c)
    else
      var l := Locate(c, param);
      PositionIn(c, l.t, l.index)
  }

  /** `GetTangentInternal`. */
  function GetTangent(c: Curve, param: real): (r: (Option<Vec3>, Curve))
    requires Inv(c)
    ensures |c.points| == 0 ==> r == (Some(Zero), c)
    ensures r.1 == c.(cache := r.1.cache)
    ensures Inv(r.1)
    ensures Keyed(c) && |c.points| > 0 ==> r.0 == RefTangent(c.points, c.autoClose, Locate(c, param).t, Locate(c, param).index) && Keyed(r.1)
    ensures SoundForBSpline(c) && |c.points| > 0 ==>
              r.0 == RefTangent(c.points, c.autoClose, Locate(c, param).t, Locate(c, param).index) && SoundForBSpline(r.1)
  {
    if |c.points| == 0 then (Some(Zero), c)
    else
      var l := Locate(c, param);
      TangentIn(c, l.t, l.index)
  }

  /** `getOrientatoinOnCurve`. */
  function GetOrientation(c: Curve, param: real, negativeNormal: bool): (r: (Option<Orientation>, Curve))
    requires Inv(c)
    ensures |c.points| == 0 ==> r == (Some(IdentityRotation), c)
    ensures r.1 == c.(cache := r.1.cache)
    ensures Inv(r.1)
    ensures Keyed(c) && |c.points| > 0 ==>
              var l := Locate(c, param);
              r.0 == RotationFor(RefTangent(c.points, c.autoClose, l.t, l.index), negativeNormal, true) && Keyed(r.1)
    ensures SoundForBSpline(c) && |c.points| > 0 ==>
              var l := Locate(c, param);
              r.0 == RotationFor(RefTangent(c.points, c.autoClose, l.t, l.index), negativeNormal, true) && SoundForBSpline(r.1)
  {
    if |c.points| == 0 then (Some(IdentityRotation), c)
    else
      var l := Locate(c, param);
      var (tangent, c1) := TangentIn(c, l.t, l.index);
      (RotationFor(tangent, negativeNormal, true), c1)
  }

  datatype CurveError = NullReference

  /** `PosAndRotOnCurve` as written: the empty-curve branch sets the
      outputs but does not return, so the search and the getters then run
      on the null point array and throw. */
  function PosAndRotAsWritten(c: Curve, param: real, negativeNormal: bool): (r: Result<(Option<Vec3>, Option<Orientation>, Curve), CurveError>)
    requires Inv(c)
  {
    if |c.points| == 0 then Failure(NullReference)
    else
      var l := Locate(c, param);
      var (pos, c1) := PositionIn(c, l.t, l.index);
      var (tangent, c2) := TangentIn(c1, l.t, l.index);
      Success((pos, RotationFor(tangent, negativeNormal, false), c2))
  }

  /** `PosAndRotOnCurve` with the missing `return`: an empty curve gives the
      zero position and the identity rotation. On a keyed curve it is the
      position of `GetPositionOnCurve` and the rotation of
      `getOrientatoinOnCurve`, and so it is on a sound cache outside
      Hermite mode. In Hermite mode under the source's policy the tangent
      is served the Hermite window the position has just loaded. */
  function PosAndRot(c: Curve, param: real, negativeNormal: bool): (r: (Option<Vec3>, Option<Orientation>, Curve))
    requires Inv(c)
    ensures |c.points| == 0 ==> r == (Some(Zero), Some(IdentityRotation), c)
    ensures r.2 == c.(cache := r.2.cache)
    ensures Keyed(c) && |c.points| > 0 ==>
              var l := Locate(c, param);
              && r.0 == RefPosition(c.points, c.autoClose, c.mode, l.t, l.index)
              && r.1 == RotationFor(RefTangent(c.points, c.autoClose, l.t, l.index), negativeNormal, false)
              && Keyed(r.2)
    ensures c.mode != Hermite && SoundForBSpline(c) && |c.points| > 0 ==>
              var l := Locate(c, param);
              && r.0 == RefPosition(c.points, c.autoClose, c.mode, l.t, l.index)
              && r.1 == RotationFor(RefTangent(c.points, c.autoClose, l.t, l.index), negativeNormal, false)
              && SoundForBSpline(r.2)
    ensures c.mode == Hermite && c.policy == ByIndex && SoundFor(c, HermiteWindow) && |c.points| > 0 ==>
              var l := Locate(c, param);
              var served := LoadWindow(HermiteWindow, c.points, c.autoClose, l.index);
              && r.0 == RefPosition(c.points, c.autoClose, c.mode, l.t, l.index)
              && r.1 == RotationFor(if l.t.Num? then Some(Apply(TangentWeightsAsWritten(l.t.value), served)) else None, negativeNormal, false)
  {
    if |c.points| == 0 then (Some(Zero), Some(IdentityRotation), c)
    else
      var l := Locate(c, param);
      var (pos, c1) := PositionIn(c, l.t, l.index);
      var (tangent, c2) := TangentIn(c1, l.t, l.index);
      (pos, RotationFor(tangent, negativeNormal, false), c2)
  }

  /** On a keyed curve the combined getter gives what the two separate
      getters give: the normal is never zero, so checking it changes
      nothing. */
  lemma PosAndRotMatchesGetters(c: Curve, param: real, negativeNormal: bool)
    requires Inv(c) && Keyed(c)
    ensures PosAndRot(c, param, negativeNormal).0 == GetPositionOnCurve(c, param).0
    ensures PosAndRot(c, param, negativeNormal).1 == GetOrientation(c, param, negativeNormal).0
  {
    if |c.points| > 0 {
      var l := Locate(c, param);
      var tangent := RefTangent(c.points, c.autoClose, l.t, l.index);
      assert RotationFor(tangent, negativeNormal, false) == RotationFor(tangent, negativeNormal, true);
    }
  }

  /** The missing `return` is exactly the empty-curve failure: elsewhere
      the as-written method and the corrected one agree. */
  lemma PosAndRotMissingReturn(c: Curve, param: real, negativeNormal: bool)
    requires Inv(c)
    ensures PosAndRotAsWritten(c, param, negativeNormal).Failure? <==> |c.points| == 0
    ensures |c.points| > 0 ==> PosAndRotAsWritten(c, param, negativeNormal) == Success(PosAndRot(c, param, negativeNormal))
  {
  }

  // ------------------------------------------------------ the window cache

  /** Two open two-point curves. */
  const PointsA: seq<Vec3> := [Vec3(0.0, 0.0, 0.0), Vec3(1.0, 0.0, 0.0)]
  const PointsB: seq<Vec3> := [Vec3(5.0, 0.0, 0.0), Vec3(6.0, 0.0, 0.0)]

  /** Under the source's policy `SetPoints` keeps the window of the old
      nodes: after reading the start of a curve through `PointsA` and then
      reusing the same curve for `PointsB`, with the caller supplying the
      length table, the start is still read from the old nodes, at
      x = 0.16667 instead of 5.16672. (The path loader builds a fresh curve
      for each file and passes no table, so it does not meet this stale
      B-spline read; it meets the stale Hermite read of
      `HermiteEndAfterSetPoints`.) */
  lemma StaleWindowAfterSetPoints(c: Curve, table: Table, norm: NormFn)
    requires Inv(c) && c.points == PointsA && c.mode == BSpline && !c.autoClose
    requires c.policy == ByIndex && c.cache == InitialCache(ByIndex)
    requires WellFormed(table, c.accuracy)
    ensures var c1 := GetPositionOnCurve(c, 0.0).1;
            var c2 := SetPoints(c1, PointsB, Some(table), norm);
            && GetPositionOnCurve(c2, 0.0).0 == Some(Vec3(0.16667, 0.0, 0.0))
            && RefPosition(PointsB, false, BSpline, Num(0.0), 0) == Some(Vec3(5.16672, 0.0, 0.0))
  {
    StaleRead(c, table, norm);
    StartOfPointsB();
  }

  /** The read after `SetPoints` under the source's policy. */
  lemma StaleRead(c: Curve, table: Table, norm: NormFn)
    requires Inv(c) && c.points == PointsA && c.mode == BSpline && !c.autoClose
    requires c.policy == ByIndex && c.cache == InitialCache(ByIndex)
    requires WellFormed(table, c.accuracy)
    ensures var c1 := GetPositionOnCurve(c, 0.0).1;
            GetPositionOnCurve(SetPoints(c1, PointsB, Some(table), norm), 0.0).0 == Some(Vec3(0.16667, 0.0, 0.0))
  {
    StartLoadsWindow(c, BSplineWindow);
    var c1 := GetPositionOnCurve(c, 0.0).1;
    var c2 := SetPoints(c1, PointsB, Some(table), norm);
    StartReadsCache(c2);
    StartsOfPointsAAndB();
  }

  /** What the nodes of `PointsB` give at their start. */
  lemma StartOfPointsB()
    ensures RefPosition(PointsB, false, BSpline, Num(0.0), 0) == Some(Vec3(5.16672, 0.0, 0.0))
  {
    RefPositionOfBSpline(PointsB, false, 0.0, 0);
    StartsOfPointsAAndB();
  }

  /** A B-spline reference position is the B-spline weights applied to
      the window the nodes give. */
  lemma RefPositionOfBSpline(points: seq<Vec3>, autoClose: bool, t: real, index: int)
    requires |points| > 0
    ensures RefPosition(points, autoClose, BSpline, Num(t), index)
            == Some(Apply(BSplinePositionWeights(t), LoadWindow(BSplineWindow, points, autoClose, index)))
  {
  }

  /** Under the source's policy a window loaded for one kind is served to
      the other: after a Hermite position at the start of a fresh curve
      through `PointsA`, the tangent there is computed on the Hermite
      window, x = 0.25 instead of the 0.5 the B-spline window gives. */
  lemma HermiteWindowServedToTangent(c: Curve)
    requires Inv(c) && c.points == PointsA && c.mode == Hermite && !c.autoClose
    requires c.policy == ByIndex && c.cache == InitialCache(ByIndex)
    ensures var c1 := GetPositionOnCurve(c, 0.0).1;
            && GetTangent(c1, 0.0).0 == Some(Vec3(0.25, 0.0, 0.0))
            && RefTangent(PointsA, false, Num(0.0), 0) == Some(Vec3(0.5, 0.0, 0.0))
  {
    HermiteTangentRead(c);
    StartTangentOfPointsA();
  }

  /** The tangent read after a Hermite position under the source's policy. */
  lemma HermiteTangentRead(c: Curve)
    requires Inv(c) && c.points == PointsA && c.mode == Hermite && !c.autoClose
    requires c.policy == ByIndex && c.cache == InitialCache(ByIndex)
    ensures GetTangent(GetPositionOnCurve(c, 0.0).1, 0.0).0 == Some(Vec3(0.25, 0.0, 0.0))
  {
    StartLoadsWindow(c, HermiteWindow);
    TangentReadsCache(GetPositionOnCurve(c, 0.0).1);
    TangentsAtStartOfPointsA();
  }

  /** What the nodes of `PointsA` give as the tangent at their start. */
  lemma StartTangentOfPointsA()
    ensures RefTangent(PointsA, false, Num(0.0), 0) == Some(Vec3(0.5, 0.0, 0.0))
  {
    TangentsAtStartOfPointsA();
  }

  /** A fresh curve under the source's policy, read at its start, holds the
      window of segment 0 of its nodes. */
  lemma StartLoadsWindow(c: Curve, kind: WindowKind)
    requires Inv(c) && |c.points| >= 2 && c.policy == ByIndex && c.cache == InitialCache(ByIndex)
    requires c.mode == (if kind == BSplineWindow then BSpline else Hermite)
    ensures GetPositionOnCurve(c, 0.0).1 == c.(cache := Loaded(0, kind, LoadWindow(kind, c.points, c.autoClose, 0)))
  {
    assert Locate(c, 0.0) == Located(0, Num(0.0));
  }

  /** Under the source's policy a B-spline curve whose cache holds segment
      0 reads its start from the cached window, whatever nodes it has now. */
  lemma StartReadsCache(c: Curve)
    requires Inv(c) && |c.points| >= 2 && c.policy == ByIndex && c.mode == BSpline
    requires c.cache.Loaded? && c.cache.index == 0
    ensures GetPositionOnCurve(c, 0.0).0 == Some(Apply(BSplinePositionWeights(0.0), c.cache.window))
  {
    assert Locate(c, 0.0) == Located(0, Num(0.0));
  }

  /** Under the source's policy a curve whose cache holds segment 0 reads
      the tangent at its start from the cached window, whatever kind it is. */
  lemma TangentReadsCache(c: Curve)
    requires Inv(c) && |c.points| >= 2 && c.policy == ByIndex
    requires c.cache.Loaded? && c.cache.index == 0
    ensures GetTangent(c, 0.0).0 == Some(Apply(TangentWeightsAsWritten(0.0), c.cache.window))
  {
    assert Locate(c, 0.0) == Located(0, Num(0.0));
  }

  /** The start of the two curves, read through the B-spline weights. */
  lemma StartsOfPointsAAndB()
    ensures Apply(BSplinePositionWeights(0.0), LoadWindow(BSplineWindow, PointsA, false, 0)) == Vec3(0.16667, 0.0, 0.0)
    ensures Apply(BSplinePositionWeights(0.0), LoadWindow(BSplineWindow, PointsB, false, 0)) == Vec3(5.16672, 0.0, 0.0)
  {
    BSplineWeightsAtStart();
    StartWindows();
    BlendStartA();
    BlendStartB();
  }

  /** The windows of segment 0 of an open two-point curve: the end nodes
      are repeated beyond the ends. */
  lemma TwoPointWindows(points: seq<Vec3>)
    requires |points| == 2
    ensures LoadWindow(BSplineWindow, points, false, 0) == Window(points[0], points[0], points[1], points[1])
    ensures LoadWindow(HermiteWindow, points, false, 0)
            == Window(points[0], points[1], Scale(0.5, Sub(points[1], points[0])), Scale(0.5, Sub(points[1], points[0])))
  {
    assert I.GetNodeIndex(false, 2, 0, -1) == 0 && I.GetNodeIndex(false, 2, 0, 0) == 0;
    assert I.GetNodeIndex(false, 2, 0, 1) == 1 && I.GetNodeIndex(false, 2, 0, 2) == 1;
  }

  /** The windows of segment 0 of the two curves. */
  lemma StartWindows()
    ensures LoadWindow(BSplineWindow, PointsA, false, 0)
            == Window(Vec3(0.0, 0.0, 0.0), Vec3(0.0, 0.0, 0.0), Vec3(1.0, 0.0, 0.0), Vec3(1.0, 0.0, 0.0))
    ensures LoadWindow(BSplineWindow, PointsB, false, 0)
            == Window(Vec3(5.0, 0.0, 0.0), Vec3(5.0, 0.0, 0.0), Vec3(6.0, 0.0, 0.0), Vec3(6.0, 0.0, 0.0))
    ensures LoadWindow(HermiteWindow, PointsA, false, 0)
            == Window(Vec3(0.0, 0.0, 0.0), Vec3(1.0, 0.0, 0.0), Vec3(0.5, 0.0, 0.0), Vec3(0.5, 0.0, 0.0))
  {
    TwoPointWindows(PointsA);
    TwoPointWindows(PointsB);
    HalfStep();
  }

  lemma HalfStep()
    ensures Scale(0.5, Sub(Vec3(1.0, 0.0, 0.0), Vec3(0.0, 0.0, 0.0))) == Vec3(0.5, 0.0, 0.0)
  {
    assert Sub(Vec3(1.0, 0.0, 0.0), Vec3(0.0, 0.0, 0.0)) == Vec3(1.0, 0.0, 0.0);
  }

  lemma BlendStartA()
    ensures Apply(I.Weights(0.16667, 0.66667, 0.16667, 0.0),
                  Window(Vec3(0.0, 0.0, 0.0), Vec3(0.0, 0.0, 0.0), Vec3(1.0, 0.0, 0.0), Vec3(1.0, 0.0, 0.0)))
            == Vec3(0.16667, 0.0, 0.0)
  {
  }

  lemma BlendStartB()
    ensures Apply(I.Weights(0.16667, 0.66667, 0.16667, 0.0),
                  Window(Vec3(5.0, 0.0, 0.0), Vec3(5.0, 0.0, 0.0), Vec3(6.0, 0.0, 0.0), Vec3(6.0, 0.0, 0.0)))
            == Vec3(5.16672, 0.0, 0.0)
  {
  }

  /** The tangent weights at the start of `PointsA`, on the Hermite and
      on the B-spline window. */
  lemma TangentsAtStartOfPointsA()
    ensures Apply(TangentWeightsAsWritten(0.0), LoadWindow(HermiteWindow, PointsA, false, 0)) == Vec3(0.25, 0.0, 0.0)
    ensures Apply(TangentWeightsAsWritten(0.0), LoadWindow(BSplineWindow, PointsA, false, 0)) == Vec3(0.5, 0.0, 0.0)
  {
    TangentWeightsAsWrittenAtStart();
    TangentWeightsAtStart();
    StartWindows();
    BlendTangentHermite();
    BlendTangentBSpline();
  }

  lemma BlendTangentHermite()
    ensures Apply(I.Weights(-0.5, 0.0, 0.5, 0.0),
                  Window(Vec3(0.0, 0.0, 0.0), Vec3(1.0, 0.0, 0.0), Vec3(0.5, 0.0, 0.0), Vec3(0.5, 0.0, 0.0)))
            == Vec3(0.25, 0.0, 0.0)
  {
  }

  lemma BlendTangentBSpline()
    ensures Apply(I.Weights(-0.5, 0.0, 0.5, 0.0),
                  Window(Vec3(0.0, 0.0, 0.0), Vec3(0.0, 0.0, 0.0), Vec3(1.0, 0.0, 0.0), Vec3(1.0, 0.0, 0.0)))
            == Vec3(0.5, 0.0, 0.0)
  {
  }

  /** Under the corrected policy every getter reads the nodes the curve
      holds now, whatever was read before and whatever `SetPoints` and the
      `autoClose` setter replaced. */
  lemma FreshWindowAfterChanges(c: Curve, points: seq<Vec3>, cvlen: Option<Table>, autoClose: bool, param: real, norm: NormFn)
    requires Inv(c) && c.policy == ByIndexAndKind && |points| >= 2
    requires cvlen.Some? ==> WellFormed(cvlen.value, c.accuracy)
    ensures var c1 := SetAutoClose(SetPoints(c, points, cvlen, norm), autoClose);
            var l := Locate(c1, param);
            && GetPositionOnCurve(c1, param).0 == RefPosition(points, autoClose, c.mode, l.t, l.index)
            && GetTangent(c1, param).0 == RefTangent(points, autoClose, l.t, l.index)
  {
  }

  // ------------------------------------------ the window measuring leaves

  /** The last sub-segment of `segments` segments lies in the last one. */
  lemma LastSubSegment(segments: nat, accuracy: nat)
    requires segments > 0 && accuracy > 0
    ensures (segments * accuracy - 1) / accuracy == segments - 1
  {
    assert segments * accuracy - 1 == (segments - 1) * accuracy + (accuracy - 1);
    I.ModUnique(segments * accuracy - 1, accuracy, segments - 1, accuracy - 1);
  }

  /** Measuring ends with a load for the last segment: the last
      sub-segment the inner loop samples lies in it. */
  lemma {:induction false} MeasureEndsOnLastSegment(c: Curve, k: nat, norm: NormFn)
    requires |c.points| > 0 && k < SubSegmentCount(c)
    ensures Measure(c, k, norm).1.cache.Loaded?
    ensures Measure(c, k, norm).1.cache.index == SegmentCount(|c.points|, c.autoClose) - 1
    decreases SubSegmentCount(c) - k
  {
    var step := MeasureStep(c, k, norm);
    assert SubSegmentCount(step.1) == SubSegmentCount(c);
    if k + 1 < SubSegmentCount(c) {
      MeasureEndsOnLastSegment(step.1, k + 1, norm);
    } else {
      LastSubSegment(SegmentCount(|c.points|, c.autoClose), c.accuracy);
      assert step.1.cache.index == k / c.accuracy;
    }
  }

  /** The cache holds the B-spline window of the curve's last segment. */
  predicate HoldsLastWindow(c: Curve) {
    && |c.points| > 0
    && c.cache.Loaded?
    && c.cache.index == SegmentCount(|c.points|, c.autoClose) - 1
    && c.cache.window == LoadWindow(BSplineWindow, c.points, c.autoClose, c.cache.index)
  }

  /** Measuring from a sound cache under the source's policy leaves the
      B-spline window of the last segment in the cache. */
  lemma MeasureLeavesLastWindow(c: Curve, norm: NormFn)
    requires |c.points| > 0 && c.policy == ByIndex && SubSegmentCount(c) > 0 && SoundForBSpline(c)
    ensures HoldsLastWindow(Measure(c, 0, norm).1)
  {
    MeasureSound(c, 0, norm);
    MeasureEndsOnLastSegment(c, 0, norm);
  }

  /** Under the source's policy `CalculateLength` from a sound cache
      leaves the B-spline window of the last segment in the cache. */
  lemma CalculateLengthLeavesLastWindow(c: Curve, norm: NormFn)
    requires |c.points| > 0 && c.policy == ByIndex && SubSegmentCount(c) > 0 && SoundForBSpline(c)
    ensures HoldsLastWindow(CalculateLength(c, norm))
  {
    MeasureLeavesLastWindow(c, norm);
  }

  /** Under the source's policy `SetPoints` without a table is the
      measurement of the curve with the new nodes, cache and all. */
  lemma SetPointsMeasures(c: Curve, points: seq<Vec3>, norm: NormFn)
    requires Inv(c) && c.policy == ByIndex && |points| >= 2
    ensures SetPoints(c, points, None, norm) == CalculateLength(c.(points := points), norm)
  {
  }

  /** Under the source's policy `SetPoints` on a curve nothing has read
      yet measures the new nodes and leaves the B-spline window of their
      last segment in the cache, where any later load for that segment,
      of either kind, finds it. */
  lemma SetPointsLeavesLastWindow(c: Curve, points: seq<Vec3>, norm: NormFn)
    requires Inv(c) && c.policy == ByIndex && Untouched(c.cache) && c.accuracy > 0 && |points| >= 2
    ensures HoldsLastWindow(SetPoints(c, points, None, norm))
  {
    SoundCaches(c.(points := points));
    SetPointsMeasures(c, points, norm);
    CalculateLengthLeavesLastWindow(c.(points := points), norm);
  }

  /** The Hermite weights at the end of a segment pick the window's second
      node. */
  lemma HermiteAtEnd(w: Window)
    ensures Apply(HermitePositionWeights(1.0), w) == w.p1
  {
    assert HermitePositionWeights(1.0) == I.Weights(0.0, 1.0, 0.0, 0.0);
  }

  /** Under the source's policy a Hermite curve read in the segment its
      cache was loaded for blends the Hermite weights over the cached
      window, whatever kind it is. */
  lemma HermiteReadsCache(c: Curve, param: real)
    requires Inv(c) && |c.points| >= 2 && c.policy == ByIndex && c.mode == Hermite && c.cache.Loaded?
    ensures var l := Locate(c, param);
            l.index == c.cache.index ==>
              GetPositionOnCurve(c, param).0 == if l.t.Num? then Some(Apply(HermitePositionWeights(l.t.value), c.cache.window)) else None
  {
  }

  /** Under the source's policy a Hermite curve whose cache holds the
      B-spline window of its last segment, read anywhere in that segment,
      blends the Hermite weights over that B-spline window. */
  lemma HermiteReadsLastWindow(c: Curve, points: seq<Vec3>, autoClose: bool, param: real)
    requires Inv(c) && c.points == points && c.autoClose == autoClose && |points| >= 2
    requires c.policy == ByIndex && c.mode == Hermite && HoldsLastWindow(c)
    ensures var last := SegmentCount(|points|, autoClose) - 1;
            var l := Locate(c, param);
            l.index == last ==>
              GetPositionOnCurve(c, param).0
              == if l.t.Num? then Some(Apply(HermitePositionWeights(l.t.value), LoadWindow(BSplineWindow, points, autoClose, last))) else None
  {
    HermiteReadsCache(c, param);
  }

  /** Under the source's policy an open Hermite curve whose cache holds
      the B-spline window of its last segment ends at its last node but
      one. */
  lemma HermiteEndOnLastWindow(c: Curve, points: seq<Vec3>)
    requires Inv(c) && c.points == points && |points| >= 2 && c.policy == ByIndex && c.mode == Hermite && !c.autoClose
    requires HoldsLastWindow(c)
    ensures GetPositionOnCurve(c, 1.0).0 == Some(points[|points| - 2])
  {
    OpenEndLocated(c);
    HermiteReadsCache(c, 1.0);
    HermiteAtEnd(c.cache.window);
    BSplineWindowSecond(c.points, |c.points| - 2);
  }

  /** Parameter 1 of an open curve falls at the end of its last segment. */
  lemma OpenEndLocated(c: Curve)
    requires Inv(c) && !c.autoClose && |c.points| >= 2
    ensures Locate(c, 1.0) == Located(|c.points| - 2, Num(1.0))
  {
  }

  /** The second node of the B-spline window of an open curve's segment
      is the segment's own start node. */
  lemma BSplineWindowSecond(points: seq<Vec3>, index: int)
    requires 0 <= index < |points| - 1
    ensures LoadWindow(BSplineWindow, points, false, index).p1 == points[index]
  {
  }

  /** Under the source's policy a Hermite curve read at its end right
      after `SetPoints` measured it blends the Hermite weights over the
      B-spline window measuring left behind: an open curve ends at its
      last node but one instead of its last node. */
  lemma HermiteEndAfterSetPoints(c: Curve, points: seq<Vec3>, norm: NormFn)
    requires Inv(c) && c.policy == ByIndex && c.mode == Hermite && Untouched(c.cache) && c.accuracy > 0
    requires |points| >= 2 && !c.autoClose
    ensures GetPositionOnCurve(SetPoints(c, points, None, norm), 1.0).0 == Some(points[|points| - 2])
    ensures RefPosition(points, false, Hermite, Num(1.0), |points| - 2) == Some(points[|points| - 1])
  {
    SetPointsLeavesLastWindow(c, points, norm);
    HermiteEndOnLastWindow(SetPoints(c, points, None, norm), points);
    HermiteEndOfNodes(points);
  }

  /** The curve the path loader builds, a fresh open Hermite curve with
      accuracy 5 under the source's policy, ends at its last node but
      one. */
  lemma FreshHermiteEnd(points: seq<Vec3>, norm: NormFn)
    requires |points| >= 2
    ensures GetPositionOnCurve(SetPoints(NewCurve(5, ByIndex).(mode := Hermite), points, None, norm), 1.0).0 == Some(points[|points| - 2])
  {
    HermiteEndAfterSetPoints(NewCurve(5, ByIndex).(mode := Hermite), points, norm);
  }

  /** A fresh Hermite curve through `PointsA` under the source's policy
      ends at (0, 0, 0), its first node, where the nodes end at (1, 0, 0). */
  lemma HermitePointsAEndAsWritten(norm: NormFn)
    ensures var c := SetPoints(NewCurve(5, ByIndex).(mode := Hermite), PointsA, None, norm);
            && GetPositionOnCurve(c, 1.0).0 == Some(Vec3(0.0, 0.0, 0.0))
            && RefPosition(PointsA, false, Hermite, Num(1.0), 0) == Some(Vec3(1.0, 0.0, 0.0))
  {
    FreshHermiteEnd(PointsA, norm);
    HermiteEndOfNodes(PointsA);
  }

  /** Under the corrected policy an open Hermite curve read at parameter 1
      gives its last node, whatever was read before: in particular right
      after `SetPoints`, which leaves every curve under that policy keyed. */
  lemma KeyedHermiteEnd(c: Curve)
    requires Inv(c) && Keyed(c) && c.mode == Hermite && !c.autoClose && |c.points| >= 2
    ensures GetPositionOnCurve(c, 1.0).0 == Some(c.points[|c.points| - 1])
  {
    var last := |c.points| - 2;
    assert Locate(c, 1.0) == Located(last, Num(1.0));
    HermiteEndOfNodes(c.points);
  }

  /** What the nodes of an open curve give at its end, in Hermite mode:
      its last node. */
  lemma HermiteEndOfNodes(points: seq<Vec3>)
    requires |points| >= 2
    ensures RefPosition(points, false, Hermite, Num(1.0), |points| - 2) == Some(points[|points| - 1])
  {
    var last := |points| - 2;
    RuntimeMatchesEditor(points, false, last, 1.0);
    HermiteAtEnd(LoadWindow(HermiteWindow, points, false, last));
  }
}

=== FILE: curve_basis.dfy ===
/** The fixed bases of the runtime `Curve`: its hand-expanded B-spline and
    Hermite weights, the speed and tangent weights, the four-node windows
    they apply to, and the Simpson rule that measures sub-segments. */
module CurveBasis {
  import opened Common
  import I = Interpolator

  /** Position weights of the B-spline branch of `getPositionIn`, with the
      rounded constants 0.33333, 0.16667 and 0.66667 of the source. */
  function BSplinePositionWeights(t: real): (w: I.Weights)
    ensures I.WeightSum(w) == 1.00001
  {
    var ht := t * 0.5;
    var ht2 := t * ht;
    var ht3 := ht2 * t;
    var b3 := 0.33333 * ht3;
    I.Weights(-b3 + ht2 - ht + 0.16667, ht3 - 2.0 * ht2 + 0.66667, -ht3 + ht2 + ht + 0.16667, b3)
  }

  /** The rounded constants keep every B-spline weight within 0.00001 of the
      exact uniform cubic B-spline weight of the editor's interpolator. */
  lemma BSplinePositionNearExact(t: real)
    requires 0.0 <= t <= 1.0
    ensures var w, e := BSplinePositionWeights(t), I.GetCoefficients(I.BSplineMatrix, t, 0);
            && -0.00001 <= w.b0 - e.b0 <= 0.00001
            && -0.00001 <= w.b1 - e.b1 <= 0.00001
            && -0.00001 <= w.b2 - e.b2 <= 0.00001
            && -0.00001 <= w.b3 - e.b3 <= 0.00001
  {
    var t3 := t * t * t;
    assert 0.0 <= t3 <= 1.0 by { I.ProductsNonNegative(t, t, t); assert t * t <= 1.0 by { assert t * t <= t; } }
    var w, e := BSplinePositionWeights(t), I.GetCoefficients(I.BSplineMatrix, t, 0);
    assert w.b3 == 0.166665 * t3;
    assert e.b3 == t3 / 6.0;
    assert w.b0 - e.b0 == t3 / 600000.0 + 1.0 / 300000.0;
    assert w.b1 - e.b1 == 1.0 / 300000.0;
    assert w.b2 - e.b2 == 1.0 / 300000.0;
  }

  lemma BSplineWeightsAtStart()
    ensures BSplinePositionWeights(0.0) == I.Weights(0.16667, 0.66667, 0.16667, 0.0)
  {
  }

  lemma TangentWeightsAtStart()
    ensures TangentWeights(0.0) == I.Weights(-0.5, 0.0, 0.5, 0.0)
  {
  }

  /** Position weights of the Hermite branch of `getPositionIn`: exactly the
      editor's Hermite basis. */
  function HermitePositionWeights(t: real): (w: I.Weights)
    ensures w == I.GetCoefficients(I.HermiteMatrix, t, 0)
  {
    var t2 := t * t;
    var t3 := t2 * t;
    I.Weights(2.0 * t3 - 3.0 * t2 + 1.0, -2.0 * t3 + 3.0 * t2, t3 - 2.0 * t2 + t, t3 - t2)
  }

  /** The weights of `GetSplineSpeed`: exactly the first derivative of the
      uniform cubic B-spline basis. */
  function SpeedWeights(t: real): (w: I.Weights)
    ensures w == I.GetCoefficients(I.BSplineMatrix, t, 1)
  {
    var t2 := t * t;
    I.Weights(-t2 * 0.5 + t - 0.5, 1.5 * t2 - 2.0 * t, -1.5 * t2 + t + 0.5, t2 * 0.5)
  }

  /** The weights of `getTangentIn` as written: each B-spline polynomial's
      coefficients moved down one power, without the exponent factor the
      derivative needs. They still sum to 0, so a curve whose four nodes
      coincide has a zero tangent. */
  function TangentWeightsAsWritten(t: real): (w: I.Weights)
    ensures I.WeightSum(w) == 0.0
  {
    var t2 := t * t;
    I.Weights(-0.16667 * t2 + 0.5 * t - 0.5, 0.5 * t2 - t, -0.5 * t2 + 0.5 * t + 0.5, t2 * 0.16667)
  }

  /** At the start of a segment the as-written tangent weights agree with
      the derivative. */
  lemma TangentWeightsAsWrittenAtStart()
    ensures TangentWeightsAsWritten(0.0) == SpeedWeights(0.0)
  {
  }

  /** At the end of a segment they do not: they still weigh the first node
      and undercount the last. */
  lemma TangentWeightsAsWrittenAtEnd()
    ensures TangentWeightsAsWritten(1.0) == I.Weights(-0.16667, -0.5, 0.5, 0.16667)
    ensures SpeedWeights(1.0) == I.Weights(0.0, -0.5, 0.0, 0.5)
  {
  }

  /** The corrected tangent: the exact derivative weights, the ones the
      speed computation already uses. */
  function TangentWeights(t: real): (w: I.Weights)
    ensures w == I.GetCoefficients(I.BSplineMatrix, t, 1)
    ensures I.WeightSum(w) == 0.0
  {
    SpeedWeights(t)
  }

  /** The closed unit square, four nodes. */
  const Square: seq<Vec3> := [Vec3(0.0, 0.0, 0.0), Vec3(1.0, 0.0, 0.0), Vec3(1.0, 1.0, 0.0), Vec3(0.0, 1.0, 0.0)]

  /** The as-written tangent jumps where two segments meet: around the
      closed square, segment 1 ends pointing along (0, 0.66667, 0) and
      segment 2 starts pointing along (-0.5, 0.5, 0), at the same node. */
  lemma TangentAsWrittenBreaksAtJoint()
    ensures Apply(TangentWeightsAsWritten(1.0), LoadWindow(BSplineWindow, Square, true, 1)) == Vec3(0.0, 0.66667, 0.0)
    ensures Apply(TangentWeightsAsWritten(0.0), LoadWindow(BSplineWindow, Square, true, 2)) == Vec3(-0.5, 0.5, 0.0)
  {
    SquareTangents(Square);
  }

  /** The as-written tangents of segments 1 and 2 of a closed four-node
      curve with the square's nodes. */
  lemma SquareTangents(points: seq<Vec3>)
    requires |points| == 4 && points[0] == Vec3(0.0, 0.0, 0.0) && points[1] == Vec3(1.0, 0.0, 0.0)
    requires points[2] == Vec3(1.0, 1.0, 0.0) && points[3] == Vec3(0.0, 1.0, 0.0)
    ensures Apply(TangentWeightsAsWritten(1.0), LoadWindow(BSplineWindow, points, true, 1)) == Vec3(0.0, 0.66667, 0.0)
    ensures Apply(TangentWeightsAsWritten(0.0), LoadWindow(BSplineWindow, points, true, 2)) == Vec3(-0.5, 0.5, 0.0)
  {
    TangentWeightsAsWrittenAtEnd();
    TangentWeightsAsWrittenAtZero();
    SquareWindows(points);
    BlendSquareEnd();
    BlendSquareStart();
  }

  lemma TangentWeightsAsWrittenAtZero()
    ensures TangentWeightsAsWritten(0.0) == I.Weights(-0.5, 0.0, 0.5, 0.0)
  {
  }

  /** The B-spline windows of segments 1 and 2 of a closed four-node curve. */
  lemma SquareWindows(points: seq<Vec3>)
    requires |points| == 4
    ensures LoadWindow(BSplineWindow, points, true, 1) == Window(points[0], points[1], points[2], points[3])
    ensures LoadWindow(BSplineWindow, points, true, 2) == Window(points[1], points[2], points[3], points[0])
  {
    ClosedWindow(points, 1);
    ClosedWindow(points, 2);
  }

  /** Away from node 0 a closed curve's window is the four nodes around the
      segment, the last one wrapping to node 0 at the end. */
  lemma ClosedWindow(points: seq<Vec3>, index: int)
    requires 1 <= index && index + 2 <= |points|
    ensures LoadWindow(BSplineWindow, points, true, index)
            == Window(points[index - 1], points[index], points[index + 1], points[if index + 2 == |points| then 0 else index + 2])
  {
    var n := |points|;
    I.ModUnique(index - 1, n, 0, index - 1);
    I.ModUnique(index, n, 0, index);
    I.ModUnique(index + 1, n, 0, index + 1);
    if index + 2 == n {
      I.ModUnique(index + 2, n, 1, 0);
    } else {
      I.ModUnique(index + 2, n, 0, index + 2);
    }
  }

  lemma BlendSquareEnd()
    ensures Apply(I.Weights(-0.16667, -0.5, 0.5, 0.16667),
                  Window(Vec3(0.0, 0.0, 0.0), Vec3(1.0, 0.0, 0.0), Vec3(1.0, 1.0, 0.0), Vec3(0.0, 1.0, 0.0)))
            == Vec3(0.0, 0.66667, 0.0)
  {
  }

  lemma BlendSquareStart()
    ensures Apply(I.Weights(-0.5, 0.0, 0.5, 0.0),
                  Window(Vec3(1.0, 0.0, 0.0), Vec3(1.0, 1.0, 0.0), Vec3(0.0, 1.0, 0.0), Vec3(0.0, 0.0, 0.0)))
            == Vec3(-0.5, 0.5, 0.0)
  {
  }

  /** With the corrected weights the tangent is continuous: the end of
      every segment and the start of the next agree, open or closed. */
  lemma TangentContinuousAtJoints(points: seq<Vec3>, autoClose: bool, index: int)
    requires |points| > 0
    ensures Apply(TangentWeights(1.0), LoadWindow(BSplineWindow, points, autoClose, index))
            == Apply(TangentWeights(0.0), LoadWindow(BSplineWindow, points, autoClose, index + 1))
  {
    RuntimeMatchesEditor(points, autoClose, index, 1.0);
    RuntimeMatchesEditor(points, autoClose, index + 1, 0.0);
    I.BSplineSegmentsJoin(index, autoClose, points, 1);
  }

  /** The four cached nodes `p0..p3`. */
  datatype Window = Window(p0: Vec3, p1: Vec3, p2: Vec3, p3: Vec3)

  const ZeroWindow := Window(Zero, Zero, Zero, Zero)

  /** Which window a branch loads: the B-spline one (offsets -1, 0, 1, 2),
      or the Hermite one (offsets 0, 1, -1, 2, the last two then replaced
      by tangents). */
  datatype WindowKind = BSplineWindow | HermiteWindow

  /** The window a branch loads for segment `index` when the cache misses.
      The curve indexes nodes exactly like the editor's interpolator. */
  function LoadWindow(kind: WindowKind, points: seq<Vec3>, autoClose: bool, index: int): (w: Window)
    requires |points| > 0
    ensures kind == BSplineWindow ==>
              (w.p0, w.p1, w.p2, w.p3) == I.NodeData(I.BSplineInterpolator(), points, index, autoClose)
    ensures kind == HermiteWindow ==>
              var (n0, n1, n2, n3) := I.NodeData(I.HermiteInterpolator(), points, index, autoClose);
              (w.p0, w.p1, w.p2, w.p3) == (n0, n1, Scale(0.5, Sub(n1, n2)), Scale(0.5, Sub(n3, n0)))
  {
    var n := |points|;
    var prev := points[I.GetNodeIndex(autoClose, n, index, -1)];
    var here := points[I.GetNodeIndex(autoClose, n, index, 0)];
    var next := points[I.GetNodeIndex(autoClose, n, index, 1)];
    var after := points[I.GetNodeIndex(autoClose, n, index, 2)];
    match kind
    case BSplineWindow => Window(prev, here, next, after)
    case HermiteWindow => Window(here, next, Scale(0.5, Sub(next, prev)), Scale(0.5, Sub(after, here)))
  }

  /** `b0 * p0 + b1 * p1 + b2 * p2 + b3 * p3`. */
  function Apply(w: I.Weights, win: Window): Vec3 {
    Blend4(w.b0, w.b1, w.b2, w.b3, win.p0, win.p1, win.p2, win.p3)
  }

  /** The runtime Hermite position is the editor's Hermite interpolation of
      the same nodes, and the runtime speed vector is the editor's B-spline
      first derivative: the two engines agree on these. */
  lemma RuntimeMatchesEditor(points: seq<Vec3>, autoClose: bool, index: int, t: real)
    requires |points| > 0
    ensures Apply(HermitePositionWeights(t), LoadWindow(HermiteWindow, points, autoClose, index))
            == I.InterpolateVectors(I.HermiteInterpolator(), t, index, autoClose, points, 0)
    ensures Apply(SpeedWeights(t), LoadWindow(BSplineWindow, points, autoClose, index))
            == I.InterpolateVectors(I.BSplineInterpolator(), t, index, autoClose, points, 1)
  {
  }

  /** Simpson's rule from its three samples: at the start, the middle and
      the end of `[begin, end]`. Never negative when the samples are not and
      the interval is not reversed. */
  function SimpsonRule(s0: real, s1: real, s2: real, begin: real, end: real): (r: real)
    ensures s0 >= 0.0 && s1 >= 0.0 && s2 >= 0.0 && begin <= end ==> r >= 0.0
  {
    var s := s0 + 4.0 * s1 + s2;
    ProductNonNegative(s, (end - begin) / 6.0);
    s * ((end - begin) / 6.0)
  }

  /** Simpson's rule as `getSegmentLengthIn` writes it: the third sample is
      taken at `begin + end` instead of at `end`. */
  function SimpsonAsWritten(f: real -> real, begin: real, end: real): real {
    SimpsonRule(f(begin), f((begin + end) * 0.5), f(begin + end), begin, end)
  }

  /** Simpson's rule over `[begin, end]`. */
  function Simpson(f: real -> real, begin: real, end: real): (r: real)
    ensures f(begin) >= 0.0 && f((begin + end) * 0.5) >= 0.0 && f(end) >= 0.0 && begin <= end ==> r >= 0.0
  {
    SimpsonRule(f(begin), f((begin + end) * 0.5), f(end), begin, end)
  }

  function Cubic(a: real, b: real, c: real, d: real, x: real): real {
    a * (x * x * x) + b * (x * x) + c * x + d
  }

  /** An antiderivative of `Cubic`, zero at 0. */
  function CubicIntegral(a: real, b: real, c: real, d: real, x: real): real {
    a * (x * x * x * x) / 4.0 + b * (x * x * x) / 3.0 + c * (x * x) / 2.0 + d * x
  }

  /** Simpson's rule integrates every cubic exactly: over `[lo, lo + w]`, a
      speed that is a cubic in the distance from `lo` (every cubic can be
      written so) is measured as its exact integral. Only the three samples matter. */
  lemma SimpsonExactOnCubics(f: real -> real, a: real, b: real, c: real, d: real, lo: real, w: real)
    requires f(lo) == Cubic(a, b, c, d, 0.0)
    requires f(lo + w * 0.5) == Cubic(a, b, c, d, w * 0.5)
    requires f(lo + w) == Cubic(a, b, c, d, w)
    ensures Simpson(f, lo, lo + w) == CubicIntegral(a, b, c, d, w)
  {
    assert (lo + (lo + w)) * 0.5 == lo + w * 0.5;
    var s0, s1, s2 := Cubic(a, b, c, d, 0.0), Cubic(a, b, c, d, w * 0.5), Cubic(a, b, c, d, w);
    assert Simpson(f, lo, lo + w) == SimpsonRule(s0, s1, s2, lo, lo + w);
    assert SimpsonRule(s0, s1, s2, lo, lo + w) == SimpsonRule(s0, s1, s2, 0.0, w) by {
      assert (lo + w) - lo == w - 0.0;
    }
    CubicSimpson(a, b, c, d, w);
  }

  lemma CubicSimpson(a: real, b: real, c: real, d: real, w: real)
    ensures SimpsonRule(Cubic(a, b, c, d, 0.0), Cubic(a, b, c, d, w * 0.5), Cubic(a, b, c, d, w), 0.0, w)
            == CubicIntegral(a, b, c, d, w)
  {
    var s0, s1, s2 := Cubic(a, b, c, d, 0.0), Cubic(a, b, c, d, w * 0.5), Cubic(a, b, c, d, w);
    var x3, x2, x1 := a * (w * w * w), b * (w * w), c * w;
    assert s0 == d && s1 == x3 / 8.0 + x2 / 4.0 + x1 / 2.0 + d by {
      CubicAtHalf(a, b, c, d, w);
    }
    calc {
      SimpsonRule(s0, s1, s2, 0.0, w);
    == { SimpsonRuleFromZero(s0, s1, s2, w); }
      (s0 + 4.0 * s1 + s2) * (w / 6.0);
    == { SimpsonOnSamples(x3, x2, x1, d, w, s0, s1, s2); }
      x3 * w / 4.0 + x2 * w / 3.0 + x1 * w / 2.0 + d * w;
    == { IntegralByMonomials(a, b, c, d, w); }
      CubicIntegral(a, b, c, d, w);
    }
  }

  /** Simpson's weighted sum on the samples of a cubic, given by its
      monomials at the full width, is the integral. */
  lemma SimpsonOnSamples(x3: real, x2: real, x1: real, d: real, w: real, s0: real, s1: real, s2: real)
    requires s0 == d && s1 == x3 / 8.0 + x2 / 4.0 + x1 / 2.0 + d && s2 == x3 + x2 + x1 + d
    ensures (s0 + 4.0 * s1 + s2) * (w / 6.0) == x3 * w / 4.0 + x2 * w / 3.0 + x1 * w / 2.0 + d * w
  {
    assert s0 + 4.0 * s1 + s2 == 1.5 * x3 + 2.0 * x2 + 3.0 * x1 + 6.0 * d;
  }

  lemma IntegralByMonomials(a: real, b: real, c: real, d: real, w: real)
    ensures CubicIntegral(a, b, c, d, w)
            == (a * (w * w * w)) * w / 4.0 + (b * (w * w)) * w / 3.0 + (c * w) * w / 2.0 + d * w
  {
  }

  /** The cubic at half the width, by powers of the width. */
  lemma CubicAtHalf(a: real, b: real, c: real, d: real, w: real)
    ensures Cubic(a, b, c, d, w * 0.5) == (a * (w * w * w)) / 8.0 + (b * (w * w)) / 4.0 + (c * w) / 2.0 + d
    ensures Cubic(a, b, c, d, 0.0) == d
  {
    var h := w * 0.5;
    assert h * h == w * w / 4.0;
    assert h * h * h == w * w * w / 8.0;
  }

  lemma SimpsonRuleFromZero(s0: real, s1: real, s2: real, w: real)
    ensures SimpsonRule(s0, s1, s2, 0.0, w) == (s0 + 4.0 * s1 + s2) * (w / 6.0)
  {
    assert (w - 0.0) / 6.0 == w / 6.0;
  }

  /** The two rules agree on a sub-segment that starts at 0, the first of
      every segment, and nowhere else in general: on the speed `s(t) = t`
      over `[0.2, 0.4]` the as-written rule measures 1/15 instead of 0.06. */
  lemma SimpsonAsWrittenMisplacesLastSample(f: real -> real, end: real)
    ensures SimpsonAsWritten(f, 0.0, end) == Simpson(f, 0.0, end)
    ensures f(0.2) == 0.2 && f(0.3) == 0.3 && f(0.4) == 0.4 && f(0.6) == 0.6 ==>
              SimpsonAsWritten(f, 0.2, 0.4) == 1.0 / 15.0 && Simpson(f, 0.2, 0.4) == 0.06
  {
  }
}

=== FILE: curve_table.dfy ===
/** `CurveLength`: the arc-length table of the runtime curve. Every segment
    is cut into `accuracy` sub-segments; their lengths are normalised by the
    total, accumulated into positions, and summed per node. A binary search
    maps a curve parameter back to the sub-segment that contains it. */
module CurveTable {
  import opened Common

  function Min(a: int, b: int): int {
    if a <= b then a else b
  }

  predicate NonDecreasing(s: seq<real>) {
    forall i, j :: 0 <= i <= j < |s| ==> s[i] <= s[j]
  }

  /** `segmentCount` for a curve of `nodes` points: one per node when
      closed, one fewer when open, never negative. */
  function SegmentCount(nodes: nat, autoClose: bool): (r: nat)
    ensures nodes > 0 ==> r == (if autoClose then nodes else nodes - 1)
  {
    var controlNodeCount := if autoClose then nodes + 1 else nodes;
    if controlNodeCount - 1 > 0 then controlNodeCount - 1 else 0
  }

  /** Running sums starting at 0: `subSegPos` for the lengths `s`. */
  function Prefix(s: seq<real>): (r: seq<real>)
    ensures |r| == |s| + 1 && r[0] == 0.0
    ensures forall i :: 0 <= i < |s| ==> r[i + 1] == r[i] + s[i]
  {
    if |s| == 0 then [0.0]
    else
      var p := Prefix(s[..|s| - 1]);
      p + [p[|s| - 1] + s[|s| - 1]]
  }

  /** The sum of a concatenation is the sum of the parts. */
  lemma {:induction false} SumConcat(a: seq<real>, b: seq<real>)
    ensures Sum(a + b) == Sum(a) + Sum(b)
    decreases |b|
  {
    if |b| > 0 {
      assert (a + b)[..|a + b| - 1] == a + b[..|b| - 1];
      SumConcat(a, b[..|b| - 1]);
    } else {
      assert a + b == a;
    }
  }

  /** Each running sum is the sum of the prefix before it. */
  lemma {:induction false} PrefixIsSum(s: seq<real>, i: nat)
    requires i <= |s|
    ensures Prefix(s)[i] == Sum(s[..i])
  {
    if i > 0 {
      PrefixIsSum(s, i - 1);
      assert s[..i][..i - 1] == s[..i - 1];
    }
  }

  /** Running sums of non-negative lengths never decrease. */
  lemma PrefixNonDecreasing(s: seq<real>)
    requires NonNegative(s)
    ensures NonDecreasing(Prefix(s))
  {
    var p := Prefix(s);
    forall i, j | 0 <= i <= j < |p|
      ensures p[i] <= p[j]
    {
      PrefixStep(s, i, j);
    }
  }

  lemma {:induction false} PrefixStep(s: seq<real>, i: nat, j: nat)
    requires NonNegative(s) && i <= j <= |s|
    ensures Prefix(s)[i] <= Prefix(s)[j]
    decreases j - i
  {
    if i < j {
      PrefixStep(s, i, j - 1);
    }
  }

  /** The table a curve holds. `Unmeasurable` is what a zero total over at
      least one sub-segment leaves: `0 * (1 / 0)` is NaN, so every
      normalised length and every position after the first is NaN. */
  datatype Table =
    | NoTable
    | Measured(lengths: seq<real>, pos: seq<real>, nodePos: seq<real>, total: real)
    | Unmeasurable(count: nat)

  /** What a table must satisfy for the search to index it safely and never
      divide by a zero length inside a bracket. */
  predicate WellFormed(t: Table, accuracy: nat) {
    match t
    case NoTable => false
    case Measured(lengths, pos, _, _) =>
      && |pos| == |lengths| + 1
      && (forall i :: 0 <= i < |lengths| ==> pos[i + 1] == pos[i] + lengths[i])
      && (|lengths| > 0 ==> accuracy > 0)
    case Unmeasurable(count) => count > 0 && accuracy > 0
  }

  /** Every element multiplied by `k`. */
  function Scaled(s: seq<real>, k: real): (r: seq<real>)
    ensures |r| == |s|
    ensures forall i :: 0 <= i < |s| ==> r[i] == s[i] * k
  {
    seq(|s|, i requires 0 <= i < |s| => s[i] * k)
  }

  /** The second half of `CalculateLength` and `buildNodePosInCurve`: divide
      every raw length by the total, accumulate positions, sum per node. */
  function Normalise(raw: seq<real>, accuracy: nat, nodes: nat, autoClose: bool): (t: Table)
    requires nodes > 0
    ensures t.Unmeasurable? <==> |raw| > 0 && Sum(raw) == 0.0
    ensures t.Unmeasurable? ==> t.count == |raw|
    ensures !t.Unmeasurable? ==> t.Measured? && |t.lengths| == |raw| && t.total == Sum(raw)
    ensures t.Measured? && |raw| > 0 ==> t.lengths == Scaled(raw, 1.0 / t.total) && t.total != 0.0
    ensures t.Measured? ==> t.pos == Prefix(t.lengths) && t.nodePos == NodePositions(t.lengths, accuracy, nodes, autoClose)
  {
    var total := Sum(raw);
    if |raw| > 0 && total == 0.0 then
      Unmeasurable(|raw|)
    else
      var lengths := if |raw| == 0 then [] else Scaled(raw, 1.0 / total);
      Measured(lengths, Prefix(lengths), NodePositions(lengths, accuracy, nodes, autoClose), total)
  }

  /** Normalising loses nothing: every raw length is its normalised length
      times the total (`Normalise` divides by the total through `Scaled`). */
  lemma NormaliseRecoversRaw(raw: seq<real>, total: real, i: int)
    requires total != 0.0 && 0 <= i < |raw|
    ensures Scaled(raw, 1.0 / total)[i] * total == raw[i]
  {
    InverseCancels(raw[i], total, Scaled(raw, 1.0 / total)[i]);
  }

  lemma InverseCancels(a: real, k: real, x: real)
    requires k != 0.0 && x == a * (1.0 / k)
    ensures x * k == a
  {
  }

  /** A table built from as many raw lengths as the curve has sub-segments
      can be searched. */
  lemma NormaliseWellFormed(raw: seq<real>, accuracy: nat, nodes: nat, autoClose: bool)
    requires nodes > 0 && |raw| == SegmentCount(nodes, autoClose) * accuracy
    ensures WellFormed(Normalise(raw, accuracy, nodes, autoClose), accuracy)
  {
  }

  /** Scaling non-negative lengths by the inverse of their positive total
      gives non-negative lengths that sum to 1. */
  lemma ScaledByInverseTotal(raw: seq<real>)
    requires NonNegative(raw) && Sum(raw) > 0.0
    ensures var lengths := Scaled(raw, 1.0 / Sum(raw));
            NonNegative(lengths) && Sum(lengths) == 1.0
  {
    var total := Sum(raw);
    var lengths := Scaled(raw, 1.0 / total);
    forall i | 0 <= i < |raw| ensures lengths[i] >= 0.0 {
      ProductNonNegative(raw[i], 1.0 / total);
    }
    SumScaled(raw, lengths, 1.0 / total);
  }

  /** A measured table of a curve with positive length: the normalised
      lengths are non-negative and sum to 1, the positions start at 0, end
      at 1, and never decrease. */
  lemma NormalisedTable(raw: seq<real>, accuracy: nat, nodes: nat, autoClose: bool)
    requires NonNegative(raw) && nodes > 0
    requires Sum(raw) > 0.0
    ensures var t := Normalise(raw, accuracy, nodes, autoClose);
            && t.Measured?
            && NonNegative(t.lengths)
            && Sum(t.lengths) == 1.0
            && t.pos[0] == 0.0 && t.pos[|raw|] == 1.0
            && NonDecreasing(t.pos)
  {
    var t := Normalise(raw, accuracy, nodes, autoClose);
    assert |raw| > 0;
    var lengths := t.lengths;
    assert lengths == Scaled(raw, 1.0 / Sum(raw));
    ScaledByInverseTotal(raw);
    PrefixIsSum(lengths, |raw|);
    assert lengths[..|raw|] == lengths;
    PrefixNonDecreasing(lengths);
  }

  /** `nodePosInCurve`: node `k` sits where its first sub-segment starts,
      except that the last node of an open curve is put at exactly 1. */
  function NodePositions(lengths: seq<real>, accuracy: nat, nodes: nat, autoClose: bool): (r: seq<real>)
    requires nodes > 0
    ensures |r| == nodes
  {
    seq(nodes, k requires 0 <= k < nodes =>
      if !autoClose && k == nodes - 1 then 1.0 else Sum(lengths[..Min(k * accuracy, |lengths|)]))
  }

  lemma MulMonotone(a: int, b: int, c: nat)
    requires a <= b
    ensures a * c <= b * c
  {
  }

  /** Node positions are the sub-segment positions at the start of each
      node's block of `accuracy` sub-segments. */
  lemma NodePositionsArePositions(lengths: seq<real>, accuracy: nat, nodes: nat, autoClose: bool, k: nat)
    requires nodes > 0 && |lengths| == SegmentCount(nodes, autoClose) * accuracy
    requires k < nodes && (autoClose || k < nodes - 1)
    ensures k * accuracy <= |lengths|
    ensures NodePositions(lengths, accuracy, nodes, autoClose)[k] == Prefix(lengths)[k * accuracy]
  {
    MulMonotone(k, SegmentCount(nodes, autoClose), accuracy);
    PrefixIsSum(lengths, k * accuracy);
  }

  /** On an open curve of positive length the last node is pinned at 1,
      which is where the positions end anyway. */
  lemma PinnedLastNodeIsEnd(raw: seq<real>, accuracy: nat, nodes: nat)
    requires NonNegative(raw) && nodes > 0 && Sum(raw) > 0.0
    ensures var t := Normalise(raw, accuracy, nodes, false);
            t.Measured? && t.nodePos[nodes - 1] == t.pos[|raw|]
  {
    NormalisedTable(raw, accuracy, nodes, false);
  }

  /** Sum of the lengths of the sub-segments of node `k` among the first
      `i`: those from `k * accuracy` up to, not including, `(k + 1) * accuracy`. */
  function BlockSum(lengths: seq<real>, accuracy: nat, k: nat, i: nat): real
    requires i <= |lengths|
  {
    Sum(lengths[Min(k * accuracy, i)..Min((k + 1) * accuracy, i)])
  }

  /** Adding sub-segment `i` grows the block of its node and no other. */
  lemma BlockSumStep(lengths: seq<real>, accuracy: nat, k: nat, i: nat, k': nat)
    requires i < |lengths| && accuracy > 0
    requires k * accuracy <= i < (k + 1) * accuracy
    ensures BlockSum(lengths, accuracy, k', i + 1)
            == BlockSum(lengths, accuracy, k', i) + (if k' == k then lengths[i] else 0.0)
  {
    if k' < k {
      MulMonotone(k' + 1, k, accuracy);
    } else if k' > k {
      MulMonotone(k + 1, k', accuracy);
    } else {
      var a := k * accuracy;
      assert lengths[a..i + 1][..i - a] == lengths[a..i];
    }
  }

  /** The second loop of `buildNodePosInCurve`: `node_length[i / accuracy] += length[i]`. */
  method AccumulateNodeLengths(lengths: seq<real>, accuracy: nat, nodes: nat) returns (nodeLength: seq<real>)
    requires |lengths| > 0 ==> accuracy > 0
    requires |lengths| <= nodes * accuracy
    ensures |nodeLength| == nodes
    ensures forall k :: 0 <= k < nodes ==> nodeLength[k] == BlockSum(lengths, accuracy, k, |lengths|)
  {
    nodeLength := seq(nodes, _ => 0.0);
    BlockSumsStartAtZero(lengths, accuracy, nodeLength);
    var i := 0;
    while i < |lengths|
      invariant 0 <= i <= |lengths| && |nodeLength| == nodes
      invariant forall k :: 0 <= k < nodes ==> nodeLength[k] == BlockSum(lengths, accuracy, k, i)
    {
      var k := (i - i % accuracy) / accuracy;
      NodeOfSubSegment(i, accuracy, nodes);
      var next := nodeLength[k := nodeLength[k] + lengths[i]];
      AccumulateStep(lengths, accuracy, nodeLength, next, i, k);
      nodeLength := next;
      i := i + 1;
    }
  }

  /** Before the loop every node's sum is empty. */
  lemma BlockSumsStartAtZero(lengths: seq<real>, accuracy: nat, zeros: seq<real>)
    requires forall k :: 0 <= k < |zeros| ==> zeros[k] == 0.0
    ensures forall k :: 0 <= k < |zeros| ==> zeros[k] == BlockSum(lengths, accuracy, k, 0)
  {
  }

  /** One turn of that loop keeps every node's sum up to date. */
  lemma AccumulateStep(lengths: seq<real>, accuracy: nat, nodeLength: seq<real>, next: seq<real>, i: nat, k: nat)
    requires i < |lengths| && accuracy > 0 && k < |nodeLength|
    requires k == (i - i % accuracy) / accuracy
    requires forall k' :: 0 <= k' < |nodeLength| ==> nodeLength[k'] == BlockSum(lengths, accuracy, k', i)
    requires next == nodeLength[k := nodeLength[k] + lengths[i]]
    ensures forall k' :: 0 <= k' < |next| ==> next[k'] == BlockSum(lengths, accuracy, k', i + 1)
  {
    DivBounds(i, accuracy);
    forall k' | 0 <= k' < |next|
      ensures next[k'] == BlockSum(lengths, accuracy, k', i + 1)
    {
      BlockSumStep(lengths, accuracy, k, i, k');
    }
  }

  /** Node `k + 1` starts where node `k` starts plus node `k`'s block. */
  lemma NodeStartStep(lengths: seq<real>, accuracy: nat, j: nat)
    ensures Sum(lengths[..Min((j + 1) * accuracy, |lengths|)])
            == Sum(lengths[..Min(j * accuracy, |lengths|)]) + BlockSum(lengths, accuracy, j, |lengths|)
  {
    var n := |lengths|;
    var a, b := Min(j * accuracy, n), Min((j + 1) * accuracy, n);
    MulMonotone(j, j + 1, accuracy);
    assert lengths[..a] + lengths[a..b] == lengths[..b];
    SumConcat(lengths[..a], lengths[a..b]);
  }

  /** `buildNodePosInCurve` with its loops: zero the arrays, add each
      sub-segment's length to its node, accumulate, and pin the last node of
      an open curve at 1. */
  method BuildNodePositions(lengths: seq<real>, accuracy: nat, nodes: nat, autoClose: bool) returns (nodePos: seq<real>)
    requires nodes > 0
    requires |lengths| > 0 ==> accuracy > 0
    requires |lengths| <= nodes * accuracy
    ensures nodePos == NodePositions(lengths, accuracy, nodes, autoClose)
  {
    var nodeLength := AccumulateNodeLengths(lengths, accuracy, nodes);
    nodePos := seq(nodes, _ => 0.0);
    var j := 0;
    while j < nodes - 1
      invariant 0 <= j <= nodes - 1 && |nodePos| == nodes
      invariant forall k :: 0 <= k <= j ==> nodePos[k] == Sum(lengths[..Min(k * accuracy, |lengths|)])
    {
      NodeStartStep(lengths, accuracy, j);
      nodePos := nodePos[j + 1 := nodePos[j] + nodeLength[j]];
      j := j + 1;
    }
    if !autoClose {
      nodePos := nodePos[nodes - 1 := 1.0];
    }
  }

  /** Sub-segment `i` of `segments * accuracy` belongs to one of the
      `segments` segments. */
  lemma SubSegmentInSegment(i: int, accuracy: nat, segments: nat)
    requires accuracy > 0 && 0 <= i < segments * accuracy
    ensures i / accuracy < segments
  {
    DivBounds(i, accuracy);
    MulCancelLess(i / accuracy, segments, accuracy);
  }

  /** The node `(i - i % accuracy) / accuracy` that `buildNodePosInCurve`
      credits sub-segment `i` to exists. */
  lemma NodeOfSubSegment(i: nat, accuracy: nat, nodes: nat)
    requires accuracy > 0 && i < nodes * accuracy
    ensures (i - i % accuracy) / accuracy < nodes
  {
    DivBounds(i, accuracy);
    SubSegmentInSegment(i, accuracy, nodes);
  }

  lemma MulCancelLess(a: int, b: int, c: nat)
    requires c > 0 && a * c < b * c
    ensures a < b
  {
  }

  lemma DivBounds(i: nat, d: nat)
    requires d > 0
    ensures (i - i % d) / d == i / d
    ensures (i / d) * d <= i < (i / d + 1) * d
  {
    var q, r := i / d, i % d;
    assert i == q * d + r && 0 <= r < d;
    assert (q + 1) * d == q * d + d;
    DivExact(i - r, d, q);
  }

  lemma DivExact(x: int, d: nat, q: int)
    requires d > 0 && x == q * d
    ensures x / d == q
  {
    var q', r' := x / d, x % d;
    assert x == q' * d + r' && 0 <= r' < d;
    assert (q - q') * d == r';
    if q - q' >= 1 {
      MulMonotone(1, q - q', d);
    } else if q - q' <= -1 {
      MulMonotone(q - q', -1, d);
    }
  }

  /** The binary search of `RecalculateParam` over `subSegPos`, from `low`
      to `high`: the index of a sub-segment whose bracket holds `param`, or
      -1 once the range is empty. */
  function BinarySearch(pos: seq<real>, param: real, low: int, high: int): (r: int)
    requires 0 <= low <= high + 1 && high <= |pos| - 2
    ensures r == -1 || (low <= r <= high && pos[r] <= param < pos[r + 1])
    decreases high - low + 1
  {
    if low > high then -1
    else
      var mid := low + (high - low) / 2;
      if pos[mid + 1] <= param then BinarySearch(pos, param, mid + 1, high)
      else if pos[mid] > param then BinarySearch(pos, param, low, mid - 1)
      else mid
  }

  /** The search finds a bracket whenever `param` lies between the first
      and the last position of the range: bisection needs no ordering. */
  lemma {:induction false} BinarySearchFinds(pos: seq<real>, param: real, low: int, high: int)
    requires 0 <= low <= high + 1 && high <= |pos| - 2
    requires pos[low] <= param < pos[high + 1]
    ensures BinarySearch(pos, param, low, high) != -1
    decreases high - low + 1
  {
    if low <= high {
      var mid := low + (high - low) / 2;
      assert low <= mid <= high by {
        DivBounds(high - low, 2);
      }
      if pos[mid + 1] <= param {
        BinarySearchFinds(pos, param, mid + 1, high);
        assert BinarySearch(pos, param, low, high) == BinarySearch(pos, param, mid + 1, high);
      } else if pos[mid] > param {
        BinarySearchFinds(pos, param, low, mid - 1);
        assert BinarySearch(pos, param, low, high) == BinarySearch(pos, param, low, mid - 1);
      }
    }
  }

  /** ... and the bracket it finds is the only one: any sub-segment `j` of
      the range whose bracket holds `param` is the one returned. */
  lemma BinarySearchFindsBracket(pos: seq<real>, param: real, low: int, high: int, j: int)
    requires 0 <= low <= high + 1 && high <= |pos| - 2
    requires NonDecreasing(pos)
    requires low <= j <= high && pos[j] <= param < pos[j + 1]
    ensures BinarySearch(pos, param, low, high) == j
  {
    assert pos[low] <= pos[j] && pos[j + 1] <= pos[high + 1];
    BinarySearchFinds(pos, param, low, high);
    BracketUnique(pos, param, BinarySearch(pos, param, low, high), j);
  }

  /** In non-decreasing positions at most one sub-segment brackets `param`. */
  lemma BracketUnique(pos: seq<real>, param: real, a: int, b: int)
    requires NonDecreasing(pos)
    requires 0 <= a < |pos| - 1 && pos[a] <= param < pos[a + 1]
    requires 0 <= b < |pos| - 1 && pos[b] <= param < pos[b + 1]
    ensures a == b
  {
  }

  /** On a normalised table every parameter strictly inside (0, 1) has a
      bracket the search finds, and that sub-segment has positive length. */
  lemma FindBracket(t: Table, param: real) returns (i: int)
    requires WellFormed(t, 1) && t.Measured? && |t.lengths| > 0
    requires NonDecreasing(t.pos) && t.pos[0] == 0.0 && t.pos[|t.lengths|] == 1.0
    requires 0.0 < param < 1.0
    ensures i == BinarySearch(t.pos, param, 0, |t.pos| - 2)
    ensures 0 <= i < |t.lengths| && t.pos[i] <= param < t.pos[i + 1]
    ensures t.lengths[i] > 0.0 && t.pos[i + 1] == t.pos[i] + t.lengths[i]
  {
    var n := |t.lengths|;
    BinarySearchFinds(t.pos, param, 0, n - 1);
    i := BinarySearch(t.pos, param, 0, n - 1);
  }

  /** The `while (low <= high)` loop of `RecalculateParam`. */
  method SearchSubSegment(pos: seq<real>, param: real) returns (found: int)
    requires |pos| >= 1
    ensures found == BinarySearch(pos, param, 0, |pos| - 2)
  {
    var low, high := 0, |pos| - 2;
    while low <= high
      invariant 0 <= low <= high + 1 && high <= |pos| - 2
      invariant BinarySearch(pos, param, low, high) == BinarySearch(pos, param, 0, |pos| - 2)
      decreases high - low + 1
    {
      var mid := low + (high - low) / 2;
      if pos[mid + 1] <= param {
        low := mid + 1;
      } else if pos[mid] > param {
        high := mid - 1;
      } else {
        return mid;
      }
    }
    return -1;
  }
}

=== FILE: distance_functions.dfy ===
/** The editor spline's closest-parameter search: sample the spline at
    evenly spaced parameters, keep the first sample of least distance, then
    refine up to five times in ever narrower windows around it. The
    distance of the spline position at a parameter (a composition of
    `GetPositionOnSpline` and one of three distance functions) arrives as a
    function of the parameter. */
module ClosestPoint {
  import opened Common

  /** The `k`-th parameter of the loop `param = start; ...; param += step`. */
  function Sample(start: real, step: real, k: nat): real {
    start + k as real * step
  }

  /** How many samples the loop takes: those at or below `end`. */
  function SampleCount(start: real, end: real, step: real): nat
    requires step > 0.0
  {
    if start > end then 0 else ((end - start) / step).Floor + 1
  }

  /** Sample `k` is taken exactly when it lies at or below `end`. */
  lemma SampleTaken(start: real, end: real, step: real, k: nat)
    requires step > 0.0
    ensures Sample(start, step, k) <= end <==> k < SampleCount(start, end, step)
  {
    var d := end - start;
    var x := k as real;
    assert Sample(start, step, k) <= end <==> x * step <= d;
    if start <= end {
      var q := d / step;
      assert q * step == d;
      ScaleMonotone(x, q, step);
      var fl := q.Floor;
      assert fl as real <= q < fl as real + 1.0;
      assert x <= q <==> k <= fl;
    } else {
      ScaleMonotone(0.0, x, step);
    }
  }

  /** The next sample is one step further. */
  lemma NextSample(start: real, step: real, k: nat)
    ensures Sample(start, step, k + 1) == Sample(start, step, k) + step
  {
  }

  /** `GetClosestPointParamOnSegmentIntern`: the first sample of least
      distance (a later sample replaces the best one only when strictly
      closer), or 0 when no sample is taken. The loop runs forever for a
      step that is not positive unless `start > end`, so a call must have
      one or the other. Also returns the sample's number. */
  method SearchSegment(dist: real -> real, start: real, end: real, step: real) returns (r: real, k: nat)
    requires step > 0.0 || start > end
    ensures start > end ==> r == 0.0
    ensures start <= end ==> k < SampleCount(start, end, step) && r == Sample(start, step, k)
    ensures start <= end ==> forall j :: 0 <= j < SampleCount(start, end, step) ==> dist(r) <= dist(Sample(start, step, j))
    ensures start <= end ==> forall j :: 0 <= j < k ==> dist(r) < dist(Sample(start, step, j))
  {
    r, k := 0.0, 0;
    if start > end {
      return;
    }
    var n := SampleCount(start, end, step);
    var best: Option<real> := None;
    var param := start;
    var i: nat := 0;
    SampleTaken(start, end, step, 0);
    while param <= end
      invariant param == Sample(start, step, i) && i <= n
      invariant param <= end <==> i < n
      invariant best.None? <==> i == 0
      invariant best.Some? ==> k < i && r == Sample(start, step, k) && best.value == dist(r)
      invariant forall j :: 0 <= j < i ==> dist(r) <= dist(Sample(start, step, j))
      invariant forall j :: 0 <= j < k ==> dist(r) < dist(Sample(start, step, j))
      decreases n - i
    {
      var distance := dist(param);
      if best.None? || best.value > distance {
        best, r, k := Some(distance), param, i;
      }
      NextSample(start, step, i);
      SampleTaken(start, end, step, i + 1);
      param, i := param + step, i + 1;
    }
  }

  /** Without a positive step the loop of `GetClosestPointParamOnSegmentIntern`
      never ends once `start <= end`: no sample ever passes `end`. */
  lemma SampleNeverPassesEnd(start: real, end: real, step: real, k: nat)
    requires step <= 0.0 && start <= end
    ensures Sample(start, step, k) <= end
  {
    if step < 0.0 {
      ScaleMonotone(0.0, k as real, -step);
      assert k as real * step == -(k as real * -step);
    }
  }

  /** The search with the guard its callers evidently assume: a step that
      is not positive takes no sample, like an empty range, and the result
      is the initial 0. For a positive step it is the search above. */
  method SearchSegmentGuarded(dist: real -> real, start: real, end: real, step: real) returns (r: real, k: nat)
    ensures step <= 0.0 || start > end ==> r == 0.0 && k == 0
    ensures step > 0.0 && start <= end ==> k < SampleCount(start, end, step) && r == Sample(start, step, k)
    ensures step > 0.0 && start <= end ==>
              forall j :: 0 <= j < SampleCount(start, end, step) ==> dist(r) <= dist(Sample(start, step, j))
  {
    if step <= 0.0 || start > end {
      return 0.0, 0;
    }
    r, k := SearchSegment(dist, start, end, step);
  }

  /** The half-width `10^-(i + 2)` of refinement pass `i`. */
  function Offset(i: nat): (o: real)
    ensures o > 0.0 && o * Pow10(i + 2) as real == 1.0
  {
    1.0 / Pow10(i + 2) as real
  }

  /** The window of refinement pass `i` around `minParam`: the offset
      either side, clamped to [0, 1], sampled with a tenth of the offset as
      step. */
  function Window(minParam: real, i: nat): (w: (real, real, real))
    ensures 0.0 <= w.0 <= w.1 <= 1.0 && w.2 > 0.0
    ensures 0.0 <= minParam <= 1.0 ==> w.0 <= minParam <= w.1
  {
    var offset := Offset(i);
    (Clamp01(minParam - offset), Clamp01(minParam + offset), offset * 0.1)
  }

  /** One search of the loop: its range, its step and the number of the
      sample it kept. */
  datatype Pass = Pass(start: real, end: real, step: real, sample: nat)

  /** `r` is what a search over `p` keeps: a sample the loop takes, at
      least as close as every sample taken and strictly closer than every
      earlier one. */
  predicate BestOf(dist: real -> real, r: real, p: Pass) {
    && p.step > 0.0 && p.start <= p.end
    && p.sample < SampleCount(p.start, p.end, p.step)
    && r == Sample(p.start, p.step, p.sample)
    && (forall j :: 0 <= j < SampleCount(p.start, p.end, p.step) ==> dist(r) <= dist(Sample(p.start, p.step, j)))
    && (forall j :: 0 <= j < p.sample ==> dist(r) < dist(Sample(p.start, p.step, j)))
  }

  /** A search's result is determined by its range and step: two results
      kept from the same samples are the same parameter. */
  lemma {:induction false} BestOfUnique(dist: real -> real, r1: real, r2: real, p1: Pass, p2: Pass)
    requires BestOf(dist, r1, p1) && BestOf(dist, r2, p2)
    requires p1.start == p2.start && p1.end == p2.end && p1.step == p2.step
    ensures r1 == r2 && p1.sample == p2.sample
  {
  }

  /** One refinement pass: search the window of pass `i` around `minParam`. */
  method Refine(dist: real -> real, minParam: real, i: nat) returns (r: real, p: Pass)
    ensures 0.0 <= r <= 1.0
    ensures (p.start, p.end, p.step) == Window(minParam, i)
    ensures p.step == Offset(i) * 0.1
    ensures BestOf(dist, r, p)
  {
    var (s, e, st) := Window(minParam, i);
    var k;
    r, k := SearchSegment(dist, s, e, st);
    p := Pass(s, e, st, k);
    SampleTaken(s, e, st, k);
    assert k as real * st >= 0.0;
  }

  /** A refinement pass whose window is not clamped never ends farther
      than where it started: the window's eleventh sample is the previous
      result itself. */
  lemma {:induction false} RefineNoWorse(dist: real -> real, minParam: real, i: nat, r: real, p: Pass)
    requires (p.start, p.end, p.step) == Window(minParam, i) && BestOf(dist, r, p)
    requires Offset(i) <= minParam <= 1.0 - Offset(i)
    ensures dist(r) <= dist(minParam)
  {
    var o := Offset(i);
    assert p.start == minParam - o && p.end == minParam + o && p.step == o * 0.1;
    assert Sample(p.start, p.step, 10) == minParam;
    SampleTaken(p.start, p.end, p.step, 10);
  }

  /** `GetClosestPointParamIntern`: one search over `[start, end]`, then as
      many refinement passes as `iterations` clamped to [0, 5]. Returns the
      parameter, the number of passes run and the last search run. Every
      pass searches a window inside [0, 1] that holds at least one sample,
      so after a pass the result lies in [0, 1]. */
  method ClosestParam(dist: real -> real, iterations: int, start: real, end: real, step: real)
    returns (r: real, passes: nat, last: Pass)
    requires step > 0.0 || start > end
    ensures passes <= 5
    ensures iterations <= 0 ==> passes == 0
    ensures 0 <= iterations <= 5 ==> passes == iterations
    ensures iterations >= 5 ==> passes == 5
    ensures passes > 0 ==> 0.0 <= r <= 1.0
    ensures passes == 0 && start <= end ==> start <= r <= end
    ensures passes == 0 && start > end ==> r == 0.0
    ensures passes == 0 ==> last.start == start && last.end == end && last.step == step
    ensures passes > 0 ==> 0.0 <= last.start <= last.end <= 1.0 && last.step == Offset(passes - 1) * 0.1
    ensures passes > 0 || start <= end ==> BestOf(dist, r, last)
  {
    passes := Clamp(iterations, 0, 5);
    var k;
    r, k := SearchSegment(dist, start, end, step);
    last := Pass(start, end, step, k);
    if start <= end {
      SampleTaken(start, end, step, k);
      assert k as real * step >= 0.0;
    }
    var i := 0;
    while i < passes
      invariant 0 <= i <= passes
      invariant i > 0 ==> 0.0 <= r <= 1.0
      invariant i == 0 && start <= end ==> start <= r <= end
      invariant i == 0 && start > end ==> r == 0.0
      invariant i == 0 ==> last.start == start && last.end == end && last.step == step
      invariant i > 0 ==> 0.0 <= last.start <= last.end <= 1.0 && last.step == Offset(i - 1) * 0.1
      invariant i > 0 || start <= end ==> BestOf(dist, r, last)
    {
      r, last := Refine(dist, r, i);
      i := i + 1;
    }
  }

  // ------------------------------------------------------------ distances

  /** `GetClosestPointParam`: squared distance to a point. */
  function PointDistance(point: Vec3, at: real -> Vec3): real -> real {
    (param: real) => SqrMagnitude(Sub(point, at(param)))
  }

  /** `GetClosestPointParamToRay`: squared length of the cross product of
      the ray's direction with the offset from its origin. */
  function RayDistance(origin: Vec3, direction: Vec3, at: real -> Vec3): real -> real {
    (param: real) => SqrMagnitude(Cross(direction, Sub(at(param), origin)))
  }

  /** `GetClosestPointParamToPlane`: absolute signed distance
      `Dot(normal, p) + distance` of `Plane.GetDistanceToPoint`. */
  function PlaneDistance(normal: Vec3, distance: real, at: real -> Vec3): real -> real {
    (param: real) => Abs(Dot(normal, at(param)) + distance)
  }

  function Abs(v: real): real {
    if v < 0.0 then -v else v
  }

  /** None of the three distances is negative; each is zero on what it
      measures the distance to: the point itself, a point of the ray's
      line, a point of the plane. */
  lemma DistancesVanishOnTarget(point: Vec3, origin: Vec3, direction: Vec3, normal: Vec3, distance: real,
                                at: real -> Vec3, param: real, s: real)
    ensures PointDistance(point, at)(param) >= 0.0
    ensures RayDistance(origin, direction, at)(param) >= 0.0
    ensures PlaneDistance(normal, distance, at)(param) >= 0.0
    ensures at(param) == point ==> PointDistance(point, at)(param) == 0.0
    ensures at(param) == Add(origin, Scale(s, direction)) ==> RayDistance(origin, direction, at)(param) == 0.0
    ensures PlaneDistance(normal, distance, at)(param) == 0.0 <==> Dot(normal, at(param)) + distance == 0.0
  {
    var d := Sub(point, at(param));
    SquareZero(d.x); SquareZero(d.y); SquareZero(d.z);
    var c := Cross(direction, Sub(at(param), origin));
    SquareZero(c.x); SquareZero(c.y); SquareZero(c.z);
    if at(param) == Add(origin, Scale(s, direction)) {
      assert Sub(at(param), origin) == Scale(s, direction);
      assert c == Zero;
    }
  }

  /** The three public searches, which differ only in the distance. */
  method GetClosestPointParam(at: real -> Vec3, point: Vec3, iterations: int, start: real, end: real, step: real)
    returns (r: real, last: Pass)
    requires step > 0.0 || start > end
    ensures iterations > 0 ==> 0.0 <= r <= 1.0
    ensures iterations > 0 || start <= end ==> BestOf(PointDistance(point, at), r, last)
    ensures iterations <= 0 ==> last.start == start && last.end == end && last.step == step
  {
    var passes;
    r, passes, last := ClosestParam(PointDistance(point, at), iterations, start, end, step);
  }

  method GetClosestPointParamToRay(at: real -> Vec3, origin: Vec3, direction: Vec3, iterations: int,
                                   start: real, end: real, step: real) returns (r: real, last: Pass)
    requires step > 0.0 || start > end
    ensures iterations > 0 ==> 0.0 <= r <= 1.0
    ensures iterations > 0 || start <= end ==> BestOf(RayDistance(origin, direction, at), r, last)
    ensures iterations <= 0 ==> last.start == start && last.end == end && last.step == step
  {
    var passes;
    r, passes, last := ClosestParam(RayDistance(origin, direction, at), iterations, start, end, step);
  }

  method GetClosestPointParamToPlane(at: real -> Vec3, normal: Vec3, distance: real, iterations: int,
                                     start: real, end: real, step: real) returns (r: real, last: Pass)
    requires step > 0.0 || start > end
    ensures iterations > 0 ==> 0.0 <= r <= 1.0
    ensures iterations > 0 || start <= end ==> BestOf(PlaneDistance(normal, distance, at), r, last)
    ensures iterations <= 0 ==> last.start == start && last.end == end && last.step == step
  {
    var passes;
    r, passes, last := ClosestParam(PlaneDistance(normal, distance, at), iterations, start, end, step);
  }
}

=== FILE: editor_helpers.dfy ===
/** Small rules of the editor scripts: the Bézier node-count warning, the
    segment limit of the mesh inspector, the node inspector's key pruning,
    name disambiguation, popup fallback and node navigation, the names of
    new nodes, and the plural of a type name. Decimal text is modelled
    with a reference parser so that names can be read back. */
module EditorHelpers {
  import opened Common
  import opened SplineTopology

  // ------------------------------------------------------------ decimal text

  function DigitChar(d: nat): (c: char)
    requires d < 10
    ensures '0' <= c <= '9'
  {
    ('0' as int + d) as char
  }

  /** The decimal digits of `n`, without leading zeros. */
  function Digits(n: nat): (r: string)
    ensures |r| >= 1
    ensures forall k :: 0 <= k < |r| ==> '0' <= r[k] <= '9'
  {
    if n < 10 then [DigitChar(n)] else Digits(n / 10) + [DigitChar(n % 10)]
  }

  /** `int.ToString()`: a minus sign before the digits of a negative value. */
  function Decimal(n: int): string {
    if n < 0 then "-" + Digits(-n) else Digits(n)
  }

  /** A reference reading of a digit string, most significant first. */
  function ParseDigits(s: string): int {
    if s == [] then 0 else ParseDigits(s[..|s| - 1]) * 10 + (s[|s| - 1] as int - '0' as int)
  }

  /** Reading the digits of `n` gives `n` back. */
  lemma {:induction false} ParseDigitsOf(n: nat)
    ensures ParseDigits(Digits(n)) == n
  {
    if n >= 10 {
      var s := Digits(n / 10) + [DigitChar(n % 10)];
      assert s[..|s| - 1] == Digits(n / 10);
      ParseDigitsOf(n / 10);
    }
  }

  function Zeros(k: nat): (r: string)
    ensures |r| == k && forall j :: 0 <= j < k ==> r[j] == '0'
  {
    seq(k, _ => '0')
  }

  /** Leading zeros do not change what a digit string reads as. */
  lemma {:induction false} LeadingZerosIgnored(k: nat, s: string)
    ensures ParseDigits(Zeros(k) + s) == ParseDigits(s)
    decreases |s|
  {
    if s == [] {
      assert Zeros(k) + s == Zeros(k);
      ZerosReadZero(k);
    } else {
      var t := Zeros(k) + s;
      assert t[..|t| - 1] == Zeros(k) + s[..|s| - 1];
      LeadingZerosIgnored(k, s[..|s| - 1]);
    }
  }

  lemma {:induction false} ZerosReadZero(k: nat)
    ensures ParseDigits(Zeros(k)) == 0
  {
    if k > 0 {
      assert Zeros(k)[..k - 1] == Zeros(k - 1);
      ZerosReadZero(k - 1);
    }
  }

  /** How many digits a number below 10000 has. */
  lemma DigitsLength(n: nat)
    ensures n < 10 ==> |Digits(n)| == 1
    ensures 10 <= n < 100 ==> |Digits(n)| == 2
    ensures 100 <= n < 1000 ==> |Digits(n)| == 3
    ensures 1000 <= n < 10000 ==> |Digits(n)| == 4
  {
    if n >= 10 {
      DigitsLength(n / 10);
    }
  }

  // ------------------------------------------------------------ node names

  /** One '0' for each `i` from `from` to 3 with `num < 10^i`. */
  function Pad(num: int, from: nat): (r: string)
    requires 1 <= from <= 4
    ensures forall j :: 0 <= j < |r| ==> r[j] == '0'
    decreases 4 - from
  {
    if from == 4 then ""
    else (if num < Pow10(from) then "0" else "") + Pad(num, from + 1)
  }

  /** `SplineEditor.GetNodeName`. */
  function GetNodeName(num: int): (r: string)
    ensures 0 <= num < 10000 ==> |r| == 4
    ensures num >= 1000 ==> r == Decimal(num)
    ensures num < 0 ==> r == "000-" + Digits(-num)
    ensures num >= 0 ==> ParseDigits(r) == num
    ensures exists k :: 0 <= k <= 3 && r == Zeros(k) + Decimal(num)
  {
    NodeNameParts(num);
    Pad(num, 1) + Decimal(num)
  }

  lemma NodeNameParts(num: int)
    ensures var r := Pad(num, 1) + Decimal(num);
            && (0 <= num < 10000 ==> |r| == 4)
            && (num >= 1000 ==> r == Decimal(num))
            && (num < 0 ==> r == "000-" + Digits(-num))
            && (num >= 0 ==> ParseDigits(r) == num)
            && exists k :: 0 <= k <= 3 && r == Zeros(k) + Decimal(num)
  {
    var pad := Pad(num, 1);
    PadSize(num);
    assert pad == Zeros(|pad|);
    if num >= 0 {
      LeadingZerosIgnored(|pad|, Digits(num));
      ParseDigitsOf(num);
      DigitsLength(num);
    }
  }

  /** The padding is three zeros below 10, two below 100, one below 1000. */
  lemma PadSize(num: int)
    ensures |Pad(num, 1)| == (if num < 10 then 3 else if num < 100 then 2 else if num < 1000 then 1 else 0)
  {
    assert Pow10(1) == 10 && Pow10(2) == 100 && Pow10(3) == 1000;
  }

  /** `SplineEditor.SetupChildren`: four new nodes named by their index. */
  function SetupChildrenNames(): (r: seq<string>)
    ensures r == ["0000", "0001", "0002", "0003"]
  {
    SmallName(0);
    SmallName(1);
    SmallName(2);
    SmallName(3);
    [GetNodeName(0), GetNodeName(1), GetNodeName(2), GetNodeName(3)]
  }

  /** A one-digit index is named by three zeros and its digit. */
  lemma SmallName(d: nat)
    requires d < 10
    ensures GetNodeName(d) == ['0', '0', '0', ('0' as int + d) as char]
  {
    var pad := Pad(d, 1);
    PadSize(d);
    assert pad == "000";
  }

  // ------------------------------------------------------------ Bézier warning

  /** The Bézier warning of `SplineEditorInspector`: with more than three
      nodes and a node count not of the form 3k + 1, the number of nodes
      the spline will use; `None` when no warning is shown. */
  function BezierWarningCount(n: nat): (r: Option<int>)
    ensures r.Some? <==> n > 3 && (n - 1) % 3 != 0
    ensures r.Some? ==> r.value % 3 == 1 && n - 2 <= r.value < n
  {
    var unused := CsRem(n - 1, 3);
    if n > 3 && unused != 0 then Some(n - unused) else None
  }

  /** The count the warning names is the one the spline uses. */
  lemma WarningAgreesWithSpline(n: nat)
    requires n > 3 && (n - 1) % 3 != 0
    ensures BezierWarningCount(n).value == GetRelevantNodeCount(Bezier, n)
  {
  }

  const WarningBefore := "Bezier Splines must contain a multiple of three plus one node! Only the first "
  const WarningAfter := " nodes will be used as control nodes!"

  /** The warning's text: the template with "{0}" replaced by the count. */
  function BezierWarning(n: nat): (r: Option<string>)
    ensures r.Some? <==> BezierWarningCount(n).Some?
    ensures r.Some? ==> |r.value| > |WarningBefore| + |WarningAfter|
    ensures r.Some? ==> r.value[..|WarningBefore|] == WarningBefore && r.value[|r.value| - |WarningAfter|..] == WarningAfter
    ensures r.Some? ==> ParseDigits(r.value[|WarningBefore|..|r.value| - |WarningAfter|]) == BezierWarningCount(n).value
  {
    match BezierWarningCount(n)
    case None => None
    case Some(count) =>
      var text := WarningBefore + Decimal(count) + WarningAfter;
      assert text[|WarningBefore|..|text| - |WarningAfter|] == Decimal(count);
      ParseDigitsOf(count);
      Some(text)
  }

  // ------------------------------------------------------------ mesh inspector

  /** The vertex budget of a Unity mesh. */
  const VertexBudget := 65000

  /** Division by a base mesh without vertices throws `DivideByZeroException`. */
  datatype MathError = DivideByZero

  /** `SplineMeshInspector.MaxSegmentCount`: how many copies of the base
      mesh fit in what the caps leave of the budget. The start cap counts
      only for the first (or every) segment, the end cap only for the last
      (or every) segment. */
  function MaxSegmentCount(hasSpline: bool, baseVertices: Option<nat>, startVertices: Option<nat>,
                           endVertices: Option<nat>, splineSegment: int, segmentCount: int): (r: Result<int, MathError>)
    ensures !hasSpline || baseVertices.None? ==> r == Success(VertexBudget)
    ensures hasSpline && baseVertices == Some(0) ==> r.Failure?
    ensures r.Success? && hasSpline && baseVertices.Some? ==>
              var unused := CapsLeave(startVertices, endVertices, splineSegment, segmentCount);
              var b := baseVertices.value;
              unused >= 0 ==> r.value * b <= unused < (r.value + 1) * b
  {
    if !hasSpline || baseVertices.None? then Success(VertexBudget)
    else if baseVertices.value == 0 then Failure(DivideByZero)
    else
      var unused := CapsLeave(startVertices, endVertices, splineSegment, segmentCount);
      var b := baseVertices.value;
      var whole := unused - CsRem(unused, b);
      var r := CsDiv(whole, b);
      FloorFits(unused, b);
      Success(r)
  }

  /** What the caps leave of the budget. */
  function CapsLeave(startVertices: Option<nat>, endVertices: Option<nat>, splineSegment: int, segmentCount: int): int {
    VertexBudget
    - (if startVertices.Some? && splineSegment <= 0 then startVertices.value else 0)
    - (if endVertices.Some? && (splineSegment == -1 || splineSegment == segmentCount - 1) then endVertices.value else 0)
  }

  /** `(u - u % b) / b` is the floor of `u / b` for `u >= 0`. */
  lemma FloorFits(u: int, b: int)
    requires b > 0
    ensures u >= 0 ==> CsDiv(u - CsRem(u, b), b) == u / b
    ensures u >= 0 ==> (u / b) * b <= u < (u / b + 1) * b
  {
    if u >= 0 {
      CsNonNegative(u, b);
      var q, m := u / b, u % b;
      assert u - m == q * b;
      ExactQuotient(q, b);
    }
  }

  /** A whole multiple of `b` divides back exactly. */
  lemma ExactQuotient(q: nat, b: int)
    requires b > 0
    ensures q * b >= 0 && CsDiv(q * b, b) == q && (q + 1) * b == q * b + b
  {
    MulSign(q, b);
    var x: nat := q * b;
    DivModUnique(x, b, q, 0);
    CsNonNegative(x, b);
  }

  // ------------------------------------------------------------ node inspector

  /** The keys that survive pruning: those of live splines whose node
      array still holds the node, in their original order. */
  function PruneKeys<K(!new)>(keys: seq<K>, live: K -> bool, holdsNode: K -> bool): (r: seq<K>)
    ensures forall k :: k in r <==> k in keys && live(k) && holdsNode(k)
    ensures |r| <= |keys|
  {
    if keys == [] then []
    else
      var rest := PruneKeys(keys[1..], live, holdsNode);
      assert forall k :: k in keys <==> k == keys[0] || k in keys[1..];
      if live(keys[0]) && holdsNode(keys[0]) then [keys[0]] + rest else rest
  }

  /** Pruning again removes nothing more. */
  lemma {:induction false} PruneKeysIdempotent<K(!new)>(keys: seq<K>, live: K -> bool, holdsNode: K -> bool)
    ensures PruneKeys(PruneKeys(keys, live, holdsNode), live, holdsNode) == PruneKeys(keys, live, holdsNode)
  {
    if keys != [] {
      PruneKeysIdempotent(keys[1..], live, holdsNode);
      var rest := PruneKeys(keys[1..], live, holdsNode);
      if live(keys[0]) && holdsNode(keys[0]) {
        assert ([keys[0]] + rest)[1..] == rest;
      }
    }
  }

  /** `s` is `name` followed by nothing but '*'. */
  predicate Starred(s: string, name: string) {
    |name| <= |s| && s[..|name|] == name && forall k :: |name| <= k < |s| ==> s[k] == '*'
  }

  predicate Distinct(s: seq<string>) {
    forall i, j :: 0 <= i < j < |s| ==> s[i] != s[j]
  }

  /** The longest string in the list. */
  function MaxLength(s: seq<string>): (m: nat)
    ensures forall x :: x in s ==> |x| <= m
  {
    if s == [] then 0
    else
      var rest := MaxLength(s[1..]);
      assert forall x :: x in s ==> x == s[0] || x in s[1..];
      if |s[0]| > rest then |s[0]| else rest
  }

  /** What the loop over the keys keeps true after `i` of them: one entry
      per name so far, each the name followed by stars, all different, each
      the shortest such string not taken by an earlier entry, and no stars
      at all while the names so far are different. */
  predicate Disambiguated(names: seq<string>, r: seq<string>, i: nat) {
    && i <= |names| && |r| == i
    && (forall j :: 0 <= j < i ==> Starred(r[j], names[j]))
    && Distinct(r)
    && (forall j :: 0 <= j < i ==> forall k :: |names[j]| <= k < |r[j]| ==> r[j][..k] in r[..j])
    && (Distinct(names[..i]) ==> r == names[..i])
  }

  /** The popup entries of `SplineNodeInspector`: each spline's name, with
      as many '*' appended as it takes to differ from every earlier entry. */
  method DisambiguateNames(names: seq<string>) returns (r: seq<string>)
    ensures |r| == |names|
    ensures forall i :: 0 <= i < |r| ==> Starred(r[i], names[i])
    ensures Distinct(r)
    ensures forall i :: 0 <= i < |r| ==> forall k :: |names[i]| <= k < |r[i]| ==> r[i][..k] in r[..i]
    ensures Distinct(names) ==> r == names
  {
    r := AddNames(names);
    Finished(names, r);
  }

  /** The loop over the keys. */
  method AddNames(names: seq<string>) returns (r: seq<string>)
    ensures Disambiguated(names, r, |names|)
  {
    r := [];
    var i := 0;
    while i < |names|
      invariant Disambiguated(names, r, i)
    {
      r := AddName(names, r, i);
      i := i + 1;
    }
  }

  /** One turn of the loop: the entry for key `i`. */
  method AddName(names: seq<string>, r: seq<string>, i: nat) returns (r': seq<string>)
    requires i < |names| && Disambiguated(names, r, i)
    ensures Disambiguated(names, r', i + 1)
  {
    var newName := Unused(names[i], r);
    Extend(names, r, i, newName);
    r' := r + [newName];
  }

  /** The invariant after the last key is the contract. */
  lemma Finished(names: seq<string>, r: seq<string>)
    requires Disambiguated(names, r, |names|)
    ensures |r| == |names|
    ensures forall i :: 0 <= i < |r| ==> Starred(r[i], names[i])
    ensures Distinct(r)
    ensures forall i :: 0 <= i < |r| ==> forall k :: |names[i]| <= k < |r[i]| ==> r[i][..k] in r[..i]
    ensures Distinct(names) ==> r == names
  {
    assert names[..|names|] == names;
  }

  /** The inner loop: append '*' to the name until no entry has it. */
  method Unused(name: string, taken: seq<string>) returns (newName: string)
    ensures Starred(newName, name) && newName !in taken
    ensures forall k :: |name| <= k < |newName| ==> newName[..k] in taken
  {
    newName := name;
    while newName in taken
      invariant Starred(newName, name)
      invariant forall k :: |name| <= k < |newName| ==> newName[..k] in taken
      decreases MaxLength(taken) + 1 - |newName|
    {
      var previous := newName;
      newName := previous + "*";
      assert forall k :: 0 <= k <= |previous| ==> newName[..k] == previous[..k];
    }
  }

  /** One more entry found by `Unused` keeps the loop's invariant. */
  lemma Extend(names: seq<string>, r: seq<string>, i: nat, newName: string)
    requires i < |names| && Disambiguated(names, r, i)
    requires Starred(newName, names[i]) && newName !in r
    requires forall k :: |names[i]| <= k < |newName| ==> newName[..k] in r
    ensures Disambiguated(names, r + [newName], i + 1)
  {
    ExtendDistinct(r, newName);
    ExtendStarred(names, r, i, newName);
    ExtendMinimal(names, r, i, newName);
    ExtendUnstarred(names, r, i, newName);
  }

  lemma ExtendStarred(names: seq<string>, r: seq<string>, i: nat, newName: string)
    requires i < |names| && |r| == i
    requires forall j :: 0 <= j < i ==> Starred(r[j], names[j])
    requires Starred(newName, names[i])
    ensures forall j :: 0 <= j < i + 1 ==> Starred((r + [newName])[j], names[j])
  {
  }

  lemma ExtendDistinct(r: seq<string>, newName: string)
    requires Distinct(r) && newName !in r
    ensures Distinct(r + [newName])
  {
  }

  lemma ExtendMinimal(names: seq<string>, r: seq<string>, i: nat, newName: string)
    requires i < |names| && |r| == i
    requires forall j :: 0 <= j < i ==> forall k :: |names[j]| <= k < |r[j]| ==> r[j][..k] in r[..j]
    requires forall k :: |names[i]| <= k < |newName| ==> newName[..k] in r
    ensures forall j :: 0 <= j < i + 1 ==> forall k :: |names[j]| <= k < |(r + [newName])[j]| ==>
              (r + [newName])[j][..k] in (r + [newName])[..j]
  {
    var r' := r + [newName];
    assert r'[..i] == r;
    assert forall j :: 0 <= j < i ==> r'[..j] == r[..j] && r'[j] == r[j];
  }

  lemma ExtendUnstarred(names: seq<string>, r: seq<string>, i: nat, newName: string)
    requires i < |names| && |r| == i
    requires Distinct(names[..i]) ==> r == names[..i]
    requires Starred(newName, names[i]) && newName !in r
    requires forall k :: |names[i]| <= k < |newName| ==> newName[..k] in r
    ensures Distinct(names[..i + 1]) ==> r + [newName] == names[..i + 1]
  {
    assert names[..i + 1] == names[..i] + [names[i]];
    if Distinct(names[..i + 1]) {
      assert forall a, b :: 0 <= a < b < i ==> names[..i][a] == names[..i + 1][a] && names[..i][b] == names[..i + 1][b];
      assert Distinct(names[..i]);
      assert names[i] !in names[..i];
      StarredShortest(names[i], newName, r);
    }
  }

  /** A starred name, none of whose shorter versions is free, is the name
      itself when the name is free. */
  lemma StarredShortest(name: string, newName: string, taken: seq<string>)
    requires Starred(newName, name) && name !in taken
    requires forall k :: |name| <= k < |newName| ==> newName[..k] in taken
    ensures newName == name
  {
    assert newName[..|name|] == name;
    assert newName == newName[..|newName|];
  }

  /** The popup's selected index: the remembered spline's, or 0 when it
      is no longer a key. */
  function PopupIndex<K(==)>(keys: seq<K>, selected: K): (r: nat)
    ensures selected in keys ==> r < |keys| && keys[r] == selected
    ensures selected !in keys ==> r == 0
  {
    var index := IndexOf(keys, selected);
    if index < 0 then 0 else index
  }

  /** The "Previous Node" button's target: the index before, wrapping from
      the first node to the last. */
  function PreviousNode(index: int, length: int): (r: int) {
    (if index != 0 then index else length) - 1
  }

  /** The "Next Node" button's target: the index after, wrapping from the
      last node to the first; an empty node list divides by zero. */
  function NextNode(index: int, length: int): (r: Result<int, MathError>)
    ensures r.Failure? <==> length == 0
  {
    if length == 0 then Failure(DivideByZero) else Success(CsRem(index + 1, length))
  }

  /** Both targets of a node of the list are in range and undo each other;
      a node missing from the list (index -1) gets the first node as
      next and an index before the list as previous. */
  lemma NavigationInverse(index: int, length: int)
    ensures 0 <= index < length ==>
              && 0 <= PreviousNode(index, length) < length
              && NextNode(index, length).Success? && 0 <= NextNode(index, length).value < length
              && NextNode(PreviousNode(index, length), length) == Success(index)
              && PreviousNode(NextNode(index, length).value, length) == index
    ensures index == -1 && length > 0 ==> NextNode(index, length) == Success(0) && PreviousNode(index, length) == -2
  {
    if 0 <= index < length {
      RemOfSmall(index + 1, length);
      RemOfSmall(PreviousNode(index, length) + 1, length);
    }
  }

  /** `a % n` for `0 <= a <= n`: `a` itself, or 0 at `n`. */
  lemma RemOfSmall(a: int, n: int)
    requires 0 <= a <= n && n > 0
    ensures CsRem(a, n) == if a == n then 0 else a
  {
    CsNonNegative(a, n);
    if a == n {
      DivModUnique(n, n, 1, 0);
    } else {
      DivModUnique(a, n, 0, a);
    }
  }

  // ------------------------------------------------------------ plurals

  predicate EndsWith(s: string, suffix: string) {
    |suffix| <= |s| && s[|s| - |suffix|..] == suffix
  }

  /** The plural `CustomArrayDrawer` makes of a type name. */
  function Plural(name: string): (r: string)
    ensures |r| > |name| && r[|r| - 1] == 's'
    ensures EndsWith(name, "y") ==> r[..|name| - 1] == name[..|name| - 1]
    ensures !EndsWith(name, "y") ==> r[..|name|] == name
  {
    if EndsWith(name, "s") || EndsWith(name, "sh") || EndsWith(name, "ch") || EndsWith(name, "dg") || EndsWith(name, "o") then
      name + "es"
    else if EndsWith(name, "y") then
      name[..|name| - 1] + "ies"
    else
      name + "s"
  }

  /** The suffix added is "s", "es" or, for a final 'y', "ies" in its
      place; a plural, ending in 's', takes "es" again. */
  lemma PluralSuffix(name: string)
    ensures Plural(name) == name + "s" || Plural(name) == name + "es"
            || (EndsWith(name, "y") && Plural(name) == name[..|name| - 1] + "ies")
    ensures Plural(Plural(name)) == Plural(name) + "es"
  {
    var p := Plural(name);
    assert EndsWith(p, "s");
  }
}

=== FILE: interpolator.dfy ===
/** `SplineInterpolator` and its four built-in subclasses: a 4x4 coefficient
    matrix turns a parameter `t` into four weights (for the position, its
    first or its second derivative), which blend the four nodes that the
    relative node indices pick around a segment. The Hermite subclass first
    replaces the outer two nodes by tangents. */
module Interpolator {
  import opened Common
  import opened SplineNodes
  import QU = QuaternionUtils

  /** Index of the node `offset` places from segment `index`, wrapped around
      a closed spline and clamped to the ends of an open one. The source's
      `%` truncates toward zero, hence the double remainder. An empty node
      list makes the source throw, so callers pass a non-empty one. */
  function GetNodeIndex(autoClose: bool, count: int, index: int, offset: int): (r: int)
    requires count > 0
    ensures 0 <= r < count
    ensures autoClose ==> r == (index + offset) % count
    ensures !autoClose && 0 <= index + offset < count ==> r == index + offset
    ensures !autoClose && index + offset < 0 ==> r == 0
    ensures !autoClose && index + offset >= count ==> r == count - 1
  {
    var idx := index + offset;
    if autoClose then
      var r1 := CsRem(idx, count);
      var r2 := CsRem(r1 + count, count);
      ModUnique(r1 + count, count, CsDiv(r1 + count, count), r2);
      ModAddMultiple(idx, 1 - CsDiv(idx, count), count);
      assert r1 + count == idx + (1 - CsDiv(idx, count)) * count;
      r2
    else Clamp(idx, 0, count - 1)
  }

  /** Euclidean division is unique: a quotient and remainder in range are
      the ones Dafny's `/` and `%` produce. */
  lemma ModUnique(x: int, n: int, q: int, r: int)
    requires n > 0 && 0 <= r < n && x == q * n + r
    ensures x % n == r && x / n == q
  {
    var q', r' := x / n, x % n;
    var d := q - q';
    assert d * n == r' - r by {
      assert q * n - q' * n == d * n;
    }
  }

  /** Adding a multiple of `n` does not change the remainder modulo `n`. */
  lemma ModAddMultiple(a: int, k: int, n: int)
    requires n > 0
    ensures (a + k * n) % n == a % n
  {
    var q := a / n;
    assert a + k * n == (q + k) * n + a % n by {
      assert (q + k) * n == q * n + k * n;
    }
    ModUnique(a + k * n, n, q + k, a % n);
  }

  /** The four blending weights. */
  datatype Weights = Weights(b0: real, b1: real, b2: real, b3: real)

  function WeightSum(w: Weights): real {
    w.b0 + w.b1 + w.b2 + w.b3
  }

  /** Row `k` of the matrix evaluated as the cubic `a t^3 + b t^2 + c t + d`
      (order 0), its first (order 1) or second (order 2) derivative; any
      other order gives 0. */
  function Row(m: seq<real>, k: int, order: int, t: real): real
    requires |m| == 16 && 0 <= k < 4
  {
    var a, b, c, d := m[4 * k], m[4 * k + 1], m[4 * k + 2], m[4 * k + 3];
    if order == 0 then a * (t * t * t) + b * (t * t) + c * t + d
    else if order == 1 then a * (3.0 * (t * t)) + b * (2.0 * t) + c
    else if order == 2 then a * (6.0 * t) + b * 2.0
    else 0.0
  }

  /** `GetCoefficients(t, ..., derivationOrder)`. */
  function GetCoefficients(m: seq<real>, t: real, order: int): Weights
    requires |m| == 16
  {
    Weights(Row(m, 0, order, t), Row(m, 1, order, t), Row(m, 2, order, t), Row(m, 3, order, t))
  }

  /** The weights of order 1 and 2 are the exact derivatives of those of
      order 0 and 1: the difference over a step `h` is the derivative times
      `h` plus the cubic's higher-order terms. */
  lemma DerivativeOrders(m: seq<real>, k: int, t: real, h: real)
    requires |m| == 16 && 0 <= k < 4
    ensures Row(m, k, 0, t + h) - Row(m, k, 0, t)
            == h * Row(m, k, 1, t) + h * h * (3.0 * m[4 * k] * t + m[4 * k + 1]) + h * h * h * m[4 * k]
    ensures Row(m, k, 1, t + h) - Row(m, k, 1, t) == h * Row(m, k, 2, t) + 3.0 * m[4 * k] * h * h
    ensures Row(m, k, 2, t + h) - Row(m, k, 2, t) == 6.0 * m[4 * k] * h
  {
    var a, b := m[4 * k], m[4 * k + 1];
    assert (t + h) * (t + h) == t * t + 2.0 * t * h + h * h;
    assert (t + h) * (t + h) * (t + h) == t * t * t + 3.0 * t * t * h + 3.0 * t * h * h + h * h * h;
  }

  /** Matrices whose columns sum to (0, 0, 0, 1): their weights sum to 1 for
      every `t`, so the interpolation is an affine combination of the nodes. */
  predicate AffineMatrix(m: seq<real>)
    requires |m| == 16
  {
    && m[0] + m[4] + m[8] + m[12] == 0.0
    && m[1] + m[5] + m[9] + m[13] == 0.0
    && m[2] + m[6] + m[10] + m[14] == 0.0
    && m[3] + m[7] + m[11] + m[15] == 1.0
  }

  /** Partition of unity: for an affine matrix the position weights sum to 1
      and the derivative weights to 0, for every `t`. */
  lemma AffineWeightSums(m: seq<real>, t: real)
    requires |m| == 16 && AffineMatrix(m)
    ensures WeightSum(GetCoefficients(m, t, 0)) == 1.0
    ensures WeightSum(GetCoefficients(m, t, 1)) == 0.0
    ensures WeightSum(GetCoefficients(m, t, 2)) == 0.0
  {
    ColumnVanishes(m[0], m[4], m[8], m[12], t * t * t);
    ColumnVanishes(m[1], m[5], m[9], m[13], t * t);
    ColumnVanishes(m[2], m[6], m[10], m[14], t);
    ColumnVanishes(m[0], m[4], m[8], m[12], 3.0 * (t * t));
    ColumnVanishes(m[1], m[5], m[9], m[13], 2.0 * t);
    ColumnVanishes(m[0], m[4], m[8], m[12], 6.0 * t);
    ColumnVanishes(m[1], m[5], m[9], m[13], 2.0);
  }

  /** A column that sums to 0 contributes nothing, whatever power of `t` it
      multiplies. */
  lemma ColumnVanishes(a0: real, a1: real, a2: real, a3: real, x: real)
    requires a0 + a1 + a2 + a3 == 0.0
    ensures a0 * x + a1 * x + a2 * x + a3 * x == 0.0
  {
    assert a0 * x + a1 * x + a2 * x + a3 * x == (a0 + a1 + a2 + a3) * x;
  }

  const HermiteMatrix: seq<real> :=
    [ 2.0, -3.0, 0.0, 1.0,
     -2.0,  3.0, 0.0, 0.0,
      1.0, -2.0, 1.0, 0.0,
      1.0, -1.0, 0.0, 0.0]
  const HermiteIndices: seq<int> := [0, 1, -1, 2]

  const BezierMatrix: seq<real> :=
    [-1.0,  3.0, -3.0, 1.0,
      3.0, -6.0,  3.0, 0.0,
     -3.0,  3.0,  0.0, 0.0,
      1.0,  0.0,  0.0, 0.0]
  const BezierIndices: seq<int> := [0, 1, 2, 3]

  const BSplineMatrix: seq<real> :=
    [-1.0 / 6.0,  3.0 / 6.0, -3.0 / 6.0, 1.0 / 6.0,
      3.0 / 6.0, -6.0 / 6.0,  0.0 / 6.0, 4.0 / 6.0,
     -3.0 / 6.0,  3.0 / 6.0,  3.0 / 6.0, 1.0 / 6.0,
      1.0 / 6.0,  0.0 / 6.0,  0.0 / 6.0, 0.0 / 6.0]
  const BSplineIndices: seq<int> := [-1, 0, 1, 2]

  const LinearMatrix: seq<real> :=
    [0.0, 0.0, -1.0, 1.0,
     0.0, 0.0,  1.0, 0.0,
     0.0, 0.0,  0.0, 0.0,
     0.0, 0.0,  0.0, 0.0]
  const LinearIndices: seq<int> := [0, 1, 2, 3]

  /** The Bezier, B-spline and linear bases are affine; the Hermite basis is
      not (its last two weights multiply tangents, not points), but its
      first two weights alone sum to 1. */
  lemma BuiltInBases(t: real)
    ensures AffineMatrix(BezierMatrix) && AffineMatrix(BSplineMatrix) && AffineMatrix(LinearMatrix)
    ensures !AffineMatrix(HermiteMatrix)
    ensures var w := GetCoefficients(HermiteMatrix, t, 0); w.b0 + w.b1 == 1.0
  {
  }

  /** Endpoint behaviour of the built-in bases: Hermite and linear pass
      through their first two nodes, Bezier through its first and last, and
      the Hermite derivative at the ends is the supplied tangent. */
  lemma BasisEndpoints()
    ensures GetCoefficients(HermiteMatrix, 0.0, 0) == Weights(1.0, 0.0, 0.0, 0.0)
    ensures GetCoefficients(HermiteMatrix, 1.0, 0) == Weights(0.0, 1.0, 0.0, 0.0)
    ensures GetCoefficients(HermiteMatrix, 0.0, 1) == Weights(0.0, 0.0, 1.0, 0.0)
    ensures GetCoefficients(HermiteMatrix, 1.0, 1) == Weights(0.0, 0.0, 0.0, 1.0)
    ensures GetCoefficients(BezierMatrix, 0.0, 0) == Weights(1.0, 0.0, 0.0, 0.0)
    ensures GetCoefficients(BezierMatrix, 1.0, 0) == Weights(0.0, 0.0, 0.0, 1.0)
    ensures GetCoefficients(LinearMatrix, 0.0, 0) == Weights(1.0, 0.0, 0.0, 0.0)
    ensures GetCoefficients(LinearMatrix, 1.0, 0) == Weights(0.0, 1.0, 0.0, 0.0)
    ensures GetCoefficients(BSplineMatrix, 0.0, 0) == Weights(1.0 / 6.0, 4.0 / 6.0, 1.0 / 6.0, 0.0)
    ensures GetCoefficients(BSplineMatrix, 1.0, 0) == Weights(0.0, 1.0 / 6.0, 4.0 / 6.0, 1.0 / 6.0)
  {
  }

  lemma ProductsNonNegative(a: real, b: real, c: real)
    requires a >= 0.0 && b >= 0.0 && c >= 0.0
    ensures a * b >= 0.0 && a * b * c >= 0.0
  {
    assert a * b >= 0.0;
    assert (a * b) * c >= 0.0;
  }

  /** Bezier weights are never negative on [0, 1] (they are the cubic
      Bernstein polynomials), so a Bezier segment stays in the convex hull of
      its four nodes. */
  lemma BezierWeightsConvex(t: real)
    requires 0.0 <= t <= 1.0
    ensures var w := GetCoefficients(BezierMatrix, t, 0); w.b0 >= 0.0 && w.b1 >= 0.0 && w.b2 >= 0.0 && w.b3 >= 0.0
  {
    var s := 1.0 - t;
    var w := GetCoefficients(BezierMatrix, t, 0);
    assert w.b0 == -(t * t * t) + 3.0 * (t * t) - 3.0 * t + 1.0;
    assert w.b0 == s * s * s;
    assert w.b1 == 3.0 * (t * t * t) - 6.0 * (t * t) + 3.0 * t;
    assert w.b1 == 3.0 * (t * s * s);
    assert w.b2 == -3.0 * (t * t * t) + 3.0 * (t * t);
    assert w.b2 == 3.0 * (t * t * s);
    ProductsNonNegative(s, s, s);
    ProductsNonNegative(t, s, s);
    ProductsNonNegative(t, t, s);
    ProductsNonNegative(t, t, t);
  }

  /** Uniform cubic B-spline weights are never negative on [0, 1]. */
  lemma BSplineWeightsConvex(t: real)
    requires 0.0 <= t <= 1.0
    ensures var w := GetCoefficients(BSplineMatrix, t, 0); w.b0 >= 0.0 && w.b1 >= 0.0 && w.b2 >= 0.0 && w.b3 >= 0.0
  {
    BSplineOuterWeights(t);
    BSplineSecondWeight(t);
    BSplineThirdWeight(t);
  }

  /** The first weight is `(1 - t)^3 / 6` and the last `t^3 / 6`. */
  lemma BSplineOuterWeights(t: real)
    requires 0.0 <= t <= 1.0
    ensures Row(BSplineMatrix, 0, 0, t) >= 0.0 && Row(BSplineMatrix, 3, 0, t) >= 0.0
  {
    var s := 1.0 - t;
    ProductsNonNegative(s, s, s);
    ProductsNonNegative(t, t, t);
    assert Row(BSplineMatrix, 0, 0, t) == (-(t * t * t) + 3.0 * (t * t) - 3.0 * t + 1.0) / 6.0;
    assert Row(BSplineMatrix, 0, 0, t) == s * s * s / 6.0;
    assert Row(BSplineMatrix, 3, 0, t) == t * t * t / 6.0;
  }

  lemma BSplineSecondWeight(t: real)
    requires 0.0 <= t <= 1.0
    ensures Row(BSplineMatrix, 1, 0, t) >= 0.0
  {
    var s := 1.0 - t;
    ProductsNonNegative(t, t, s);
    assert Row(BSplineMatrix, 1, 0, t) == (3.0 * (t * t * t) - 6.0 * (t * t) + 4.0) / 6.0;
    // 3t^3 - 6t^2 + 4 = 3 t^2 (t - 1) + 3 (1 - t)(1 + t) + 1
    assert Row(BSplineMatrix, 1, 0, t) == (3.0 * (1.0 + t) * s - 3.0 * (t * t * s) + 1.0) / 6.0;
    assert t * t * s <= s by { assert s - t * t * s == s * (1.0 - t) * (1.0 + t); ProductsNonNegative(s, 1.0 - t, 1.0 + t); }
    assert (1.0 + t) * s - t * t * s >= t * s;
    ProductsNonNegative(t, s, 1.0);
  }

  lemma BSplineThirdWeight(t: real)
    requires 0.0 <= t <= 1.0
    ensures Row(BSplineMatrix, 2, 0, t) >= 0.0
  {
    var s := 1.0 - t;
    ProductsNonNegative(t, t, s);
    assert Row(BSplineMatrix, 2, 0, t) == (-3.0 * (t * t * t) + 3.0 * (t * t) + 3.0 * t + 1.0) / 6.0;
    assert Row(BSplineMatrix, 2, 0, t) == (3.0 * (t * t * s) + 3.0 * t + 1.0) / 6.0;
  }

  /** Which subclass is installed: `Custom` for a `SplineInterpolator` built
      from a user matrix. Only `Hermite` overrides any behaviour. */
  datatype Kind = Custom | Hermite | Bezier | BSpline | Linear

  datatype Interp = Interp(kind: Kind, matrix: seq<real>, indices: seq<int>)

  /** The state every constructor and setter establishes: 16 coefficients and 4 indices. */
  predicate Valid(ip: Interp) {
    |ip.matrix| == 16 && |ip.indices| == 4
  }

  /** The `ArgumentException`s of `CheckMatrix` and `CheckIndices`. */
  datatype InterpError = MatrixNot16 | IndicesNot4

  /** The public constructor: the matrix is checked first, then the indices. */
  function NewInterpolator(m: seq<real>, idx: seq<int>): (r: Result<Interp, InterpError>)
    ensures r.Success? <==> |m| == 16 && |idx| == 4
    ensures |m| != 16 ==> r == Failure(MatrixNot16)
    ensures |m| == 16 && |idx| != 4 ==> r == Failure(IndicesNot4)
    ensures r.Success? ==> Valid(r.value) && r.value.kind == Custom && r.value.matrix == m && r.value.indices == idx
  {
    if |m| != 16 then Failure(MatrixNot16)
    else if |idx| != 4 then Failure(IndicesNot4)
    else Success(Interp(Custom, m, idx))
  }

  /** The `CoefficientMatrix` setter: rejects anything but 16 coefficients
      and otherwise changes nothing but the matrix. */
  function SetCoefficientMatrix(ip: Interp, m: seq<real>): (r: Result<Interp, InterpError>)
    ensures r.Success? <==> |m| == 16
    ensures r.Success? ==> r.value.matrix == m && r.value.indices == ip.indices && r.value.kind == ip.kind
    ensures r.Success? && Valid(ip) ==> Valid(r.value)
  {
    if |m| != 16 then Failure(MatrixNot16) else Success(ip.(matrix := m))
  }

  /** The `NodeIndices` setter: rejects anything but 4 indices and otherwise
      changes nothing but the indices. */
  function SetNodeIndices(ip: Interp, idx: seq<int>): (r: Result<Interp, InterpError>)
    ensures r.Success? <==> |idx| == 4
    ensures r.Success? ==> r.value.indices == idx && r.value.matrix == ip.matrix && r.value.kind == ip.kind
    ensures r.Success? && Valid(ip) ==> Valid(r.value)
  {
    if |idx| != 4 then Failure(IndicesNot4) else Success(ip.(indices := idx))
  }

  function HermiteInterpolator(): Interp { Interp(Hermite, HermiteMatrix, HermiteIndices) }
  function BezierInterpolator(): Interp { Interp(Bezier, BezierMatrix, BezierIndices) }
  function BSplineInterpolator(): Interp { Interp(BSpline, BSplineMatrix, BSplineIndices) }
  function LinearInterpolator(): Interp { Interp(Linear, LinearMatrix, LinearIndices) }

  /** `GetNodeData`: the four nodes the relative indices pick around segment `index`. */
  function NodeData<T>(ip: Interp, nodes: seq<T>, index: int, autoClose: bool): (T, T, T, T)
    requires Valid(ip) && |nodes| > 0
  {
    (nodes[GetNodeIndex(autoClose, |nodes|, index, ip.indices[0])],
     nodes[GetNodeIndex(autoClose, |nodes|, index, ip.indices[1])],
     nodes[GetNodeIndex(autoClose, |nodes|, index, ip.indices[2])],
     nodes[GetNodeIndex(autoClose, |nodes|, index, ip.indices[3])])
  }

  /** `InterpolateVector(t, v0, v1, v2, v3, order)`. */
  function InterpolateVectorAt(ip: Interp, t: real, v0: Vec3, v1: Vec3, v2: Vec3, v3: Vec3, order: int): Vec3
    requires Valid(ip)
  {
    var w := GetCoefficients(ip.matrix, t, order);
    Blend4(w.b0, w.b1, w.b2, w.b3, v0, v1, v2, v3)
  }

  /** `InterpolateValue(t, v0, v1, v2, v3, order)`. */
  function InterpolateValueAt(ip: Interp, t: real, v0: real, v1: real, v2: real, v3: real, order: int): real
    requires Valid(ip)
  {
    var w := GetCoefficients(ip.matrix, t, order);
    w.b0 * v0 + w.b1 * v1 + w.b2 * v2 + w.b3 * v3
  }

  /** One coordinate of `BlendTranslate`. */
  lemma BlendTranslateScalar(b0: real, b1: real, b2: real, b3: real, x0: real, x1: real, x2: real, x3: real, e: real)
    ensures b0 * (x0 + e) + b1 * (x1 + e) + b2 * (x2 + e) + b3 * (x3 + e)
            == (b0 * x0 + b1 * x1 + b2 * x2 + b3 * x3) + (b0 + b1 + b2 + b3) * e
  {
  }

  /** Blending translated nodes translates the blend by the weight sum times the offset. */
  lemma BlendTranslate(b0: real, b1: real, b2: real, b3: real, v0: Vec3, v1: Vec3, v2: Vec3, v3: Vec3, d: Vec3)
    ensures Blend4(b0, b1, b2, b3, Add(v0, d), Add(v1, d), Add(v2, d), Add(v3, d))
            == Add(Blend4(b0, b1, b2, b3, v0, v1, v2, v3), Scale(b0 + b1 + b2 + b3, d))
  {
    var l := Blend4(b0, b1, b2, b3, Add(v0, d), Add(v1, d), Add(v2, d), Add(v3, d));
    var r := Add(Blend4(b0, b1, b2, b3, v0, v1, v2, v3), Scale(b0 + b1 + b2 + b3, d));
    assert l.x == r.x by { BlendTranslateScalar(b0, b1, b2, b3, v0.x, v1.x, v2.x, v3.x, d.x); }
    assert l.y == r.y by { BlendTranslateScalar(b0, b1, b2, b3, v0.y, v1.y, v2.y, v3.y, d.y); }
    assert l.z == r.z by { BlendTranslateScalar(b0, b1, b2, b3, v0.z, v1.z, v2.z, v3.z, d.z); }
  }

  /** A blend with a unit weight vector picks out one node. */
  lemma BlendPicks(v0: Vec3, v1: Vec3, v2: Vec3, v3: Vec3)
    ensures Blend4(1.0, 0.0, 0.0, 0.0, v0, v1, v2, v3) == v0
    ensures Blend4(0.0, 1.0, 0.0, 0.0, v0, v1, v2, v3) == v1
    ensures Blend4(0.0, 0.0, 1.0, 0.0, v0, v1, v2, v3) == v2
    ensures Blend4(0.0, 0.0, 0.0, 1.0, v0, v1, v2, v3) == v3
  {
  }

  /** Translating all four nodes of an affine basis translates the
      interpolated point and leaves every derivative unchanged. */
  lemma AffineInvariance(ip: Interp, t: real, v0: Vec3, v1: Vec3, v2: Vec3, v3: Vec3, d: Vec3)
    requires Valid(ip) && AffineMatrix(ip.matrix)
    ensures InterpolateVectorAt(ip, t, Add(v0, d), Add(v1, d), Add(v2, d), Add(v3, d), 0)
            == Add(InterpolateVectorAt(ip, t, v0, v1, v2, v3, 0), d)
    ensures InterpolateVectorAt(ip, t, Add(v0, d), Add(v1, d), Add(v2, d), Add(v3, d), 1)
            == InterpolateVectorAt(ip, t, v0, v1, v2, v3, 1)
  {
    TranslatesPoint(ip, t, v0, v1, v2, v3, d);
    KeepsDerivative(ip, t, v0, v1, v2, v3, d);
  }

  lemma TranslatesPoint(ip: Interp, t: real, v0: Vec3, v1: Vec3, v2: Vec3, v3: Vec3, d: Vec3)
    requires Valid(ip) && AffineMatrix(ip.matrix)
    ensures InterpolateVectorAt(ip, t, Add(v0, d), Add(v1, d), Add(v2, d), Add(v3, d), 0)
            == Add(InterpolateVectorAt(ip, t, v0, v1, v2, v3, 0), d)
  {
    AffineWeightSums(ip.matrix, t);
    TranslateByWeights(GetCoefficients(ip.matrix, t, 0), v0, v1, v2, v3, d);
  }

  lemma KeepsDerivative(ip: Interp, t: real, v0: Vec3, v1: Vec3, v2: Vec3, v3: Vec3, d: Vec3)
    requires Valid(ip) && AffineMatrix(ip.matrix)
    ensures InterpolateVectorAt(ip, t, Add(v0, d), Add(v1, d), Add(v2, d), Add(v3, d), 1)
            == InterpolateVectorAt(ip, t, v0, v1, v2, v3, 1)
  {
    AffineWeightSums(ip.matrix, t);
    TranslateByWeights(GetCoefficients(ip.matrix, t, 1), v0, v1, v2, v3, d);
  }

  /** Weights summing to 1 carry a translation of the nodes over to the
      blend; weights summing to 0 cancel it. */
  lemma TranslateByWeights(w: Weights, v0: Vec3, v1: Vec3, v2: Vec3, v3: Vec3, d: Vec3)
    ensures WeightSum(w) == 1.0 ==> Blend4(w.b0, w.b1, w.b2, w.b3, Add(v0, d), Add(v1, d), Add(v2, d), Add(v3, d))
                                    == Add(Blend4(w.b0, w.b1, w.b2, w.b3, v0, v1, v2, v3), d)
    ensures WeightSum(w) == 0.0 ==> Blend4(w.b0, w.b1, w.b2, w.b3, Add(v0, d), Add(v1, d), Add(v2, d), Add(v3, d))
                                    == Blend4(w.b0, w.b1, w.b2, w.b3, v0, v1, v2, v3)
  {
    BlendTranslate(w.b0, w.b1, w.b2, w.b3, v0, v1, v2, v3, d);
  }

  /** Hermite's `RecalcVectors(P0, P1, ref P2, ref P3)` for plain vectors:
      the outer nodes become tangents with the fixed tension 0.5. */
  function HermiteTangents(p0: Vec3, p1: Vec3, p2: Vec3, p3: Vec3): (Vec3, Vec3) {
    (Scale(0.5, Sub(p1, p2)), Scale(0.5, Sub(p3, p0)))
  }

  /** `InterpolateVector(t, index, autoClose, nodes, order)` on a list of
      vectors, with the Hermite override. */
  function InterpolateVectors(ip: Interp, t: real, index: int, autoClose: bool, nodes: seq<Vec3>, order: int): Vec3
    requires Valid(ip) && |nodes| > 0
  {
    var (v0, v1, v2, v3) := NodeData(ip, nodes, index, autoClose);
    if ip.kind == Hermite then
      var (p2, p3) := HermiteTangents(v0, v1, v2, v3);
      InterpolateVectorAt(ip, t, v0, v1, p2, p3, order)
    else
      InterpolateVectorAt(ip, t, v0, v1, v2, v3, order)
  }

  /** `InterpolateValue(t, index, autoClose, nodes, order)` on a list of
      floats, with the Hermite override (`RecalcScalars` with tension 0.5). */
  function InterpolateValues(ip: Interp, t: real, index: int, autoClose: bool, nodes: seq<real>, order: int): real
    requires Valid(ip) && |nodes| > 0
  {
    var (v0, v1, v2, v3) := NodeData(ip, nodes, index, autoClose);
    if ip.kind == Hermite then
      InterpolateValueAt(ip, t, v0, v1, 0.5 * (v1 - v2), 0.5 * (v3 - v0), order)
    else
      InterpolateValueAt(ip, t, v0, v1, v2, v3, order)
  }

  /** `Spline.TangentMode`. */
  datatype TangentMode = UseNormalizedTangents | UseTangents | UseNodeForwardVector

  /** The spline settings the Hermite interpolator reads. */
  datatype HermiteSettings = HermiteSettings(tension: real, perNodeTension: bool, tangentMode: TangentMode)

  /** `Vector3.Normalize`: vectors shorter than 1e-5 become zero. */
  function Normalize3(v: Vec3, norm: NormFn): Vec3 {
    var m := norm(v);
    if m > 0.00001 then Scale(1.0 / m, v) else Zero
  }

  /** Hermite's `RecalcVectors(spline, node0, node1, ref P2, ref P3)`: the
      tangents at the segment's two ends, scaled by the spline's or the
      nodes' tension. */
  function RecalcVectors(s: HermiteSettings, n0: SplineNode, n1: SplineNode, p2: Vec3, p3: Vec3, norm: NormFn): (Vec3, Vec3) {
    var tension0 := if s.perNodeTension then n0.tension else s.tension;
    var tension1 := if s.perNodeTension then n1.tension else s.tension;
    if s.tangentMode == UseNodeForwardVector then
      (Scale(tension0, Forward(n0.rotation)), Scale(tension1, Forward(n1.rotation)))
    else
      var d2 := Sub(n1.position, p2);
      var d3 := Sub(p3, n0.position);
      if s.tangentMode != UseTangents then
        (Scale(tension0, Normalize3(d2, norm)), Scale(tension1, Normalize3(d3, norm)))
      else
        (Scale(tension0, d2), Scale(tension1, d3))
  }

  /** `InterpolateVector(spline, t, index, autoClose, nodes, order)`: node
      positions, with the Hermite override. */
  function InterpolateNodePositions(ip: Interp, s: HermiteSettings, t: real, index: int, autoClose: bool,
                                    nodes: seq<SplineNode>, order: int, norm: NormFn): Vec3
    requires Valid(ip) && |nodes| > 0
  {
    var (n0, n1, n2, n3) := NodeData(ip, nodes, index, autoClose);
    if ip.kind == Hermite then
      var (p2, p3) := RecalcVectors(s, n0, n1, n2.position, n3.position, norm);
      InterpolateVectorAt(ip, t, n0.position, n1.position, p2, p3, order)
    else
      InterpolateVectorAt(ip, t, n0.position, n1.position, n2.position, n3.position, order)
  }

  /** Hermite's `RecalcScalars(spline, node0, node1, ref P2, ref P3)`. */
  function RecalcScalars(s: HermiteSettings, n0: SplineNode, n1: SplineNode, p2: real, p3: real): (real, real) {
    var tension0 := if s.perNodeTension then n0.tension else s.tension;
    var tension1 := if s.perNodeTension then n1.tension else s.tension;
    ((n1.customValue - p2) * tension0, (p3 - n0.customValue) * tension1)
  }

  /** `InterpolateValue(spline, t, index, autoClose, nodes, order)`: custom
      values, with the Hermite override. */
  function InterpolateNodeValues(ip: Interp, s: HermiteSettings, t: real, index: int, autoClose: bool,
                                 nodes: seq<SplineNode>, order: int): real
    requires Valid(ip) && |nodes| > 0
  {
    var (n0, n1, n2, n3) := NodeData(ip, nodes, index, autoClose);
    if ip.kind == Hermite then
      var (p2, p3) := RecalcScalars(s, n0, n1, n2.customValue, n3.customValue);
      InterpolateValueAt(ip, t, n0.customValue, n1.customValue, p2, p3, order)
    else
      InterpolateValueAt(ip, t, n0.customValue, n1.customValue, n2.customValue, n3.customValue, order)
  }

  /** A Hermite segment starts at its first node and ends at its second;
      its derivative at the two ends is the pair of tangents `RecalcVectors`
      computes. */
  lemma HermiteSegmentEnds(s: HermiteSettings, index: int, autoClose: bool, nodes: seq<SplineNode>, norm: NormFn)
    requires |nodes| > 0
    ensures var ip := HermiteInterpolator();
            var (n0, n1, n2, n3) := NodeData(ip, nodes, index, autoClose);
            var (p2, p3) := RecalcVectors(s, n0, n1, n2.position, n3.position, norm);
            && InterpolateNodePositions(ip, s, 0.0, index, autoClose, nodes, 0, norm) == n0.position
            && InterpolateNodePositions(ip, s, 1.0, index, autoClose, nodes, 0, norm) == n1.position
            && InterpolateNodePositions(ip, s, 0.0, index, autoClose, nodes, 1, norm) == p2
            && InterpolateNodePositions(ip, s, 1.0, index, autoClose, nodes, 1, norm) == p3
  {
    BasisEndpoints();
    var ip := HermiteInterpolator();
    var (n0, n1, n2, n3) := NodeData(ip, nodes, index, autoClose);
    var (p2, p3) := RecalcVectors(s, n0, n1, n2.position, n3.position, norm);
    BlendPicks(n0.position, n1.position, p2, p3);
  }

  /** Consecutive Hermite segments of a spline meet: the end of segment
      `index` is the start of segment `index + 1`, in position and in first
      derivative, for every tension and tangent mode, open or closed. */
  lemma HermiteSegmentsJoin(s: HermiteSettings, index: int, autoClose: bool, nodes: seq<SplineNode>, norm: NormFn)
    requires |nodes| > 0
    ensures var ip := HermiteInterpolator();
            InterpolateNodePositions(ip, s, 1.0, index, autoClose, nodes, 0, norm)
            == InterpolateNodePositions(ip, s, 0.0, index + 1, autoClose, nodes, 0, norm)
            == nodes[GetNodeIndex(autoClose, |nodes|, index, 1)].position
    ensures var ip := HermiteInterpolator();
            InterpolateNodePositions(ip, s, 1.0, index, autoClose, nodes, 1, norm)
            == InterpolateNodePositions(ip, s, 0.0, index + 1, autoClose, nodes, 1, norm)
  {
    var n := |nodes|;
    assert GetNodeIndex(autoClose, n, index, 2) == GetNodeIndex(autoClose, n, index + 1, 1);
    assert GetNodeIndex(autoClose, n, index, 1) == GetNodeIndex(autoClose, n, index + 1, 0);
    assert GetNodeIndex(autoClose, n, index, 0) == GetNodeIndex(autoClose, n, index + 1, -1);
    HermiteSegmentEnds(s, index, autoClose, nodes, norm);
    HermiteSegmentEnds(s, index + 1, autoClose, nodes, norm);
  }

  /** The B-spline basis joins consecutive segments with matching position,
      first and second derivative (C2 continuity), open or closed. */
  lemma BSplineSegmentsJoin(index: int, autoClose: bool, nodes: seq<Vec3>, order: int)
    requires |nodes| > 0 && 0 <= order <= 2
    ensures var ip := BSplineInterpolator();
            InterpolateVectors(ip, 1.0, index, autoClose, nodes, order)
            == InterpolateVectors(ip, 0.0, index + 1, autoClose, nodes, order)
  {
    var ip := BSplineInterpolator();
    var n := |nodes|;
    assert GetNodeIndex(autoClose, n, index, 0) == GetNodeIndex(autoClose, n, index + 1, -1);
    assert GetNodeIndex(autoClose, n, index, 1) == GetNodeIndex(autoClose, n, index + 1, 0);
    assert GetNodeIndex(autoClose, n, index, 2) == GetNodeIndex(autoClose, n, index + 1, 1);
    var (a, b, c, d) := NodeData(ip, nodes, index, autoClose);
    var e := nodes[GetNodeIndex(autoClose, n, index + 1, 2)];
    BSplineWeightsShift(order);
    BlendShift(GetCoefficients(BSplineMatrix, 1.0, order), GetCoefficients(BSplineMatrix, 0.0, order), a, b, c, d, e);
  }

  /** The B-spline weights at the end of a segment are those at the start
      moved up one node, for the position and both derivatives. */
  lemma BSplineWeightsShift(order: int)
    requires 0 <= order <= 2
    ensures var w1, w0 := GetCoefficients(BSplineMatrix, 1.0, order), GetCoefficients(BSplineMatrix, 0.0, order);
            w1.b0 == 0.0 && w0.b3 == 0.0 && w1.b1 == w0.b0 && w1.b2 == w0.b1 && w1.b3 == w0.b2
  {
  }

  /** Blending with weights shifted one node along the same nodes shifted one
      node gives the same point. */
  lemma BlendShift(w1: Weights, w0: Weights, a: Vec3, b: Vec3, c: Vec3, d: Vec3, e: Vec3)
    requires w1.b0 == 0.0 && w0.b3 == 0.0 && w1.b1 == w0.b0 && w1.b2 == w0.b1 && w1.b3 == w0.b2
    ensures Blend4(w1.b0, w1.b1, w1.b2, w1.b3, a, b, c, d) == Blend4(w0.b0, w0.b1, w0.b2, w0.b3, b, c, d, e)
  {
  }

  /** Bezier segments start at their first node and end at their fourth. */
  lemma BezierSegmentEnds(index: int, autoClose: bool, nodes: seq<Vec3>)
    requires |nodes| > 0
    ensures InterpolateVectors(BezierInterpolator(), 0.0, index, autoClose, nodes, 0) == nodes[GetNodeIndex(autoClose, |nodes|, index, 0)]
    ensures InterpolateVectors(BezierInterpolator(), 1.0, index, autoClose, nodes, 0) == nodes[GetNodeIndex(autoClose, |nodes|, index, 3)]
  {
    BasisEndpoints();
    var (v0, v1, v2, v3) := NodeData(BezierInterpolator(), nodes, index, autoClose);
    BlendPicks(v0, v1, v2, v3);
  }

  /** Linear segments run from their first node to their second. */
  lemma LinearSegmentEnds(index: int, autoClose: bool, nodes: seq<Vec3>)
    requires |nodes| > 0
    ensures InterpolateVectors(LinearInterpolator(), 0.0, index, autoClose, nodes, 0) == nodes[GetNodeIndex(autoClose, |nodes|, index, 0)]
    ensures InterpolateVectors(LinearInterpolator(), 1.0, index, autoClose, nodes, 0) == nodes[GetNodeIndex(autoClose, |nodes|, index, 1)]
  {
    BasisEndpoints();
    var (v0, v1, v2, v3) := NodeData(LinearInterpolator(), nodes, index, autoClose);
    BlendPicks(v0, v1, v2, v3);
  }

  /** On spline nodes a linear segment runs from its first node's position
      to its second's. */
  lemma LinearNodeEnds(s: HermiteSettings, index: int, autoClose: bool, nodes: seq<SplineNode>, norm: NormFn)
    requires |nodes| > 0
    ensures var (n0, n1, n2, n3) := NodeData(LinearInterpolator(), nodes, index, autoClose);
            && InterpolateNodePositions(LinearInterpolator(), s, 0.0, index, autoClose, nodes, 0, norm) == n0.position
            && InterpolateNodePositions(LinearInterpolator(), s, 1.0, index, autoClose, nodes, 0, norm) == n1.position
  {
    BasisEndpoints();
    var (n0, n1, n2, n3) := NodeData(LinearInterpolator(), nodes, index, autoClose);
    BlendPicks(n0.position, n1.position, n2.position, n3.position);
  }

  /** On spline nodes a Bézier segment runs from its first node's position
      to its fourth's. */
  lemma BezierNodeEnds(s: HermiteSettings, index: int, autoClose: bool, nodes: seq<SplineNode>, norm: NormFn)
    requires |nodes| > 0
    ensures var (n0, n1, n2, n3) := NodeData(BezierInterpolator(), nodes, index, autoClose);
            && InterpolateNodePositions(BezierInterpolator(), s, 0.0, index, autoClose, nodes, 0, norm) == n0.position
            && InterpolateNodePositions(BezierInterpolator(), s, 1.0, index, autoClose, nodes, 0, norm) == n3.position
  {
    BasisEndpoints();
    var (n0, n1, n2, n3) := NodeData(BezierInterpolator(), nodes, index, autoClose);
    BlendPicks(n0.position, n1.position, n2.position, n3.position);
  }

  /** The sign alignment at the start of `InterpolateRotation`: each
      quaternion is negated when it points away from its (already aligned)
      predecessor, so all three consecutive dot products end up non-negative
      and every quaternion still encodes the same rotation. */
  function AlignSigns(q0: Quat, q1: Quat, q2: Quat, q3: Quat): (r: (Quat, Quat, Quat))
    ensures QDot(q0, r.0) >= 0.0 && QDot(r.0, r.1) >= 0.0 && QDot(r.1, r.2) >= 0.0
    ensures (r.0 == q1 || r.0 == QU.Negative(q1)) && (r.1 == q2 || r.1 == QU.Negative(q2)) && (r.2 == q3 || r.2 == QU.Negative(q3))
  {
    var a1 := if QDot(q0, q1) < 0.0 then QU.Negative(q1) else q1;
    var a2 := if QDot(a1, q2) < 0.0 then QU.Negative(q2) else q2;
    var a3 := if QDot(a2, q3) < 0.0 then QU.Negative(q3) else q3;
    QU.NegativeFlipsDot(q0, q1);
    QU.NegativeFlipsDot(a1, q2);
    QU.NegativeFlipsDot(a2, q3);
    (a1, a2, a3)
  }

  /** `InterpolateRotation(t, q0, q1, q2, q3, order)`: align signs, blend the
      components with the weights, and apply `Normalized` as written, which
      divides by the squared length. A zero blend gives NaN (None). */
  function InterpolateRotationAt(ip: Interp, t: real, q0: Quat, q1: Quat, q2: Quat, q3: Quat, order: int): Option<Quat>
    requires Valid(ip)
  {
    QU.NormalizedAsWritten(BlendQuats(GetCoefficients(ip.matrix, t, order), q0, AlignSigns(q0, q1, q2, q3)))
  }

  /** The component-wise blend of the first quaternion and the three aligned ones. */
  function BlendQuats(w: Weights, q0: Quat, a: (Quat, Quat, Quat)): Quat {
    Quat(w.b0 * q0.x + w.b1 * a.0.x + w.b2 * a.1.x + w.b3 * a.2.x,
         w.b0 * q0.y + w.b1 * a.0.y + w.b2 * a.1.y + w.b3 * a.2.y,
         w.b0 * q0.z + w.b1 * a.0.z + w.b2 * a.1.z + w.b3 * a.2.z,
         w.b0 * q0.w + w.b1 * a.0.w + w.b2 * a.1.w + w.b3 * a.2.w)
  }

  /** Negating the second input changes nothing after alignment, unless it
      is orthogonal to the first (a tie the sign test breaks one way). */
  lemma AlignSecondSign(q0: Quat, q1: Quat, q2: Quat, q3: Quat)
    requires QDot(q0, q1) != 0.0
    ensures AlignSigns(q0, QU.Negative(q1), q2, q3) == AlignSigns(q0, q1, q2, q3)
  {
    QU.NegativeFlipsDot(q0, q1);
    var a1 := if QDot(q0, q1) < 0.0 then QU.Negative(q1) else q1;
    var a1' := if QDot(q0, QU.Negative(q1)) < 0.0 then QU.Negative(QU.Negative(q1)) else QU.Negative(q1);
    assert a1 == a1';
  }

  /** Negating the last input changes nothing after alignment, unless it is
      orthogonal to the aligned third. */
  lemma AlignLastSign(q0: Quat, q1: Quat, q2: Quat, q3: Quat)
    requires QDot(AlignSigns(q0, q1, q2, q3).1, q3) != 0.0
    ensures AlignSigns(q0, q1, q2, QU.Negative(q3)) == AlignSigns(q0, q1, q2, q3)
  {
    var a2 := AlignSigns(q0, q1, q2, q3).1;
    QU.NegativeFlipsDot(a2, q3);
    var a3 := if QDot(a2, q3) < 0.0 then QU.Negative(q3) else q3;
    var a3' := if QDot(a2, QU.Negative(q3)) < 0.0 then QU.Negative(QU.Negative(q3)) else QU.Negative(q3);
    assert a3 == a3';
  }

  /** Rotation interpolation does not depend on which of the two quaternions
      for the same rotation a node stores: negating the second or the last
      input gives the same result whenever the sign test that decides it is
      not a tie. */
  lemma RotationSignIndependent(ip: Interp, t: real, q0: Quat, q1: Quat, q2: Quat, q3: Quat, order: int)
    requires Valid(ip)
    ensures QDot(q0, q1) != 0.0 ==>
              InterpolateRotationAt(ip, t, q0, QU.Negative(q1), q2, q3, order)
              == InterpolateRotationAt(ip, t, q0, q1, q2, q3, order)
    ensures QDot(AlignSigns(q0, q1, q2, q3).1, q3) != 0.0 ==>
              InterpolateRotationAt(ip, t, q0, q1, q2, QU.Negative(q3), order)
              == InterpolateRotationAt(ip, t, q0, q1, q2, q3, order)
  {
    if QDot(q0, q1) != 0.0 {
      AlignSecondSign(q0, q1, q2, q3);
      SameAlignmentSameRotation(ip, t, q0, q1, q2, q3, QU.Negative(q1), q3, order);
    }
    if QDot(AlignSigns(q0, q1, q2, q3).1, q3) != 0.0 {
      AlignLastSign(q0, q1, q2, q3);
      SameAlignmentSameRotation(ip, t, q0, q1, q2, q3, q1, QU.Negative(q3), order);
    }
  }

  /** The interpolated rotation depends on the inputs after `q0` only through their alignment. */
  lemma SameAlignmentSameRotation(ip: Interp, t: real, q0: Quat, q1: Quat, q2: Quat, q3: Quat, q1': Quat, q3': Quat,
                                  order: int)
    requires Valid(ip)
    requires AlignSigns(q0, q1, q2, q3) == AlignSigns(q0, q1', q2, q3')
    ensures InterpolateRotationAt(ip, t, q0, q1', q2, q3', order)
            == InterpolateRotationAt(ip, t, q0, q1, q2, q3, order)
  {
  }

  /** `InterpolateRotation(t, index, autoClose, nodes, order)` on a list of
      quaternions (the Hermite class does not override this one). */
  function InterpolateRotations(ip: Interp, t: real, index: int, autoClose: bool, nodes: seq<Quat>, order: int): Option<Quat>
    requires Valid(ip) && |nodes| > 0
  {
    var (q0, q1, q2, q3) := NodeData(ip, nodes, index, autoClose);
    InterpolateRotationAt(ip, t, q0, q1, q2, q3, order)
  }

  /** `InterpolateRotation(spline, t, index, autoClose, nodes, order)`: node
      rotations; the Hermite override first replaces the outer two by SQUAD
      intermediates, the second computed from the already replaced first. */
  function InterpolateNodeRotations(ip: Interp, t: real, index: int, autoClose: bool, nodes: seq<SplineNode>,
                                    order: int, trig: QU.Trig): Option<Quat>
    requires Valid(ip) && |nodes| > 0
  {
    var (n0, n1, n2, n3) := NodeData(ip, nodes, index, autoClose);
    if ip.kind == Hermite then
      var q2 := QU.GetSquadIntermediate(n0.rotation, n1.rotation, n2.rotation, trig);
      var q3 := QU.GetSquadIntermediate(n1.rotation, q2, n3.rotation, trig);
      InterpolateRotationAt(ip, t, n0.rotation, n1.rotation, q2, q3, order)
    else
      InterpolateRotationAt(ip, t, n0.rotation, n1.rotation, n2.rotation, n3.rotation, order)
  }

  /** Weights that pick one input make the blend that input. */
  lemma BlendQuatsPicks(q0: Quat, a: (Quat, Quat, Quat))
    ensures BlendQuats(Weights(1.0, 0.0, 0.0, 0.0), q0, a) == q0
    ensures BlendQuats(Weights(0.0, 1.0, 0.0, 0.0), q0, a) == a.0
    ensures BlendQuats(Weights(0.0, 0.0, 0.0, 1.0), q0, a) == a.2
  {
  }

  /** A unit quaternion and its negative both come back unchanged from the
      as-written normalisation. */
  lemma UnitUpToSign(q: Quat, q': Quat)
    requires QU.SqNorm(q) == 1.0 && (q' == q || q' == QU.Negative(q))
    ensures QU.NormalizedAsWritten(q') == Some(q')
  {
    assert QU.SqNorm(q') == QU.SqNorm(q);
    QU.NormalizeAgreesOnUnitQuaternions(q');
  }

  /** Where the weights pick one input, the interpolated rotation is that
      input, of the sign alignment gave it, provided it has unit length. */
  lemma RotationAtPickedInput(ip: Interp, t: real, q0: Quat, q1: Quat, q2: Quat, q3: Quat, order: int)
    requires Valid(ip)
    ensures var w := GetCoefficients(ip.matrix, t, order);
            w == Weights(1.0, 0.0, 0.0, 0.0) && QU.SqNorm(q0) == 1.0 ==>
              InterpolateRotationAt(ip, t, q0, q1, q2, q3, order) == Some(q0)
    ensures var w := GetCoefficients(ip.matrix, t, order);
            w == Weights(0.0, 1.0, 0.0, 0.0) && QU.SqNorm(q1) == 1.0 ==>
              InterpolateRotationAt(ip, t, q0, q1, q2, q3, order) in {Some(q1), Some(QU.Negative(q1))}
    ensures var w := GetCoefficients(ip.matrix, t, order);
            w == Weights(0.0, 0.0, 0.0, 1.0) && QU.SqNorm(q3) == 1.0 ==>
              InterpolateRotationAt(ip, t, q0, q1, q2, q3, order) in {Some(q3), Some(QU.Negative(q3))}
  {
    var a := AlignSigns(q0, q1, q2, q3);
    BlendQuatsPicks(q0, a);
    if QU.SqNorm(q0) == 1.0 { UnitUpToSign(q0, q0); }
    if QU.SqNorm(q1) == 1.0 { UnitUpToSign(q1, a.0); }
    if QU.SqNorm(q3) == 1.0 { UnitUpToSign(q3, a.2); }
  }

  /** On spline nodes with unit rotations, a Hermite or linear segment
      starts at its first node's rotation and ends at its second's, up to
      sign; a Bézier segment ends at its fourth's. */
  lemma NodeRotationEnds(index: int, autoClose: bool, nodes: seq<SplineNode>, trig: QU.Trig)
    requires |nodes| > 0
    ensures var (n0, n1, _, _) := NodeData(HermiteInterpolator(), nodes, index, autoClose);
            QU.SqNorm(n0.rotation) == 1.0 && QU.SqNorm(n1.rotation) == 1.0 ==>
              && InterpolateNodeRotations(HermiteInterpolator(), 0.0, index, autoClose, nodes, 0, trig) == Some(n0.rotation)
              && InterpolateNodeRotations(HermiteInterpolator(), 1.0, index, autoClose, nodes, 0, trig)
                 in {Some(n1.rotation), Some(QU.Negative(n1.rotation))}
    ensures var (n0, n1, _, _) := NodeData(LinearInterpolator(), nodes, index, autoClose);
            QU.SqNorm(n0.rotation) == 1.0 && QU.SqNorm(n1.rotation) == 1.0 ==>
              && InterpolateNodeRotations(LinearInterpolator(), 0.0, index, autoClose, nodes, 0, trig) == Some(n0.rotation)
              && InterpolateNodeRotations(LinearInterpolator(), 1.0, index, autoClose, nodes, 0, trig)
                 in {Some(n1.rotation), Some(QU.Negative(n1.rotation))}
    ensures var (n0, _, _, n3) := NodeData(BezierInterpolator(), nodes, index, autoClose);
            QU.SqNorm(n0.rotation) == 1.0 && QU.SqNorm(n3.rotation) == 1.0 ==>
              && InterpolateNodeRotations(BezierInterpolator(), 0.0, index, autoClose, nodes, 0, trig) == Some(n0.rotation)
              && InterpolateNodeRotations(BezierInterpolator(), 1.0, index, autoClose, nodes, 0, trig)
                 in {Some(n3.rotation), Some(QU.Negative(n3.rotation))}
  {
    BasisEndpoints();
    var (h0, h1, h2, h3) := NodeData(HermiteInterpolator(), nodes, index, autoClose);
    var s2 := QU.GetSquadIntermediate(h0.rotation, h1.rotation, h2.rotation, trig);
    var s3 := QU.GetSquadIntermediate(h1.rotation, s2, h3.rotation, trig);
    RotationAtPickedInput(HermiteInterpolator(), 0.0, h0.rotation, h1.rotation, s2, s3, 0);
    RotationAtPickedInput(HermiteInterpolator(), 1.0, h0.rotation, h1.rotation, s2, s3, 0);
    var (l0, l1, l2, l3) := NodeData(LinearInterpolator(), nodes, index, autoClose);
    RotationAtPickedInput(LinearInterpolator(), 0.0, l0.rotation, l1.rotation, l2.rotation, l3.rotation, 0);
    RotationAtPickedInput(LinearInterpolator(), 1.0, l0.rotation, l1.rotation, l2.rotation, l3.rotation, 0);
    var (b0, b1, b2, b3) := NodeData(BezierInterpolator(), nodes, index, autoClose);
    RotationAtPickedInput(BezierInterpolator(), 0.0, b0.rotation, b1.rotation, b2.rotation, b3.rotation, 0);
    RotationAtPickedInput(BezierInterpolator(), 1.0, b0.rotation, b1.rotation, b2.rotation, b3.rotation, 0);
  }

  /** Halfway between the identity and a half turn about x, linear
      interpolation as written gives a quaternion of squared length 2,
      not a rotation: the blend has squared length 1/2 and is divided by
      that instead of by its length. */
  lemma HalfwayRotationNotUnit()
    ensures var x := Quat(1.0, 0.0, 0.0, 0.0);
            InterpolateRotationAt(LinearInterpolator(), 0.5, Quat(0.0, 0.0, 0.0, 1.0), x, x, x, 0)
            == Some(Quat(1.0, 0.0, 0.0, 1.0))
    ensures QU.SqNorm(Quat(1.0, 0.0, 0.0, 1.0)) == 2.0
  {
    var q0, x := Quat(0.0, 0.0, 0.0, 1.0), Quat(1.0, 0.0, 0.0, 0.0);
    LinearHalfway();
    AlignOrthogonal(q0, x);
    RotationFromParts(LinearInterpolator(), 0.5, q0, x, x, x, 0, Weights(0.5, 0.5, 0.0, 0.0), (x, x, x));
    assert BlendQuats(Weights(0.5, 0.5, 0.0, 0.0), q0, (x, x, x)) == Quat(0.5, 0.0, 0.0, 0.5);
    HalfBlendNormalized();
    DoubledSqNorm();
  }

  /** The rotation is the normalised blend of the weights and the aligned inputs. */
  lemma RotationFromParts(ip: Interp, t: real, q0: Quat, q1: Quat, q2: Quat, q3: Quat, order: int,
                          w: Weights, a: (Quat, Quat, Quat))
    requires Valid(ip) && GetCoefficients(ip.matrix, t, order) == w && AlignSigns(q0, q1, q2, q3) == a
    ensures InterpolateRotationAt(ip, t, q0, q1, q2, q3, order) == QU.NormalizedAsWritten(BlendQuats(w, q0, a))
  {
  }

  lemma AlignOrthogonal(q0: Quat, x: Quat)
    requires q0 == Quat(0.0, 0.0, 0.0, 1.0) && x == Quat(1.0, 0.0, 0.0, 0.0)
    ensures AlignSigns(q0, x, x, x) == (x, x, x)
  {
    assert !(QDot(q0, x) < 0.0) by { assert QDot(q0, x) == 0.0; }
    assert !(QDot(x, x) < 0.0) by { assert QDot(x, x) == 1.0; }
  }

  lemma LinearHalfway()
    ensures GetCoefficients(LinearMatrix, 0.5, 0) == Weights(0.5, 0.5, 0.0, 0.0)
  {
  }

  lemma HalfBlendNormalized()
    ensures QU.NormalizedAsWritten(Quat(0.5, 0.0, 0.0, 0.5)) == Some(Quat(1.0, 0.0, 0.0, 1.0))
  {
    var q := Quat(0.5, 0.0, 0.0, 0.5);
    assert QU.SqNorm(q) == 0.5;
    DoubleHalf();
  }

  lemma DoubledSqNorm()
    ensures QU.SqNorm(Quat(1.0, 0.0, 0.0, 1.0)) == 2.0
  {
  }

  lemma DoubleHalf()
    ensures QU.ScaleQ(1.0 / 0.5, Quat(0.5, 0.0, 0.0, 0.5)) == Quat(1.0, 0.0, 0.0, 1.0)
  {
    assert 1.0 / 0.5 == 2.0;
  }
}

=== FILE: path_codec.dfy ===
/** The binary path file that connects the editor `Spline` to the runtime
    `Curve`: the editor's `SaveAllPrefabs2Bin` writes, for each spline, a
    little-endian uint32 signature, the interpolation mode as an int16, the
    node count as an int32 and then the x, y, z of every node as IEEE 754
    binary32 values; the game's `ParseBin2Curve` reads the same layout back
    into a `Curve`. Float values travel as their 32-bit patterns. */
module PathCodec {
  import opened Common
  import RC = RuntimeCurve
  import CT = CurveTable

  newtype byte = b: int | 0 <= b < 256

  /** The bit pattern of a binary32 value. */
  type Bits32 = b: nat | b < 0x1_0000_0000

  /** The file signature. */
  const Signature: nat := 0x0235_0818

  /** The number of values `n` little-endian bytes can hold. */
  function Pow256(n: nat): (p: nat)
    ensures p >= 1
  {
    if n == 0 then 1 else 256 * Pow256(n - 1)
  }

  // ------------------------------------------------------------ integers

  /** The `n` little-endian bytes of `v`, as `BinaryWriter` writes them. */
  function LittleEndian(v: nat, n: nat): (r: seq<byte>)
    ensures |r| == n
  {
    if n == 0 then [] else [(v % 256) as byte] + LittleEndian(v / 256, n - 1)
  }

  /** The unsigned value of little-endian bytes, as `BinaryReader` reads them. */
  function FromLittleEndian(bs: seq<byte>): (r: nat)
    ensures r < Pow256(|bs|)
  {
    if bs == [] then 0 else bs[0] as nat + 256 * FromLittleEndian(bs[1..])
  }

  /** Reading back what was written gives the value, for values that fit. */
  lemma {:induction false} ReadWritten(v: nat, n: nat)
    requires v < Pow256(n)
    ensures FromLittleEndian(LittleEndian(v, n)) == v
  {
    if n > 0 {
      var r := LittleEndian(v, n);
      assert r[1..] == LittleEndian(v / 256, n - 1);
      ReadWritten(v / 256, n - 1);
    }
  }

  /** Half the patterns of `n` bytes: the bound of the signed range. */
  function Half(n: nat): nat {
    Pow256(n) / 2
  }

  /** The two's-complement pattern of a signed value of `n` bytes. */
  function Unsigned(v: int, n: nat): (u: nat)
    requires 0 <= v + Half(n) && v < Half(n)
    ensures u < Pow256(n)
  {
    if v < 0 then v + Pow256(n) else v
  }

  /** The signed value of a two's-complement pattern of `n` bytes. */
  function Signed(u: nat, n: nat): (v: int)
    requires u < Pow256(n)
    ensures n > 0 ==> 0 <= v + Half(n) && v < Half(n)
  {
    HalfOfEven(n);
    if u >= Half(n) then u - Pow256(n) else u
  }

  lemma HalfOfEven(n: nat)
    ensures n > 0 ==> Pow256(n) == 2 * Half(n)
  {
    if n > 0 {
      var m := 128 * Pow256(n - 1);
      assert Pow256(n) == 2 * m;
      assert Half(n) == m;
    }
  }

  /** Two's complement is a bijection between the signed range and the patterns. */
  lemma SignedUnsigned(v: int, u: nat, n: nat)
    requires n > 0
    ensures 0 <= v + Half(n) && v < Half(n) ==> Signed(Unsigned(v, n), n) == v
    ensures u < Pow256(n) ==> Unsigned(Signed(u, n), n) == u
  {
    HalfOfEven(n);
  }

  /** The C# cast `(short)v`: the low 16 bits, read as signed. */
  function ToInt16(v: int): (r: int)
    ensures -32768 <= r < 32768
    ensures -32768 <= v < 32768 ==> r == v
  {
    var low := v % 65536;
    if low >= 32768 then low - 65536 else low
  }

  // ------------------------------------------------------------ floats

  function Pow2(k: nat): (p: nat)
    ensures p >= 1
  {
    if k == 0 then 1 else 2 * Pow2(k - 1)
  }

  /** `2^k` for any integer `k`, as a real. */
  function Scale2(k: int): (r: real)
    ensures r > 0.0
  {
    if k >= 0 then Pow2(k) as real else 1.0 / Pow2(-k) as real
  }

  /** The biased exponent, bits 23 to 30. */
  function ExponentOf(b: Bits32): nat {
    (b / 0x80_0000) % 256
  }

  /** The fraction, bits 0 to 22. */
  function FractionOf(b: Bits32): nat {
    b % 0x80_0000
  }

  /** The magnitude of a finite value: subnormal for a zero exponent. */
  function Magnitude(exponent: nat, fraction: nat): (r: real)
    ensures r >= 0.0
  {
    if exponent == 0 then fraction as real * Scale2(-149)
    else (0x80_0000 + fraction) as real * Scale2(exponent - 150)
  }

  /** The value a binary32 pattern denotes, for finite values; infinities
      and NaNs (exponent 255) read as 0. */
  function Float32ToReal(b: Bits32): real {
    var e := ExponentOf(b);
    if e == 255 then 0.0
    else if b >= 0x8000_0000 then -Magnitude(e, FractionOf(b))
    else Magnitude(e, FractionOf(b))
  }

  /** Setting the sign bit negates a finite value, and the zero pattern is 0. */
  lemma SignBitNegates(b: Bits32)
    requires b < 0x8000_0000
    ensures Float32ToReal(b + 0x8000_0000) == -Float32ToReal(b)
    ensures Float32ToReal(0) == 0.0
  {
    SignBitFields(b);
    var e, f := ExponentOf(b), FractionOf(b);
    var m := Magnitude(e, f);
    assert Float32ToReal(b) == if e == 255 then 0.0 else m;
    assert Float32ToReal(b + 0x8000_0000) == if e == 255 then 0.0 else -m;
    ZeroPattern();
  }

  lemma ZeroPattern()
    ensures Float32ToReal(0) == 0.0
  {
    assert ExponentOf(0) == 0 && FractionOf(0) == 0;
    var s := Scale2(-149);
    assert Magnitude(0, 0) == 0.0 * s;
  }

  /** The sign bit lies above the exponent and the fraction. */
  lemma SignBitFields(b: Bits32)
    requires b < 0x8000_0000
    ensures ExponentOf(b + 0x8000_0000) == ExponentOf(b) && FractionOf(b + 0x8000_0000) == FractionOf(b)
  {
    var q, r := b / 0x80_0000, b % 0x80_0000;
    DivModUnique(b + 0x8000_0000, 0x80_0000, q + 256, r);
    DivModUnique(q + 256, 256, q / 256 + 1, q % 256);
  }

  // ------------------------------------------------------------ layout

  /** A node position as three binary32 patterns. */
  datatype Point = Point(x: Bits32, y: Bits32, z: Bits32)

  function PointToVec(p: Point): Vec3 {
    Vec3(Float32ToReal(p.x), Float32ToReal(p.y), Float32ToReal(p.z))
  }

  function PointBytes(p: Point): (r: seq<byte>)
    ensures |r| == 12
  {
    LittleEndian(p.x, 4) + LittleEndian(p.y, 4) + LittleEndian(p.z, 4)
  }

  /** The point the next twelve bytes hold. */
  function PointAt(bs: seq<byte>): Point
    requires |bs| >= 12
  {
    Point(FromLittleEndian(bs[0..4]), FromLittleEndian(bs[4..8]), FromLittleEndian(bs[8..12]))
  }

  lemma PointAtBytes(p: Point, rest: seq<byte>)
    ensures PointAt(PointBytes(p) + rest) == p
  {
    var bs := PointBytes(p) + rest;
    assert bs[0..4] == LittleEndian(p.x, 4);
    assert bs[4..8] == LittleEndian(p.y, 4);
    assert bs[8..12] == LittleEndian(p.z, 4);
    ReadWritten(p.x, 4);
    ReadWritten(p.y, 4);
    ReadWritten(p.z, 4);
  }

  function PointsBytes(ps: seq<Point>): (r: seq<byte>)
    ensures |r| == 12 * |ps|
  {
    if ps == [] then [] else PointBytes(ps[0]) + PointsBytes(ps[1..])
  }

  /** The `n` points that follow, in order. */
  function ReadPoints(bs: seq<byte>, n: nat): (r: seq<Point>)
    requires |bs| >= 12 * n
    ensures |r| == n
  {
    if n == 0 then [] else [PointAt(bs)] + ReadPoints(bs[12..], n - 1)
  }

  lemma {:induction false} ReadWrittenPoints(ps: seq<Point>, rest: seq<byte>)
    ensures ReadPoints(PointsBytes(ps) + rest, |ps|) == ps
  {
    if ps != [] {
      var tail := PointsBytes(ps[1..]) + rest;
      assert PointsBytes(ps) + rest == PointBytes(ps[0]) + tail;
      ReadPointsStep(ps[0], tail, |ps|);
      ReadWrittenPoints(ps[1..], rest);
      assert ps == [ps[0]] + ps[1..];
    }
  }

  /** The first point of a written run is read back, the rest follows. */
  lemma ReadPointsStep(p: Point, tail: seq<byte>, n: nat)
    requires n >= 1 && |tail| >= 12 * (n - 1)
    ensures ReadPoints(PointBytes(p) + tail, n) == [p] + ReadPoints(tail, n - 1)
  {
    var bs := PointBytes(p) + tail;
    PointAtBytes(p, tail);
    assert bs[12..] == tail;
  }

  // ------------------------------------------------------------ writer

  /** `node.Position` on a null entry of the node array. */
  datatype WriteError = NullNode

  /** The signature, mode and count that open the file. */
  function Header(mode: int, count: nat): (r: seq<byte>)
    requires count < 0x8000_0000
    ensures |r| == 10
  {
    LittleEndian(Signature, 4) + LittleEndian(Unsigned(ToInt16(mode), 2), 2) + LittleEndian(count, 4)
  }

  /** What `SaveAllPrefabs2Bin` writes for one spline: its mode, cast to
      short, the raw node array's count, then every entry's position
      (Bézier surplus nodes included). A null entry throws. */
  function Encode(mode: int, nodes: seq<Option<Point>>): (r: Result<seq<byte>, WriteError>)
    requires |nodes| < 0x8000_0000
    ensures r.Failure? <==> None in nodes
    ensures r.Success? ==> |r.value| == 10 + 12 * |nodes|
    ensures r.Success? ==> r.value[..4] == [0x18, 0x08, 0x35, 0x02]
  {
    if None in nodes then Failure(NullNode)
    else
      var bytes := Header(mode, |nodes|) + PointsBytes(Positions(nodes));
      assert bytes[..4] == LittleEndian(Signature, 4);
      Success(bytes)
  }

  /** The positions of a null-free node array, in order. */
  function Positions(nodes: seq<Option<Point>>): (r: seq<Point>)
    requires None !in nodes
    ensures |r| == |nodes| && forall i :: 0 <= i < |nodes| ==> Some(r[i]) == nodes[i]
  {
    if nodes == [] then [] else [nodes[0].value] + Positions(nodes[1..])
  }

  /** The file after writing: `FileMode.OpenOrCreate` does not truncate, so
      the bytes of an older, longer file survive past the new payload. */
  function Overwrite(previous: seq<byte>, payload: seq<byte>): (r: seq<byte>)
    ensures |r| == if |previous| > |payload| then |previous| else |payload|
    ensures r[..|payload|] == payload
    ensures |previous| > |payload| ==> r[|payload|..] == previous[|payload|..]
  {
    if |previous| > |payload| then payload + previous[|payload|..] else payload
  }

  // ------------------------------------------------------------ reader

  /** `BinaryReader` running out of bytes. */
  datatype ReadError = EndOfStream

  /** What `ParseBin2Curve` reads: the signature and mode as signed
      values and the points. */
  datatype Decoded = Decoded(signature: int, mode: int, points: seq<Point>)

  function SignatureAt(bs: seq<byte>): int
    requires |bs| >= 4
  {
    Signed(FromLittleEndian(bs[0..4]), 4)
  }

  function ModeAt(bs: seq<byte>): int
    requires |bs| >= 6
  {
    Signed(FromLittleEndian(bs[4..6]), 2)
  }

  function CountAt(bs: seq<byte>): int
    requires |bs| >= 10
  {
    Signed(FromLittleEndian(bs[6..10]), 4)
  }

  /** The reads of `ParseBin2Curve`: int32 signature, int16 mode, int32
      count, then that many triples (none for a negative count). The
      signature is only asserted in debug builds, so a wrong one does not
      stop the read; bytes after the last triple are never looked at. */
  function Decode(bs: seq<byte>): (r: Result<Decoded, ReadError>)
    ensures r.Success? <==> |bs| >= 10 && |bs| >= 10 + 12 * Max0(CountAt(bs))
    ensures r.Success? ==> r.value.signature == SignatureAt(bs) && r.value.mode == ModeAt(bs)
    ensures r.Success? ==> |r.value.points| == Max0(CountAt(bs))
  {
    if |bs| < 10 then Failure(EndOfStream)
    else
      var n := Max0(CountAt(bs));
      if |bs| < 10 + 12 * n then Failure(EndOfStream)
      else Success(Decoded(SignatureAt(bs), ModeAt(bs), ReadPoints(bs[10..10 + 12 * n], n)))
  }

  function Max0(v: int): nat {
    if v < 0 then 0 else v
  }

  /** A file that ends right after its last triple reads as its header
      and all of the rest. */
  lemma DecodeWhole(bs: seq<byte>)
    requires |bs| >= 10 && CountAt(bs) >= 0 && |bs| == 10 + 12 * CountAt(bs)
    ensures Decode(bs) == Success(Decoded(SignatureAt(bs), ModeAt(bs), ReadPoints(bs[10..], CountAt(bs))))
  {
    assert bs[10..10 + 12 * CountAt(bs)] == bs[10..];
  }

  /** Bytes after a readable file change nothing. */
  lemma TrailingBytesIgnored(bs: seq<byte>, extra: seq<byte>)
    requires Decode(bs).Success?
    ensures Decode(bs + extra) == Decode(bs)
  {
    var cs := bs + extra;
    assert cs[0..4] == bs[0..4] && cs[4..6] == bs[4..6] && cs[6..10] == bs[6..10];
    var n := Max0(CountAt(bs));
    assert cs[10..10 + 12 * n] == bs[10..10 + 12 * n];
  }

  /** The header the writer puts down reads back as the signature, the
      mode as a short and the count. */
  lemma HeaderReadsBack(mode: int, count: nat, rest: seq<byte>)
    requires count < 0x8000_0000
    ensures var bs := Header(mode, count) + rest;
            SignatureAt(bs) == Signature && ModeAt(bs) == ToInt16(mode) && CountAt(bs) == count
  {
    var bs := Header(mode, count) + rest;
    var u := Unsigned(ToInt16(mode), 2);
    assert bs[0..4] == LittleEndian(Signature, 4);
    assert bs[4..6] == LittleEndian(u, 2);
    assert bs[6..10] == LittleEndian(count, 4);
    ReadWritten(Signature, 4);
    ReadWritten(u, 2);
    ReadWritten(count, 4);
    SignedUnsigned(ToInt16(mode), 0, 2);
  }

  /** Decoding what the writer wrote gives back the mode (as a short) and
      every position, in order. */
  lemma DecodePayload(mode: int, nodes: seq<Option<Point>>)
    requires |nodes| < 0x8000_0000 && None !in nodes
    ensures Decode(Encode(mode, nodes).value) == Success(Decoded(Signature, ToInt16(mode), Positions(nodes)))
  {
    var ps := Positions(nodes);
    assert Encode(mode, nodes).value == Header(mode, |ps|) + PointsBytes(ps);
    DecodeWritten(mode, ps);
  }

  lemma DecodeWritten(mode: int, ps: seq<Point>)
    requires |ps| < 0x8000_0000
    ensures Decode(Header(mode, |ps|) + PointsBytes(ps)) == Success(Decoded(Signature, ToInt16(mode), ps))
  {
    HeaderReadsBack(mode, |ps|, PointsBytes(ps));
    ReadBody(Header(mode, |ps|), ps);
    DecodeWhole(Header(mode, |ps|) + PointsBytes(ps));
  }

  lemma ReadBody(h: seq<byte>, ps: seq<Point>)
    requires |h| == 10
    ensures ReadPoints((h + PointsBytes(ps))[10..], |ps|) == ps
  {
    assert (h + PointsBytes(ps))[10..] == PointsBytes(ps) + [];
    ReadWrittenPoints(ps, []);
  }

  /** ... and so does the file, whatever bytes an older one leaves behind. */
  lemma DecodeEncode(mode: int, nodes: seq<Option<Point>>, previous: seq<byte>)
    requires |nodes| < 0x8000_0000 && None !in nodes
    ensures Decode(Overwrite(previous, Encode(mode, nodes).value))
            == Success(Decoded(Signature, ToInt16(mode), Positions(nodes)))
  {
    var payload := Encode(mode, nodes).value;
    DecodePayload(mode, nodes);
    if |previous| > |payload| {
      TrailingBytesIgnored(payload, previous[|payload|..]);
    }
  }

  /** A file with a wrong signature is read all the same. */
  lemma SignatureNotChecked(bs: seq<byte>, sig: Bits32)
    requires |bs| >= 4
    ensures Decode(LittleEndian(sig, 4) + bs[4..]).Success? <==> Decode(bs).Success?
  {
    var cs := LittleEndian(sig, 4) + bs[4..];
    assert cs[4..] == bs[4..];
    if |bs| >= 10 {
      assert cs[6..10] == bs[6..10];
    }
  }

  // ------------------------------------------------------------ into a curve

  /** `ParseBin2Curve`: a `Curve()` with its defaults (open, accuracy 5),
      the mode read from the file, and `SetPoints` on the positions, which
      keeps no points at all when fewer than two were read. */
  function ParseBin2Curve(bs: seq<byte>, norm: NormFn): (r: Result<RC.Curve, ReadError>)
    ensures r.Failure? <==> Decode(bs).Failure?
    ensures r.Success? ==> RC.Inv(r.value) && !r.value.autoClose && r.value.accuracy == 5
    ensures r.Success? ==> r.value.mode == RC.ModeOf(Decode(bs).value.mode)
    ensures r.Success? ==> var ps := Decode(bs).value.points;
              r.value.points == if |ps| >= 2 then Vectors(ps) else []
    ensures r.Success? ==> var ps := Decode(bs).value.points;
              |ps| >= 2 ==> r.value.table == LoadedTable(ps, norm)
  {
    match Decode(bs)
    case Failure(e) => Failure(e)
    case Success(d) =>
      var c := RC.NewCurve(5, RC.ByIndex).(mode := RC.ModeOf(d.mode));
      Success(RC.SetPoints(c, Vectors(d.points), None, norm))
  }

  /** The table `SetPoints` measures for the positions of a file: the
      normalised arc lengths of an open curve with accuracy 5. */
  function LoadedTable(ps: seq<Point>, norm: NormFn): CT.Table
    requires |ps| > 0
  {
    CT.Normalise(RC.RefLengths(Vectors(ps), false, 5, norm), 5, |ps|, false)
  }

  /** A loaded path that has any length carries a normalised table: its
      lengths are non-negative and sum to 1, and its positions run from 0
      to 1 without going back. The fresh curve's cache is still untouched
      when the loader measures, so the index-only cache costs the table
      nothing; the window measuring leaves behind is another matter (see
      `LoadedHermitePathEnd`). */
  lemma LoadedPathTable(bs: seq<byte>, norm: NormFn)
    requires ParseBin2Curve(bs, norm).Success? && |Decode(bs).value.points| >= 2
    requires Sum(RC.RefLengths(Vectors(Decode(bs).value.points), false, 5, norm)) > 0.0
    ensures var t := ParseBin2Curve(bs, norm).value.table;
            var n := |t.lengths|;
            && t.Measured? && n == 5 * (|Decode(bs).value.points| - 1)
            && NonNegative(t.lengths) && Sum(t.lengths) == 1.0
            && t.pos[0] == 0.0 && t.pos[n] == 1.0 && CT.NonDecreasing(t.pos)
  {
    var ps := Decode(bs).value.points;
    assert ParseBin2Curve(bs, norm).value.table == LoadedTable(ps, norm);
    LoadedTableNormalised(ps, norm);
  }

  /** `LoadedPathTable` for the positions alone. */
  lemma LoadedTableNormalised(ps: seq<Point>, norm: NormFn)
    requires |ps| >= 2 && Sum(RC.RefLengths(Vectors(ps), false, 5, norm)) > 0.0
    ensures var t := LoadedTable(ps, norm);
            var n := |t.lengths|;
            && t.Measured? && n == 5 * (|ps| - 1)
            && NonNegative(t.lengths) && Sum(t.lengths) == 1.0
            && t.pos[0] == 0.0 && t.pos[n] == 1.0 && CT.NonDecreasing(t.pos)
  {
    var raw := RC.RefLengths(Vectors(ps), false, 5, norm);
    assert |raw| == 5 * (|ps| - 1);
    CT.NormalisedTable(raw, 5, |ps|, false);
  }

  /** A loaded Hermite path `c` read at its end stops at its last
      position but one: measuring leaves the B-spline window of the last
      segment in the index-only cache, and the Hermite branch takes it for
      its own. The positions themselves end at the last one. */
  lemma LoadedHermitePathEnd(bs: seq<byte>, norm: NormFn, c: RC.Curve)
    requires ParseBin2Curve(bs, norm) == Success(c) && |c.points| >= 2 && c.mode == RC.Hermite
    ensures RC.GetPositionOnCurve(c, 1.0).0 == Some(c.points[|c.points| - 2])
    ensures RC.RefPosition(c.points, false, RC.Hermite, Num(1.0), |c.points| - 2) == Some(c.points[|c.points| - 1])
  {
    var d := Decode(bs).value;
    assert RC.ModeOf(d.mode) == RC.Hermite;
    LoadedHermiteCurve(bs, norm);
    RC.FreshHermiteEnd(c.points, norm);
    RC.HermiteEndOfNodes(c.points);
  }

  /** The curve the loader builds for a Hermite file it can read. */
  lemma LoadedHermiteCurve(bs: seq<byte>, norm: NormFn)
    requires Decode(bs).Success? && RC.ModeOf(Decode(bs).value.mode) == RC.Hermite
    ensures ParseBin2Curve(bs, norm).Success?
    ensures ParseBin2Curve(bs, norm).value
            == RC.SetPoints(RC.NewCurve(5, RC.ByIndex).(mode := RC.Hermite), Vectors(Decode(bs).value.points), None, norm)
  {
  }

  function Vectors(ps: seq<Point>): (r: seq<Vec3>)
    ensures |r| == |ps| && forall i :: 0 <= i < |ps| ==> r[i] == PointToVec(ps[i])
  {
    seq(|ps|, i requires 0 <= i < |ps| => PointToVec(ps[i]))
  }

  /** Saving a spline and loading the file gives a curve on the same
      positions with the same mode, for a mode the enum names and at least
      two nodes. */
  lemma SaveThenLoad(mode: int, nodes: seq<Option<Point>>, previous: seq<byte>, norm: NormFn)
    requires |nodes| < 0x8000_0000 && None !in nodes && |nodes| >= 2 && 0 <= mode <= 4
    ensures var r := ParseBin2Curve(Overwrite(previous, Encode(mode, nodes).value), norm);
            && r.Success? && r.value.points == Vectors(Positions(nodes))
            && RC.CodeOf(r.value.mode) == mode && !r.value.autoClose
  {
    DecodeEncode(mode, nodes, previous);
  }
}

=== FILE: quaternion_utils.dfy ===
/** The quaternion helpers the interpolators use: negation, conjugation,
    normalisation, and the logarithm, exponential and SQUAD intermediate.
    The engine's `Mathf.Acos`, `Sin`, `Cos` and `Sqrt` are not functions of
    the reals Dafny knows; they arrive as a `Trig` record. */
module QuaternionUtils {
  import opened Common

  /** The transcendental functions of `Mathf` used by the logarithm and the exponential. */
  datatype Trig = Trig(acos: real -> real, sin: real -> real, cos: real -> real, sqrt: real -> real)

  /** The facts about the transcendental functions at zero that the exact
      cases below rely on. */
  predicate ExactAtZero(trig: Trig) {
    trig.sqrt(0.0) == 0.0 && trig.sin(0.0) == 0.0 && trig.cos(0.0) == 1.0
  }

  function Abs(v: real): real {
    if v < 0.0 then -v else v
  }

  /** `GetQuatNegative`: every component negated. */
  function Negative(q: Quat): Quat {
    Quat(-q.x, -q.y, -q.z, -q.w)
  }

  /** `GetQuatConjugate`: the vector part negated. */
  function Conjugate(q: Quat): Quat {
    Quat(-q.x, -q.y, -q.z, q.w)
  }

  /** The engine's quaternion product `a * b`. */
  function Mul(a: Quat, b: Quat): Quat {
    Quat(a.w * b.x + a.x * b.w + a.y * b.z - a.z * b.y,
         a.w * b.y + a.y * b.w + a.z * b.x - a.x * b.z,
         a.w * b.z + a.z * b.w + a.x * b.y - a.y * b.x,
         a.w * b.w - a.x * b.x - a.y * b.y - a.z * b.z)
  }

  function ScaleQ(k: real, q: Quat): Quat {
    Quat(k * q.x, k * q.y, k * q.z, k * q.w)
  }

  /** The squared length of a quaternion. */
  function SqNorm(q: Quat): (r: real)
    ensures r >= 0.0
  {
    var r := q.x * q.x + q.y * q.y + q.z * q.z + q.w * q.w;
    assert q.x * q.x >= 0.0 && q.y * q.y >= 0.0 && q.z * q.z >= 0.0 && q.w * q.w >= 0.0;
    SquareZero(q.x); SquareZero(q.y); SquareZero(q.z); SquareZero(q.w);
    r
  }

  /** `Normalized` as written: every component is multiplied by
      `1 / (x*x + y*y + z*z + w*w)`, the inverse of the SQUARED length.
      A zero quaternion gives `0 * infinity`, NaN in every component (None). */
  function NormalizedAsWritten(q: Quat): (r: Option<Quat>)
    ensures r.None? <==> SqNorm(q) == 0.0
    ensures r.Some? ==> SqNorm(r.value) * SqNorm(q) == 1.0
  {
    var s := SqNorm(q);
    if s == 0.0 then None
    else
      var r := ScaleQ(1.0 / s, q);
      assert SqNorm(r) == (1.0 / s) * (1.0 / s) * s;
      Some(r)
  }

  /** Normalisation as the name promises: divide by the length `magnitude`
      (a square root the caller supplies). A zero length gives NaN (None). */
  function Normalize(q: Quat, magnitude: real): (r: Option<Quat>)
    ensures r.None? <==> magnitude == 0.0
    ensures r.Some? && magnitude > 0.0 && magnitude * magnitude == SqNorm(q) ==> SqNorm(r.value) == 1.0
    ensures r.Some? && magnitude > 0.0 ==> QDot(r.value, q) >= 0.0
  {
    if magnitude == 0.0 then None
    else
      var r := ScaleQ(1.0 / magnitude, q);
      assert SqNorm(r) == (1.0 / magnitude) * (1.0 / magnitude) * SqNorm(q);
      assert QDot(r, q) == (1.0 / magnitude) * SqNorm(q);
      Some(r)
  }

  /** The as-written normalisation only normalises what is already of unit
      length: a quaternion of length 2 comes back with length 1/2. */
  lemma NormalizedAsWrittenMissesUnitLength()
    ensures NormalizedAsWritten(Quat(0.0, 0.0, 0.0, 2.0)) == Some(Quat(0.0, 0.0, 0.0, 0.5))
    ensures SqNorm(Quat(0.0, 0.0, 0.0, 0.5)) == 0.25
  {
  }

  /** The corrected normalisation agrees with the as-written one exactly on
      quaternions that already have unit length. */
  lemma NormalizeAgreesOnUnitQuaternions(q: Quat)
    requires SqNorm(q) == 1.0
    ensures Normalize(q, 1.0) == NormalizedAsWritten(q) == Some(q)
  {
  }

  /** `GetQuatLog`: the scalar part becomes 0; the vector part is scaled by
      `theta / sin(theta)` when `|w| < 1` and `|sin(theta)| > 0.0001`. */
  function GetQuatLog(q: Quat, trig: Trig): (r: Quat)
    ensures r.w == 0.0
    ensures Abs(q.w) >= 1.0 ==> r == Quat(q.x, q.y, q.z, 0.0)
    ensures Cross(Vec3(r.x, r.y, r.z), Vec3(q.x, q.y, q.z)) == Zero
  {
    if Abs(q.w) < 1.0 then
      var theta := trig.acos(q.w);
      var sinTheta := trig.sin(theta);
      if Abs(sinTheta) > 0.0001 then
        var coef := theta / sinTheta;
        assert Cross(Vec3(q.x * coef, q.y * coef, q.z * coef), Vec3(q.x, q.y, q.z)) == Zero;
        Quat(q.x * coef, q.y * coef, q.z * coef, 0.0)
      else
        Quat(q.x, q.y, q.z, 0.0)
    else
      Quat(q.x, q.y, q.z, 0.0)
  }

  /** `GetQuatExp`: the scalar part becomes `cos(angle)` with `angle` the
      length of the vector part; the vector part is scaled by
      `sin(angle) / angle` when `|sin(angle)| > 0.0001`. */
  function GetQuatExp(q: Quat, trig: Trig): (r: Quat)
    ensures Cross(Vec3(r.x, r.y, r.z), Vec3(q.x, q.y, q.z)) == Zero
    ensures ExactAtZero(trig) && q.x == 0.0 && q.y == 0.0 && q.z == 0.0 ==> r == Identity
  {
    var angle := trig.sqrt(q.x * q.x + q.y * q.y + q.z * q.z);
    var sinAngle := trig.sin(angle);
    var w := trig.cos(angle);
    // With the engine's functions a zero angle has a zero sine, so the
    // second test never changes the branch taken; it keeps the division defined.
    if Abs(sinAngle) > 0.0001 && angle != 0.0 then
      var coef := sinAngle / angle;
      assert Cross(Vec3(coef * q.x, coef * q.y, coef * q.z), Vec3(q.x, q.y, q.z)) == Zero;
      Quat(coef * q.x, coef * q.y, coef * q.z, w)
    else
      Quat(q.x, q.y, q.z, w)
  }

  /** `GetSquadIntermediate(q0, q1, q2)`: the inner control point of a
      spherical cubic through `q1`. */
  function GetSquadIntermediate(q0: Quat, q1: Quat, q2: Quat, trig: Trig): Quat {
    var q1Inv := Conjugate(q1);
    var p0 := GetQuatLog(Mul(q1Inv, q0), trig);
    var p2 := GetQuatLog(Mul(q1Inv, q2), trig);
    var sum := Quat(-0.25 * (p0.x + p2.x), -0.25 * (p0.y + p2.y), -0.25 * (p0.z + p2.z), -0.25 * (p0.w + p2.w));
    Mul(q1, GetQuatExp(sum, trig))
  }

  /** Negating a quaternion negates its dot product with any other, which is
      what the sign alignment of rotation interpolation relies on. */
  lemma NegativeFlipsDot(a: Quat, b: Quat)
    ensures QDot(a, Negative(b)) == -QDot(a, b)
    ensures Negative(Negative(b)) == b
    ensures SqNorm(Negative(b)) == SqNorm(b)
  {
  }

  /** The conjugate is the inverse up to the squared length: `conj(q) * q` is
      the real quaternion `|q|^2`, so for a unit quaternion it is the identity. */
  lemma ConjugateIsInverse(q: Quat)
    ensures Mul(Conjugate(q), q) == Quat(0.0, 0.0, 0.0, SqNorm(q))
    ensures Mul(q, Conjugate(q)) == Quat(0.0, 0.0, 0.0, SqNorm(q))
    ensures Conjugate(Conjugate(q)) == q
  {
  }

  /** On two identical neighbours the SQUAD intermediate is the quaternion
      itself: the logarithm of `conj(q) * q` has a zero vector part. */
  lemma SquadOfRepeatedUnitQuaternion(q: Quat, trig: Trig)
    requires SqNorm(q) == 1.0 && ExactAtZero(trig)
    ensures GetSquadIntermediate(q, q, q, trig) == q
  {
    ConjugateIsInverse(q);
    assert Mul(Conjugate(q), q) == Identity;
    assert GetQuatLog(Identity, trig) == Quat(0.0, 0.0, 0.0, 0.0);
    assert GetQuatExp(Quat(0.0, 0.0, 0.0, 0.0), trig) == Identity;
  }
}

=== FILE: spline.dfy ===
/** The editor `Spline` component: the node list it builds from its public
    node array, the interpolator it installs, its length table, the
    reparameterisation that maps a normalised spline parameter to a segment
    and a local parameter, the getters, the distance conversions and the
    node insertion helpers. */
module EditorSpline {
  import opened Common
  import opened SplineNodes
  import opened SplineTopology
  import I = Interpolator
  import QU = QuaternionUtils
  import SL = SplineLength
  import CT = CurveTable

  // ------------------------------------------------------------ node lists

  /** The entries of `splineNodesArray` that are set, in order. */
  function NonNull(a: seq<Option<SplineNode>>): (r: seq<SplineNode>)
    ensures |r| <= |a|
    ensures None !in a ==> |r| == |a|
    ensures forall n :: n in r <==> Some(n) in a
  {
    if |a| == 0 then []
    else
      assert a == [a[0]] + a[1..];
      (if a[0].Some? then [a[0].value] else []) + NonNull(a[1..])
  }

  /** The nodes as `Option`s again. */
  function Wrap(s: seq<SplineNode>): (r: seq<Option<SplineNode>>)
    ensures |r| == |s| && None !in r
    ensures forall i :: 0 <= i < |s| ==> r[i] == Some(s[i])
  {
    seq(|s|, i requires 0 <= i < |s| => Some(s[i]))
  }

  /** Without null entries, dropping them and wrapping again gives back the array. */
  lemma {:induction false} WrapNonNull(a: seq<Option<SplineNode>>)
    requires None !in a
    ensures Wrap(NonNull(a)) == a
  {
    if |a| > 0 {
      assert a == [a[0]] + a[1..];
      WrapNonNull(a[1..]);
      assert Wrap(NonNull(a)) == [a[0]] + Wrap(NonNull(a[1..]));
    }
  }

  /** `splineNodesInternal` as `UpdateSpline` builds it: count the set
      entries, take the relevant count of them, but take that many entries
      from the front of the array, nulls included, and then remove only the
      first null among them (`List.Remove(null)`). */
  function InternalAsWritten(mode: InterpolationMode, a: seq<Option<SplineNode>>): (r: seq<Option<SplineNode>>)
    ensures |r| <= GetRelevantNodeCount(mode, |NonNull(a)|)
    ensures r != [] ==> EnoughNodes(mode, GetRelevantNodeCount(mode, |NonNull(a)|))
  {
    var relevant := GetRelevantNodeCount(mode, |NonNull(a)|);
    if !EnoughNodes(mode, relevant) then [] else Remove(a[..relevant], None)
  }

  /** For an array without nulls the two agree: the list is exactly the
      first relevant-count entries. */
  lemma AsWrittenAgreesWithoutNulls(mode: InterpolationMode, a: seq<Option<SplineNode>>)
    requires None !in a
    ensures InternalAsWritten(mode, a) == Wrap(Internal(mode, a))
    ensures var relevant := GetRelevantNodeCount(mode, |a|);
            EnoughNodes(mode, relevant) ==> InternalAsWritten(mode, a) == a[..relevant]
  {
    WrapNonNull(a);
    var relevant := GetRelevantNodeCount(mode, |a|);
    if EnoughNodes(mode, relevant) {
      assert a[..relevant] == Wrap(NonNull(a)[..relevant]);
    }
  }

  /** What the node list evidently should be: the first relevant-count set
      entries, nulls skipped. */
  function Internal(mode: InterpolationMode, a: seq<Option<SplineNode>>): (r: seq<SplineNode>)
    ensures r <= NonNull(a)
    ensures var relevant := GetRelevantNodeCount(mode, |NonNull(a)|);
            if EnoughNodes(mode, relevant) then |r| == relevant else r == []
    ensures r != [] ==> Usable(mode, |r|)
  {
    var relevant := GetRelevantNodeCount(mode, |NonNull(a)|);
    if !EnoughNodes(mode, relevant) then [] else NonNull(a)[..relevant]
  }

  /** A node count the spline can be built from. */
  predicate Usable(mode: InterpolationMode, count: nat) {
    EnoughNodes(mode, count) && (mode == Bezier ==> count % 3 == 1)
  }

  const A: SplineNode := NewNode(1, Vec3(0.0, 0.0, 0.0), Identity)
  const B: SplineNode := NewNode(2, Vec3(1.0, 0.0, 0.0), Identity)

  /** One null before two nodes: the nodes are counted, but the first two
      entries are taken, so the list loses a node and is too short for a
      curve. */
  lemma LeadingNullLosesANode()
    ensures InternalAsWritten(Hermite, [None, Some(A), Some(B)]) == [Some(A)]
    ensures Internal(Hermite, [None, Some(A), Some(B)]) == [A, B]
  {
    var a := [None, Some(A), Some(B)];
    OneNullThenNodes();
    assert a[..2] == [None, Some(A)];
    assert IndexOf(a[..2], None) == 0;
  }

  lemma OneNullThenNodes()
    ensures NonNull([None, Some(A), Some(B)]) == [A, B]
  {
    var a := [None, Some(A), Some(B)];
    var b: seq<Option<SplineNode>> := [Some(A), Some(B)];
    assert NonNull(b) == [A, B] by {
      assert b[1..] == [Some(B)] && b[1..][1..] == [];
    }
    assert a[1..] == b;
  }

  /** Two nulls before two nodes: the list is a single null. */
  lemma TwoNullsLeaveANull()
    ensures InternalAsWritten(Hermite, [None, None, Some(A), Some(B)]) == [None]
  {
    var a := [None, None, Some(A), Some(B)];
    TwoNullsThenNodes();
    assert a[..2] == [None, None];
    RemoveFirstOfTwoNulls();
  }

  lemma TwoNullsThenNodes()
    ensures NonNull([None, None, Some(A), Some(B)]) == [A, B]
  {
    var a := [None, None, Some(A), Some(B)];
    var b: seq<Option<SplineNode>> := [Some(A), Some(B)];
    assert NonNull(b) == [A, B] by {
      assert b[1..] == [Some(B)] && b[1..][1..] == [];
    }
    assert a[1..] == [None] + b && a[1..][1..] == b;
  }

  lemma RemoveFirstOfTwoNulls()
    ensures Remove<Option<SplineNode>>([None, None], None) == [None]
  {
    var s: seq<Option<SplineNode>> := [None, None];
    assert IndexOf(s, None) == 0;
    assert s[1..] == [None];
  }

  // ------------------------------------------------------------ the spline

  /** `Spline.RotationMode`: `None` is `NoRotation` here. */
  datatype RotationMode = NoRotation | Node | Tangent

  /** `Spline.NormalMode`. */
  datatype NormalMode = UseGlobalSplineNormal | UseNodeNormal | UseNodeUpVector

  /** The fields of a `Spline` the model reads. `settings` carries
      `tension`, `perNodeTension` and `tangentMode`. */
  datatype Spline = Spline(
    nodesArray: seq<Option<SplineNode>>,
    internal: seq<SplineNode>,
    mode: InterpolationMode,
    interp: I.Interp,
    rotationMode: RotationMode,
    normalMode: NormalMode,
    settings: I.HermiteSettings,
    normal: Vec3,
    autoClose: bool,
    accuracy: nat,
    lengthData: SL.LengthData)

  /** A freshly added component, with the field initialisers' values. */
  function NewSpline(): (sp: Spline)
    ensures sp.internal == [] && sp.mode == Hermite && sp.interp == I.HermiteInterpolator()
    ensures sp.accuracy == 5 && !sp.autoClose && sp.lengthData == SL.NotCalculated
    ensures Inv(sp)
  {
    Spline([], [], Hermite, I.HermiteInterpolator(), Tangent, UseGlobalSplineNormal,
           I.HermiteSettings(0.5, false, I.UseTangents), Up, false, 5, SL.NotCalculated)
  }

  /** What `UpdateSpline` needs: an interpolator some constructor built and
      a positive accuracy. */
  predicate Configured(sp: Spline) {
    I.Valid(sp.interp) && sp.accuracy > 0
  }

  /** A length table for `n` sub-segments as `Calculate` leaves it. */
  predicate Fits(d: SL.LengthData, n: nat) {
    match d
    case NotCalculated => false
    case Measured(lengths, positions, _) =>
      n > 0 && |lengths| == n && NonNegative(lengths) && Sum(lengths) == 1.0 && positions == CT.Prefix(lengths)[..n]
    case Unmeasurable(count) => n > 0 && count == n
  }

  /** The number of sub-segments of the spline's node list. */
  function SubSegments(sp: Spline): nat {
    SegmentCount(|sp.internal|, sp.autoClose, sp.mode) * sp.accuracy
  }

  /** The state `UpdateSpline` leaves: a node list it can use and the table
      measured on it. */
  predicate Inv(sp: Spline) {
    && Configured(sp)
    && (|sp.internal| > 0 ==> Usable(sp.mode, |sp.internal|) && Fits(sp.lengthData, SubSegments(sp)))
  }

  /** The interpolator a mode installs when none of its class is there. */
  function BuiltIn(mode: InterpolationMode): (r: I.Interp)
    requires mode != CustomMatrix
    ensures I.Valid(r) && r.kind != I.Custom
  {
    match mode
    case Hermite => I.HermiteInterpolator()
    case Bezier => I.BezierInterpolator()
    case BSpline => I.BSplineInterpolator()
    case Linear => I.LinearInterpolator()
  }

  /** The interpolator switch at the top of `UpdateSpline`: an interpolator
      of the mode's class is kept, anything else is replaced by a new one;
      `CustomMatrix` keeps whatever is installed. */
  function ChooseInterpolator(mode: InterpolationMode, current: I.Interp): (r: I.Interp)
    ensures mode == CustomMatrix ==> r == current
    ensures mode != CustomMatrix ==> r.kind == BuiltIn(mode).kind && (r == current || r == BuiltIn(mode))
    ensures mode != CustomMatrix && current.kind == BuiltIn(mode).kind ==> r == current
    ensures I.Valid(current) ==> I.Valid(r)
  {
    match mode
    case Hermite => if current.kind == I.Hermite then current else I.HermiteInterpolator()
    case Bezier => if current.kind == I.Bezier then current else I.BezierInterpolator()
    case BSpline => if current.kind == I.BSpline then current else I.BSplineInterpolator()
    case Linear => if current.kind == I.Linear then current else I.LinearInterpolator()
    case CustomMatrix => current
  }

  /** What the positions on a spline depend on. */
  datatype Geometry = Geometry(interp: I.Interp, settings: I.HermiteSettings, closed: bool, nodes: seq<SplineNode>)

  function GeometryOf(sp: Spline): Geometry {
    Geometry(sp.interp, sp.settings, IsAutoClose(sp.autoClose, sp.mode), sp.internal)
  }

  /** `GetPositionInternal` for every segment: position at local parameter
      `t` of the segment that starts at node `index`. */
  function PositionAt(g: Geometry, norm: NormFn, index: int, t: real): Vec3
    requires I.Valid(g.interp) && |g.nodes| > 0
  {
    I.InterpolateNodePositions(g.interp, g.settings, t, index, g.closed, g.nodes, 0, norm)
  }

  /** The sub-segment lengths `Calculate` measures on the spline. */
  function MeasuredLengths(g: Geometry, norm: NormFn, segments: nat, accuracy: nat, nodesPerSegment: nat): (r: seq<real>)
    requires I.Valid(g.interp) && |g.nodes| > 0 && accuracy > 0
    ensures |r| == segments * accuracy && NonNegative(r)
  {
    SL.RawLengths((index: int, t: real) => PositionAt(g, norm, index, t), norm, segments, accuracy, nodesPerSegment)
  }

  /** `UpdateSpline`, with the node list built as evidently intended. The
      interpolator is chosen; when too few nodes are set the list is emptied
      and nothing else happens (the old table stays); otherwise the list is
      rebuilt and the table measured on it. */
  function UpdateSpline(sp: Spline, norm: NormFn): (r: Spline)
    requires Configured(sp)
    ensures Inv(r)
    ensures r == sp.(interp := r.interp, internal := r.internal, lengthData := r.lengthData)
    ensures r.interp == ChooseInterpolator(sp.mode, sp.interp)
    ensures r.internal <= NonNull(sp.nodesArray)
    ensures var relevant := GetRelevantNodeCount(sp.mode, |NonNull(sp.nodesArray)|);
            if EnoughNodes(sp.mode, relevant) then |r.internal| == relevant
            else r.internal == [] && r.lengthData == sp.lengthData
  {
    var built := sp.(interp := ChooseInterpolator(sp.mode, sp.interp), internal := Internal(sp.mode, sp.nodesArray));
    if built.internal == [] then built else Measure(built, norm)
  }

  /** The update went wrong: the node list `UpdateSpline` built as written,
      which lost a node or kept a null. */
  datatype UpdateError = NodeListBroken(list: seq<Option<SplineNode>>)

  /** `UpdateSpline` as written. Where its node list is the intended one it
      is the update above; where a null among the first relevant-count
      entries made it lose a node or keep a null, the model stops with the
      list the source went on with. */
  function UpdateSplineAsWritten(sp: Spline, norm: NormFn): (r: Result<Spline, UpdateError>)
    requires Configured(sp)
    ensures r.Success? <==> InternalAsWritten(sp.mode, sp.nodesArray) == Wrap(Internal(sp.mode, sp.nodesArray))
    ensures r.Success? ==> r.value.internal == Internal(sp.mode, sp.nodesArray) && Inv(r.value)
    ensures r.Failure? ==> r.error.list == InternalAsWritten(sp.mode, sp.nodesArray)
  {
    var list := InternalAsWritten(sp.mode, sp.nodesArray);
    if list == Wrap(Internal(sp.mode, sp.nodesArray)) then Success(UpdateSpline(sp, norm))
    else Failure(NodeListBroken(list))
  }

  /** An array without nulls is updated as intended. */
  lemma UpdateAsWrittenWithoutNulls(sp: Spline, norm: NormFn)
    requires Configured(sp) && None !in sp.nodesArray
    ensures UpdateSplineAsWritten(sp, norm) == Success(UpdateSpline(sp, norm))
  {
    AsWrittenAgreesWithoutNulls(sp.mode, sp.nodesArray);
  }

  /** A null ahead of two Hermite nodes breaks the update as written, where
      the intended one builds a two-node list. */
  lemma UpdateAsWrittenBreaksOnLeadingNull(sp: Spline, norm: NormFn)
    requires Configured(sp) && sp.mode == Hermite && sp.nodesArray == [None, Some(A), Some(B)]
    ensures UpdateSplineAsWritten(sp, norm) == Failure(NodeListBroken([Some(A)]))
    ensures UpdateSpline(sp, norm).internal == [A, B]
  {
    LeadingNullLosesANode();
    assert Wrap([A, B]) != [Some(A)];
  }

  /** `ReparameterizeCurve`: the table measured on the current node list. */
  function Measure(sp: Spline, norm: NormFn): (r: Spline)
    requires Configured(sp) && sp.internal != [] && Usable(sp.mode, |sp.internal|)
    ensures Inv(r) && r == sp.(lengthData := r.lengthData)
  {
    var count := |sp.internal|;
    SegmentsCoverControlNodes(count, sp.autoClose, sp.mode);
    var raw := MeasuredLengths(GeometryOf(sp), norm, SegmentCount(count, sp.autoClose, sp.mode), sp.accuracy, NodesPerSegment(sp.mode));
    var d := SL.Calculate(raw);
    FitsAfterCalculate(raw);
    WithTable(sp, d);
    sp.(lengthData := d)
  }

  /** A usable node list with a table that fits it is a spline state. */
  lemma WithTable(sp: Spline, d: SL.LengthData)
    requires Configured(sp) && sp.internal != [] && Usable(sp.mode, |sp.internal|)
    requires Fits(d, SubSegments(sp))
    ensures Inv(sp.(lengthData := d))
  {
  }

  /** `Calculate` on non-negative raw lengths gives a fitting table. */
  lemma FitsAfterCalculate(raw: seq<real>)
    requires NonNegative(raw) && |raw| > 0
    ensures Fits(SL.Calculate(raw), |raw|)
  {
    SumNonNegative(raw);
    if Sum(raw) > 0.0 {
      var lengths := SL.CalculatedParts(raw);
      SL.CalculatedTable(raw);
    }
  }

  /** Updating twice is updating once: the second pass keeps the
      interpolator, rebuilds the same list and measures the same table. */
  lemma UpdateIdempotent(sp: Spline, norm: NormFn)
    requires Configured(sp)
    ensures UpdateSpline(UpdateSpline(sp, norm), norm) == UpdateSpline(sp, norm)
  {
  }

  // ---------------------------------------------------- reparameterisation

  /** `SegmentParameter`: the first node of a segment and the local
      parameter on it, a double that is NaN on an unmeasurable spline. */
  datatype SegParam = SegParam(index: int, t: Number)

  /** `MaxNodeIndex()` of the spline's node list. */
  function MaxIndex(sp: Spline): int {
    MaxNodeIndex(|sp.internal|, sp.autoClose, sp.mode)
  }

  /** Where the downward scan of `RecalculateParameter` stops: the largest
      `i` with `pos[i] < param`, or -1 when there is none (`LastBelowIsLast`). */
  function LastBelow(pos: seq<real>, param: real): (i: int)
    ensures -1 <= i < |pos|
    ensures i >= 0 ==> pos[i] < param
  {
    LastBelowBefore(pos, param, |pos|)
  }

  /** The largest `i` below `k` with `pos[i] < param`, or -1. */
  function LastBelowBefore(pos: seq<real>, param: real, k: nat): (i: int)
    requires k <= |pos|
    ensures -1 <= i < k
    ensures i >= 0 ==> pos[i] < param
  {
    if k == 0 then -1
    else if pos[k - 1] < param then k - 1
    else LastBelowBefore(pos, param, k - 1)
  }

  /** No position after the one the scan stops at lies below the parameter. */
  lemma LastBelowIsLast(pos: seq<real>, param: real)
    ensures forall j :: LastBelow(pos, param) < j < |pos| ==> !(pos[j] < param)
  {
    NoneBelowAfter(pos, param, |pos|);
  }

  lemma {:induction false} NoneBelowAfter(pos: seq<real>, param: real, k: nat)
    requires k <= |pos|
    ensures forall j :: LastBelowBefore(pos, param, k) < j < k ==> !(pos[j] < param)
  {
    if k > 0 && !(pos[k - 1] < param) {
      NoneBelowAfter(pos, param, k - 1);
    }
  }

  /** The scan itself: from the last position down to the first. */
  method ScanDown(pos: seq<real>, param: real) returns (i: int)
    ensures i == LastBelow(pos, param)
  {
    i := |pos| - 1;
    while i >= 0 && !(pos[i] < param)
      invariant -1 <= i < |pos|
      invariant forall j :: i < j < |pos| ==> !(pos[j] < param)
    {
      i := i - 1;
    }
    LastBelowIsLast(pos, param);
  }

  /** How far `param` lies into a sub-segment starting at `p` of length `l`. */
  function Fraction(param: real, p: real, l: real): real
    requires l != 0.0
  {
    (param - p) / l
  }

  /** A parameter inside a sub-segment lies a fraction in (0, 1] into it. */
  lemma FractionBounds(param: real, p: real, l: real)
    requires l > 0.0 && p < param <= p + l
    ensures 0.0 < Fraction(param, p, l) <= 1.0
    ensures p + Fraction(param, p, l) * l == param
  {
    var f := Fraction(param, p, l);
    assert f * l == param - p;
    ScaledSign(f, l);
  }

  /** The body of the scan once it stopped at `i`: the sub-segment's
      segment gives the node index (`floorIndex * NodesPerSegment /
      accuracy`, of non-negative operands, so C#'s division is Dafny's) and
      the local parameter adds the fraction to the sub-segment's offset,
      scaled by `1 / accuracy`. An index past the last segment is clamped,
      and so is a scan that found nothing. */
  function Located(pos: seq<real>, len: seq<real>, i: int, param: real, accuracy: nat,
                   nodesPerSegment: nat, controlNodes: int, maxIndex: int): SegParam
    requires accuracy > 0 && |len| == |pos| && -1 <= i < |pos|
    requires i >= 0 ==> len[i] != 0.0
  {
    if i < 0 then SegParam(maxIndex, Num(1.0))
    else
      var floorIndex := i - i % accuracy;
      var index := floorIndex * nodesPerSegment / accuracy;
      if index >= controlNodes - 1 then SegParam(maxIndex, Num(1.0))
      else SegParam(index, Num(SL.Width(accuracy) * ((i - floorIndex) as real + Fraction(param, pos[i], len[i]))))
  }

  /** The table of a measured spline brackets every parameter in (0, 1]:
      the scan stops inside the table, on a sub-segment of positive length
      that contains the parameter. */
  lemma TableBrackets(lengths: seq<real>, positions: seq<real>, param: real)
    requires |lengths| > 0 && NonNegative(lengths) && Sum(lengths) == 1.0
    requires positions == CT.Prefix(lengths)[..|lengths|]
    requires 0.0 < param <= 1.0
    ensures var i := LastBelow(positions, param);
            && 0 <= i < |lengths|
            && positions[i] < param <= positions[i] + lengths[i]
            && lengths[i] > 0.0
  {
    var n := |lengths|;
    var i := LastBelow(positions, param);
    LastBelowIsLast(positions, param);
    assert positions[0] == 0.0;
    if i + 1 < n {
      assert positions[i + 1] == positions[i] + lengths[i];
    } else {
      SL.PositionsOfLengths(lengths);
    }
  }

  /** `1 / accuracy` times `accuracy` is 1. */
  lemma WidthTimesAccuracy(accuracy: nat)
    requires accuracy > 0
    ensures SL.Width(accuracy) * accuracy as real == 1.0
  {
  }

  /** The offset of a sub-segment in its segment plus a fraction in (0, 1],
      over the accuracy, is a local parameter in (0, 1]. */
  lemma LocalInRange(k: int, f: real, accuracy: nat)
    requires accuracy > 0 && 0 <= k < accuracy && 0.0 < f <= 1.0
    ensures 0.0 < SL.Width(accuracy) * (k as real + f) <= 1.0
  {
    WidthTimesAccuracy(accuracy);
    var w := SL.Width(accuracy);
    assert k as real + f <= accuracy as real;
    assert w * (k as real + f) <= w * accuracy as real;
  }

  /** Sub-segment `i` of a spline with `segments` segments belongs to
      segment `i / accuracy`, whose first node is a whole number of segments
      in and before the last segment's first node. */
  lemma SubSegmentNode(i: int, accuracy: nat, nodesPerSegment: nat, segments: nat)
    requires accuracy > 0 && nodesPerSegment > 0 && 0 <= i < segments * accuracy
    ensures (i - i % accuracy) * nodesPerSegment / accuracy == (i / accuracy) * nodesPerSegment
    ensures 0 <= (i / accuracy) * nodesPerSegment <= (segments - 1) * nodesPerSegment
  {
    var q := i / accuracy;
    assert i - i % accuracy == q * accuracy;
    assert (q * accuracy) * nodesPerSegment == (q * nodesPerSegment) * accuracy;
    CT.DivExact((q * accuracy) * nodesPerSegment, accuracy, q * nodesPerSegment);
    CT.MulCancelLess(q, segments, accuracy);
    CT.MulMonotone(q, segments - 1, nodesPerSegment);
  }

  /** The body of the scan at a sub-segment `i` that contains the
      parameter: the index is the first node of the sub-segment's segment,
      which is no later than the last segment's, so the clamp is not taken,
      and the local parameter lies in (0, 1]. */
  lemma LocatedAt(lengths: seq<real>, positions: seq<real>, i: int, accuracy: nat, nodesPerSegment: nat,
                  segments: nat, param: real)
    requires accuracy > 0 && nodesPerSegment > 0 && |positions| == |lengths| == segments * accuracy
    requires 0 <= i < |lengths| && lengths[i] > 0.0 && positions[i] < param <= positions[i] + lengths[i]
    ensures var f := Fraction(param, positions[i], lengths[i]);
            && 0.0 < f <= 1.0 && positions[i] + f * lengths[i] == param
            && 0 <= (i / accuracy) * nodesPerSegment <= (segments - 1) * nodesPerSegment
            && 0.0 < SL.Width(accuracy) * ((i % accuracy) as real + f) <= 1.0
            && Located(positions, lengths, i, param, accuracy, nodesPerSegment,
                       segments * nodesPerSegment + 1, (segments - 1) * nodesPerSegment)
               == SegParam((i / accuracy) * nodesPerSegment, Num(SL.Width(accuracy) * ((i % accuracy) as real + f)))
  {
    FractionBounds(param, positions[i], lengths[i]);
    SubSegmentNode(i, accuracy, nodesPerSegment, segments);
    LocalInRange(i % accuracy, Fraction(param, positions[i], lengths[i]), accuracy);
    assert i - (i - i % accuracy) == i % accuracy;
  }

  /** The facts `Inv` holds about a measured spline's table. */
  lemma MeasuredTable(sp: Spline)
    requires Inv(sp) && sp.internal != [] && sp.lengthData.Measured?
    ensures var count, k := |sp.internal|, NodesPerSegment(sp.mode);
            var segments := SegmentCount(count, sp.autoClose, sp.mode);
            && sp.accuracy > 0 && k > 0 && segments > 0
            && |sp.lengthData.lengths| == segments * sp.accuracy
            && NonNegative(sp.lengthData.lengths) && Sum(sp.lengthData.lengths) == 1.0
            && sp.lengthData.positions == CT.Prefix(sp.lengthData.lengths)[..|sp.lengthData.lengths|]
            && ControlNodeCount(count, sp.autoClose, sp.mode) == segments * k + 1
            && MaxIndex(sp) == (segments - 1) * k
  {
    SegmentsCoverControlNodes(|sp.internal|, sp.autoClose, sp.mode);
  }

  /** `RecalculateParameter`, on a spline `UpdateSpline` left with nodes
      (the source also calculates a missing table first, which such a
      spline never has). Parameters up to 0 map to the start of the first
      segment, beyond 1 to the end of the last; in between the scan finds
      the sub-segment. On an unmeasurable spline the scan stops at the
      first entry, the only one that is not NaN, and the fraction is NaN. */
  function RecalculateParameter(sp: Spline, param: real): (r: SegParam)
    requires Inv(sp) && sp.internal != []
    ensures 0 <= r.index <= MaxIndex(sp) && r.index % NodesPerSegment(sp.mode) == 0
    ensures r.t.Num? ==> 0.0 <= r.t.value <= 1.0
    ensures r.t.NaN? <==> 0.0 < param <= 1.0 && sp.lengthData.Unmeasurable?
    ensures 0.0 < param <= 1.0 && sp.lengthData.Measured? ==>
              var d, a := sp.lengthData, sp.accuracy;
              var i := LastBelow(d.positions, param);
              && 0 <= i < |d.positions|
              && d.positions[i] < param <= d.positions[i] + d.lengths[i]
              && r.index == (i / a) * NodesPerSegment(sp.mode)
              && r.t.Num? && ParamAt(d.positions, d.lengths, i, a, r.t.value) == param
  {
    var count, k := |sp.internal|, NodesPerSegment(sp.mode);
    var segments := SegmentCount(count, sp.autoClose, sp.mode);
    SegmentsCoverControlNodes(count, sp.autoClose, sp.mode);
    MultipleAligned(segments - 1, k);
    if param <= 0.0 then SegParam(0, Num(0.0))
    else if param > 1.0 then SegParam(MaxIndex(sp), Num(1.0))
    else if sp.lengthData.Unmeasurable? then SegParam(0, NaN)
    else
      var lengths, positions := sp.lengthData.lengths, sp.lengthData.positions;
      MeasuredTable(sp);
      TableBrackets(lengths, positions, param);
      FoundAt(lengths, positions, LastBelow(positions, param), sp.accuracy, k, segments, param)
  }

  /** The spline parameter of local parameter `t` on the segment holding
      sub-segment `i`, read as lying in that sub-segment: the map the
      reparameterisation inverts. */
  function ParamAt(positions: seq<real>, lengths: seq<real>, i: int, accuracy: nat, t: real): real
    requires 0 <= i < |positions| == |lengths| && accuracy > 0
  {
    positions[i] + (t * accuracy as real - (i % accuracy) as real) * lengths[i]
  }

  /** The rest of the scan on a measured table of `segments * accuracy`
      entries, once it stopped at a sub-segment `i` containing the
      parameter: the index is where the sub-segment's segment starts, the
      local parameter lies in (0, 1], and the two give back the parameter. */
  function FoundAt(lengths: seq<real>, positions: seq<real>, i: int, accuracy: nat, nodesPerSegment: nat,
                   segments: nat, param: real): (r: SegParam)
    requires accuracy > 0 && nodesPerSegment > 0 && |positions| == |lengths| == segments * accuracy
    requires 0 <= i < |lengths| && lengths[i] > 0.0 && positions[i] < param <= positions[i] + lengths[i]
    ensures 0 <= r.index <= (segments - 1) * nodesPerSegment && r.index % nodesPerSegment == 0
    ensures r.index == (i / accuracy) * nodesPerSegment
    ensures r.t.Num? && 0.0 < r.t.value <= 1.0
    ensures ParamAt(positions, lengths, i, accuracy, r.t.value) == param
  {
    LocatedAt(lengths, positions, i, accuracy, nodesPerSegment, segments, param);
    InvertsAt(lengths, positions, i, accuracy, param);
    MultipleAligned(i / accuracy, nodesPerSegment);
    Located(positions, lengths, i, param, accuracy, nodesPerSegment,
            segments * nodesPerSegment + 1, (segments - 1) * nodesPerSegment)
  }

  /** A multiple of `k` leaves no remainder. */
  lemma MultipleAligned(q: int, k: nat)
    requires k > 0
    ensures (q * k) % k == 0
  {
    I.ModUnique(q * k, k, q, 0);
  }

  /** The inverse property at the sub-segment the scan stops at: the local
      parameter `LocatedAt` gives maps back to the parameter. */
  lemma InvertsAt(lengths: seq<real>, positions: seq<real>, i: int, accuracy: nat, param: real)
    requires accuracy > 0 && |positions| == |lengths|
    requires 0 <= i < |lengths| && lengths[i] > 0.0 && positions[i] < param <= positions[i] + lengths[i]
    ensures ParamAt(positions, lengths, i, accuracy,
                    SL.Width(accuracy) * ((i % accuracy) as real + Fraction(param, positions[i], lengths[i]))) == param
  {
    FractionBounds(param, positions[i], lengths[i]);
    Reconstruct(positions[i], lengths[i], param, Fraction(param, positions[i], lengths[i]), i % accuracy, accuracy);
  }

  /** The offset `p + f * l` is recovered from the local parameter
      `(k + f) / accuracy`. */
  lemma Reconstruct(p: real, l: real, param: real, f: real, k: int, accuracy: nat)
    requires accuracy > 0 && p + f * l == param
    ensures p + (SL.Width(accuracy) * (k as real + f) * accuracy as real - k as real) * l == param
  {
    var w := SL.Width(accuracy);
    WidthTimesAccuracy(accuracy);
    assert w * (k as real + f) * accuracy as real == (w * accuracy as real) * (k as real + f);
  }
}

=== FILE: spline_editing.dfy ===
/** Inserting and removing nodes of the editor `Spline`: each edits the
    public node array and then runs `UpdateSpline`. */
module SplineEditing {
  import opened Common
  import opened SplineNodes
  import opened SplineTopology
  import opened EditorSpline

  // ------------------------------------------------------------ insertion

  /** The `ArgumentException` of `AddSplineNode(precedingNode)`. */
  datatype AddError = NotPartOfSpline

  /** Where `AddSplineNode(precedingNode)` inserts, with the source's check
      that the index is not -1: the front for a null node, otherwise one
      past the node's first occurrence. `IndexOf` gives -1 for an unknown
      node, so the index is 0 there and the check never fails. */
  function InsertIndex(nodes: seq<Option<SplineNode>>, preceding: Option<SplineNode>): (r: Result<nat, AddError>)
    ensures r.Success? && r.value <= |nodes|
    ensures preceding.None? || preceding !in nodes ==> r.value == 0
    ensures preceding.Some? && preceding in nodes ==>
              r.value > 0 && nodes[r.value - 1] == preceding && preceding !in nodes[..r.value - 1]
  {
    var index := if preceding.None? then 0 else IndexOf(nodes, preceding) + 1;
    var notPart: Result<nat, AddError> := Failure(NotPartOfSpline);
    if index == -1 then notPart else Success(index)
  }

  /** The node array after `AddSplineNode(precedingNode)`. */
  function InsertAfter(nodes: seq<Option<SplineNode>>, preceding: Option<SplineNode>, added: SplineNode): (r: seq<Option<SplineNode>>)
    ensures |r| == |nodes| + 1
    ensures var k := InsertIndex(nodes, preceding).value;
            r[..k] == nodes[..k] && r[k] == Some(added) && r[k + 1..] == nodes[k..]
    ensures multiset(r) == multiset(nodes) + multiset{Some(added)}
  {
    var k := InsertIndex(nodes, preceding).value;
    assert nodes == nodes[..k] + nodes[k..];
    Insert(nodes, k, Some(added))
  }

  /** `AddSplineNode(precedingNode)`: the new node goes in, then the spline is updated. */
  function AddSplineNode(sp: Spline, preceding: Option<SplineNode>, added: SplineNode, norm: NormFn): (r: Spline)
    requires Configured(sp)
    ensures Inv(r) && r.nodesArray == InsertAfter(sp.nodesArray, preceding, added)
  {
    UpdateSpline(sp.(nodesArray := InsertAfter(sp.nodesArray, preceding, added)), norm)
  }

  /** `RemoveSplineNode(splineNode)`: the node's first occurrence goes out
      (nothing happens to the array for a node that is not in it), then the
      spline is updated. */
  function RemoveSplineNode(sp: Spline, node: SplineNode, norm: NormFn): (r: Spline)
    requires Configured(sp)
    ensures Inv(r)
    ensures Some(node) !in sp.nodesArray ==> r.nodesArray == sp.nodesArray
    ensures Some(node) in sp.nodesArray ==>
              |r.nodesArray| + 1 == |sp.nodesArray| && multiset(r.nodesArray) + multiset{Some(node)} == multiset(sp.nodesArray)
  {
    UpdateSpline(sp.(nodesArray := Remove(sp.nodesArray, Some(node))), norm)
  }

  /** Removing a node just added undoes the insertion: the array, the node
      list and the interpolator are as one update of the original would
      leave them, and so is the table when the list is long enough to be
      measured (otherwise the table measured with the extra node stays). */
  lemma RemoveUndoesAdd(sp: Spline, preceding: Option<SplineNode>, added: SplineNode, norm: NormFn)
    requires Configured(sp) && Some(added) !in sp.nodesArray
    ensures var r := RemoveSplineNode(AddSplineNode(sp, preceding, added, norm), added, norm);
            var u := UpdateSpline(sp, norm);
            && r.nodesArray == sp.nodesArray && r.internal == u.internal && r.interp == u.interp
            && (u.internal != [] ==> r == u)
  {
    var k := InsertIndex(sp.nodesArray, preceding).value;
    RemoveInserted(sp.nodesArray, k, Some(added));
  }

  /** `AddSplineNode(precedingNode)` with the update as written: a null
      among the array's first entries can break the node list. Without
      nulls it is the insertion above. */
  function AddSplineNodeAsWritten(sp: Spline, preceding: Option<SplineNode>, added: SplineNode, norm: NormFn)
    : (r: Result<Spline, UpdateError>)
    requires Configured(sp)
    ensures r.Success? ==> Inv(r.value) && r.value.nodesArray == InsertAfter(sp.nodesArray, preceding, added)
    ensures None !in sp.nodesArray ==> r == Success(AddSplineNode(sp, preceding, added, norm))
  {
    var grown := sp.(nodesArray := InsertAfter(sp.nodesArray, preceding, added));
    assert None !in sp.nodesArray ==> UpdateSplineAsWritten(grown, norm) == Success(UpdateSpline(grown, norm)) by {
      if None !in sp.nodesArray {
        assert multiset(grown.nodesArray)[None] == multiset(sp.nodesArray)[None];
        UpdateAsWrittenWithoutNulls(grown, norm);
      }
    }
    UpdateSplineAsWritten(grown, norm)
  }

  /** `RemoveSplineNode(splineNode)` with the update as written. Without
      nulls it is the removal above. */
  function RemoveSplineNodeAsWritten(sp: Spline, node: SplineNode, norm: NormFn): (r: Result<Spline, UpdateError>)
    requires Configured(sp)
    ensures r.Success? ==> Inv(r.value) && r.value.nodesArray == Remove(sp.nodesArray, Some(node))
    ensures None !in sp.nodesArray ==> r == Success(RemoveSplineNode(sp, node, norm))
  {
    var shrunk := sp.(nodesArray := Remove(sp.nodesArray, Some(node)));
    assert None !in sp.nodesArray ==> UpdateSplineAsWritten(shrunk, norm) == Success(UpdateSpline(shrunk, norm)) by {
      if None !in sp.nodesArray {
        assert multiset(shrunk.nodesArray)[None] <= multiset(sp.nodesArray)[None];
        UpdateAsWrittenWithoutNulls(shrunk, norm);
      }
    }
    UpdateSplineAsWritten(shrunk, norm)
  }

  /** `RemoveUndoesAdd` for the source's update: on an array without nulls
      both calls succeed and the removal undoes the insertion. */
  lemma RemoveUndoesAddAsWritten(sp: Spline, preceding: Option<SplineNode>, added: SplineNode, norm: NormFn)
    requires Configured(sp) && Some(added) !in sp.nodesArray && None !in sp.nodesArray
    ensures var a := AddSplineNodeAsWritten(sp, preceding, added, norm);
            && a.Success?
            && var r := RemoveSplineNodeAsWritten(a.value, added, norm);
            && r.Success? && r.value.nodesArray == sp.nodesArray
            && r.value.internal == UpdateSpline(sp, norm).internal
  {
    var a := AddSplineNode(sp, preceding, added, norm);
    assert AddSplineNodeAsWritten(sp, preceding, added, norm) == Success(a);
    assert None !in a.nodesArray by {
      assert multiset(a.nodesArray)[None] == multiset(sp.nodesArray)[None];
    }
    assert RemoveSplineNodeAsWritten(a, added, norm) == Success(RemoveSplineNode(a, added, norm));
    RemoveUndoesAdd(sp, preceding, added, norm);
  }

  // ------------------------------------------------------------ appending

  /** The node `AddSplineNode()` passes on as the one to insert after: the
      array's last entry, or null for an empty array. */
  function AppendTargetAsWritten(nodes: seq<Option<SplineNode>>): Option<SplineNode> {
    if |nodes| > 0 then nodes[|nodes| - 1] else None
  }

  /** `AddSplineNode()` as written: insertion after the last entry, which
      lands at the front when that entry is null and after the node's first
      occurrence when it occurs earlier too. */
  function AppendAsWritten(nodes: seq<Option<SplineNode>>, added: SplineNode): (r: seq<Option<SplineNode>>)
    ensures multiset(r) == multiset(nodes) + multiset{Some(added)}
    ensures var last := AppendTargetAsWritten(nodes);
            last.Some? && last !in nodes[..|nodes| - 1] ==> r == Append(nodes, added)
  {
    var r := InsertAfter(nodes, AppendTargetAsWritten(nodes), added);
    if |nodes| > 0 && AppendTargetAsWritten(nodes).Some? && AppendTargetAsWritten(nodes) !in nodes[..|nodes| - 1] then
      assert IndexOf(nodes, nodes[|nodes| - 1]) == |nodes| - 1;
      assert r == nodes + [Some(added)];
      r
    else r
  }

  const N: SplineNode := NewNode(3, Vec3(2.0, 0.0, 0.0), Identity)

  /** A trailing null entry sends the "appended" node to the front. */
  lemma AppendAfterTrailingNull()
    ensures AppendAsWritten([Some(A), None], N) == [Some(N), Some(A), None]
    ensures Append([Some(A), None], N) == [Some(A), None, Some(N)]
  {
    assert InsertIndex([Some(A), None], None).value == 0;
  }

  /** A last node that also occurs earlier gets the new node after its
      first occurrence instead. */
  lemma AppendAfterRepeatedNode()
    ensures AppendAsWritten([Some(A), Some(B), Some(A)], N) == [Some(A), Some(N), Some(B), Some(A)]
  {
    var a := [Some(A), Some(B), Some(A)];
    assert IndexOf(a, Some(A)) == 0;
  }

  /** `AddSplineNode()` as documented: the new node at the spline's end. */
  function Append(nodes: seq<Option<SplineNode>>, added: SplineNode): (r: seq<Option<SplineNode>>)
    ensures |r| == |nodes| + 1 && r[..|nodes|] == nodes && r[|nodes|] == Some(added)
  {
    nodes + [Some(added)]
  }

  /** Appending and then removing the node, when it was not there, gives the array back. */
  lemma RemoveUndoesAppend(nodes: seq<Option<SplineNode>>, added: SplineNode)
    requires Some(added) !in nodes
    ensures Remove(Append(nodes, added), Some(added)) == nodes
  {
    assert Append(nodes, added) == Insert(nodes, |nodes|, Some(added));
    RemoveInserted(nodes, |nodes|, Some(added));
  }

  // ------------------------------------------------------------ by parameter

  /** The first node, in list order, whose position on the spline is at or
      past `param`, or the node count when there is none. */
  function FirstAtOrPast(positions: seq<real>, param: real): (k: nat)
    ensures k <= |positions|
    ensures forall j :: 0 <= j < k ==> positions[j] < param
    ensures k < |positions| ==> positions[k] >= param
  {
    if |positions| == 0 || positions[0] >= param then 0
    else 1 + FirstAtOrPast(positions[1..], param)
  }

  /** `AddSplineNode(normalizedParam)`: `positions` holds each listed
      node's position on this spline, and the listed nodes are entries of
      the array. The new node goes right after the last listed node before
      `param`, at the front when the first listed node is already at or
      past it; when every listed node lies before it, or there are none, it
      goes after the array's last entry as `AddSplineNode()` puts it, which
      is the end of the array only when that entry is a node that occurs
      nowhere earlier. */
  function InsertAtParam(nodes: seq<Option<SplineNode>>, internal: seq<SplineNode>, positions: seq<real>,
                         param: real, added: SplineNode): (r: seq<Option<SplineNode>>)
    requires |positions| == |internal|
    requires forall j :: 0 <= j < |internal| ==> Some(internal[j]) in nodes
    ensures |r| == |nodes| + 1
    ensures multiset(r) == multiset(nodes) + multiset{Some(added)}
    ensures var k := FirstAtOrPast(positions, param);
            internal == [] || k == |internal| ==> r == AppendAsWritten(nodes, added)
    ensures var k := FirstAtOrPast(positions, param);
            var last := AppendTargetAsWritten(nodes);
            (internal == [] || k == |internal|) && last.Some? && last !in nodes[..|nodes| - 1] ==>
              r == nodes + [Some(added)]
    ensures var k := FirstAtOrPast(positions, param);
            internal != [] && k == 0 ==> r == [Some(added)] + nodes
    ensures var k := FirstAtOrPast(positions, param);
            0 < k < |internal| ==>
              var i := IndexOf(nodes, Some(internal[k - 1]));
              r[i] == Some(internal[k - 1]) && r[i + 1] == Some(added)
  {
    var k := FirstAtOrPast(positions, param);
    if internal == [] || k == |internal| then AppendAsWritten(nodes, added)
    else if k == 0 then
      var r := InsertAfter(nodes, None, added);
      assert r == [Some(added)] + nodes by {
        assert r[..0] == [] && r[1..] == nodes[0..] == nodes;
      }
      r
    else
      assert Some(internal[k - 1]) in nodes;
      InsertAfter(nodes, Some(internal[k - 1]), added)
  }
}

=== FILE: spline_length.dfy ===
/** `LengthData` of the editor `Spline`: every segment is measured as a
    polyline through samples of its position, cut into `accuracy`
    sub-segments whose lengths are normalised by the total and accumulated
    into positions; then every node learns its normalised position and the
    length of the segment that starts at it. */
module SplineLength {
  import opened Common
  import opened SplineNodes
  import opened SplineTopology
  import CT = CurveTable

  // ------------------------------------------------------ segment length

  /** How many samples the walk of `GetSegmentLengthInternal` still takes
      from sample `f` on. */
  function StepsLeft(f: real, end: real, step: real): nat
    requires step > 0.0
  {
    if f < end + step * 0.5 then StepsBefore(end + step * 0.5 - f, step) + 1 else 0
  }

  /** The whole number of steps that fit into a positive distance. */
  function StepsBefore(d: real, step: real): (r: nat)
    requires d > 0.0 && step > 0.0
  {
    DivPositive(d, step);
    (d / step).Floor
  }

  lemma DivPositive(d: real, step: real)
    requires d > 0.0 && step > 0.0
    ensures d / step > 0.0
  {
  }

  lemma StepsLeftDecrease(f: real, end: real, step: real)
    requires step > 0.0 && f < end + step * 0.5
    ensures StepsLeft(f + step, end, step) < StepsLeft(f, end, step)
  {
    var d := end + step * 0.5 - f;
    if f + step < end + step * 0.5 {
      DivShift(d, step);
      assert end + step * 0.5 - (f + step) == d - step;
    }
  }

  lemma DivShift(d: real, step: real)
    requires step > 0.0
    ensures (d - step) / step == d / step - 1.0
  {
    var q := d / step;
    var x := (d - step) / step;
    assert q * step == d;
    assert x * step == d - step;
    assert (x - (q - 1.0)) * step == 0.0;
    ZeroProduct(x - (q - 1.0), step);
  }

  lemma ZeroProduct(a: real, b: real)
    requires b != 0.0 && a * b == 0.0
    ensures a == 0.0
  {
  }

  /** The loop of `GetSegmentLengthInternal` from sample `f` on, `prev`
      being the position of the previous sample: the distance between every
      two consecutive samples, added up, for as long as `f` stays below
      `end` plus half a step. `at(node, t)` is the spline's position at
      parameter `t` of the segment that starts at `node`. */
  function Walk(at: (int, real) -> Vec3, node: int, norm: NormFn, prev: Vec3, f: real, end: real, step: real): (r: real)
    requires step > 0.0
    ensures r >= 0.0
    ensures !(f < end + step * 0.5) ==> r == 0.0
    decreases StepsLeft(f, end, step)
  {
    if f < end + step * 0.5 then
      StepsLeftDecrease(f, end, step);
      var cur := at(node, f);
      norm(Sub(prev, cur)) + Walk(at, node, norm, cur, f + step, end, step)
    else 0.0
  }

  /** `GetSegmentLengthInternal(node, start, end, step)`: the length of the
      polyline through the positions sampled from `start` in steps of
      `step`. The source loop runs forever for a step that is not positive;
      every caller passes a positive one. */
  function SegmentLength(at: (int, real) -> Vec3, node: int, norm: NormFn, start: real, end: real, step: real): (r: real)
    requires step > 0.0
    ensures r >= 0.0
  {
    Walk(at, node, norm, at(node, start), start + step, end, step)
  }

  /** The length of the polyline through six samples `step` apart. */
  function SixSamples(at: (int, real) -> Vec3, node: int, norm: NormFn, start: real, step: real): (r: real)
    ensures r >= 0.0
  {
    var p0, p1, p2 := at(node, start), at(node, start + step), at(node, start + 2.0 * step);
    var p3, p4, p5 := at(node, start + 3.0 * step), at(node, start + 4.0 * step), at(node, start + 5.0 * step);
    norm(Sub(p0, p1)) + norm(Sub(p1, p2)) + norm(Sub(p2, p3)) + norm(Sub(p3, p4)) + norm(Sub(p4, p5))
  }

  /** With the step `Calculate` uses, a fifth of the sub-segment's width,
      the walk takes exactly five steps and ends on the end of the
      sub-segment: the length is that of the polyline through six samples. */
  lemma FiveSteps(at: (int, real) -> Vec3, node: int, norm: NormFn, start: real, end: real, width: real)
    requires width > 0.0 && end == start + width
    ensures SegmentLength(at, node, norm, start, end, 0.2 * width) == SixSamples(at, node, norm, start, 0.2 * width)
  {
    var step := 0.2 * width;
    var f1, f2, f3, f4, f5, f6 := start + step, start + 2.0 * step, start + 3.0 * step, start + 4.0 * step, start + 5.0 * step, start + 6.0 * step;
    assert f1 + step == f2 && f2 + step == f3 && f3 + step == f4 && f4 + step == f5 && f5 + step == f6;
    assert Walk(at, node, norm, at(node, f5), f6, end, step) == 0.0;
    assert Walk(at, node, norm, at(node, f4), f5, end, step) == norm(Sub(at(node, f4), at(node, f5)));
    assert Walk(at, node, norm, at(node, f3), f4, end, step) == norm(Sub(at(node, f3), at(node, f4))) + Walk(at, node, norm, at(node, f4), f5, end, step);
    assert Walk(at, node, norm, at(node, f2), f3, end, step) == norm(Sub(at(node, f2), at(node, f3))) + Walk(at, node, norm, at(node, f3), f4, end, step);
    assert Walk(at, node, norm, at(node, f1), f2, end, step) == norm(Sub(at(node, f1), at(node, f2))) + Walk(at, node, norm, at(node, f2), f3, end, step);
    assert Walk(at, node, norm, at(node, start), f1, end, step) == norm(Sub(at(node, start), at(node, f1))) + Walk(at, node, norm, at(node, f1), f2, end, step);
  }

  // ------------------------------------------------------------ the table

  /** The width of one sub-segment in segment parameter, `1 / accuracy`. */
  function Width(accuracy: nat): (w: real)
    requires accuracy > 0
    ensures w > 0.0
  {
    1.0 / accuracy as real
  }

  /** Raw length of sub-segment `index`: sub-segment `j` of segment `i` is
      `[j / accuracy, (j + 1) / accuracy]` of the segment that starts at node
      `i * nodesPerSegment`, walked in steps of a fifth of its width. */
  function SubSegmentLength(at: (int, real) -> Vec3, norm: NormFn, accuracy: nat, nodesPerSegment: nat, index: nat): (r: real)
    requires accuracy > 0
    ensures r >= 0.0
  {
    Piece(at, (index / accuracy) * nodesPerSegment, norm, index % accuracy, Width(accuracy))
  }

  /** Sub-segment `j` of width `w` of the segment that starts at `node`. */
  function Piece(at: (int, real) -> Vec3, node: int, norm: NormFn, j: int, w: real): (r: real)
    requires w > 0.0
    ensures r >= 0.0
  {
    SegmentLength(at, node, norm, j as real * w, (j + 1) as real * w, 0.2 * w)
  }

  /** The raw lengths `Calculate` measures, segment after segment. */
  function RawLengths(at: (int, real) -> Vec3, norm: NormFn, segments: nat, accuracy: nat, nodesPerSegment: nat): (r: seq<real>)
    requires accuracy > 0
    ensures |r| == segments * accuracy
    ensures NonNegative(r)
  {
    seq(segments * accuracy, index requires 0 <= index => SubSegmentLength(at, norm, accuracy, nodesPerSegment, index))
  }

  /** Every raw length is the polyline through six evenly spaced samples
      of its sub-segment. */
  lemma RawLengthSamples(at: (int, real) -> Vec3, norm: NormFn, accuracy: nat, nodesPerSegment: nat, index: nat)
    requires accuracy > 0
    ensures SubSegmentLength(at, norm, accuracy, nodesPerSegment, index)
            == SixSamples(at, (index / accuracy) * nodesPerSegment, norm,
                          (index % accuracy) as real * Width(accuracy), 0.2 * Width(accuracy))
  {
    var node, j, w := (index / accuracy) * nodesPerSegment, index % accuracy, Width(accuracy);
    assert SubSegmentLength(at, norm, accuracy, nodesPerSegment, index) == Piece(at, node, norm, j, w);
    PieceIsSixSamples(at, node, norm, j, w);
    assert j as real * w == (index % accuracy) as real * Width(accuracy);
  }

  /** Sub-segment `j` of width `w` is walked in exactly five steps. */
  lemma PieceIsSixSamples(at: (int, real) -> Vec3, node: int, norm: NormFn, j: int, w: real)
    requires w > 0.0
    ensures Piece(at, node, norm, j, w) == SixSamples(at, node, norm, j as real * w, 0.2 * w)
  {
    Dist(j, w);
    FiveSteps(at, node, norm, j as real * w, (j + 1) as real * w, w);
  }

  lemma Dist(j: int, w: real)
    ensures (j + 1) as real * w == j as real * w + w
  {
  }

  /** `LengthData`. `NotCalculated` is a fresh one, with no arrays and
      length 0. `Unmeasurable` is what a zero total over at least one
      sub-segment leaves: there is no guard, `0 / 0` is NaN, and so is every
      length and every position after the first, which stays 0. */
  datatype LengthData =
    | NotCalculated
    | Measured(lengths: seq<real>, positions: seq<real>, length: real)
    | Unmeasurable(count: nat)

  /** `LengthData.Calculate` once the raw lengths are measured: divide each
      by the total and accumulate positions from 0. Unlike the runtime
      curve's table there is no trailing entry: as many positions as
      lengths. */
  function Calculate(raw: seq<real>): (d: LengthData)
    ensures !d.NotCalculated?
    ensures d.Unmeasurable? <==> |raw| > 0 && Sum(raw) == 0.0
    ensures d.Unmeasurable? ==> d.count == |raw|
    ensures d.Measured? ==> |d.lengths| == |raw| && |d.positions| == |raw| && d.length == Sum(raw)
    ensures d.Measured? && |raw| > 0 ==> d.positions[0] == 0.0
    ensures d.Measured? ==> forall k :: 0 <= k < |raw| - 1 ==> d.positions[k + 1] == d.positions[k] + d.lengths[k]
  {
    var total := Sum(raw);
    if |raw| > 0 && total == 0.0 then Unmeasurable(|raw|)
    else
      var lengths := if |raw| == 0 then [] else CT.Scaled(raw, 1.0 / total);
      Measured(lengths, CT.Prefix(lengths)[..|raw|], total)
  }

  /** Normalising loses nothing: a raw length is its normalised length
      times the total. */
  lemma CalculateRecoversRaw(raw: seq<real>, i: int)
    requires Calculate(raw).Measured? && 0 <= i < |raw|
    ensures Calculate(raw).lengths[i] * Calculate(raw).length == raw[i]
  {
    CT.NormaliseRecoversRaw(raw, Sum(raw), i);
  }

  /** For a spline of positive length the normalised lengths are
      non-negative and sum to 1, positions never decrease, and the last
      sub-segment ends at exactly 1. */
  lemma CalculatedTable(raw: seq<real>)
    requires NonNegative(raw) && Sum(raw) > 0.0
    ensures var d := Calculate(raw);
            && d.Measured?
            && NonNegative(d.lengths) && Sum(d.lengths) == 1.0
            && CT.NonDecreasing(d.positions)
            && d.positions[|raw| - 1] + d.lengths[|raw| - 1] == 1.0
  {
    var lengths := CalculatedParts(raw);
    assert NonNegative(lengths) && Sum(lengths) == 1.0 by {
      CT.ScaledByInverseTotal(raw);
    }
    assert CT.NonDecreasing(CT.Prefix(lengths)[..|lengths|])
           && CT.Prefix(lengths)[|lengths| - 1] + lengths[|lengths| - 1] == 1.0 by {
      PositionsOfLengths(lengths);
    }
  }

  /** What `Calculate` builds when there is something to measure. */
  lemma CalculatedParts(raw: seq<real>) returns (lengths: seq<real>)
    requires Sum(raw) > 0.0
    ensures lengths == CT.Scaled(raw, 1.0 / Sum(raw))
    ensures Calculate(raw) == Measured(lengths, CT.Prefix(lengths)[..|raw|], Sum(raw))
  {
    assert |raw| > 0;
    lengths := CT.Scaled(raw, 1.0 / Sum(raw));
  }

  /** Positions accumulated from non-negative lengths that sum to 1 never
      decrease, and the last length ends at 1. */
  lemma PositionsOfLengths(lengths: seq<real>)
    requires |lengths| > 0 && NonNegative(lengths) && Sum(lengths) == 1.0
    ensures CT.NonDecreasing(CT.Prefix(lengths)[..|lengths|])
    ensures CT.Prefix(lengths)[|lengths| - 1] + lengths[|lengths| - 1] == 1.0
  {
    var n := |lengths|;
    CT.PrefixIsSum(lengths, n);
    assert lengths[..n] == lengths;
    CT.PrefixNonDecreasing(lengths);
  }

  // ------------------------------------------------------- node parameters

  /** How many internal nodes start a segment or, on an open spline, end
      the last one: every `NodesPerSegment`-th node. */
  function SegmentStarts(count: nat, autoClose: bool, mode: InterpolationMode): nat {
    SegmentCount(count, autoClose, mode) + (if IsAutoClose(autoClose, mode) then 0 else 1)
  }

  /** Node `k` of a spline with a usable node count is one of the
      `SegmentStarts` nodes or a handle of one, and the sub-segments all
      belong to those nodes. */
  lemma StartsCoverNodes(count: nat, autoClose: bool, mode: InterpolationMode, accuracy: nat, k: nat)
    requires EnoughNodes(mode, count) && (mode == Bezier ==> count % 3 == 1)
    requires k < count
    ensures k / NodesPerSegment(mode) < SegmentStarts(count, autoClose, mode)
    ensures SegmentCount(count, autoClose, mode) * accuracy <= SegmentStarts(count, autoClose, mode) * accuracy
    ensures !IsAutoClose(autoClose, mode) ==> (count - 1) / NodesPerSegment(mode) == SegmentStarts(count, autoClose, mode) - 1
  {
    SegmentsCoverControlNodes(count, autoClose, mode);
    var s := SegmentCount(count, autoClose, mode);
    CT.MulMonotone(s, SegmentStarts(count, autoClose, mode), accuracy);
    if mode == Bezier {
      CT.DivExact(count - 1, 3, s);
      CT.DivBounds(k, 3);
      CT.MulCancelLess(k / 3, s + 1, 3);
    }
  }

  /** `SetupSplinePositions`, on the parameters the internal nodes keep for
      this spline. Every node is reset; each sub-segment's length is added to
      the first node of its segment; each segment's first node is placed
      where the previous one starts plus that one's length; Bézier handles
      take their segment's start and no length; the last node of an open
      spline is pinned at 1. The segment-start nodes are worked on as a
      sequence of their own, which is the source's stride of
      `NodesPerSegment` written as an index. */
  method SetupSplinePositions(params: seq<NodeParameters>, lengths: seq<real>, accuracy: nat, mode: InterpolationMode, autoClose: bool)
    returns (r: seq<NodeParameters>)
    requires EnoughNodes(mode, |params|) && (mode == Bezier ==> |params| % 3 == 1)
    requires accuracy > 0 && |lengths| == SegmentCount(|params|, autoClose, mode) * accuracy
    ensures |r| == |params|
    ensures forall k :: 0 <= k < |r| ==> r[k].spline == params[k].spline
    ensures forall k :: 0 <= k < |r| ==>
              r[k].length == if k % NodesPerSegment(mode) == 0
                             then CT.BlockSum(lengths, accuracy, k / NodesPerSegment(mode), |lengths|)
                             else 0.0
    ensures forall k :: 0 <= k < |r| ==>
              r[k].position == CT.NodePositions(lengths, accuracy, SegmentStarts(|params|, autoClose, mode),
                                                IsAutoClose(autoClose, mode))[k / NodesPerSegment(mode)]
  {
    var count := |params|;
    var nps := NodesPerSegment(mode);
    var starts := SegmentStarts(count, autoClose, mode);
    StartsCoverNodes(count, autoClose, mode, accuracy, 0);
    var startLength := CT.AccumulateNodeLengths(lengths, accuracy, starts);
    var startPos := CT.BuildNodePositions(lengths, accuracy, starts, IsAutoClose(autoClose, mode));
    forall k | 0 <= k < count
      ensures k / nps < starts
    {
      StartsCoverNodes(count, autoClose, mode, accuracy, k);
    }
    r := seq(count, k requires 0 <= k < count =>
      Reset(params[k]).(position := startPos[k / nps], length := if k % nps == 0 then startLength[k / nps] else 0.0));
  }

  /** The segment-start nodes form a chain: each starts where the previous
      one starts plus its segment's length. Pinning the last node of an open
      spline at 1 keeps the chain exactly when the lengths are normalised. */
  lemma StartsChain(lengths: seq<real>, accuracy: nat, count: nat, autoClose: bool, mode: InterpolationMode, s: nat)
    requires EnoughNodes(mode, count) && (mode == Bezier ==> count % 3 == 1)
    requires accuracy > 0 && |lengths| == SegmentCount(count, autoClose, mode) * accuracy
    requires s + 1 < SegmentStarts(count, autoClose, mode)
    requires IsAutoClose(autoClose, mode) || s + 2 < SegmentStarts(count, autoClose, mode) || Sum(lengths) == 1.0
    ensures var pos := CT.NodePositions(lengths, accuracy, SegmentStarts(count, autoClose, mode), IsAutoClose(autoClose, mode));
            pos[s + 1] == pos[s] + CT.BlockSum(lengths, accuracy, s, |lengths|)
  {
    CT.NodeStartStep(lengths, accuracy, s);
    if !IsAutoClose(autoClose, mode) && s + 2 == SegmentStarts(count, autoClose, mode) {
      assert lengths[..CT.Min((s + 1) * accuracy, |lengths|)] == lengths;
    }
  }

  /** With non-negative lengths that sum to 1 no node lies before an
      earlier one, and all lie in `[0, 1]`. */
  lemma StartsNonDecreasing(lengths: seq<real>, accuracy: nat, count: nat, autoClose: bool, mode: InterpolationMode, s: nat, s': nat)
    requires EnoughNodes(mode, count) && (mode == Bezier ==> count % 3 == 1)
    requires accuracy > 0 && |lengths| == SegmentCount(count, autoClose, mode) * accuracy
    requires NonNegative(lengths) && Sum(lengths) == 1.0
    requires s <= s' < SegmentStarts(count, autoClose, mode)
    ensures var pos := CT.NodePositions(lengths, accuracy, SegmentStarts(count, autoClose, mode), IsAutoClose(autoClose, mode));
            0.0 <= pos[s] <= pos[s'] <= 1.0
  {
    var n := |lengths|;
    var a, b := CT.Min(s * accuracy, n), CT.Min(s' * accuracy, n);
    CT.MulMonotone(s, s', accuracy);
    CT.PrefixIsSum(lengths, a);
    CT.PrefixIsSum(lengths, b);
    CT.PrefixIsSum(lengths, n);
    assert lengths[..n] == lengths;
    CT.PrefixStep(lengths, 0, a);
    CT.PrefixStep(lengths, a, b);
    CT.PrefixStep(lengths, b, n);
    assert CT.Prefix(lengths)[0] == 0.0;
  }
}

=== FILE: spline_mesh.dfy ===
/** `SplineMesh`: a mesh bent along a spline by stringing copies of a base
    mesh together, optionally with a different mesh for the first and for
    the last segment (the caps). Modelled: how the output buffers are
    sized, reused or reset, which mesh each segment copies, the spline
    parameters of the segments, and how `BendMesh` moves the write cursors
    and offsets the copied triangle indices. The vertex transforms are not
    modelled; only the number of vertices and the triangle indices are. */
module SplineMeshing {
  import opened Common
  import opened SplineNodes

  /** The lengths of a `MeshData`'s five arrays: vertices, uv coordinates,
      normals, tangents and triangle indices. Computed sizes can come out
      negative, so they are `int`. */
  datatype Sizes = Sizes(vertices: int, uvs: int, normals: int, tangents: int, triangles: int)

  const NoSizes := Sizes(0, 0, 0, 0, 0)

  function Plus(a: Sizes, b: Sizes): Sizes {
    Sizes(a.vertices + b.vertices, a.uvs + b.uvs, a.normals + b.normals, a.tangents + b.tangents, a.triangles + b.triangles)
  }

  function Times(a: Sizes, k: int): Sizes {
    Sizes(a.vertices * k, a.uvs * k, a.normals * k, a.tangents * k, a.triangles * k)
  }

  predicate Allocatable(s: Sizes) {
    s.vertices >= 0 && s.uvs >= 0 && s.normals >= 0 && s.tangents >= 0 && s.triangles >= 0
  }

  /** A Unity mesh as the builder reads it: the lengths of its per-vertex
      arrays and its triangle indices. */
  datatype Mesh = Mesh(vertices: nat, uvs: nat, normals: nat, tangents: nat, triangles: seq<int>)

  /** `MeshData`: array lengths, the triangle indices themselves (which
      `BendMesh` copies), the two write cursors and the two flags. */
  datatype MeshData = MeshData(vertices: nat, uvs: nat, normals: nat, tangents: nat, triangles: seq<int>,
                               vertexCursor: int, triangleCursor: int, hasNormals: bool, hasTangents: bool)

  function SizesOf(m: MeshData): Sizes {
    Sizes(m.vertices, m.uvs, m.normals, m.tangents, |m.triangles|)
  }

  /** `MeshData(Mesh)`: the mesh's arrays, or empty arrays for null; the
      flags say whether there are normals and tangents. */
  function FromMesh(mesh: Option<Mesh>): (r: MeshData)
    ensures r.vertexCursor == 0 && r.triangleCursor == 0
    ensures mesh.None? ==> SizesOf(r) == NoSizes && !r.hasNormals && !r.hasTangents
    ensures mesh.Some? ==> SizesOf(r) == Sizes(mesh.value.vertices, mesh.value.uvs, mesh.value.normals,
                                               mesh.value.tangents, |mesh.value.triangles|)
    ensures mesh.Some? ==> r.triangles == mesh.value.triangles
    ensures (r.hasNormals <==> r.normals > 0) && (r.hasTangents <==> r.tangents > 0)
  {
    match mesh
    case None => MeshData(0, 0, 0, 0, [], 0, 0, false, false)
    case Some(m) => MeshData(m.vertices, m.uvs, m.normals, m.tangents, m.triangles, 0, 0, m.normals > 0, m.tangents > 0)
  }

  // ------------------------------------------------------------ sizing

  /** The sizes of the non-null additional meshes, added up. */
  function CapTotal(caps: seq<Option<MeshData>>): Sizes {
    if caps == [] then NoSizes
    else Plus(if caps[0].Some? then SizesOf(caps[0].value) else NoSizes, CapTotal(caps[1..]))
  }

  /** What a buffer for `k` copies of `base` and the caps needs. */
  function Required(base: MeshData, k: int, caps: seq<Option<MeshData>>): Sizes {
    Plus(Times(SizesOf(base), k), CapTotal(caps))
  }

  /** Creating an array of negative length throws `OverflowException`. */
  datatype AllocError = NegativeLength

  /** `MeshData(MeshData, int, MeshData[])`: zeroed arrays of the required
      lengths, cursors at 0. */
  function Allocate(base: MeshData, k: int, caps: seq<Option<MeshData>>): (r: Result<MeshData, AllocError>)
    ensures r.Failure? <==> !Allocatable(Required(base, k, caps))
    ensures r.Success? ==> SizesOf(r.value) == Required(base, k, caps)
    ensures r.Success? ==> r.value.vertexCursor == 0 && r.value.triangleCursor == 0
    ensures r.Success? ==> (r.value.hasNormals <==> r.value.normals > 0) && (r.value.hasTangents <==> r.value.tangents > 0)
    ensures r.Success? ==> forall i :: 0 <= i < |r.value.triangles| ==> r.value.triangles[i] == 0
  {
    var s := Required(base, k, caps);
    if !Allocatable(s) then Failure(NegativeLength)
    else Success(MeshData(s.vertices, s.uvs, s.normals, s.tangents, seq(s.triangles, _ => 0), 0, 0,
                          s.normals > 0, s.tangents > 0))
  }

  /** `Suits`: the buffer's five lengths are what `Allocate` would give. */
  function Suits(buffer: MeshData, base: MeshData, k: int, caps: seq<Option<MeshData>>): bool {
    var s := Required(base, k, caps);
    && s.vertices == buffer.vertices && s.uvs == buffer.uvs && s.normals == buffer.normals
    && s.tangents == buffer.tangents && s.triangles == |buffer.triangles|
  }

  /** A freshly allocated buffer suits what it was allocated for, and a
      buffer suits exactly when its sizes are the required ones. */
  lemma AllocatedSuits(buffer: MeshData, base: MeshData, k: int, caps: seq<Option<MeshData>>)
    ensures Suits(buffer, base, k, caps) <==> SizesOf(buffer) == Required(base, k, caps)
    ensures Allocate(base, k, caps).Success? ==> Suits(Allocate(base, k, caps).value, base, k, caps)
  {
  }

  /** `Reset`: both cursors back to 0, the arrays kept. */
  function Reset(m: MeshData): (r: MeshData)
    ensures r.vertexCursor == 0 && r.triangleCursor == 0
    ensures SizesOf(r) == SizesOf(m) && r.triangles == m.triangles
    ensures r.hasNormals == m.hasNormals && r.hasTangents == m.hasTangents
  {
    m.(vertexCursor := 0, triangleCursor := 0)
  }

  /** A reset buffer still suits whatever it suited, and resetting twice
      is resetting once. */
  lemma ResetKeepsSuits(m: MeshData, base: MeshData, k: int, caps: seq<Option<MeshData>>)
    ensures Suits(Reset(m), base, k, caps) == Suits(m, base, k, caps)
    ensures Reset(Reset(m)) == Reset(m)
  {
  }

  /** The middle segment count: one segment less for each cap mesh. */
  function MiddleSegmentCount(segmentCount: int, hasStart: bool, hasEnd: bool): int {
    segmentCount - (if hasStart then 1 else 0) - (if hasEnd then 1 else 0)
  }

  /** Reuse the buffer, reset, when it suits; allocate a new one otherwise. */
  function Setup(buffer: MeshData, base: MeshData, k: int, caps: seq<Option<MeshData>>): (r: Result<MeshData, AllocError>)
    ensures r.Failure? <==> !Allocatable(Required(base, k, caps))
    ensures r.Success? ==> SizesOf(r.value) == Required(base, k, caps)
    ensures r.Success? ==> r.value.vertexCursor == 0 && r.value.triangleCursor == 0
  {
    if Suits(buffer, base, k, caps) then Success(Reset(buffer)) else Allocate(base, k, caps)
  }

  /** `SetupMeshBuffers` as written: both caps are always counted. */
  function SetupMeshBuffersAsWritten(buffer: MeshData, base: Mesh, start: Option<Mesh>, end: Option<Mesh>,
                                     segmentCount: int): (r: Result<MeshData, AllocError>)
    ensures var k := MiddleSegmentCount(segmentCount, start.Some?, end.Some?);
            var caps := [Some(FromMesh(start)), Some(FromMesh(end))];
            && (r.Failure? <==> !Allocatable(Required(FromMesh(Some(base)), k, caps)))
            && (r.Success? ==> SizesOf(r.value) == Required(FromMesh(Some(base)), k, caps))
    ensures r.Success? ==> r.value.vertexCursor == 0 && r.value.triangleCursor == 0
  {
    Setup(buffer, FromMesh(Some(base)), MiddleSegmentCount(segmentCount, start.Some?, end.Some?),
          [Some(FromMesh(start)), Some(FromMesh(end))])
  }

  /** Whether the end cap is bent at all: not when the only segment
      already takes the start cap. */
  function EndCapUsed(segmentCount: int, start: Option<Mesh>, end: Option<Mesh>): bool {
    end.Some? && !(start.Some? && segmentCount == 1)
  }

  /** `SetupMeshBuffers`, counting the end cap only when a segment bends it. */
  function SetupMeshBuffers(buffer: MeshData, base: Mesh, start: Option<Mesh>, end: Option<Mesh>,
                            segmentCount: int): (r: Result<MeshData, AllocError>)
    requires segmentCount >= 1
    ensures r.Success?
    ensures SizesOf(r.value) == Total(Segments(segmentCount, base, start, end))
    ensures r.value.vertexCursor == 0 && r.value.triangleCursor == 0
  {
    var usedEnd := if EndCapUsed(segmentCount, start, end) then end else None;
    var k := MiddleSegmentCount(segmentCount, start.Some?, usedEnd.Some?);
    var caps := [Some(FromMesh(start)), Some(FromMesh(usedEnd))];
    BuffersFitSegments(segmentCount, base, start, end);
    Setup(buffer, FromMesh(Some(base)), k, caps)
  }

  // ------------------------------------------------------------ segments

  /** The mesh segment `i` copies: the start cap first, the end cap last,
      the base mesh otherwise. */
  function SegmentMesh(i: int, segmentCount: int, base: Mesh, start: Option<Mesh>, end: Option<Mesh>): MeshData {
    if i == 0 && start.Some? then FromMesh(start)
    else if i == segmentCount - 1 && end.Some? then FromMesh(end)
    else FromMesh(Some(base))
  }

  function Segments(segmentCount: nat, base: Mesh, start: Option<Mesh>, end: Option<Mesh>): (r: seq<MeshData>)
    ensures |r| == segmentCount
    ensures forall i :: 0 <= i < segmentCount ==> r[i] == SegmentMesh(i, segmentCount, base, start, end)
  {
    seq(segmentCount, i requires 0 <= i < segmentCount => SegmentMesh(i, segmentCount, base, start, end))
  }

  /** The sizes of the meshes in `ms`, added up. */
  function Total(ms: seq<MeshData>): (r: Sizes)
    ensures Allocatable(r)
  {
    if ms == [] then NoSizes else Plus(SizesOf(ms[0]), Total(ms[1..]))
  }

  lemma {:induction false} TotalAppend(a: seq<MeshData>, b: seq<MeshData>)
    ensures Total(a + b) == Plus(Total(a), Total(b))
  {
    if a == [] {
      assert a + b == b;
      PlusZero(Total(b));
    } else {
      assert (a + b)[0] == a[0];
      assert (a + b)[1..] == a[1..] + b;
      TotalAppend(a[1..], b);
      PlusAssociative(SizesOf(a[0]), Total(a[1..]), Total(b));
    }
  }

  lemma PlusZero(x: Sizes)
    ensures Plus(NoSizes, x) == x && Plus(x, NoSizes) == x
  {
  }

  lemma PlusAssociative(x: Sizes, y: Sizes, z: Sizes)
    ensures Plus(x, Plus(y, z)) == Plus(Plus(x, y), z)
  {
  }

  /** One more copy is one more summand. */
  lemma TimesStep(s: Sizes, k: int)
    ensures Times(s, k + 1) == Plus(s, Times(s, k))
  {
    assert s.vertices * (k + 1) == s.vertices + s.vertices * k;
    assert s.uvs * (k + 1) == s.uvs + s.uvs * k;
    assert s.normals * (k + 1) == s.normals + s.normals * k;
    assert s.tangents * (k + 1) == s.tangents + s.tangents * k;
    assert s.triangles * (k + 1) == s.triangles + s.triangles * k;
  }

  lemma {:induction false} TotalRepeat(m: MeshData, n: nat)
    ensures Total(seq(n, _ => m)) == Times(SizesOf(m), n)
  {
    if n > 0 {
      assert seq(n, _ => m)[1..] == seq(n - 1, _ => m);
      TotalRepeat(m, n - 1);
      TimesStep(SizesOf(m), n - 1);
    }
  }

  /** The buffer that the corrected setup sizes holds exactly the meshes
      the segments copy, for every positive segment count; the setup as
      written agrees whenever there are two segments or at most one cap. */
  lemma BuffersFitSegments(n: nat, base: Mesh, start: Option<Mesh>, end: Option<Mesh>)
    requires n >= 1
    ensures var usedEnd := if EndCapUsed(n, start, end) then end else None;
            Total(Segments(n, base, start, end))
              == Required(FromMesh(Some(base)), MiddleSegmentCount(n, start.Some?, usedEnd.Some?),
                          [Some(FromMesh(start)), Some(FromMesh(usedEnd))])
    ensures n >= 2 || start.None? || end.None? ==>
              Total(Segments(n, base, start, end))
                == Required(FromMesh(Some(base)), MiddleSegmentCount(n, start.Some?, end.Some?),
                            [Some(FromMesh(start)), Some(FromMesh(end))])
  {
    if n == 1 {
      BuffersFitOneSegment(base, start, end);
    } else {
      BuffersFitSegmentsMany(n, base, start, end);
    }
  }

  /** `BuffersFitSegments` for one segment. */
  lemma BuffersFitOneSegment(base: Mesh, start: Option<Mesh>, end: Option<Mesh>)
    ensures var usedEnd := if EndCapUsed(1, start, end) then end else None;
            Total(Segments(1, base, start, end))
              == Required(FromMesh(Some(base)), MiddleSegmentCount(1, start.Some?, usedEnd.Some?),
                          [Some(FromMesh(start)), Some(FromMesh(usedEnd))])
    ensures start.None? || end.None? ==>
              Total(Segments(1, base, start, end))
                == Required(FromMesh(Some(base)), MiddleSegmentCount(1, start.Some?, end.Some?),
                            [Some(FromMesh(start)), Some(FromMesh(end))])
  {
    var b := SizesOf(FromMesh(Some(base)));
    var s := SizesOf(FromMesh(start));
    var e := SizesOf(FromMesh(end));
    var usedEnd := if EndCapUsed(1, start, end) then end else None;
    var u := SizesOf(FromMesh(usedEnd));
    CapPair(FromMesh(start), FromMesh(usedEnd));
    OneSegment(base, start, end);
    Arrange1(b, SizesOf(SegmentMesh(0, 1, base, start, end)), s, u, start.Some?, usedEnd.Some?);
    if start.None? || end.None? {
      assert usedEnd == end;
    }
  }

  /** `BuffersFitSegments` for two segments or more, where the end cap is always used. */
  lemma BuffersFitSegmentsMany(n: nat, base: Mesh, start: Option<Mesh>, end: Option<Mesh>)
    requires n >= 2
    ensures Total(Segments(n, base, start, end))
              == Required(FromMesh(Some(base)), MiddleSegmentCount(n, start.Some?, end.Some?),
                          [Some(FromMesh(start)), Some(FromMesh(end))])
  {
    var b := SizesOf(FromMesh(Some(base)));
    var s := SizesOf(FromMesh(start));
    var e := SizesOf(FromMesh(end));
    CapPair(FromMesh(start), FromMesh(end));
    SegmentsTotal(n, base, start, end);
    Arrange(b, SizesOf(SegmentMesh(0, n, base, start, end)), SizesOf(SegmentMesh(n - 1, n, base, start, end)),
            s, e, start.Some?, end.Some?, n);
  }

  lemma OneSegment(base: Mesh, start: Option<Mesh>, end: Option<Mesh>)
    ensures Total(Segments(1, base, start, end)) == SizesOf(SegmentMesh(0, 1, base, start, end))
  {
    var m := SegmentMesh(0, 1, base, start, end);
    assert Segments(1, base, start, end) == [m];
    assert [m][1..] == [];
    PlusZero(SizesOf(m));
  }

  /** The sizes of one segment regrouped as the setup counts them. */
  lemma Arrange1(b: Sizes, only: Sizes, s: Sizes, u: Sizes, hs: bool, hu: bool)
    requires only == (if hs then s else if hu then u else b)
    requires !hs ==> s == NoSizes
    requires !hu ==> u == NoSizes
    requires !(hs && hu)
    ensures only == Plus(Times(b, 1 - (if hs then 1 else 0) - (if hu then 1 else 0)), Plus(s, u))
  {
  }

  /** The sizes of `n >= 2` segments regrouped as the setup counts them. */
  lemma Arrange(b: Sizes, first: Sizes, last: Sizes, s: Sizes, e: Sizes, hs: bool, he: bool, n: int)
    requires first == (if hs then s else b) && last == (if he then e else b)
    requires !hs ==> s == NoSizes
    requires !he ==> e == NoSizes
    ensures Plus(Plus(first, Times(b, n - 2)), last)
              == Plus(Times(b, n - (if hs then 1 else 0) - (if he then 1 else 0)), Plus(s, e))
  {
    TimesStep(b, n - 2);
    TimesStep(b, n - 1);
  }

  lemma CapPair(x: MeshData, y: MeshData)
    ensures CapTotal([Some(x), Some(y)]) == Plus(SizesOf(x), SizesOf(y))
  {
    assert [Some(x), Some(y)][1..] == [Some(y)];
    assert [Some(y)][1..] == [];
    assert CapTotal([Some(y)]) == Plus(SizesOf(y), NoSizes);
    PlusZero(SizesOf(y));
  }

  /** Two or more segments: the first mesh, `n - 2` base meshes, the last mesh. */
  lemma SegmentsTotal(n: nat, base: Mesh, start: Option<Mesh>, end: Option<Mesh>)
    requires n >= 2
    ensures Total(Segments(n, base, start, end))
              == Plus(Plus(SizesOf(SegmentMesh(0, n, base, start, end)), Times(SizesOf(FromMesh(Some(base))), n - 2)),
                      SizesOf(SegmentMesh(n - 1, n, base, start, end)))
  {
    var first := SegmentMesh(0, n, base, start, end);
    var last := SegmentMesh(n - 1, n, base, start, end);
    var middle := seq(n - 2, _ => FromMesh(Some(base)));
    SegmentsShape(n, base, start, end);
    TotalAppend([first] + middle, [last]);
    TotalAppend([first], middle);
    TotalRepeat(FromMesh(Some(base)), n - 2);
    TotalSingle(first);
    TotalSingle(last);
  }

  /** Two or more segments are the first, copies of the base, and the last. */
  lemma SegmentsShape(n: nat, base: Mesh, start: Option<Mesh>, end: Option<Mesh>)
    requires n >= 2
    ensures Segments(n, base, start, end)
              == [SegmentMesh(0, n, base, start, end)] + seq(n - 2, _ => FromMesh(Some(base)))
                 + [SegmentMesh(n - 1, n, base, start, end)]
  {
  }

  lemma TotalSingle(m: MeshData)
    ensures Total([m]) == SizesOf(m)
  {
    assert [m][1..] == [];
    PlusZero(SizesOf(m));
  }

  /** With one segment and both caps the buffer as written is sized for
      the start cap plus the end cap minus one base mesh, but the single
      segment copies only the start cap: here 2 vertices for 4. */
  lemma OneSegmentTwoCapsMisfit(buffer: MeshData)
    ensures var base := Mesh(4, 4, 0, 0, [0, 1, 2]);
            var start := Some(Mesh(4, 4, 0, 0, [0, 1, 2]));
            var end := Some(Mesh(2, 2, 0, 0, []));
            && SetupMeshBuffersAsWritten(buffer, base, start, end, 1).Success?
            && SetupMeshBuffersAsWritten(buffer, base, start, end, 1).value.vertices == 2
            && Total(Segments(1, base, start, end)).vertices == 4
  {
    var base := Mesh(4, 4, 0, 0, [0, 1, 2]);
    var start := Some(Mesh(4, 4, 0, 0, [0, 1, 2]));
    var end := Some(Mesh(2, 2, 0, 0, []));
    OneSegment(base, start, end);
    CapPair(FromMesh(start), FromMesh(end));
    assert Required(FromMesh(Some(base)), -1, [Some(FromMesh(start)), Some(FromMesh(end))]) == Sizes(2, 2, 0, 0, 0);
  }

  // ------------------------------------------------------------ bending

  /** Room in the buffer, from its cursors, for one copy of `base`. */
  predicate Room(buffer: MeshData, base: MeshData) {
    && 0 <= buffer.vertexCursor && buffer.vertexCursor + base.vertices <= buffer.vertices
    && 0 <= buffer.triangleCursor && buffer.triangleCursor + |base.triangles| <= |buffer.triangles|
  }

  /** Every index of `ts` moved up by `d`. */
  function Offset(ts: seq<int>, d: int): (r: seq<int>)
    ensures |r| == |ts| && forall i :: 0 <= i < |ts| ==> r[i] == ts[i] + d
  {
    seq(|ts|, i requires 0 <= i < |ts| => ts[i] + d)
  }

  /** `BendMesh`, as far as the buffer's bookkeeping goes: one vertex
      written per base vertex, and the base triangles copied at the
      triangle cursor, offset by the vertex cursor on entry. */
  function BendMesh(buffer: MeshData, base: MeshData): (r: MeshData)
    requires Room(buffer, base)
    ensures SizesOf(r) == SizesOf(buffer)
    ensures r.hasNormals == buffer.hasNormals && r.hasTangents == buffer.hasTangents
    ensures r.vertexCursor == buffer.vertexCursor + base.vertices
    ensures r.triangleCursor == buffer.triangleCursor + |base.triangles|
    ensures forall i :: 0 <= i < |base.triangles| ==>
              r.triangles[buffer.triangleCursor + i] == base.triangles[i] + buffer.vertexCursor
    ensures forall j :: 0 <= j < |r.triangles| && !(buffer.triangleCursor <= j < r.triangleCursor) ==>
              r.triangles[j] == buffer.triangles[j]
  {
    var tc := buffer.triangleCursor;
    var copied := buffer.triangles[..tc] + Offset(base.triangles, buffer.vertexCursor)
                  + buffer.triangles[tc + |base.triangles|..];
    buffer.(vertexCursor := buffer.vertexCursor + base.vertices,
            triangleCursor := tc + |base.triangles|,
            triangles := copied)
  }

  /** Bending the meshes one after another. */
  function BendAll(buffer: MeshData, ms: seq<MeshData>): (r: MeshData)
    requires 0 <= buffer.vertexCursor && buffer.vertexCursor + Total(ms).vertices <= buffer.vertices
    requires 0 <= buffer.triangleCursor && buffer.triangleCursor + Total(ms).triangles <= |buffer.triangles|
    ensures SizesOf(r) == SizesOf(buffer)
    ensures r.vertexCursor == buffer.vertexCursor + Total(ms).vertices
    ensures r.triangleCursor == buffer.triangleCursor + Total(ms).triangles
    decreases |ms|
  {
    if ms == [] then buffer
    else BendAll(BendMesh(buffer, ms[0]), ms[1..])
  }

  /** The per-vertex arrays `BendMesh` indexes: for each base vertex it
      reads the base's uv coordinate (and normal and tangent, when the base
      has them) at the vertex's index and writes the buffer's at the vertex
      cursor. Where one of these arrays is too short the source throws
      `IndexOutOfRangeException`. */
  predicate VertexArraysFit(buffer: MeshData, base: MeshData) {
    base.vertices > 0 ==>
      && base.uvs >= base.vertices && buffer.uvs >= buffer.vertexCursor + base.vertices
      && (base.hasNormals ==> base.normals >= base.vertices && buffer.normals >= buffer.vertexCursor + base.vertices)
      && (base.hasTangents ==> base.tangents >= base.vertices && buffer.tangents >= buffer.vertexCursor + base.vertices)
  }

  /** Bending `ms` one after another indexes no per-vertex array out of
      range; each mesh starts where the previous one's vertices end. */
  predicate VertexArraysFitAll(buffer: MeshData, ms: seq<MeshData>)
    decreases |ms|
  {
    ms == [] ||
      (VertexArraysFit(buffer, ms[0])
       && VertexArraysFitAll(buffer.(vertexCursor := buffer.vertexCursor + ms[0].vertices), ms[1..]))
  }

  /** A mesh whose uv array matches its vertices and which has a full
      normal and tangent array exactly when `normals` and `tangents` say. */
  predicate Regular(m: MeshData, normals: bool, tangents: bool) {
    && m.uvs == m.vertices
    && m.normals == (if normals then m.vertices else 0) && (m.hasNormals ==> normals)
    && m.tangents == (if tangents then m.vertices else 0) && (m.hasTangents ==> tangents)
  }

  /** The sizes of regular meshes add up to regular sizes. */
  lemma {:induction false} RegularTotal(ms: seq<MeshData>, normals: bool, tangents: bool)
    requires forall k :: 0 <= k < |ms| ==> Regular(ms[k], normals, tangents)
    ensures Total(ms).uvs == Total(ms).vertices
    ensures Total(ms).normals == (if normals then Total(ms).vertices else 0)
    ensures Total(ms).tangents == (if tangents then Total(ms).vertices else 0)
    decreases |ms|
  {
    if ms != [] {
      assert forall k :: 0 <= k < |ms[1..]| ==> ms[1..][k] == ms[k + 1];
      RegularTotal(ms[1..], normals, tangents);
    }
  }

  /** Meshes that all have full uv arrays and agree on having normals and
      tangents fit a buffer with room for all of their vertices. */
  lemma {:induction false} RegularMeshesFit(buffer: MeshData, ms: seq<MeshData>, normals: bool, tangents: bool)
    requires forall k :: 0 <= k < |ms| ==> Regular(ms[k], normals, tangents)
    requires buffer.uvs >= buffer.vertexCursor + Total(ms).vertices
    requires normals ==> buffer.normals >= buffer.vertexCursor + Total(ms).vertices
    requires tangents ==> buffer.tangents >= buffer.vertexCursor + Total(ms).vertices
    ensures VertexArraysFitAll(buffer, ms)
    decreases |ms|
  {
    if ms != [] {
      var next := buffer.(vertexCursor := buffer.vertexCursor + ms[0].vertices);
      assert Total(ms).vertices == ms[0].vertices + Total(ms[1..]).vertices;
      assert forall k :: 0 <= k < |ms[1..]| ==> ms[1..][k] == ms[k + 1];
      RegularMeshesFit(next, ms[1..], normals, tangents);
    }
  }

  // ------------------------------------------------------------ parameters

  /** The spline parameters segment `i` of `segmentCount` spans, evenly
      splitting `[startParam, endParam]`. */
  function SegmentParams(startParam: real, endParam: real, segmentCount: int, i: int): (real, real)
    requires segmentCount > 0
  {
    var delta := endParam - startParam;
    (startParam + delta * i as real / segmentCount as real,
     startParam + delta * (i + 1) as real / segmentCount as real)
  }

  /** The segments partition the range: the first starts at `startParam`,
      each starts where the previous ends, the last ends at `endParam`,
      and on an ascending range none runs backwards. */
  lemma SegmentParamsPartition(startParam: real, endParam: real, segmentCount: int, i: int)
    requires segmentCount > 0
    ensures SegmentParams(startParam, endParam, segmentCount, 0).0 == startParam
    ensures SegmentParams(startParam, endParam, segmentCount, segmentCount - 1).1 == endParam
    ensures SegmentParams(startParam, endParam, segmentCount, i).1 == SegmentParams(startParam, endParam, segmentCount, i + 1).0
    ensures startParam <= endParam ==>
              SegmentParams(startParam, endParam, segmentCount, i).0 <= SegmentParams(startParam, endParam, segmentCount, i).1
  {
    PartitionEnds(startParam, endParam, segmentCount);
    SegmentStep(startParam, endParam, segmentCount, i);
    DivideNonNegative(endParam - startParam, segmentCount as real);
  }

  /** The first segment starts at `startParam` and the last ends at `endParam`. */
  lemma PartitionEnds(startParam: real, endParam: real, segmentCount: int)
    requires segmentCount > 0
    ensures SegmentParams(startParam, endParam, segmentCount, 0).0 == startParam
    ensures SegmentParams(startParam, endParam, segmentCount, segmentCount - 1).1 == endParam
  {
    var n := segmentCount as real;
    var delta := endParam - startParam;
    assert ((segmentCount - 1) + 1) as real == n;
    DivideBack(delta, n);
  }

  lemma DivideBack(x: real, n: real)
    requires n != 0.0
    ensures x * n / n == x && x * 0.0 / n == 0.0
  {
  }

  /** Each segment spans a `segmentCount`-th of the range. */
  lemma SegmentStep(startParam: real, endParam: real, segmentCount: int, i: int)
    requires segmentCount > 0
    ensures SegmentParams(startParam, endParam, segmentCount, i).1
            == SegmentParams(startParam, endParam, segmentCount, i).0 + (endParam - startParam) / segmentCount as real
  {
    var n := segmentCount as real;
    var delta := endParam - startParam;
    var u := delta * i as real;
    assert delta * (i + 1) as real == u + delta;
    DivideSum(u, delta, n);
  }

  lemma DivideSum(x: real, y: real, n: real)
    requires n != 0.0
    ensures (x + y) / n == x / n + y / n
  {
  }

  lemma DivideNonNegative(x: real, n: real)
    requires n > 0.0
    ensures x >= 0.0 ==> x / n >= 0.0
  {
  }

  /** `SplitMode`. */
  datatype SplitMode = DontSplit | BySplineSegment | BySplineParameter

  /** Indexing an empty segment array throws `IndexOutOfRangeException`. */
  datatype RangeError = NoSegment

  /** The parameter range the mesh covers. For `BySplineSegment` the
      segment index is clamped (and written back) first; the range is that
      segment's span, from the parameters of its start node. */
  function SplitRange(mode: SplitMode, segmentStart: real, segmentEnd: real, splineSegment: int,
                      segments: seq<NodeParameters>): (r: Result<(real, real, int), RangeError>)
    ensures mode == DontSplit ==> r == Success((0.0, 1.0, splineSegment))
    ensures mode == BySplineParameter ==> r == Success((segmentStart, segmentEnd, splineSegment))
    ensures mode == BySplineSegment ==> (r.Failure? <==> segments == [])
    ensures mode == BySplineSegment && r.Success? ==>
              var k := r.value.2;
              && 0 <= k < |segments|
              && (0 <= splineSegment < |segments| ==> k == splineSegment)
              && r.value.0 == segments[k].position && r.value.1 == segments[k].position + segments[k].length
  {
    match mode
    case DontSplit => Success((0.0, 1.0, splineSegment))
    case BySplineParameter => Success((segmentStart, segmentEnd, splineSegment))
    case BySplineSegment =>
      var k := Clamp(splineSegment, 0, |segments| - 1);
      if segments == [] then Failure(NoSegment)
      else Success((segments[k].position, segments[k].position + segments[k].length, k))
  }

  // ------------------------------------------------------------ update

  /** What `UpdateMesh` leaves: the cleared mesh, or the filled buffer
      with the parameter span of each segment, or, where the buffer the
      setup sized does not hold what the segments copy, those sizes, or,
      where a uv, normal or tangent array is indexed out of range while
      bending, the `IndexOutOfRangeException`. */
  datatype Outcome = Cleared | Built(buffer: MeshData, spans: seq<(real, real)>) | Misfit(sized: Sizes) | OutOfRange

  /** `UpdateMesh`: nothing beyond clearing without a base mesh, without a
      spline or without segments; otherwise size the buffer as
      `SetupMeshBuffers` is written and bend every segment's mesh into it,
      in order. A buffer sized for other meshes than the segments copy
      (one segment and both caps) stops the model with `Misfit`; a short
      per-vertex array stops it with `OutOfRange`. */
  function UpdateMesh(buffer: MeshData, base: Option<Mesh>, start: Option<Mesh>, end: Option<Mesh>,
                      hasSpline: bool, segmentCount: int, startParam: real, endParam: real): (r: Outcome)
    ensures r.Cleared? <==> base.None? || !hasSpline || segmentCount <= 0
    ensures !r.Cleared? && (segmentCount >= 2 || start.None? || end.None?) ==> r.Built? || r.OutOfRange?
    ensures r.Misfit? ==> r.sized != Total(Segments(segmentCount, base.value, start, end))
    ensures r.OutOfRange? || r.Built? ==>
              && SetupMeshBuffersAsWritten(buffer, base.value, start, end, segmentCount).Success?
              && (r.Built? <==> VertexArraysFitAll(SetupMeshBuffersAsWritten(buffer, base.value, start, end, segmentCount).value,
                                                   Segments(segmentCount, base.value, start, end)))
    ensures r.Built? ==> && SetupMeshBuffersAsWritten(buffer, base.value, start, end, segmentCount).Success?
                         && SizesOf(r.buffer) == SizesOf(SetupMeshBuffersAsWritten(buffer, base.value, start, end, segmentCount).value)
                         && SizesOf(r.buffer) == Total(Segments(segmentCount, base.value, start, end))
    ensures r.Built? ==> |r.spans| == segmentCount
    ensures r.Built? ==> r.spans[0].0 == startParam && r.spans[segmentCount - 1].1 == endParam
    ensures r.Built? ==> forall i :: 0 <= i < segmentCount - 1 ==> r.spans[i].1 == r.spans[i + 1].0
    ensures r.Built? ==> r.buffer.vertexCursor == r.buffer.vertices
    ensures r.Built? ==> r.buffer.triangleCursor == |r.buffer.triangles|
  {
    if base.None? || !hasSpline || segmentCount <= 0 then Cleared
    else
      var ms := Segments(segmentCount, base.value, start, end);
      var setup := SetupMeshBuffersAsWritten(buffer, base.value, start, end, segmentCount);
      AsWrittenFits(buffer, base.value, start, end, segmentCount);
      if setup.Failure? then
        Misfit(Required(FromMesh(Some(base.value)), MiddleSegmentCount(segmentCount, start.Some?, end.Some?),
                        [Some(FromMesh(start)), Some(FromMesh(end))]))
      else if SizesOf(setup.value) != Total(ms) then Misfit(SizesOf(setup.value))
      else if !VertexArraysFitAll(setup.value, ms) then OutOfRange
      else BuildSegments(setup.value, ms, startParam, endParam)
  }

  /** The as-written setup sizes the buffer for exactly the segments'
      meshes unless there is one segment and both caps; when it cannot
      allocate, what it asked for differs from what the segments need. */
  lemma AsWrittenFits(buffer: MeshData, base: Mesh, start: Option<Mesh>, end: Option<Mesh>, n: nat)
    requires n >= 1
    ensures var setup := SetupMeshBuffersAsWritten(buffer, base, start, end, n);
            && (n >= 2 || start.None? || end.None? ==> setup.Success? && SizesOf(setup.value) == Total(Segments(n, base, start, end)))
            && (setup.Failure? ==> Required(FromMesh(Some(base)), MiddleSegmentCount(n, start.Some?, end.Some?),
                                            [Some(FromMesh(start)), Some(FromMesh(end))]) != Total(Segments(n, base, start, end)))
  {
    BuffersFitSegments(n, base, start, end);
  }

  /** Bending the segments' meshes into a fresh buffer sized for them, and
      the parameter span of each. */
  function BuildSegments(sized: MeshData, ms: seq<MeshData>, startParam: real, endParam: real): (r: Outcome)
    requires |ms| > 0 && SizesOf(sized) == Total(ms) && sized.vertexCursor == 0 && sized.triangleCursor == 0
    ensures r.Built? && SizesOf(r.buffer) == SizesOf(sized) && |r.spans| == |ms|
    ensures r.spans[0].0 == startParam && r.spans[|ms| - 1].1 == endParam
    ensures forall i :: 0 <= i < |ms| - 1 ==> r.spans[i].1 == r.spans[i + 1].0
    ensures r.buffer.vertexCursor == r.buffer.vertices
    ensures r.buffer.triangleCursor == |r.buffer.triangles|
  {
    var n := |ms|;
    var spans := seq(n, i requires 0 <= i < n => SegmentParams(startParam, endParam, n, i));
    SpansChain(startParam, endParam, n);
    Built(BendAll(sized, ms), spans)
  }

  /** A buffer the as-written setup sizes for other meshes than the
      segments copy stops the update. */
  lemma MisfitWhenSizesDiffer(buffer: MeshData, base: Mesh, start: Option<Mesh>, end: Option<Mesh>,
                              n: int, startParam: real, endParam: real)
    requires n >= 1
    requires var setup := SetupMeshBuffersAsWritten(buffer, base, start, end, n);
             setup.Success? && SizesOf(setup.value) != Total(Segments(n, base, start, end))
    ensures UpdateMesh(buffer, Some(base), start, end, true, n, startParam, endParam).Misfit?
  {
  }

  /** The meshes of `OneSegmentTwoCapsMisfit` stop the update, whatever
      buffer it starts from. */
  lemma UpdateMeshMisfitsOneSegmentTwoCaps(buffer: MeshData, base: Mesh, start: Option<Mesh>, end: Option<Mesh>,
                                           startParam: real, endParam: real)
    requires base == Mesh(4, 4, 0, 0, [0, 1, 2])
    requires start == Some(Mesh(4, 4, 0, 0, [0, 1, 2])) && end == Some(Mesh(2, 2, 0, 0, []))
    ensures UpdateMesh(buffer, Some(base), start, end, true, 1, startParam, endParam).Misfit?
  {
    OneSegmentTwoCapsMisfit(buffer);
    MisfitWhenSizesDiffer(buffer, base, start, end, 1, startParam, endParam);
  }

  /** Base and cap meshes with full uv arrays that agree on having
      normals and tangents are bent without an index out of range: the
      update builds whenever the setup sizes the buffer for the segments. */
  lemma UpdateMeshBuildsRegular(buffer: MeshData, base: Mesh, start: Option<Mesh>, end: Option<Mesh>,
                                n: nat, startParam: real, endParam: real, normals: bool, tangents: bool)
    requires n >= 2 || start.None? || end.None?
    requires n >= 1
    requires Regular(FromMesh(Some(base)), normals, tangents)
    requires start.Some? ==> Regular(FromMesh(start), normals, tangents)
    requires end.Some? ==> Regular(FromMesh(end), normals, tangents)
    ensures UpdateMesh(buffer, Some(base), start, end, true, n, startParam, endParam).Built?
  {
    var ms := Segments(n, base, start, end);
    AsWrittenFits(buffer, base, start, end, n);
    var sized := SetupMeshBuffersAsWritten(buffer, base, start, end, n).value;
    assert forall k :: 0 <= k < |ms| ==> Regular(ms[k], normals, tangents);
    RegularTotal(ms, normals, tangents);
    RegularMeshesFit(sized, ms, normals, tangents);
  }

  /** A base mesh without normals and an end cap with them: the buffer has
      normals for the cap's vertices only, but the cap's are written after
      the base's vertices, past the end of the normal array. */
  lemma MixedNormalsOutOfRange(buffer: MeshData, startParam: real, endParam: real)
    ensures UpdateMesh(buffer, Some(Mesh(4, 4, 0, 0, [0, 1, 2])), None, Some(Mesh(4, 4, 4, 0, [0, 1, 2])),
                       true, 2, startParam, endParam).OutOfRange?
  {
    var base := Mesh(4, 4, 0, 0, [0, 1, 2]);
    var end := Some(Mesh(4, 4, 4, 0, [0, 1, 2]));
    var ms := Segments(2, base, None, end);
    AsWrittenFits(buffer, base, None, end, 2);
    var sized := SetupMeshBuffersAsWritten(buffer, base, None, end, 2).value;
    assert ms[0] == FromMesh(Some(base)) && ms[1] == FromMesh(end);
    assert Total(ms) == Sizes(8, 8, 4, 0, 6) by {
      assert ms[1..][1..] == [];
      assert Total(ms[1..]) == SizesOf(ms[1]) by { PlusZero(SizesOf(ms[1])); }
    }
    assert sized.vertexCursor == 0 && sized.normals == 4;
    assert !VertexArraysFit(sized.(vertexCursor := 4), ms[1..][0]);
    assert !VertexArraysFitAll(sized.(vertexCursor := 4), ms[1..]);
    assert !VertexArraysFitAll(sized, ms);
  }

  lemma SpansChain(startParam: real, endParam: real, n: int)
    requires n > 0
    ensures SegmentParams(startParam, endParam, n, 0).0 == startParam
    ensures SegmentParams(startParam, endParam, n, n - 1).1 == endParam
    ensures forall i :: 0 <= i < n - 1 ==> SegmentParams(startParam, endParam, n, i).1 == SegmentParams(startParam, endParam, n, i + 1).0
  {
    SegmentParamsPartition(startParam, endParam, n, 0);
    forall i | 0 <= i < n - 1
      ensures SegmentParams(startParam, endParam, n, i).1 == SegmentParams(startParam, endParam, n, i + 1).0
    {
      SegmentParamsPartition(startParam, endParam, n, i);
    }
  }
}

=== FILE: spline_node.dfy ===
/** Control nodes of the editor spline and the per-spline parameters each
    node keeps (its normalised position on a spline and the normalised
    distance to the next node). */
module SplineNodes {
  import opened Common

  /** Identity of a `Spline` component, the key of a node's parameter register. */
  type SplineRef = int

  /** A control node: the transform's position and rotation plus the
      node's serialised custom value, tension and normal. */
  datatype SplineNode = SplineNode(id: int, position: Vec3, rotation: Quat, customValue: real, tension: real, normal: Vec3)

  const Up: Vec3 := Vec3(0.0, 1.0, 0.0)

  /** A node as the component starts out: custom value 0, tension 1, normal up. */
  function NewNode(id: int, position: Vec3, rotation: Quat): (n: SplineNode)
    ensures n.id == id && n.position == position && n.rotation == rotation
    ensures n.customValue == 0.0 && n.tension == 1.0 && n.normal == Up
  {
    SplineNode(id, position, rotation, 0.0, 1.0, Up)
  }

  /** `transform.forward`: the engine's rotation of the unit z axis by the
      node's rotation. */
  function Forward(q: Quat): Vec3 {
    Vec3(2.0 * (q.x * q.z + q.w * q.y), 2.0 * (q.y * q.z - q.w * q.x), 1.0 - 2.0 * (q.x * q.x + q.y * q.y))
  }

  /** `NodeParameters`: the owning spline, the normalised position on it and
      the normalised length of the segment that starts at the node. */
  datatype NodeParameters = NodeParameters(spline: SplineRef, position: real, length: real)

  /** `NodeParameters.Reset`: position and length back to 0. */
  function Reset(p: NodeParameters): (r: NodeParameters)
    ensures r.spline == p.spline
    ensures r.position == 0.0 && r.length == 0.0
  {
    p.(position := 0.0, length := 0.0)
  }

  /** `NodeParameterRegister`, a dictionary keyed by spline. */
  type Register = map<SplineRef, NodeParameters>

  datatype RegisterError = ArgumentNull

  /** The register's indexer. A spline without an entry gets a fresh one at
      position 0 with length 0 before it is returned; a null spline is
      rejected by the dictionary. The result carries the (possibly grown)
      register. */
  function Lookup(reg: Register, spline: Option<SplineRef>): (r: Result<(NodeParameters, Register), RegisterError>)
    ensures r.Failure? <==> spline.None?
    ensures r.Success? ==> spline.value in r.value.1 && r.value.0 == r.value.1[spline.value]
    ensures r.Success? ==> r.value.1.Keys == reg.Keys + {spline.value}
    ensures r.Success? ==> forall s :: s in reg ==> r.value.1[s] == reg[s]
    ensures r.Success? && spline.value !in reg ==> r.value.0 == NodeParameters(spline.value, 0.0, 0.0)
  {
    match spline
    case None => Failure(ArgumentNull)
    case Some(s) =>
      var reg' := if s in reg then reg else reg[s := NodeParameters(s, 0.0, 0.0)];
      Success((reg'[s], reg'))
  }

  /** Looking a spline up twice is the same as looking it up once: the
      second lookup neither changes the register nor returns anything new. */
  lemma LookupIdempotent(reg: Register, s: SplineRef)
    ensures Lookup(reg, Some(s)).Success?
    ensures var (p, reg') := Lookup(reg, Some(s)).value;
            Lookup(reg', Some(s)) == Success((p, reg'))
  {
  }

  /** A spline already registered reads its own parameters and leaves the
      register as it was; a new one reads zeros, and the register grows by
      exactly that entry. */
  lemma LookupReadsOrRegisters(reg: Register, s: SplineRef)
    ensures s in reg ==> Lookup(reg, Some(s)) == Success((reg[s], reg))
    ensures s !in reg ==> Lookup(reg, Some(s)) == Success((NodeParameters(s, 0.0, 0.0), reg[s := NodeParameters(s, 0.0, 0.0)]))
  {
  }
}

=== FILE: spline_queries.dfy ===
/** The public getters of the editor `Spline`: every one first maps the
    normalised parameter through `RecalculateParameter` and then asks the
    interpolator about the segment it lands on; without nodes each returns
    its neutral value. Also the conversions between normalised parameters
    and distances. A vector, value or rotation with NaN components (what an
    unmeasurable spline yields inside (0, 1]) is `None`. */
module SplineQueries {
  import opened Common
  import opened SplineNodes
  import opened SplineTopology
  import I = Interpolator
  import QU = QuaternionUtils
  import SL = SplineLength
  import opened EditorSpline

  /** What the getters need from the engine: vector lengths (square
      roots), the trigonometry of the SQUAD intermediates,
      `GetNormalInternal` (which reads the node transforms) at a segment
      parameter, and `Quaternion.LookRotation`. */
  datatype Env = Env(norm: NormFn, trig: QU.Trig,
                     normalAt: (int, real) -> Vec3, lookRotation: (Vec3, Vec3) -> Quat)

  /** The parameters at which a spline with nodes answers NaN. */
  predicate Unmeasured(sp: Spline, param: real) {
    sp.internal != [] && 0.0 < param <= 1.0 && sp.lengthData.Unmeasurable?
  }

  /** `InterpolateVector(this, t, index, AutoClose, nodes, order)` at the
      segment parameter of `param`: order 0 is `GetPositionInternal`, 1
      `GetTangentInternal`, 2 `GetCurvatureInternal`. */
  function VectorOnSpline(sp: Spline, env: Env, param: real, order: int): (r: Option<Vec3>)
    requires Inv(sp)
    ensures sp.internal == [] ==> r == Some(Zero)
    ensures r.None? <==> Unmeasured(sp, param)
  {
    if sp.internal == [] then Some(Zero)
    else
      var s := RecalculateParameter(sp, param);
      match s.t
      case NaN => None
      case Num(t) => Some(I.InterpolateNodePositions(sp.interp, sp.settings, t, s.index, IsAutoClose(sp.autoClose, sp.mode),
                                                     sp.internal, order, env.norm))
  }

  /** `GetPositionOnSpline`. */
  function GetPosition(sp: Spline, env: Env, param: real): (r: Option<Vec3>)
    requires Inv(sp)
    ensures sp.internal == [] ==> r == Some(Zero)
    ensures r.None? <==> Unmeasured(sp, param)
  {
    VectorOnSpline(sp, env, param, 0)
  }

  /** `GetTangentToSpline`. */
  function GetTangent(sp: Spline, env: Env, param: real): (r: Option<Vec3>)
    requires Inv(sp)
    ensures sp.internal == [] ==> r == Some(Zero)
    ensures r.None? <==> Unmeasured(sp, param)
  {
    VectorOnSpline(sp, env, param, 1)
  }

  /** `GetCurvatureOfSpline`. */
  function GetCurvature(sp: Spline, env: Env, param: real): (r: Option<Vec3>)
    requires Inv(sp)
    ensures sp.internal == [] ==> r == Some(Zero)
    ensures r.None? <==> Unmeasured(sp, param)
  {
    VectorOnSpline(sp, env, param, 2)
  }

  /** `GetNormalToSpline`: the spline's own normal, normalised, unless a
      per-node normal mode is selected. */
  function GetNormal(sp: Spline, env: Env, param: real): (r: Option<Vec3>)
    requires Inv(sp)
    ensures sp.internal == [] ==> r == Some(Zero)
    ensures sp.internal != [] && sp.normalMode == UseGlobalSplineNormal ==> r == Some(I.Normalize3(sp.normal, env.norm))
    ensures r.None? <==> Unmeasured(sp, param) && sp.normalMode != UseGlobalSplineNormal
  {
    if sp.internal == [] then Some(Zero)
    else if sp.normalMode != UseGlobalSplineNormal then
      var s := RecalculateParameter(sp, param);
      match s.t
      case NaN => None
      case Num(t) => Some(env.normalAt(s.index, t))
    else Some(I.Normalize3(sp.normal, env.norm))
  }

  /** `GetCustomValueOnSpline`. */
  function GetCustomValue(sp: Spline, env: Env, param: real): (r: Option<real>)
    requires Inv(sp)
    ensures sp.internal == [] ==> r == Some(0.0)
    ensures r.None? <==> Unmeasured(sp, param)
  {
    if sp.internal == [] then Some(0.0)
    else
      var s := RecalculateParameter(sp, param);
      match s.t
      case NaN => None
      case Num(t) => Some(I.InterpolateNodeValues(sp.interp, sp.settings, t, s.index, IsAutoClose(sp.autoClose, sp.mode),
                                                  sp.internal, 0))
  }

  /** `GetOrientationOnSpline`. `Tangent` looks along the tangent with the
      normal as up vector (identity when either vanishes); `Node`
      interpolates the node rotations; anything else is the identity. A
      rotation blend that cancels out normalises to NaN, as does a NaN
      parameter. */
  function GetOrientation(sp: Spline, env: Env, param: real): (r: Option<Quat>)
    requires Inv(sp)
    ensures sp.internal == [] || sp.rotationMode == NoRotation ==> r == Some(Identity)
    ensures Unmeasured(sp, param) && sp.rotationMode != NoRotation ==> r.None?
    ensures sp.rotationMode == Tangent && r.None? ==> Unmeasured(sp, param)
    ensures sp.rotationMode == Tangent && !Unmeasured(sp, param) && GetTangent(sp, env, param) == Some(Zero) ==> r == Some(Identity)
  {
    if sp.internal == [] then Some(Identity)
    else
      match sp.rotationMode
      case Tangent =>
        var s := RecalculateParameter(sp, param);
        (match s.t
         case NaN => None
         case Num(t) =>
           var tangent := I.InterpolateNodePositions(sp.interp, sp.settings, t, s.index, IsAutoClose(sp.autoClose, sp.mode),
                                                     sp.internal, 1, env.norm);
           var normal := env.normalAt(s.index, t);
           if SqrMagnitude(tangent) == 0.0 || SqrMagnitude(normal) == 0.0 then Some(Identity)
           else Some(env.lookRotation(tangent, normal)))
      case Node =>
        var s := RecalculateParameter(sp, param);
        (match s.t
         case NaN => None
         case Num(t) => I.InterpolateNodeRotations(sp.interp, t, s.index, IsAutoClose(sp.autoClose, sp.mode), sp.internal,
                                                   0, env.trig))
      case NoRotation => Some(Identity)
  }

  // ------------------------------------------------------------ endpoints

  /** The modes whose curve passes through its first and last node. */
  predicate Interpolating(sp: Spline) {
    sp.mode in {Hermite, Bezier, Linear} && sp.interp == BuiltIn(sp.mode)
  }

  /** A Hermite, Bézier or linear spline with its built-in interpolator
      starts at its first node: every parameter up to 0 gives the first
      node's position. */
  lemma StartsAtFirstNode(sp: Spline, env: Env, param: real)
    requires Inv(sp) && sp.internal != [] && Interpolating(sp) && param <= 0.0
    ensures GetPosition(sp, env, param) == Some(sp.internal[0].position)
  {
    assert RecalculateParameter(sp, param) == SegParam(0, Num(0.0));
    FirstSegmentStart(sp, env.norm);
  }

  /** The first segment at 0 is the first node. */
  lemma FirstSegmentStart(sp: Spline, norm: NormFn)
    requires Inv(sp) && sp.internal != [] && Interpolating(sp)
    ensures I.InterpolateNodePositions(sp.interp, sp.settings, 0.0, 0, IsAutoClose(sp.autoClose, sp.mode),
                                       sp.internal, 0, norm) == sp.internal[0].position
  {
    var closed := IsAutoClose(sp.autoClose, sp.mode);
    var (n0, n1, n2, n3) := I.NodeData(sp.interp, sp.internal, 0, closed);
    assert n0 == sp.internal[0];
    if sp.mode == Hermite {
      I.HermiteSegmentEnds(sp.settings, 0, closed, sp.internal, norm);
    } else if sp.mode == Bezier {
      I.BezierNodeEnds(sp.settings, 0, closed, sp.internal, norm);
    } else {
      I.LinearNodeEnds(sp.settings, 0, closed, sp.internal, norm);
    }
  }

  /** ... and ends at its last node, or back at the first when closed:
      every parameter beyond 1 gives that node's position. */
  lemma EndsAtLastNode(sp: Spline, env: Env, param: real)
    requires Inv(sp) && sp.internal != [] && Interpolating(sp) && param > 1.0
    ensures var n := |sp.internal|;
            GetPosition(sp, env, param) == Some(sp.internal[if IsAutoClose(sp.autoClose, sp.mode) then 0 else n - 1].position)
  {
    assert RecalculateParameter(sp, param) == SegParam(MaxIndex(sp), Num(1.0));
    LastSegmentEndPosition(sp, env.norm);
  }

  /** The last segment at 1 is the last node, or the first when closed. */
  lemma LastSegmentEndPosition(sp: Spline, norm: NormFn)
    requires Inv(sp) && sp.internal != [] && Interpolating(sp)
    ensures EndsOnLastNode(sp, norm)
  {
    if sp.mode == Bezier {
      LastBezierEnd(sp, norm);
    } else if sp.mode == Hermite {
      LastHermiteEnd(sp, norm);
    } else {
      LastLinearEnd(sp, norm);
    }
  }

  /** The last segment, evaluated at 1, is on the last node (the first
      when closed). */
  predicate EndsOnLastNode(sp: Spline, norm: NormFn)
    requires Inv(sp) && sp.internal != [] && Interpolating(sp)
  {
    var n := |sp.internal|;
    var closed := IsAutoClose(sp.autoClose, sp.mode);
    I.InterpolateNodePositions(sp.interp, sp.settings, 1.0, MaxIndex(sp), closed, sp.internal, 0, norm)
      == sp.internal[if closed then 0 else n - 1].position
  }

  lemma LastBezierEnd(sp: Spline, norm: NormFn)
    requires Inv(sp) && sp.internal != [] && Interpolating(sp) && sp.mode == Bezier
    ensures EndsOnLastNode(sp, norm)
  {
    var n := |sp.internal|;
    var closed := IsAutoClose(sp.autoClose, sp.mode);
    var index := MaxIndex(sp);
    var (n0, n1, n2, n3) := I.NodeData(sp.interp, sp.internal, index, closed);
    assert index == n - 4;
    assert n3 == sp.internal[n - 1];
    I.BezierNodeEnds(sp.settings, index, closed, sp.internal, norm);
  }

  lemma LastHermiteEnd(sp: Spline, norm: NormFn)
    requires Inv(sp) && sp.internal != [] && Interpolating(sp) && sp.mode == Hermite
    ensures EndsOnLastNode(sp, norm)
  {
    var n := |sp.internal|;
    var closed := IsAutoClose(sp.autoClose, sp.mode);
    var index := MaxIndex(sp);
    var (n0, n1, n2, n3) := I.NodeData(sp.interp, sp.internal, index, closed);
    LastSegmentEnd(n, closed);
    assert n1 == sp.internal[if closed then 0 else n - 1];
    I.HermiteSegmentEnds(sp.settings, index, closed, sp.internal, norm);
  }

  lemma LastLinearEnd(sp: Spline, norm: NormFn)
    requires Inv(sp) && sp.internal != [] && Interpolating(sp) && sp.mode == Linear
    ensures EndsOnLastNode(sp, norm)
  {
    var n := |sp.internal|;
    var closed := IsAutoClose(sp.autoClose, sp.mode);
    var index := MaxIndex(sp);
    var (n0, n1, n2, n3) := I.NodeData(sp.interp, sp.internal, index, closed);
    LastSegmentEnd(n, closed);
    assert n1 == sp.internal[if closed then 0 else n - 1];
    I.LinearNodeEnds(sp.settings, index, closed, sp.internal, norm);
  }

  /** With one node per segment the last segment starts at the
      second-to-last control node and ends on the last one, the first node
      again when closed. */
  lemma LastSegmentEnd(n: nat, closed: bool)
    requires n >= 2
    ensures var index := (if closed then n + 1 else n) - 2;
            I.GetNodeIndex(closed, n, index, 1) == if closed then 0 else n - 1
  {
    if closed {
      I.ModUnique(n, n, 1, 0);
    }
  }

  // ------------------------------------------------------------ distances

  /** `Length`: the total of the last measurement, 0 before any and when
      every sub-segment measured 0. */
  function Length(sp: Spline): real {
    match sp.lengthData
    case Measured(_, _, length) => length
    case _ => 0.0
  }

  /** `ConvertNormalizedParameterToDistance`. */
  function ToDistance(sp: Spline, param: real): real {
    Length(sp) * param
  }

  /** `ConvertDistanceToNormalizedParameter`: 0 on a spline without length. */
  function FromDistance(sp: Spline, distance: real): (r: real)
    ensures Length(sp) <= 0.0 ==> r == 0.0
    ensures Length(sp) > 0.0 ==> r * Length(sp) == distance
  {
    if Length(sp) <= 0.0 then 0.0 else distance / Length(sp)
  }

  /** On a spline of positive length the two conversions are inverse to
      each other, both ways round. */
  lemma DistanceRoundTrip(sp: Spline, param: real, distance: real)
    requires Length(sp) > 0.0
    ensures FromDistance(sp, ToDistance(sp, param)) == param
    ensures ToDistance(sp, FromDistance(sp, distance)) == distance
  {
    var l := Length(sp);
    var p := FromDistance(sp, l * param);
    assert p * l == l * param;
    assert (p - param) * l == 0.0;
  }
}

=== FILE: spline_segment.dfy ===
/** `SplineSegment`: a pair of control nodes of a spline and the
    conversions between a parameter on the segment and one on the whole
    spline. Everything is read off the parameters the start node keeps for
    the parent spline: where the segment starts (`PosInSpline`) and how
    long it is (`Length`), both normalised. */
module SplineSegments {
  import opened Common
  import opened SplineNodes

  datatype Segment = Segment(parent: SplineRef, start: SplineNode, end: SplineNode)

  /** The `ArgumentNullException` of the constructor. */
  datatype SegmentError = ParentNull

  /** The constructor: a null parent is refused, anything else is stored as given. */
  function NewSegment(parent: Option<SplineRef>, start: SplineNode, end: SplineNode): (r: Result<Segment, SegmentError>)
    ensures r.Failure? <==> parent.None?
    ensures r.Success? ==> r.value.parent == parent.value && r.value.start == start && r.value.end == end
  {
    match parent
    case None => Failure(ParentNull)
    case Some(s) => Success(Segment(s, start, end))
  }

  /** `ConvertSegmentToSplineParamter`: the start's position plus the
      parameter's share of the segment's length. */
  function ToSpline(p: NodeParameters, param: real): real {
    p.position + param * p.length
  }

  /** `ConvertSplineToSegmentParamter`: 0 before the segment, 1 after it,
      the relative offset inside. On a segment of length 0 the parameter at
      its start gives `0 / 0`, NaN. */
  function ToSegment(p: NodeParameters, param: real): (r: Number)
    ensures param < p.position ==> r == Num(0.0)
    ensures param >= p.position && param > p.position + p.length ==> r == Num(1.0)
    ensures r.NaN? <==> p.length == 0.0 && param == p.position
    ensures p.length > 0.0 ==> r.Num? && 0.0 <= r.value <= 1.0
  {
    if param < p.position then Num(0.0)
    else if param > p.position + p.length then Num(1.0)
    else if p.length == 0.0 then NaN
    else Num(Fraction(param - p.position, p.length))
  }

  /** The offset `d` into a length `l` that holds it, as a fraction of `l`. */
  function Fraction(d: real, l: real): (f: real)
    requires 0.0 <= d <= l && l > 0.0
    ensures 0.0 <= f <= 1.0 && f * l == d
  {
    var f := d / l;
    assert f * l == d;
    ScaledSign(f, l);
    f
  }

  /** Segment to spline and back is the identity on a segment of positive
      length, and so is spline to segment and back for parameters on it. */
  lemma ConversionRoundTrip(p: NodeParameters, s: real, param: real)
    requires p.length > 0.0
    ensures 0.0 <= s <= 1.0 ==> ToSegment(p, ToSpline(p, s)) == Num(s)
    ensures p.position <= param <= p.position + p.length ==> ToSpline(p, ToSegment(p, param).value) == param
  {
    if 0.0 <= s <= 1.0 {
      SegmentRoundTrip(p, s);
    }
    if p.position <= param <= p.position + p.length {
      SplineRoundTrip(p, param);
    }
  }

  lemma SegmentRoundTrip(p: NodeParameters, s: real)
    requires p.length > 0.0 && 0.0 <= s <= 1.0
    ensures ToSegment(p, ToSpline(p, s)) == Num(s)
  {
    var d := s * p.length;
    ScaledSign(s, p.length);
    assert d <= p.length by {
      assert (1.0 - s) * p.length >= 0.0;
    }
    FractionUnique(d, p.length, s);
    assert ToSpline(p, s) - p.position == d;
  }

  lemma SplineRoundTrip(p: NodeParameters, param: real)
    requires p.length > 0.0 && p.position <= param <= p.position + p.length
    ensures ToSpline(p, ToSegment(p, param).value) == param
  {
    var f := Fraction(param - p.position, p.length);
    assert ToSegment(p, param) == Num(f);
  }

  /** The fraction of `l` that `s` of it makes is `s`. */
  lemma FractionUnique(d: real, l: real, s: real)
    requires 0.0 <= d <= l && l > 0.0 && d == s * l
    ensures Fraction(d, l) == s
  {
    CancelFactor(Fraction(d, l), s, l);
  }

  /** `ClampParameterToSegment`. */
  function Clamp(p: NodeParameters, param: real): (r: real)
    ensures p.length >= 0.0 ==> p.position <= r <= p.position + p.length
    ensures p.position <= param <= p.position + p.length ==> r == param
  {
    if param < p.position then p.position
    else if param > p.position + p.length then p.position + p.length
    else param
  }

  /** Clamping twice is clamping once. */
  lemma ClampIdempotent(p: NodeParameters, param: real)
    requires p.length >= 0.0
    ensures Clamp(p, Clamp(p, param)) == Clamp(p, param)
  {
  }

  /** `IsParameterInRange`, with `Mathf.Approximately` read as equality. */
  function InRange(p: NodeParameters, param: real): bool {
    if param == p.position || param == p.position + p.length then true
    else !(param < p.position) && !(param > p.position + p.length)
  }

  /** Whatever the clamp returns is in range, whatever the segment's
      length; on a segment of non-negative length the range is exactly the
      interval from its start to its end. */
  lemma ClampInRange(p: NodeParameters, param: real)
    ensures InRange(p, Clamp(p, param))
    ensures p.length >= 0.0 ==> (InRange(p, param) <==> p.position <= param <= p.position + p.length)
  {
  }

  /** `Length`: the normalised length times the parent spline's length. */
  function Length(p: NodeParameters, splineLength: real): (r: real)
    ensures p.length >= 0.0 && splineLength >= 0.0 ==> r >= 0.0
    ensures splineLength > 0.0 ==> r / splineLength == p.length
  {
    p.length * splineLength
  }

  // ------------------------------------------------------------ lookup

  /** `Spline.GetSplineSegment`: the first segment whose range holds the
      parameter clamped to [0, 1], given the parameters of each segment's
      start node; `None` for null. */
  function GetSplineSegment(starts: seq<NodeParameters>, param: real): (r: Option<nat>)
    ensures r.Some? ==> r.value < |starts| && InRange(starts[r.value], Clamp01(param))
    ensures r.Some? ==> forall j :: 0 <= j < r.value ==> !InRange(starts[j], Clamp01(param))
    ensures r.None? ==> forall j :: 0 <= j < |starts| ==> !InRange(starts[j], Clamp01(param))
  {
    FirstInRange(starts, Clamp01(param), 0)
  }

  function FirstInRange(starts: seq<NodeParameters>, x: real, k: nat): (r: Option<nat>)
    requires k <= |starts|
    requires forall j :: 0 <= j < k ==> !InRange(starts[j], x)
    ensures r.Some? ==> k <= r.value < |starts| && InRange(starts[r.value], x)
    ensures r.Some? ==> forall j :: 0 <= j < r.value ==> !InRange(starts[j], x)
    ensures r.None? ==> forall j :: 0 <= j < |starts| ==> !InRange(starts[j], x)
    decreases |starts| - k
  {
    if k == |starts| then None
    else if InRange(starts[k], x) then Some(k)
    else FirstInRange(starts, x, k + 1)
  }

  /** Segments that tile [0, 1]: the first starts at 0, each starts where
      the previous one ends, none is negative, and the last ends at 1. */
  predicate Tiles(starts: seq<NodeParameters>) {
    && |starts| > 0
    && starts[0].position == 0.0
    && (forall j :: 0 <= j < |starts| ==> starts[j].length >= 0.0)
    && (forall j :: 0 <= j < |starts| - 1 ==> starts[j + 1].position == starts[j].position + starts[j].length)
    && starts[|starts| - 1].position + starts[|starts| - 1].length == 1.0
  }

  /** On segments that tile [0, 1] the lookup always finds a segment. */
  lemma TilesAlwaysFound(starts: seq<NodeParameters>, param: real)
    requires Tiles(starts)
    ensures GetSplineSegment(starts, param).Some?
  {
    var x := Clamp01(param);
    var i := Covering(starts, x, |starts| - 1);
    ClampInRange(starts[i], x);
  }

  /** A point of [0, 1] up to the end of segment `k` lies in one of the
      first `k + 1` segments. */
  lemma {:induction false} Covering(starts: seq<NodeParameters>, x: real, k: nat) returns (i: nat)
    requires Tiles(starts) && k < |starts|
    requires 0.0 <= x <= starts[k].position + starts[k].length
    ensures i <= k && starts[i].position <= x <= starts[i].position + starts[i].length
  {
    if x >= starts[k].position || k == 0 {
      i := k;
    } else {
      i := Covering(starts, x, k - 1);
    }
  }
}

=== FILE: spline_topology.dfy ===
/** How the editor `Spline` counts its nodes and segments: Bézier splines
    use three nodes per segment and cannot be closed, every other mode uses
    one node per segment and a closed spline reuses its first node as an
    extra control node at the end. */
module SplineTopology {
  import opened Common

  /** `Spline.InterpolationMode`. */
  datatype InterpolationMode = Hermite | Bezier | BSpline | Linear | CustomMatrix

  /** The `AutoClose` property: the field, except that a Bézier spline is never closed. */
  function IsAutoClose(autoClose: bool, mode: InterpolationMode): (r: bool)
    ensures r <==> autoClose && mode != Bezier
  {
    autoClose && mode != Bezier
  }

  /** `NodesPerSegment`. */
  function NodesPerSegment(mode: InterpolationMode): (r: nat)
    ensures mode == Bezier ==> r == 3
    ensures mode != Bezier ==> r == 1
  {
    if mode == Bezier then 3 else 1
  }

  /** `ControlNodeCount`: the internal nodes, plus the first one again when closed. */
  function ControlNodeCount(count: nat, autoClose: bool, mode: InterpolationMode): (r: nat)
    ensures r == count + (if IsAutoClose(autoClose, mode) then 1 else 0)
  {
    if IsAutoClose(autoClose, mode) then count + 1 else count
  }

  /** `SegmentCount`: `Max((ControlNodeCount - 1) / NodesPerSegment, 0)`,
      with C#'s truncating division. */
  function SegmentCount(count: nat, autoClose: bool, mode: InterpolationMode): nat {
    var q := CsDiv(ControlNodeCount(count, autoClose, mode) - 1, NodesPerSegment(mode));
    if q > 0 then q else 0
  }

  /** `MaxNodeIndex()`: `ControlNodeCount - NodesPerSegment - 1`. */
  function MaxNodeIndex(count: nat, autoClose: bool, mode: InterpolationMode): int {
    ControlNodeCount(count, autoClose, mode) - NodesPerSegment(mode) - 1
  }

  /** `GetRelevantNodeCount`: every mode but Bézier uses all nodes; Bézier
      drops the surplus that does not complete a segment of three. */
  function GetRelevantNodeCount(mode: InterpolationMode, n: nat): (r: nat)
    ensures mode != Bezier ==> r == n
    ensures mode == Bezier ==> r <= n && (r == 0 || r % 3 == 1)
    ensures mode == Bezier && n < 4 ==> r == 0
    ensures mode == Bezier && n >= 4 ==> 4 <= r && n - 2 <= r
  {
    if mode == Bezier then
      if n < 7 then n - n % 4 else n - (n - 4) % 3
    else n
  }

  /** `EnoughNodes`: four for a Bézier spline, two otherwise. */
  predicate EnoughNodes(mode: InterpolationMode, n: int) {
    if mode == Bezier then !(n < 4) else !(n < 2)
  }

  /** The Bézier count is the largest count of the form `3k + 1`, with at
      least one segment, that does not exceed the nodes at hand. */
  lemma RelevantIsLargestBezierCount(n: nat, m: nat)
    requires 4 <= m <= n && m % 3 == 1
    ensures m <= GetRelevantNodeCount(Bezier, n)
  {
    var r := GetRelevantNodeCount(Bezier, n);
    assert m == 3 * (m / 3) + 1 && r == 3 * (r / 3) + 1;
    assert m - r == 3 * (m / 3 - r / 3);
  }

  /** A spline with a usable node count is covered exactly by its segments:
      the last segment ends on the last control node and starts at
      `MaxNodeIndex`. */
  lemma SegmentsCoverControlNodes(count: nat, autoClose: bool, mode: InterpolationMode)
    requires EnoughNodes(mode, count)
    requires mode == Bezier ==> count % 3 == 1
    ensures var s, k := SegmentCount(count, autoClose, mode), NodesPerSegment(mode);
            && s >= 1
            && s * k == ControlNodeCount(count, autoClose, mode) - 1
            && MaxNodeIndex(count, autoClose, mode) == (s - 1) * k
  {
    var c := ControlNodeCount(count, autoClose, mode);
    if mode == Bezier {
      assert c == count && count - 1 == 3 * ((count - 1) / 3);
      assert CsDiv(c - 1, 3) == (count - 1) / 3;
    } else {
      assert CsDiv(c - 1, 1) == c - 1;
    }
  }

  /** Open or closed, a non-Bézier spline has one segment per node when
      closed and one fewer when open. */
  lemma SegmentCountOfNodes(count: nat, autoClose: bool, mode: InterpolationMode)
    requires mode != Bezier && count > 0
    ensures SegmentCount(count, autoClose, mode) == if autoClose then count else count - 1
  {
  }
}
